=== FILE: README.md ===
# ClaudeMemories worker core, in Dafny

This project models the core of ClaudeMemories, a single-user chat backend that runs as a Cloudflare Worker. The worker uses four stores:

- a D1 database for conversations, messages, attachments, tags, annotations and wiki pages;
- full-text (FTS) tables;
- two R2 buckets, for blobs, snapshots, exports and backups;
- a KV namespace for model tracking.

Every handler is modelled as a pure function over an immutable store (`Store.Db`: one sequence of rows per table, plus a map from key to object per bucket). A state change is a function from the old store to the new one, and a reply is a `Reply` value: either a body, or an HTTP status and message.

What is modelled, module by module:

- **Context assembly and the streaming relay** (`src/routes/claude.ts`):
  - `Ancestry` walks the parent links. It keeps a visited set and a length limit, so the walk halts even on cycles.
  - `Outgoing` chooses which attachments go to the provider and in what order.
  - `SystemPrompt` builds the system prompt from its sections, with per-page and total character budgets.
  - `StreamRelay` is the byte-chunk fold over the `text/event-stream` body. It uses the simplified LF-only framing of the code, not the full grammar of section 9.2 of the HTML Living Standard.
  - `Chat` covers the send and regenerate guards, the default parent, persisting the reply after the read loop, and the auto-title.
- **Archive and restore** (`src/routes/archive.ts`, with the snapshot codec from `src/export.ts`):
  - `Archive` and `Restore` are store transitions.
  - `ArchiveRoundTrip` proves that archiving and then restoring gives back the same message tree, the same attachments and the same export data.
- **Export** (`src/export.ts`, `src/routes/exports.ts`):
  - `Export` groups the export data.
  - `ExportMarkdown` renders JSON and Markdown, and stores the export.
  - `ExportRoutes` checks the download key and derives the content type and file name.
  - `Percent` models the percent-encoding of section 2.1 of RFC 3986.
- **The job queue** (`src/queue.ts`, `src/types.ts`):
  - `Jobs` is the closed job union.
  - `Queue` covers per-message ack/retry, dispatch, wiki-version numbering and pruning, backup pruning, and batch fan-out.
- **Helpers** (`src/utils.ts`, `src/auth.ts`):
  - `Utils` has file-type resolution, `slugify` and the route matcher.
  - `Base64` and `Auth` cover base64url (section 5 of RFC 4648), the token shape and expiry checks, `authenticate`, and the token lifetime.
- **Model tracking** (`src/model-detector.ts` and its reference copy `technical/worker/model-detector.js`):
  - `ModelDetector` covers body and SSE extraction, provider and family classification, usage counters, the rolling change log, and the status read.
  - The two files define the same functions, so one model serves both.
- **Route handlers with store rules**:
  - `Wiki`, `WikiSlug` and `WikiMarkdown` (`src/routes/wiki.ts`);
  - `Tags` (`src/routes/tags.ts`);
  - `Search` and `FtsQuery` (`src/routes/search.ts`);
  - `Files` (`src/routes/files.ts`);
  - `Conversations` (`src/routes/conversations.ts`).

Some things are parameters rather than part of the model:

- The clock, fresh ids, JSON text, HMAC signing and FTS ranking.
- The provider call, and the LLM-backed summarize and water-cooler jobs.
- JSON `stringify`/`parse` is an abstract pair. Its round trip is assumed only where archive/restore needs it, and only as a precondition.
- The ranking engine's `MATCH` is a predicate.
- The provider's stream is a sequence of byte chunks, or a read failure.

Supporting modules:

- `Wrappers`: `Option`/`Result`.
- `Text`: JavaScript string operations on `seq<char>`.
- `Json`: JSON values as trees, with JavaScript truthiness.
- `Sorting`: `ORDER BY` and `Array.prototype.sort` as a stable insertion sort, plus SQLite's TEXT order.
- `DistinctIds` and `Relink`: helpers for the round-trip proof.
- `SnapshotCodec`: the archive snapshot document.

## Model

| member | source | states |
|---|---|---|
| Text.Lower | src/utils.ts:98 | the lower-cased string has the same length, maps each character on its own and contains no upper-case letter |
| Text.LowerIdempotent | src/utils.ts:98 | lower-casing twice is the same as lower-casing once |
| Text.Trim | src/utils.ts:98 | `trim()` removes only JavaScript white space, and the result neither starts nor ends with white space; it is empty exactly when the input is all white space |
| Text.TrimOfTrimmed | src/utils.ts:98 | trimming a string that neither starts nor ends with white space leaves it unchanged |
| Text.Split | src/utils.ts:121-122 | `split` yields at least one piece, and exactly one when the separator does not occur |
| Text.SplitJoin | src/utils.ts:121-122 | joining the pieces of a split with the separator gives back the input |
| Text.SplitPiecesLackSep | src/utils.ts:121-122 | no piece of a split contains the separator |
| Text.LastPiece | src/utils.ts:90 | the text after the last separator contains no separator, and is the whole string when there is none |
| Text.LastPieceIsSuffix | src/utils.ts:90 | that last piece is a suffix of the input and, when a separator occurs, the character before it is the separator |
| Text.NatToStringInjective | src/routes/wiki.ts:144 | different numbers render as different decimal strings, so the numbered slug candidates differ |
| Utils.ExtFromMediaType | src/utils.ts:5-8 | the extension is not "bin" exactly for the four allowed image types, and it maps back to the media type it came from |
| Utils.ExtFromMediaTypeInjective | src/utils.ts:5-8 | two allowed image types never share an extension |
| Utils.MimeConfig | src/utils.ts:20-37 | every entry of the media-type table allows at most 10 MiB and is sent to Claude natively or as text |
| Utils.ExtSupport | src/utils.ts:40-56 | an extension is sent natively exactly when it is "pdf", otherwise as text exactly when it is in the text list |
| Utils.FallbackExt | src/utils.ts:72 | the looked-up extension has no dot and, being lower-cased, is never the table's "R" key |
| Utils.GetFileConfig | src/utils.ts:60-86 | the media-type table wins, then any `text/` type gets 1 MiB as text; the result is "not sent" exactly when neither table nor extension applies, and then the cap is 10 MiB |
| Utils.GetFileConfigByExtension | src/utils.ts:71-80 | a known extension gives 10 MiB for native support and 1 MiB for text |
| Utils.ExtFromFilename | src/utils.ts:88-91 | a name without a dot gives "bin"; otherwise the result is the lower-cased text after the last dot |
| Utils.Slugify | src/utils.ts:97-100 | a slug holds only lower-case word characters and dashes, never two dashes in a row, and at most 100 characters |
| Utils.SlugifyFixesSlugs | src/utils.ts:97-100 | slugifying a string that is already a slug returns it unchanged |
| Utils.SlugifyIdempotent | src/utils.ts:97-100 | slugifying twice is the same as slugifying once |
| Utils.KeepSlugChars | src/utils.ts:99 | removing `[^\w\s-]` keeps only word characters, white space and dashes from the input, and keeps an input made only of those unchanged |
| Utils.CollapseRuns | src/utils.ts:99 | replacing runs of white space or dashes leaves no character of the run class, only dashes and characters of the input |
| Utils.DashRunsCollapsed | src/utils.ts:99 | after `replace(/-+/g, '-')` no two dashes are adjacent |
| Utils.BindSegments | src/utils.ts:124-132 | the segments match exactly when every literal segment equals its path segment; the parameters bound are exactly the `:name` segments, each holding the path segment of its last occurrence |
| Utils.MatchRoute | src/utils.ts:114-133 | a route matches exactly when the method is equal, the segment counts are equal and every literal segment is equal; the result binds each `:name` to its path segment |
| WikiSlug.CandidatesDiffer | src/routes/wiki.ts:144 | different suffix numbers give different candidate slugs (`slug`, `slug-1`, `slug-2`, …) |
| WikiSlug.PendingShrinks | src/routes/wiki.ts:142-148 | every taken candidate removes one page from those the search can still collide with, so the search loop ends |
| WikiSlug.FreeSuffix | src/routes/wiki.ts:142-148 | the suffix found is the first whose candidate no other page holds: every earlier candidate is taken |
| WikiSlug.AllocateSlug | src/routes/wiki.ts:140-148 | the slug chosen is free, and it is the first free one among `slug`, `slug-1`, `slug-2`, … |
| WikiSlug.FreeBaseKept | src/routes/wiki.ts:141-146 | when the slugified title itself is free it is used without a suffix |
| WikiSlug.InsertKeepsSlugsUnique | src/routes/wiki.ts:140-153 | inserting a page under the allocated slug keeps slugs unique across pages |
| WikiSlug.RenameKeepsSlugsUnique | src/routes/wiki.ts:247-257 | re-slugging a renamed page, where its own row does not count as a collision, keeps slugs unique |
| WikiMarkdown.HeadingAt | src/routes/wiki.ts:133 | a heading match at a position starts a line with `#`, and the captured text is non-empty and has no line terminator |
| WikiMarkdown.FirstHeadingNone | src/routes/wiki.ts:133 | the search finds no heading exactly when no position from the start on holds one |
| WikiMarkdown.HeadingAtSome | src/routes/wiki.ts:133 | a found heading is a match of `/^#\s+(.+)$/m` whose capture runs to the end of the line, with the longest `\s+` the regex allows |
| WikiMarkdown.HeadingAtNone | src/routes/wiki.ts:133 | when no heading is found at a position, no match of the pattern starts there |
| WikiMarkdown.StripMd | src/routes/wiki.ts:134 | a trailing `.md` in any letter case is removed; any other name is kept |
| WikiMarkdown.StripMdOfMd | src/routes/wiki.ts:134 | removing `.md` from `base + ".md"` gives `base` back |
| WikiMarkdown.Title | src/routes/wiki.ts:132-134 | the title is the trimmed text of the first heading, or the file name without `.md` when there is none |
| WikiMarkdown.TitleFromLeftmostHeading | src/routes/wiki.ts:133-134 | for every input, the title is the trimmed capture of the leftmost-then-longest regex match |
| WikiMarkdown.TitleWithoutHeading | src/routes/wiki.ts:133-134 | for every input with no regex match, the title is the file name without `.md` |
| WikiMarkdown.OpeningHeadingIsTitle | src/routes/wiki.ts:133-134 | a file that opens with `# t` is titled `t`, trimmed |
| WikiMarkdown.NoHeadingTitle | src/routes/wiki.ts:133-134 | a file without `#` is titled by its name |
| WikiMarkdown.StripHeadingsPlain | src/routes/wiki.ts:137 | removing `^#+\s+.*$` lines changes nothing when no line starts with `#` |
| WikiMarkdown.StripMarkup | src/routes/wiki.ts:137 | removing `[*_`~\[\]()>]` leaves none of those characters and keeps text that had none |
| WikiMarkdown.StripMarkupCounts | src/routes/wiki.ts:137 | that removal deletes every markup character and keeps every other character as often as it occurred |
| WikiMarkdown.StripMarkupAppend | src/routes/wiki.ts:137 | markup removal works character by character: it distributes over concatenation |
| WikiMarkdown.PlainText | src/routes/wiki.ts:137 | the plain text contains no markup character |
| WikiMarkdown.Summary | src/routes/wiki.ts:138 | the summary is the plain text when it has at most 200 characters, else its first 200 characters and "..." |
| WikiMarkdown.PlainSummary | src/routes/wiki.ts:137-138 | a short file without headings or markup is summarised as itself, trimmed |
| Wiki.InsertPage | src/routes/wiki.ts:151-158 | inserting a page appends its row and its full-text row and changes no other table |
| Wiki.NewSlug | src/routes/wiki.ts:140-148 | a new page's slug is held by no existing page |
| Wiki.InsertKeepsUnique | src/routes/wiki.ts:140-158 | inserting a page under a free slug keeps slugs unique |
| Wiki.LinkPage | src/routes/wiki.ts:207-209 | `INSERT OR IGNORE` into the page–tag table adds the pair and keeps every other link, adding nothing else |
| Wiki.TagStep | src/routes/wiki.ts:199-210 | one tag name is looked up or created under its normalised name and linked to the page; tables only grow and tag names stay unique |
| Wiki.AddTags | src/routes/wiki.ts:198-211 | handling a tag list only adds tag rows and links |
| Wiki.AddTagsLinksEveryName | src/routes/wiki.ts:198-211 | after the loop the page is linked to a tag for every normalised name in the list, skipping empty names only in the batch form |
| Wiki.AddTagsKeepsNamesUnique | src/routes/wiki.ts:199-206 | creating missing tags never makes two tags share a name |
| Wiki.AddTagsSkipsEmpty | src/routes/wiki.ts:502-503 | in the batch form no tag with an empty name is created |
| Wiki.FileName | src/routes/wiki.ts:126 | an upload without a name is called "untitled.md"; a named one keeps its name |
| Wiki.UploadedRow | src/routes/wiki.ts:132-153 | an uploaded page is titled from its first heading or file name, summarised from its plain text, keeps the file text as content, and gets a free slug |
| Wiki.Upload | src/routes/wiki.ts:121-162 | upload fails with "No file provided" exactly when there is no file and with "Only .md files are accepted" exactly when neither the name nor the type says Markdown; a failure writes nothing, success inserts the row and its full-text row |
| Wiki.UploadUntitled | src/routes/wiki.ts:126-134 | a nameless upload without headings is stored under the title "untitled" |
| Wiki.UploadKeepsSlugsUnique | src/routes/wiki.ts:140-153 | every upload keeps slugs unique |
| Wiki.CreatedRow | src/routes/wiki.ts:171-190 | a created page has the trimmed, non-empty title, content and summary defaulting to "", empty category and source URL stored as null, and a free slug |
| Wiki.CreatePage | src/routes/wiki.ts:165-215 | creation fails with "Title is required" exactly when the title is absent or blank, and then writes nothing; otherwise it inserts the page and handles its tags |
| Wiki.CreatePageStores | src/routes/wiki.ts:165-215 | a created page is returned, appended with its full-text row, slugs and tag names stay unique, and the page is linked to every tag it named |
| Wiki.RenamedSlug | src/routes/wiki.ts:247-255 | a renamed page's slug is held by no other page |
| Wiki.ApplyPage | src/routes/wiki.ts:244-263 | each supplied field is updated, an empty category or source URL becomes null, the slug changes only with the title, and `updated_at` is set |
| Wiki.ApplyWhere | src/routes/wiki.ts:265-269 | the `UPDATE … WHERE id = ?` changes exactly the row with that id |
| Wiki.SnapshotJobs | src/routes/wiki.ts:226-240 | a version-snapshot job with the old title and content is queued exactly when new content is supplied, the page exists and the content differs |
| Wiki.UpdatePage | src/routes/wiki.ts:218-281 | an update writes only when some field is supplied, then re-syncs the page's full-text row when the page exists; it touches no other table |
| Wiki.UpdateSyncsFts | src/routes/wiki.ts:271-278 | after an update the page has exactly one full-text row, matching its stored row |
| Wiki.UpdateKeepsSlugsUnique | src/routes/wiki.ts:244-269 | every update keeps slugs unique |
| Wiki.UpdateSnapshotsOnce | src/routes/wiki.ts:226-240 | repeating the same content update queues no second snapshot |
| Wiki.VersionKeys | src/routes/wiki.ts:357-360 | the keys collected are exactly the stored keys of the page's versions |
| Wiki.DeletePage | src/routes/wiki.ts:355-372 | deletion removes the page, its full-text rows and its versions, and the version objects from the file bucket; nothing else changes |
| Wiki.DeleteLeavesNothing | src/routes/wiki.ts:355-372 | after deletion neither the page nor any of its version objects can be found |
| Wiki.FindCategory | src/routes/wiki.ts:470-475 | a category is found exactly when one has the given name |
| Wiki.CategoryOf | src/routes/wiki.ts:469-475 | a resolved category id is non-empty and belongs to a category of the named name |
| Wiki.BatchRow | src/routes/wiki.ts:464-492 | a batch page has the trimmed title, defaults for content and summary, the category resolved by name, and a free slug |
| Wiki.RecordGeneration | src/routes/wiki.ts:520-525 | a generation row is recorded exactly when a conversation id is given |
| Wiki.BatchOne | src/routes/wiki.ts:489-525 | one batch entry appends the page and its full-text row, handles its tags and records its generation |
| Wiki.Titled | src/routes/wiki.ts:462 | entries with a blank title are skipped |
| Wiki.BatchLoop | src/routes/wiki.ts:461-528 | the pages created are appended in order |
| Wiki.BatchLoopRows | src/routes/wiki.ts:461-528 | the created pages correspond one by one to the entries with a title |
| Wiki.BatchLoopKeepsSlugsUnique | src/routes/wiki.ts:477-487 | the batch keeps slugs unique |
| Wiki.BatchLoopKeepsNamesUnique | src/routes/wiki.ts:499-518 | the batch keeps tag names unique |
| Wiki.BatchLoopGenerations | src/routes/wiki.ts:520-525 | one generation row is added per created page when a conversation id is given, and none otherwise |
| Wiki.BatchCreate | src/routes/wiki.ts:445-531 | the batch fails with "At least one page is required" exactly when the list is missing or empty, and then writes nothing; otherwise it returns the created pages |
| Wiki.BatchCreateStores | src/routes/wiki.ts:445-531 | the reply lists one created page per titled entry, each stored, with the generations recorded and slugs and tag names unique |
| Tags.NormalName | src/routes/tags.ts:27 | a normalised tag name is empty exactly when the input is all white space, has no white space at either end and no upper-case letter |
| Tags.NormalNameIdempotent | src/routes/tags.ts:27 | normalising twice is the same as normalising once |
| Tags.NormalNameIgnoresCase | src/routes/tags.ts:27 | names that differ only in letter case or leading white space normalise to the same tag name |
| Tags.LowerCommutesTrim | src/routes/tags.ts:27 | trimming then lower-casing gives the same as lower-casing then trimming |
| Tags.FindByName | src/routes/tags.ts:31 | a tag is found exactly when some tag has the name, and the one found has it |
| Tags.FindByNameFirst | src/routes/tags.ts:31 | the lookup returns the first row with the name |
| Tags.FindTag | src/routes/tags.ts:79 | a tag is found by id exactly when some tag has that id |
| Tags.CreateTag | src/routes/tags.ts:22-40 | creation fails with "Tag name is required" exactly for a missing or blank name and with 409 "Tag already exists" exactly when the normalised name is taken; failure writes nothing, success appends exactly the new tag with an empty colour stored as null |
| Tags.CreateKeepsNamesUnique | src/routes/tags.ts:30-37 | creating a tag keeps tag names unique, and the stored name is non-empty and already normalised |
| Tags.DeleteTag | src/routes/tags.ts:43-47 | deletion removes exactly the tag with the id |
| Tags.ResolveTag | src/routes/tags.ts:55-69 | a given tag id is used as is; otherwise a name resolves to the existing tag with its normalised name or creates one |
| Tags.Link | src/routes/tags.ts:74-76 | `INSERT OR IGNORE` adds the conversation–tag pair, keeps every other link, and changes nothing when the pair exists |
| Tags.AssignTag | src/routes/tags.ts:50-81 | assignment fails with "Either tag_id or name is required", writing nothing, exactly when neither an id nor a name is given |
| Tags.AssignLinks | src/routes/tags.ts:50-81 | after assignment the conversation is linked to the given or resolved tag, and no link or tag is lost |
| Tags.AssignIdempotent | src/routes/tags.ts:57-76 | assigning the same tag twice gives the same store and reply as assigning it once |
| Tags.RemoveTag | src/routes/tags.ts:84-90 | removal deletes exactly that conversation–tag pair |
| Tags.AssignThenRemove | src/routes/tags.ts:50-90 | removing a tag just assigned leaves the conversation without it |
| Tags.CountLinks | src/routes/tags.ts:14-16 | the count is zero exactly when no conversation carries the tag |
| Tags.ListTags | src/routes/tags.ts:11-19 | the listing has one entry per tag, each with its conversation count |
| Tags.ListTagsOrdered | src/routes/tags.ts:11-19 | the listing is ordered by name and includes every tag with its count |
| Tags.Annotate | src/routes/tags.ts:93-123 | annotation fails with "message_id and type are required", with "type must be pin, bookmark, or highlight", or with 404 when the message is not in the conversation, each exactly in its case and writing nothing; success stores the new annotation |
| Tags.AnnotateReplaces | src/routes/tags.ts:112-120 | the new annotation replaces any earlier one on the same message and keeps all others, so there stays at most one per message |
| Tags.KeptOnePerMessage | src/routes/tags.ts:113-115 | deleting a message's annotations keeps at most one annotation per message |
| Tags.Joined | src/routes/tags.ts:129-135 | the joined rows are exactly the conversation's annotations that pass the type filter and whose message exists (the inner join), each carrying its message's preview and role |
| Tags.View | src/routes/tags.ts:129 | a joined annotation carries the first 200 characters and the role of its message |
| Tags.ListAnnotations | src/routes/tags.ts:126-141 | the listing holds exactly the joined rows, reordered |
| Tags.ListAnnotationsFilters | src/routes/tags.ts:126-141 | the listing is newest first; it holds only annotations of this conversation whose message exists, only of the filtered type when a valid filter is given, each with its message's preview and role, and it omits nothing that passes |
| Tags.Relabel | src/routes/tags.ts:144-154 | relabelling changes only the label of the annotation with the id, storing an empty label as null |
| Tags.RelabelKeepsOnePerMessage | src/routes/tags.ts:144-154 | relabelling keeps at most one annotation per message, and an empty label clears it |
| Tags.DeleteAnnotation | src/routes/tags.ts:157-163 | deletion removes exactly the annotation with the id |
| FtsQuery.FtsQuery | src/routes/search.ts:17 | a query with no character outside `[\w\s]` is passed as is; otherwise it is wrapped in double quotes |
| FtsQuery.UndoubleDoubled | src/routes/search.ts:17 | doubling every `"` can be undone: reading the doubled text back gives the query |
| FtsQuery.QuoteRoundTrip | src/routes/search.ts:17 | reading a quoted phrase back gives exactly the query that was quoted |
| FtsQuery.FtsQueryReadsBack | src/routes/search.ts:17 | the phrase sent to full-text search always stands for the user's query: it is the query itself or reads back as it |
| Search.TitleMatches | src/routes/search.ts:20-22 | the title hits are at most 5 conversations whose titles match the LIKE pattern, most recently updated first |
| Search.Distinct | src/routes/search.ts:45 | `new Set` keeps every id once and adds none |
| Search.TitleMap | src/routes/search.ts:46-55 | the title map holds exactly the looked-up ids that name a conversation, each with that conversation's title |
| Search.Titled | src/routes/search.ts:59 | a hit's conversation title is never empty ("Untitled" fills in) |
| Search.TitleOfHit | src/routes/search.ts:57-60 | a hit without a conversation is titled "Untitled", and one whose single conversation has a non-empty title gets that title |
| Search.TitleLookups | src/routes/search.ts:45 | the ids looked up are the hits' conversation ids, each once |
| Search.MessageHits | src/routes/search.ts:25-42 | at most 20 message hits, all from the given conversation when one is given |
| Search.WikiHits | src/routes/search.ts:62-77 | at most 10 wiki hits, all stored pages, and none when the wiki full-text query fails |
| Search.JoinPages | src/routes/search.ts:65-73 | the join returns only stored pages, at most one per full-text row |
| Search.Search | src/routes/search.ts:8-80 | the search fails with "Query must be at least 2 characters" exactly when the trimmed query is missing or shorter than 2 |
| Search.SearchLimits | src/routes/search.ts:8-80 | a result keeps the 5/20/10 limits, title hits match the query, message hits stay in the requested conversation and carry their conversation's title |
| Files.DownloadName | src/routes/files.ts:19 | the download name is the original file name, or `file-<id>` when there is none |
| Files.Serve | src/routes/files.ts:6-27 | serving fails with "File not found" exactly when no file row has the id and with "File missing from storage" exactly when its object is gone; otherwise it returns the stored object with the row's type and download name |
| Files.AttachmentKey | src/routes/files.ts:63-64 | the object key is `attachments/<conversation>/<file id>.<ext>`, with "bin" for a nameless file |
| Files.DefaultNameExt | src/routes/files.ts:63 | a nameless file gets the extension "bin" |
| Files.ExtAfterLastDot | src/routes/files.ts:63 | a name ending in `.ext` with a lower-case, dot-free extension gets exactly that extension |
| Files.TooLarge | src/routes/files.ts:55-57 | the size error starts with "File too large (" |
| Files.UploadFile | src/routes/files.ts:36-90 | an upload fails, writing nothing, for an unknown conversation (404), a missing file, an image type or a size over the type's limit, each exactly in its case; a success stores the object and an unlinked file row and reports the type's support |
| Files.AbsoluteCapUnreachable | src/routes/files.ts:54-60 | the absolute 10 MiB check never fires, because no per-type limit exceeds it |
| Files.UploadThenServe | src/routes/files.ts:6-27 | a file just uploaded is served back with its bytes, type and name, or `file-<id>` when nameless |
| Percent.Utf8RoundTrip | src/routes/exports.ts:19 | the UTF-8 bytes `encodeURIComponent` escapes for a character decode back to that character |
| Percent.Encode | src/routes/exports.ts:19 | the encoded key contains only unreserved characters, `%` and hex digits |
| Percent.DecodeEncode | src/routes/exports.ts:19-32 | `decodeURIComponent(encodeURIComponent(k))` is `k` for every key |
| Percent.DecodePlain | src/routes/exports.ts:32 | decoding text without `%` returns it unchanged |
| Percent.EncodeUnreserved | src/routes/exports.ts:19 | encoding text made only of unreserved characters returns it unchanged |
| ExportRoutes.FormatOf | src/routes/exports.ts:14 | the format is JSON exactly when "json" is requested; anything else is Markdown |
| ExportRoutes.FormatName | src/routes/exports.ts:14 | the format name reported reads back as the same format |
| ExportRoutes.StartExport | src/routes/exports.ts:11-26 | the trigger succeeds exactly when the export does, returning the encoded download URL and format name; a failure is a 500 "Export failed: …" that writes nothing |
| ExportRoutes.DownloadName | src/routes/exports.ts:41 | the download name is non-empty, has no `/`, and is the key's last segment when that is non-empty |
| ExportRoutes.DownloadExport | src/routes/exports.ts:31-49 | a download fails with the URI error when decoding fails, with "Invalid export path" exactly when the key lacks `exports/`, with "Export not found" exactly when no object is stored; otherwise it serves the object as JSON exactly when the key ends in `.json` |
| ExportRoutes.ExtensionDecidesJson | src/export.ts:238-240 | an export key ends in `.json` exactly for the JSON format (see also src/routes/exports.ts:40) |
| ExportRoutes.ExportKeyPrefix | src/export.ts:238-240 | every export key starts with `exports/` (see also src/routes/exports.ts:33) |
| ExportRoutes.StartThenDownload | src/routes/exports.ts:11-49 | the URL returned by a successful export downloads the stored export, served as JSON exactly when JSON was requested |
| Export.LinkedRows | src/export.ts:39-49 | the attachment rows read are exactly the conversation's rows that are linked to a message |
| Export.RowsOfMessage | src/export.ts:63-76 | a message's group holds exactly the rows linked to it |
| Export.GroupIsFilter | src/export.ts:63-76 | grouping rows by message with a map gives each message exactly its rows, in table order |
| Export.LastAnnotation | src/export.ts:78-81 | the annotation kept for a message is its last row in table order |
| Export.AnnotationMapIsLast | src/export.ts:78-81 | the annotation map holds a message exactly when it has an annotation row, and then the type and label of its last row |
| Export.Chronological | src/export.ts:33-37 | the messages read are exactly the conversation's messages, reordered |
| Export.FetchExportData | src/export.ts:24-98 | the fetch fails with "Conversation not found" exactly when the conversation is missing; otherwise it returns that conversation and one enriched entry per message |
| Export.ExportedAttachments | src/export.ts:84-95 | each exported message lists exactly its linked images and files |
| Export.ExportedMessagesInOrder | src/export.ts:33-95 | the exported messages follow `ORDER BY created_at ASC`, keeping each message's id, parent and time |
| Export.ExportedAnnotation | src/export.ts:78-94 | a message's exported annotation is its last annotation row in the conversation, or none |
| Export.StrOrNull | src/export.ts:198 | a missing value is written as JSON null and only then |
| Export.VibesJson | src/export.ts:190 | the vibes column becomes a JSON array, an empty one when unset, and fails exactly when it is not valid JSON |
| Export.AnnotationJson | src/export.ts:211 | a message without an annotation gets `annotation: null` and only then |
| Export.GenerateJson | src/export.ts:180-218 | the JSON export fails exactly when the vibes column is malformed |
| Export.GenerateJsonLinks | src/export.ts:185-212 | in the JSON export document, `version` is 1, `conversation.tags` holds the tags, and image `j` of message `i` has the url `/api/images/{id}` and file `j` the url `/api/files/{id}` |
| Export.DocumentMembers | src/export.ts:186-214 | the document's `version`, `conversation` and `messages` members are 1, the conversation object and the message list |
| Export.ConversationTags | src/export.ts:188-191 | the `conversation` member ends with the tags |
| Export.MessageLinks | src/export.ts:198-210 | each exported message's `images` and `files` list its attachments, each with its `/api/images/` or `/api/files/` url |
| ExportMarkdown.QuoteYaml | src/export.ts:122 | the corrected quoting escapes `\`, `"` and line breaks: it never shortens its input and leaves no raw line break for a YAML reader to fold |
| ExportMarkdown.ReadQuoteYaml | src/export.ts:122 | a YAML reader that folds raw line breaks (section 7.3.1 of YAML 1.2) reads the corrected quoting of any string back to that string and stops at the closing quote |
| ExportMarkdown.QuotedRoundTrip | src/export.ts:122-135 | the corrected double-quoted scalar reads back as exactly the original text for every string, line breaks and backslashes included |
| ExportMarkdown.EscapeQuotesAgrees | src/export.ts:122 | for text without a backslash or a line break, escaping only `"` is the same as the corrected quoting |
| ExportMarkdown.QuotedAsWrittenReadsBack | src/export.ts:122-135 | the front matter as written reads back correctly for every title or summary without a backslash or a line break |
| ExportMarkdown.EscapeQuotesLosesBackslash | src/export.ts:122 | the front matter as written is not a faithful quoting: the title `\n` reads back as a line break |
| ExportMarkdown.EscapeQuotesFoldsLineBreak | src/export.ts:122 | the front matter as written is not a faithful quoting of line breaks either: the title `a`, line feed, `b` reads back as `a b` |
| ExportMarkdown.VibeItems | src/export.ts:117 | the vibe list fails exactly for malformed vibes and is empty when vibes are unset |
| ExportMarkdown.HeadLacksOptionalKeys | src/export.ts:121-127 | the fixed part of the front matter has no `tags`, `vibes` or `summary` line |
| ExportMarkdown.FrontMatterMessages | src/export.ts:127 | the `messages` key of the front matter reads back as the message count |
| ExportMarkdown.FrontMatterTitle | src/export.ts:122 | the `title` key holds the title quoted as written, which reads back as the title when it has no backslash and no line break |
| ExportMarkdown.FrontMatterTags | src/export.ts:128-130 | the front matter has a `tags` key exactly when the conversation has tags |
| ExportMarkdown.VibesPresent | src/export.ts:131-133 | when there are vibes, the `vibes` key holds them as a quoted flow list |
| ExportMarkdown.FrontMatterVibes | src/export.ts:131-133 | the front matter has a `vibes` key exactly when the vibe list is non-empty |
| ExportMarkdown.FrontMatterSummary | src/export.ts:134-136 | the front matter has a `summary` key exactly when the summary is set, quoted as written, reading back as the summary when it has no backslash and no line break |
| ExportMarkdown.RoleName | src/export.ts:143 | the heading says "User" exactly for the user role and "Claude" for every other role |
| ExportMarkdown.AnnotationSuffix | src/export.ts:145-147 | the heading has an annotation suffix exactly when the message is annotated |
| ExportMarkdown.DisplayName | src/export.ts:155-164 | an attachment is shown by its file name, or by the fallback when it has none |
| ExportMarkdown.SizeParts | src/export.ts:165-167 | sizes under 1024 are shown in bytes; larger ones in KB, rounded to the nearest unit |
| ExportMarkdown.ImageBlock | src/export.ts:152-159 | the image block has one line per image plus a blank line, and nothing when there are no images |
| ExportMarkdown.FileBlock | src/export.ts:161-171 | the file block has one line per file plus a blank line, and nothing when there are no files |
| ExportMarkdown.MessageLines | src/export.ts:142-175 | a message renders as its heading, a blank line, its image block, its file block, its content and a blank line |
| ExportMarkdown.GenerateMarkdown | src/export.ts:112-178 | the Markdown export fails exactly when the vibes column is malformed |
| ExportMarkdown.KeyTimestamp | src/export.ts:234 | the key timestamp has no `:` or `.` and is made of the ISO time's characters and dashes |
| ExportMarkdown.Content | src/export.ts:228-231 | rendering the content fails exactly when the vibes column is malformed |
| ExportMarkdown.ExportConversation | src/export.ts:221-244 | the export fails exactly when the conversation is missing or its vibes are malformed; otherwise it stores the rendered text under `exports/<id>/<timestamp>.<ext>` and reports its length |
| Archive.Snapshot | src/routes/archive.ts:17-18 | the snapshot document fails exactly when the conversation's vibes column is malformed |
| Archive.Plan | src/routes/archive.ts:21-51 | an archive is eight writes in the handler's order |
| Archive.ArchiveSteps | src/routes/archive.ts:7-18 | archiving fails with "Conversation not found" for a missing conversation, with "Already archived" when `archived_at` is set, and otherwise only when the snapshot cannot be built |
| Archive.ArchiveConversation | src/routes/archive.ts:7-52 | the archive fails exactly when its guards or snapshot fail |
| Archive.PlanOf | src/routes/archive.ts:17-51 | a passing archive writes the stringified snapshot, then the eight steps, with the gossip job naming the title and message count |
| Archive.SnapshotWrittenFirst | src/routes/archive.ts:16-23 | the snapshot object is stored by the first write and stays stored at every later step, so a crash after it never loses the archive |
| Archive.NoCascadeAfterDetach | src/routes/archive.ts:25-34 | once the rows are detached, deleting the messages cascades to no image or file row |
| Archive.CascadeWithoutDetach | src/routes/archive.ts:25-28 | without the detach, deleting the messages would remove a linked attachment row through `ON DELETE CASCADE` |
| Archive.DetachSameRows | src/routes/archive.ts:29-34 | detaching keeps every attachment row, changing only `message_id` |
| Archive.MessagesAfter | src/routes/archive.ts:37 | the conversation's messages are deleted at the fourth write and other messages are never touched |
| Archive.ImagesAfter | src/routes/archive.ts:29-31 | image rows are detached at the second write and stay detached, never deleted |
| Archive.FilesAfter | src/routes/archive.ts:32-34 | file rows are detached at the third write and stay detached, never deleted |
| Archive.AttachmentsSurvive | src/routes/archive.ts:25-37 | at every step all attachment rows are still present, and once messages are gone the rows are detached |
| Archive.FtsAfter | src/routes/archive.ts:38 | the conversation's full-text rows are deleted at the fifth write |
| Archive.AnnotationsAfter | src/routes/archive.ts:39 | the conversation's annotations are deleted at the sixth write |
| Archive.ConversationsAfter | src/routes/archive.ts:42-44 | the conversation is marked archived with its key at the seventh write |
| Archive.OutboxAfter | src/routes/archive.ts:47-51 | the gossip job is queued by the last write only |
| Archive.PlanRemovesLiveRows | src/routes/archive.ts:29-39 | after the archive no message, full-text row or annotation of the conversation is left, other conversations' rows all are, and attachments are detached |
| Archive.PlanMarks | src/routes/archive.ts:21-51 | after the archive the conversation is marked with the time and key, the snapshot is stored and one gossip job is queued |
| Archive.ArchiveResult | src/routes/archive.ts:7-52 | a successful archive is exactly the eight writes applied in order |
| Archive.ArchiveMarksConversation | src/routes/archive.ts:19-44 | after a successful archive the conversation row carries the archive time and key, and the key holds the snapshot |
| Archive.ArchiveClearsMessages | src/routes/archive.ts:25-37 | after a successful archive the conversation has no messages and no attachment row was lost |
| Archive.ArchiveTwice | src/routes/archive.ts:14 | archiving an archived conversation fails with "Already archived" |
| Archive.StepsFrame | src/routes/archive.ts:21-51 | the archive writes touch no table it does not name |
| Archive.ArchivedStore | src/routes/archive.ts:7-52 | the store after a successful archive is given field by field |
| Restore.StrField | src/routes/archive.ts:67-75 | a field reads as a string exactly when it is present and a JSON string |
| Restore.OrNull | src/routes/archive.ts:85-122 | `x \|\| null` is null exactly for a falsy value, else the non-empty string |
| Restore.EntryIds | src/routes/archive.ts:97-113 | the entry list decodes exactly when each entry is an object with a string `id`, giving those ids in order |
| Restore.LinkIds | src/routes/archive.ts:96-107 | a missing or empty image or file list links nothing |
| Restore.AnnotationOf | src/routes/archive.ts:118-123 | an annotation is restored exactly when the entry's annotation is truthy, with its type and its label or null |
| Restore.DecodeMessage | src/routes/archive.ts:80-86 | a message entry decodes only from an object, taking its id and content |
| Restore.DecodeMessages | src/routes/archive.ts:80 | the message list decodes exactly when every entry does, one message per entry |
| Restore.DecodeSnapshot | src/routes/archive.ts:67-75 | the archive decodes only from an object, and an empty message list gives no messages |
| Restore.ExecStmt | src/routes/archive.ts:82-123 | a statement fails exactly when it inserts a message id or annotation id already used |
| Restore.RunBatch | src/routes/archive.ts:127-130 | a batch that succeeds touches only the tables it writes; `DB.batch` runs as one transaction, so a failing statement leaves the store as it was |
| Restore.MessageStmts | src/routes/archive.ts:80-124 | each message contributes its insert and its full-text insert first, then its links and annotation |
| Restore.AnnotationStmts | src/routes/archive.ts:118-124 | one annotation insert is made exactly when the entry has an annotation |
| Restore.BodyText | src/routes/archive.ts:67 | the stored archive is read as text exactly when it was stored as text |
| Restore.RestoreConversation | src/routes/archive.ts:55-142 | restoring fails with "Conversation not found", "Not archived" or "Archive data missing from R2", each in its case |
| Restore.RestoreReads | src/routes/archive.ts:63-142 | a readable archive is restored by re-inserting the decoded messages |
| RestoreBatch.RunAll | src/routes/archive.ts:77-130 | when the restored ids are fresh, the batch succeeds and adds exactly the messages, full-text rows, links and annotations of the snapshot |
| RestoreBatch.ReinstateOk | src/routes/archive.ts:127-141 | a restore with fresh ids succeeds, clears `archived_at` and `archive_r2_key`, and queues one gossip job |
| RestoreBatch.ReinstateTables | src/routes/archive.ts:77-141 | the store after a restore is given table by table |
| RestoreBatch.LastOfAll | src/routes/archive.ts:117-124 | each restored message's annotation reads back, by the export's last-row rule, as the one in its snapshot entry (see also src/export.ts:78-81) |
| Relink.RelinkRestores | src/routes/archive.ts:95-115 | re-linking detached rows by the snapshot's image and file ids gives back exactly the attachment rows as they were before archiving |
| SnapshotCodec.MessageBack | src/export.ts:193-212 | decoding the JSON of an exported message gives back its id, role, content, time, parent, attachment ids and annotation (see also src/routes/archive.ts:67-75) |
| SnapshotCodec.MessagesBack | src/export.ts:193-212 | decoding the exported message list gives back every message's reading, in order (see also src/routes/archive.ts:80) |
| SnapshotCodec.SnapshotBack | src/export.ts:180-218 | the restore decoder reads the JSON export document back as its messages (see also src/routes/archive.ts:67-75) |
| ArchiveRoundTrip.Readback | src/routes/archive.ts:67-75 | the snapshot read back has one entry per archived message |
| ArchiveRoundTrip.RestoreReadsSnapshot | src/routes/archive.ts:16-75 | restoring just after archiving reads back exactly the snapshot the archive wrote |
| ArchiveRoundTrip.FreshAfterArchive | src/routes/archive.ts:36-130 | after archiving, the snapshot's message ids and the new annotation ids are free, so the restore batch cannot conflict |
| ArchiveRoundTrip.MessagesReadBack | src/routes/archive.ts:80-86 | the restored message rows are exactly the archived ones in export order |
| ArchiveRoundTrip.ImagesBack | src/routes/archive.ts:29-104 | detaching then re-linking gives back the image rows as they were |
| ArchiveRoundTrip.FilesBack | src/routes/archive.ts:32-115 | detaching then re-linking gives back the file rows as they were |
| ArchiveRoundTrip.ConversationsBack | src/routes/archive.ts:42-135 | marking then unmarking a never-archived conversation gives back the conversation rows |
| ArchiveRoundTrip.RoundTripStore | src/routes/archive.ts:7-142 | archive then restore gives a store described field by field |
| ArchiveRoundTrip.ArchiveThenRestore | src/routes/archive.ts:7-142 | archive then restore succeeds and gives back the same messages, images, files and conversation rows |
| ArchiveRoundTrip.ExportSurvivesRoundTrip | src/routes/archive.ts:7-142 | after archive then restore, the conversation exports exactly as before (see also src/export.ts:24-98) |
| ArchiveRoundTrip.RoundTripLeavesSnapshot | src/routes/archive.ts:88-132 | after archive then restore the archive object is still stored, two gossip jobs were queued, and the full-text rows are rebuilt from the messages |
| Conversations.JoinTags | src/routes/conversations.ts:41-54 | a conversation is listed with exactly the tags assigned to it |
| Conversations.ListConversations | src/routes/conversations.ts:34-58 | every conversation is listed exactly once, most recently updated first, each with exactly its tags |
| Conversations.Create | src/routes/conversations.ts:61-77 | a new conversation takes the given title and model or "New Chat" and the default model when they are empty, temperature 1.0 and an empty prompt when absent, and is appended as a fresh row |
| Conversations.CreateThenFind | src/routes/conversations.ts:61-77 | a created conversation is found with the reported fields, no summary, not archived, not pinned, and created and updated now |
| Conversations.Apply | src/routes/conversations.ts:85-106 | an update changes a non-empty title or model and any supplied temperature, prompt or hand-off notes, sets `updated_at`, and keeps every other column |
| Conversations.Update | src/routes/conversations.ts:80-114 | the update fails with "Nothing to update", writing nothing, exactly when no field is supplied; otherwise only the row with the id changes |
| Conversations.UpdateThenFind | src/routes/conversations.ts:80-114 | after an update the conversation reads back with the changes applied |
| Conversations.UpdateMissingIsNoop | src/routes/conversations.ts:108-113 | updating an unknown id succeeds and changes nothing |
| Conversations.UpdateIdempotent | src/routes/conversations.ts:80-114 | applying the same update twice at the same time equals applying it once |
| Conversations.KeysOf | src/routes/conversations.ts:122-128 | the keys collected are exactly the stored keys of the conversation's image or file rows, linked or not |
| Conversations.DeleteRemovesConversation | src/routes/conversations.ts:117-162 | deletion removes the conversation, its messages, full-text rows, image and file rows, and their stored objects, and keeps everything else |
| Conversations.DeleteRemovesUnsentUploads | src/routes/conversations.ts:119-157 | an upload never linked to a message loses its stored object too |
| Conversations.DeleteIdempotent | src/routes/conversations.ts:117-162 | deleting twice is the same as deleting once |
| Conversations.AnnotationRowsIsLast | src/routes/conversations.ts:207-210 | the annotation map holds a message exactly when it has an annotation row, and then its last row |
| Conversations.ListMessages | src/routes/conversations.ts:165-221 | the listing has one entry per message of the conversation, and only those |
| Conversations.ListedAttachments | src/routes/conversations.ts:173-216 | each listed message carries exactly the conversation's image and file rows linked to it |
| Conversations.ListedAnnotation | src/routes/conversations.ts:202-217 | a listed message's annotation is its last annotation row, or null when it has none |
| Conversations.ServeImage | src/routes/conversations.ts:6-25 | serving fails with "Image not found" exactly when no row has the id and with "Image file missing" exactly when its object is gone; otherwise it returns the object with the row's type and immutable caching |
| Conversations.Unsupported | src/routes/conversations.ts:239 | the type error starts with "Unsupported image type: " |
| Conversations.ImageTooLarge | src/routes/conversations.ts:242 | the size error starts with "Image too large (" |
| Conversations.ImageKey | src/routes/conversations.ts:245-247 | the image key is `<conversation>/<image id>.<ext>`, where the extension comes from the media type |
| Conversations.ImageKeyNamesType | src/routes/conversations.ts:245-247 | the extension of an image key maps back to the image's media type (see also src/utils.ts:5-8) |
| Conversations.UploadImage | src/routes/conversations.ts:224-270 | an image upload succeeds exactly when the conversation exists and the file is an allowed image of at most 5 MiB; it fails, writing nothing, with 404 for an unknown conversation and the matching message otherwise; success stores the object and an unlinked row |
| Conversations.UploadImageThenServe | src/routes/conversations.ts:6-25 | an image just uploaded is served back with its bytes and type |
| Auth.ArrayNumber | src/auth.ts:54 | an array `exp` compares as a number the way JavaScript converts it: an empty array is 0, an array of two or more is not a number, a one-number array is that number |
| Auth.TokenParts | src/auth.ts:37-38 | a token has parts exactly when splitting on `.` gives at least three pieces and the first three are non-empty |
| Auth.VerifyToken | src/auth.ts:35-62 | a token that verifies has three non-empty parts whose signature checks out |
| Auth.CreateToken | src/auth.ts:19-33 | a token is the URL-safe header, the URL-safe payload, and the URL-safe signature of those two joined by `.` |
| Auth.LoginClaims | src/auth.ts:71-75 | the login claims expire 30 days after the issue time, in whole seconds |
| Auth.HandleLogin | src/auth.ts:65-80 | login succeeds exactly when the body is an object whose `password` equals the configured non-empty password, and then returns a token for the login claims; failures are 400 or 401 |
| Auth.Authenticate | src/auth.ts:83-94 | a request passes exactly when it has a `Bearer ` header whose token verifies; a missing or wrong header is "Unauthorized" and every failure is 401 |
| Auth.CreatedTokenParts | src/auth.ts:19-38 | splitting a created token on `.` gives back its header, payload and signature |
| Auth.ExpiryBoundary | src/auth.ts:54 | a numeric `exp` lets the token through exactly when it is 0 or not before the current second |
| Auth.ArrayExpiry | src/auth.ts:54 | an array `exp` expires the token exactly when it converts to a number below the current second: `[]` counts as 0 and longer arrays never expire |
| Auth.ExpiryEdgeCases | src/auth.ts:54-61 | a payload without `exp` never expires, and a `null` payload throws and so fails |
| Auth.LoginClaimsExpiry | src/auth.ts:54-75 | a login token is unexpired exactly until 30 days after its issue second |
| Auth.IssuedTokenShape | src/auth.ts:19-38 | a token issued at login splits into exactly its three non-empty parts |
| Auth.IssuedPayload | src/auth.ts:19-53 | the payload decoded from an issued token is the payload that was encoded |
| Auth.IssuedTokenLifetime | src/auth.ts:19-80 | a token issued at login verifies exactly until 30 days after its issue second |
| Base64.ValueOfCharOf | src/auth.ts:8 | every six-bit value is encoded by a base64 character that decodes back to it |
| Base64.Btoa | src/auth.ts:8 | `btoa` output length is a multiple of 4 |
| Base64.EncodeUnpadded | src/auth.ts:8 | the unpadded encoding has the length base64 gives the input and uses only the base64 alphabet |
| Base64.BlockRoundTrip | src/auth.ts:8-15 | three bytes encode to four characters that decode back to the same three bytes |
| Base64.DecodeEncodeUnpadded | src/auth.ts:8-15 | decoding the unpadded encoding of any byte string gives it back |
| Base64.DecodeValidated | src/auth.ts:15 | after padding is removed, `atob` accepts exactly the base64 strings whose length is not 1 more than a multiple of 4 |
| Base64.AtobBtoa | src/auth.ts:8-15 | `atob(btoa(b))` is `b` for every byte string |
| Base64.AtobRejectsThreeEq | src/auth.ts:14-15 | three `=` of padding make `atob` throw |
| Base64.ToBase64Url | src/auth.ts:7-9 | the URL-safe encoding uses only `A-Z a-z 0-9 - _` and is as long as the unpadded encoding |
| Base64.ToBase64UrlIsMappedUnpadded | src/auth.ts:8 | replacing `+` and `/` and stripping the trailing `=` gives the unpadded encoding with the URL alphabet |
| Base64.ToBase64UrlAlphabet | src/auth.ts:8 | a URL-safe encoding contains no `+`, `/`, `=` or `.`, so it never splits a token |
| Base64.FromToBase64Url | src/auth.ts:7-16 | decoding the URL-safe encoding of any byte string gives it back |
| Base64.FromBase64UrlRejectsLengthOneMod4 | src/auth.ts:11-16 | a URL-safe string whose length is 1 more than a multiple of 4 cannot be decoded: `atob` throws |
| ModelDetector.FirstTruthy | src/model-detector.ts:11-15 | the first truthy candidate is returned, every candidate before it is falsy, and nothing is returned exactly when all are falsy |
| ModelDetector.ExtractModelFromBody | src/model-detector.ts:9-16 | the result is always truthy; a non-object body gives "unknown"; a truthy `model` wins, then a truthy `modelVersion` |
| ModelDetector.ExtractModelIsFirstTruthy | technical/worker/model-detector.js:25-38 | the extracted model is the first truthy field of `model`, `modelVersion`, `meta.model`, or "unknown" |
| ModelDetector.ExtractModelFromSse | src/model-detector.ts:19-34 | unparsable data and non-objects give "unknown"; outside a `message_start` event a truthy `model` is returned |
| ModelDetector.SseMessageStartModel | technical/worker/model-detector.js:53-55 | a `message_start` event yields the nested message's model |
| ModelDetector.DetectProvider | src/model-detector.ts:40-51 | the provider is one of the nine names, and "unknown" for an empty model |
| ModelDetector.AnyPrefix | src/model-detector.ts:43 | a rule matches exactly when the lower-cased model starts with one of its prefixes |
| ModelDetector.Classify | src/model-detector.ts:42-50 | the result is "unknown" or the provider of one of the rules |
| ModelDetector.ClassifyUnknown | src/model-detector.ts:50 | with named providers, classification gives "unknown" exactly when no rule matches |
| ModelDetector.RuleMatchFacts | src/model-detector.ts:42-49 | the rule table matches the program's prefixes, rule by rule |
| ModelDetector.DetectProviderIsFirstMatch | technical/worker/model-detector.js:79-98 | the provider is that of the first rule whose prefixes match the lower-cased model |
| ModelDetector.DetectProviderUnknown | src/model-detector.ts:50 | the provider is "unknown" exactly when no rule matches the lower-cased model |
| ModelDetector.DetectProviderCaseInsensitive | technical/worker/model-detector.js:80 | lower-casing the model first does not change its provider |
| ModelDetector.DateStripped | src/model-detector.ts:64-65 | the lazy group is the shortest prefix followed by a full date suffix, and there is none exactly when no split fits |
| ModelDetector.ModelFamily | src/model-detector.ts:58-67 | "opus", "sonnet", "haiku" in that order of precedence when the lower-cased model contains them; otherwise the lower-cased name with its `-YYYY-MM-DD` or `-YYYYMMDD` suffix stripped (the shortest prefix the lazy group allows), and without a date suffix the model itself, or "unknown" when empty; never empty |
| ModelDetector.ModelFamilyClaudeExamples | technical/worker/model-detector.js:103-106 | the documented examples: `claude-opus-4-6` is opus, `claude-sonnet-4-20250514` is sonnet, a dated haiku is haiku |
| ModelDetector.ModelFamilyDatedExample | technical/worker/model-detector.js:124-127 | `gpt-4o-2024-08-06` loses its date suffix and becomes `gpt-4o` |
| ModelDetector.ModelFamilyUndatedExamples | technical/worker/model-detector.js:108-129 | an undated model is returned unchanged, and the empty model is "unknown" |
| ModelDetector.LogModelChange | src/model-detector.ts:140-157 | the new change comes first with both models, the time and the family note, followed by at most 19 older entries |
| ModelDetector.TrackModel | src/model-detector.ts:104-138 | the current model is replaced; the family's counters grow by one request and the usage; other families are unchanged; a change of model is logged and an unchanged model logs nothing |
| ModelDetector.TrackModelKeepsLogBounded | technical/worker/model-detector.js:198-201 | any number of tracked responses keeps the change log at 20 entries or fewer |
| ModelDetector.TrackSameModelTwice | technical/worker/model-detector.js:174-176 | tracking the same model twice logs nothing new and counts two requests |
| ModelDetector.GetModelStatus | src/model-detector.ts:160-171 | the placeholder when nothing is tracked, and the first five changes (all of them when fewer) |
| ModelDetector.ChangeShowsInStatus | src/model-detector.ts:135-170 | after a model change, the status's most recent change is from the old model to the new one |
| Queue.Selected | src/queue.ts:31-40 | at most twenty conversations, each eligible, and all eligible ones when there are no more than twenty |
| Queue.Ids | src/queue.ts:44-48 | one id per selected conversation, in order |
| Queue.Fanout | src/queue.ts:42-51 | one job per id is appended to the outbox, in order, and nothing else changes |
| Queue.SummaryCandidates | src/queue.ts:31-40 | at most twenty ids, each of a conversation with a message newer than its last summary and at least four messages |
| Queue.SummarizeBatchSelects | src/queue.ts:30-53 | a `summarize_batch` run queues at most twenty `summarize_conversation` jobs, each for a conversation due for a summary |
| Queue.ArchiveCandidates | src/queue.ts:103-116 | at most twenty ids, each of an unpinned, unarchived conversation with messages, none newer than the cut-off |
| Queue.ArchiveBatchSelects | src/queue.ts:101-129 | an `archive_batch` run queues at most twenty `archive_conversation` jobs, each for an archivable conversation, and changes nothing else |
| Queue.EmptySelectionSendsNothing | src/queue.ts:118 | when no conversation is archivable, no batch is sent |
| Queue.MaxVersion | src/queue.ts:70-74 | the page's highest version number, or 0 when it has none |
| Queue.NextVersion | src/queue.ts:75 | the new number is above every version of the page and exactly one above the highest |
| Queue.NextVersionAbove | src/queue.ts:75 | every existing version of the page is numbered below the new one |
| Queue.FirstVersionIsOne | src/queue.ts:75 | a page without versions gets version 1 |
| Queue.PageVersions | src/queue.ts:93 | exactly the versions of the page |
| Queue.PruneVersions | src/queue.ts:91-97 | a version stays exactly when it belongs to another page or is among the page's fifty newest |
| Queue.SortedPage | src/queue.ts:93 | the page's versions sorted newest first hold exactly the page's versions |
| Queue.PruneKeepsNewest | src/queue.ts:90-97 | every kept version of the page is numbered at least as high as every pruned one |
| Queue.PruneKeepsOthers | src/queue.ts:92 | other pages' versions are never pruned, and a page with at most fifty versions loses none |
| Queue.PruneBoundsPage | src/queue.ts:90-95 | after pruning, a page keeps at most fifty versions, the bound the pruning exists for |
| Queue.Snapshot | src/queue.ts:66-99 | the content is stored under `wiki-versions/{page}/{editedAt}.md`, and only the bucket and the version table change |
| Queue.SnapshotKeepsNewVersion | src/queue.ts:75-97 | the new version row, numbered after the page's highest, survives the pruning that follows it |
| Queue.BackupDocument | src/queue.ts:138-166 | one key per table of the fixed list |
| Queue.BackupHoldsEveryTable | src/queue.ts:156-165 | each table's key holds its rows, and an empty array when its read throws |
| Queue.Least | src/queue.ts:177 | the least key of a non-empty set in code-point order |
| Queue.InKeyOrder | src/queue.ts:177 | the listing holds every key once |
| Queue.BackupKeys | src/queue.ts:177 | exactly the keys under `backups/d1-`, each once |
| Queue.BackupsListed | src/queue.ts:177 | the listing holds exactly the stored backups, each once, with their upload times |
| Queue.Expired | src/queue.ts:178-182 | nothing when there are at most ten backups, otherwise all but ten |
| Queue.Kept | src/queue.ts:178-182 | ten backups stay, or all of them when there are fewer |
| Queue.PruneBackups | src/queue.ts:183 | exactly the expired keys are removed and every other object is untouched |
| Queue.ExpiredAreOldest | src/queue.ts:180 | every deleted backup was uploaded no later than every kept one |
| Queue.ExpiredAndKept | src/queue.ts:179-182 | the deleted and the kept backups together are the listing, as a multiset |
| Queue.PruneLeavesNewestTen | src/queue.ts:176-184 | the ten newest backups and every non-backup object survive pruning |
| Queue.Backup | src/queue.ts:137-186 | a backup changes nothing but the files bucket |
| Queue.Process | src/queue.ts:6-192 | an unknown job changes nothing and succeeds; a gossip job appends one row with its worker's name and emoji |
| Queue.HandleQueue | src/queue.ts:194-211 | one verdict per message |
| Queue.VerdictsExtend | src/queue.ts:198 | messages are settled in order: the first verdicts do not depend on later messages |
| Queue.VerdictOfEach | src/queue.ts:199-209 | a message is acknowledged exactly when its job returns on the store the earlier jobs left, and retried otherwise |
| Queue.FailureDoesNotStopBatch | src/queue.ts:202-208 | a job that throws leaves the store to the next message as it found it, and the batch goes on |
| Queue.UnknownJobAcked | src/queue.ts:188-190 | a message of an unknown kind is acknowledged, never retried |
| SystemPrompt.Truncate | src/routes/claude.ts:241-243 | content within the limit is kept whole; longer content is its first `max` characters followed by the cut marker |
| SystemPrompt.PinnedText | src/routes/claude.ts:241-243 | a pinned page's text never exceeds 4000 characters plus the marker |
| SystemPrompt.PinnedLoop | src/routes/claude.ts:239-246 | pages are taken in order, at most one block per page, each under the per-page bound |
| SystemPrompt.PinnedStep | src/routes/claude.ts:240-245 | below the budget, the next page is added and its length counted |
| SystemPrompt.PinnedBudgetBeforeEach | src/routes/claude.ts:240 | every added page found the running total below 12000 |
| SystemPrompt.PinnedStopsAtBudget | src/routes/claude.ts:240 | pages are left out only once the running total has reached 12000 |
| SystemPrompt.PinnedTotalBound | src/routes/claude.ts:235-246 | the pinned text totals less than 12000 plus one page's bound |
| SystemPrompt.RunLength | src/routes/claude.ts:255 | the `[^\]]+` run stops at the first `]` |
| SystemPrompt.WikiLinks | src/routes/claude.ts:255 | every captured link is non-empty and holds no `]` |
| SystemPrompt.WikiLinkOfBrackets | src/routes/claude.ts:255 | `[[t]]` at the front yields `t` as the first link |
| SystemPrompt.FindLinked | src/routes/claude.ts:264-266 | a found page is in the store and matches the trimmed title or the slugged title, ignoring case |
| SystemPrompt.FindLinkedIsFirstMatch | src/routes/claude.ts:264-266 | the `LIMIT 1` lookup finds nothing exactly when no page matches the link, and otherwise the first matching page in table order |
| SystemPrompt.Lookups | src/routes/claude.ts:261-266 | one lookup per link title, in order |
| SystemPrompt.LinkText | src/routes/claude.ts:270-272 | a linked page's text never exceeds 4000 characters plus the marker |
| SystemPrompt.LinkLoop | src/routes/claude.ts:261-279 | every added page was found, is not pinned, and is under the per-page bound |
| SystemPrompt.LinkStep | src/routes/claude.ts:267-275 | below the budget, a found unpinned page is added and counted, and anything else is skipped |
| SystemPrompt.LinkTotalBound | src/routes/claude.ts:259-274 | the linked text totals less than 12000 plus one page's bound |
| SystemPrompt.LinkLoopUnderBudget | src/routes/claude.ts:262 | when the budget is never reached, every found unpinned page is added |
| SystemPrompt.JoinPins | src/routes/claude.ts:228-232 | every pinned page comes from the wiki pages table |
| SystemPrompt.PageIds | src/routes/claude.ts:252 | exactly the pinned pages' ids |
| SystemPrompt.LinkIds | src/routes/claude.ts:256-268 | exactly the linked pages' ids |
| SystemPrompt.Preview | src/routes/claude.ts:211-219 | "..." is appended exactly when the 300-character prefix is full, including a message of exactly 300 characters that was not cut |
| SystemPrompt.JoinAnnotations | src/routes/claude.ts:210-221 | at most one line per annotation |
| SystemPrompt.AutoLines | src/routes/claude.ts:299-301 | one line per discovered page |
| SystemPrompt.DiscoveryQueryReadsBack | src/routes/claude.ts:289-291 | the query is the message's first 100 characters, quoted with doubled quotes when the message holds a special character |
| SystemPrompt.Fresh | src/routes/claude.ts:297 | exactly the discovered pages that are neither pinned nor linked |
| SystemPrompt.KeepInOrder | src/routes/claude.ts:170-312 | keeping some of the ranked candidates keeps them in rank order |
| SystemPrompt.KeepOrigin | src/routes/claude.ts:170-312 | every kept section is a candidate whose condition held |
| SystemPrompt.Gather | src/routes/claude.ts:228-308 | linked pages are never pinned ones and come from the wiki; discovered pages are neither pinned nor linked; at most five links are looked up |
| SystemPrompt.Candidates | src/routes/claude.ts:188-312 | seven optional sections in the handler's order, the custom prompt last |
| SystemPrompt.Shown | src/routes/claude.ts:310 | the custom prompt is shown exactly when it is non-empty |
| SystemPrompt.SectionsInOrder | src/routes/claude.ts:170-314 | sections appear in the handler's order, the time first, and the custom prompt last exactly when it is set |
| SystemPrompt.TimeLine | src/routes/claude.ts:184-186 | the first section opens with `[Current time: ` and the formatted time |
| SystemPrompt.OpensWithTime | src/routes/claude.ts:184-314 | the joined prompt starts with the time line |
| SystemPrompt.ClosesWithCustom | src/routes/claude.ts:310-314 | the joined prompt ends with the custom section |
| SystemPrompt.PromptEnds | src/routes/claude.ts:164-315 | the prompt opens with the current time and, when the conversation has its own system prompt, ends with it |
| Ancestry.Projects | src/routes/claude.ts:47 | one context entry per walked row, keeping its id, role, content and time |
| Ancestry.Reverse | src/routes/claude.ts:51 | the chain reversed, so the root comes first |
| Ancestry.IdMap | src/routes/claude.ts:36 | every row's id is a key, and every value is one of the rows under its own id |
| Ancestry.IdMapLastWins | src/routes/claude.ts:36 | for a repeated id, the map keeps the last row, as `new Map` does |
| Ancestry.Walk | src/routes/claude.ts:40-49 | at most `limit` rows, starting at the leaf, each stored and none already visited |
| Ancestry.WalkLinked | src/routes/claude.ts:48 | each walked row is the parent of the one before it |
| Ancestry.WalkDistinct | src/routes/claude.ts:41-44 | no row is walked twice, so a cycle in the parent links ends the walk |
| Ancestry.WalkStops | src/routes/claude.ts:42-46 | the walk ends only at the limit, at a missing parent, at a row already seen, or at an unknown id |
| Ancestry.ReachedRowIsStored | src/routes/claude.ts:31-34 | every message in the chain is a row of the conversation |
| Ancestry.UnknownLeaf | src/routes/claude.ts:45-46 | a leaf not in the conversation gives an empty chain |
| Ancestry.ChainDistinct | src/routes/claude.ts:41-44 | the chain never repeats a message |
| Ancestry.ChainLinked | src/routes/claude.ts:48-51 | read root first, each message is the parent of the next |
| Ancestry.ChainStored | src/routes/claude.ts:31-34 | the chain's messages are stored in the conversation |
| Ancestry.Climb | src/routes/claude.ts:39-49 | the loop pushes exactly the rows of the recursive walk |
| Ancestry.GetAncestorChain | src/routes/claude.ts:25-53 | the chain is the walk reversed, no longer than the limit, and ends with the leaf when non-empty |
| StreamRelay.FindSep | src/routes/claude.ts:371 | the first blank-line separator, or none when the text has none |
| StreamRelay.Blocks | src/routes/claude.ts:371-372 | the pieces of `split("\n\n")`: at least one, the last without a separator, the others without one either |
| StreamRelay.JoinBlocks | src/routes/claude.ts:371 | joining the pieces with blank lines gives the text back |
| StreamRelay.Feed | src/routes/claude.ts:370-372 | the kept buffer never holds a separator |
| StreamRelay.FramingIsSplit | src/routes/claude.ts:366-374 | after any chunks, the handled blocks and the buffer are exactly the split of everything received |
| StreamRelay.ChunkingIrrelevant | src/routes/claude.ts:366-374 | how the same text is chunked does not change the blocks handled or the buffer kept |
| StreamRelay.TrailingTextKept | src/routes/claude.ts:372 | text without a separator stays in the buffer and no block is handled |
| StreamRelay.LastData | src/routes/claude.ts:382 | a block has no data exactly when none of its lines starts with `data: ` |
| StreamRelay.LastDataWins | src/routes/claude.ts:380-383 | the block's data is its last `data: ` line |
| StreamRelay.LastEventWins | src/routes/claude.ts:380-383 | the block's type is its last `event: ` line, trimmed |
| StreamRelay.DeltaText | src/routes/claude.ts:393 | a delta carries non-empty text |
| StreamRelay.Interpret | src/routes/claude.ts:385-400 | a detected model is never replaced; the text grows by exactly the new delta, or not at all |
| StreamRelay.Step | src/routes/claude.ts:374-401 | blank blocks are skipped; otherwise as for one event |
| StreamRelay.TextIsDeltas | src/routes/claude.ts:394-396 | the saved text is the concatenation of the deltas sent to the client, in order |
| StreamRelay.ModelSticks | src/routes/claude.ts:390 | once detected, the model is kept for the rest of the stream |
| StreamRelay.SkippedBlocksIgnored | src/routes/claude.ts:375 | blank blocks change nothing |
| StreamRelay.RelayStream | src/routes/claude.ts:358-402 | the accumulated text equals what was relayed |
| StreamRelay.RelayIsOfText | src/routes/claude.ts:366-402 | the relay depends only on the received text: every complete block, in order, and never the trailing partial one |
| Outgoing.UserIds | src/routes/claude.ts:71-72 | at most one id per context message |
| Outgoing.LastN | src/routes/claude.ts:73 | the last `n` elements, or all when there are fewer |
| Outgoing.RecentUserIds | src/routes/claude.ts:71-74 | at most five ids |
| Outgoing.UserIdsOrigin | src/routes/claude.ts:71-74 | every listed id is that of a user message, found in order |
| Outgoing.RecentUserIdsMeaning | src/routes/claude.ts:71-74 | an id is recent exactly when it is a user message followed by fewer than five later user messages |
| Outgoing.RowsFor | src/routes/claude.ts:79-102 | a message's attachments are exactly the rows linked to it, when it is recent, and none otherwise |
| Outgoing.ImageParts | src/routes/claude.ts:115-126 | image rows give image parts only |
| Outgoing.FileParts | src/routes/claude.ts:128-151 | file rows never give image parts |
| Outgoing.FilePartsAreSentRows | src/routes/claude.ts:130-149 | the file parts are those of the rows that are supported, stored and of a sendable kind, in order |
| Outgoing.NativeNonPdfDropped | src/routes/claude.ts:136-149 | a file judged native by its `.pdf` name but stored as `application/octet-stream` is silently dropped |
| Outgoing.BuildClaudeMessages | src/routes/claude.ts:66-161 | one outgoing message per context message with the same role; a message outside the recent five user messages is sent as plain text |
| Outgoing.MessageTextLast | src/routes/claude.ts:112-157 | a message is plain text, or parts with images first and its own text last |
| Outgoing.PartsIffAttached | src/routes/claude.ts:110-112 | a message is sent as parts exactly when it is a recent user message with an image or file row |
| Chat.Request | src/routes/claude.ts:336-343 | the request carries the conversation's model and temperature, 4096 tokens, the messages, and a `system` field exactly when the prompt is non-empty |
| Chat.DeltaEvents | src/routes/claude.ts:393-396 | one delta event per accumulated delta, in order |
| Chat.WrittenDeltas | src/routes/claude.ts:394-395 | the text the client reassembles from the delta events is the accumulated text |
| Chat.WrittenThenClose | src/routes/claude.ts:434-442 | the closing `done` or `error` event adds nothing to the reassembled text |
| Chat.AutoTitle | src/routes/claude.ts:421-424 | a message of up to 50 characters is the title; a longer one gives its first 50 characters followed by "..." |
| Chat.Touch | src/routes/claude.ts:420-432 | only the conversation is touched; with a title hint for a one-message context it is renamed only while titled "New Chat", otherwise just its update time is set |
| Chat.Tracked | src/routes/claude.ts:414-417 | a detected model is tracked, an undetected one changes nothing |
| Chat.Finish | src/routes/claude.ts:404-432 | the assistant row and its index row are appended and the conversation touched; nothing else changes |
| Chat.FailureWritesNothing | src/routes/claude.ts:346-443 | a refused request or a stream failing while read writes nothing, and a failed stream ends with an error event after the relayed deltas |
| Chat.ReplyIsWhatWasStreamed | src/routes/claude.ts:404-435 | a completed stream adds exactly one assistant row under the triggering message, holding exactly the text the client was sent, and ends with `done` |
| Chat.NoHintKeepsTitles | src/routes/claude.ts:420-586 | without a title hint no conversation is renamed |
| Chat.Latest | src/routes/claude.ts:496-498 | the newest message exists exactly when there are messages |
| Chat.LatestIsGreatest | src/routes/claude.ts:497 | the chosen message is created no earlier than every other |
| Chat.DefaultParentIsLatest | src/routes/claude.ts:493-500 | without a given parent, the parent is the conversation's newest message, or none when it has none |
| Chat.LinkUploads | src/routes/claude.ts:513-531 | every listed upload of the conversation is linked to the new message; everything else is unchanged |
| Chat.SaveUser | src/routes/claude.ts:502-531 | the user row and its index row are appended, and only the message, index and upload tables change |
| Chat.Conclude | src/routes/claude.ts:477-490 | a rejected request writes nothing and replies with its status and message |
| Chat.PrepareSend | src/routes/claude.ts:469-543 | blank content is a 400, an unknown conversation a 404; otherwise the user message is saved first and the context length passed for the title |
| Chat.ReadyKeepsSaved | src/routes/claude.ts:404-407 | a reply adds at most one row after what was saved, under the triggering message |
| Chat.UserMessageSavedFirst | src/routes/claude.ts:502-543 | sending saves the user row before anything else, and any reply is its child |
| Chat.FirstMessageNamesConversation | src/routes/claude.ts:419-543 | the first message of a "New Chat" conversation names it, once the reply completes |
| Chat.LongContextKeepsTitle | src/routes/claude.ts:420 | a context of more than one message never renames |
| Chat.FindInConversation | src/routes/claude.ts:555-558 | finds the message with this id in this conversation, and nothing exactly when there is none |
| Chat.PrepareRegenerate | src/routes/claude.ts:547-586 | a missing id is a 400, an unknown message a 404, a root message a 400, a missing parent row a 404 "Parent user message not found", a missing conversation a 404 "Conversation not found"; passing every guard is `Ready` with that conversation, nothing saved, no title hint, and the parent as the leaf with its content |
| Chat.RegenerateAddsSibling | src/routes/claude.ts:547-587 | regenerating renames nothing and adds at most one row, a new answer under the original's parent |
| Jobs.TypeTag | src/types.ts:66-75 | an unknown job keeps its own tag |
| Jobs.KnownJobsHaveKnownTags | src/types.ts:66-75 | every job of the union carries one of the nine tags |
| Sorting.SortBy | src/queue.ts:180 | the sorted sequence is a permutation of the input |
| Sorting.SortBySorted | src/queue.ts:180 | under a total, transitive order the result is sorted |
| Sorting.SortBySortedIsSame | src/queue.ts:180 | an already sorted sequence is unchanged, as a stable sort leaves it |

## Left out

String lengths. JavaScript's `.length`, `.slice` and `substr`/`SUBSTR` count UTF-16 code units. The model counts Unicode scalar values, and the two agree on every string without characters outside the Basic Multilingual Plane.
- Chat.AutoTitle: measures the 50-character title cut in scalar values, not UTF-16 units (claude.ts:421-423). A title of 26 emoji is cut by the program and kept whole by the model.
- SystemPrompt.Preview: SQLite's `SUBSTR` counts characters, but the program's `>= 300` test then counts UTF-16 units, and the model counts scalar values for both (claude.ts:211-219). For example, a message of 150 emoji gets "..." in the program and not here.
- SystemPrompt.Truncate: the 4000-character cut of pinned and linked pages counts scalar values (claude.ts:241, 270).
- Search.Search: the two-character minimum counts scalar values, so a single astral character is rejected here and accepted by the program (search.ts:12).
- WikiMarkdown.Summary: the 200-character summary cut counts scalar values (wiki.ts:138).
- ExportMarkdown.ExportConversation: the stored `size` is the content's length in scalar values (export.ts:243).
- Queue.Snapshot: the version's `size_bytes` is the content's length in scalar values (queue.ts:86).

Case mapping. `toLowerCase` is modelled on ASCII letters only. Non-ASCII upper-case letters ("Ü", "Σ") are left unchanged.
- Text.Lower: maps only `A`–`Z`. This is the one definition that every member below inherits.
- Tags.CreateTag: "Über" and "über" are different names here, but the same tag to the program. The same applies to Tags.NormalName and the tag handling of the wiki routes.
- Utils.Slugify: the program lower-cases before the `[^\w\s-]` filter. A few non-ASCII capitals become ASCII letters that survive the filter (the Kelvin sign becomes `k`). Here they are dropped. The proved properties of the output still hold, but its text can differ from the program's.
- ModelDetector.DetectProvider: provider classification of a name with non-ASCII capitals. The same applies to ModelDetector.ModelFamily.
- Utils.FallbackExt: extensions with non-ASCII capitals keep them. The same applies to Utils.ExtFromFilename.

Storage failures. D1 and R2 calls are modelled as always succeeding, except where a failure path is listed below. A failed `await` in the middle of a handler would leave the writes before it in place and throw.
- Chat.Respond: only a failure of the stream read loop is modelled (an `error` event, nothing written). A D1 failure after the assistant row is inserted (claude.ts:405-443) would leave that row and send an `error` event. The same applies to Chat.Finish.
- Search.MessageHits: the FTS `MATCH` query is total here. The program lets an FTS syntax error escape as a 500 (search.ts:42).
- Wiki.BatchCreate: the pages are written one by one. A write failing mid-batch would leave the earlier pages in place, and this is not modelled (wiki.ts:489-525).
- Queue.Process: a job that throws is modelled as having written nothing (its result is `Err` and the store before it is kept). In the program, a job that throws after some writes keeps them. The same applies to Queue.FailureDoesNotStopBatch.
- Wiki.UpdatePage: the UPDATE and the FTS re-sync are separate statements. A failure between them is not modelled.

JSON `null` versus an absent field. Request bodies are decoded into `Option` fields, so an explicit `null` and a missing key are both `None`.
- Conversations.Update: `{"system_prompt": null}` passes the program's `!== undefined` test and writes NULL (conversations.ts:93-104). Here it counts as not supplied, and can produce "Nothing to update".
- Wiki.UpdatePage: `{"summary": null}` (and likewise `category_id` and `source_url`) writes NULL in the program (wiki.ts:259-262). Here it changes nothing.

Malformed request bodies. Each handler calls `await request.json()` outside any `try`, and then reads string fields such as `body.name.trim()`. A body that is not JSON, or a field of the wrong JSON type, throws, and the router turns the exception into a 500 "Internal error" (index.ts:61-66). The model's request records hold already-decoded `Option<string>` fields, so that path has no counterpart here.
- Conversations.Create: a non-JSON body gives a 500 in the program (conversations.ts:63). The same applies to Conversations.Update (conversations.ts:82).
- Tags.CreateTag: a non-JSON body, or a non-string `name`, gives a 500 (tags.ts:24-27). The same applies to Tags.AssignTag (tags.ts:52), Tags.Annotate (tags.ts:95) and Tags.Relabel (tags.ts:146).
- Wiki.CreatePage: a non-JSON body, or a non-string `title`, gives a 500 (wiki.ts:167-173). The same applies to Wiki.UpdatePage (wiki.ts:220, 246) and Wiki.BatchCreate (wiki.ts:447, 462).
- Chat.PrepareSend: a non-JSON body, or a non-string `content`, gives a 500 (claude.ts:471-477). The same applies to Chat.PrepareRegenerate (claude.ts:549).

Decoding of stored and streamed JSON. Values whose JSON type the program never writes are read more strictly here than the program reads them.
- Restore.StrField (and Restore.OrNull): a number or boolean where the archive has a string is bound by D1 as it is (archive.ts:85, 122). Here it fails like a missing field, and the whole restore fails with it. Restore.DecodeColumns and Restore.AnnotationOf inherit this.
- Restore.LinkIds: an `images` or `files` value that is an object with a positive `length` makes the program's `for … of` throw "not iterable" (archive.ts:96-97). Here it links nothing and the restore goes on.
- Restore.BodyText: the archive object is read with `obj.text()`, which also decodes a bytes body (archive.ts:67). Here only a text body is read, and a bytes body fails the restore. Archives are always written as text.
- Export.VibesJson: a vibes column that parses to something other than an array of strings (an object, or `[1]`) is passed through by the program as parsed (export.ts:188-191). The model's vibes are either a list of strings or malformed, so such text has no counterpart here. The same applies to ExportMarkdown.VibeItems.
- StreamRelay.DeltaText: a truthy `delta.text` that is not a string (a number, say) is appended by the program in its string form (claude.ts:393-394). Here it is dropped.

YAML reading. The front matter is read back with a model of a YAML 1.2 double-quoted scalar, not with a full YAML parser.
- ExportMarkdown.FrontMatterTitle: the read-back is promised only for text without a backslash or a line break. For other text, the model states two concrete losses, EscapeQuotesLosesBackslash and EscapeQuotesFoldsLineBreak, and not a general rule. The same applies to ExportMarkdown.FrontMatterSummary and ExportMarkdown.QuotedAsWrittenReadsBack.
- ExportMarkdown.Unquote: the indentation YAML requires of continuation lines is not checked, and a continuation line that starts with `---` or `...` does not end the document here. Only the escapes `\"`, `\\`, `\/`, `\n`, `\t`, `\r`, `\0` and an escaped line break are read. Any other escape is an error here, although YAML defines more.

Other behaviour not modelled:
- Foreign-key cascades (`ON DELETE CASCADE`): the model applies two of them.
  - Wiki.DeletePage removes the page's version rows together with the page, as the cascade does (wiki.ts:357-363).
  - Archive.CascadeWithoutDetach states that deleting messages would take their linked attachment rows with them.
  - Other cascade effects of the schema are not modelled. A deleted conversation keeps its tag links and annotations here (conversations.ts:130-147). A deleted wiki page keeps its tag links and pins. Tags.DeleteTag keeps the deleted tag's conversation links.
- Floating point: temperature is a `real` and is never computed with. `toFixed`, `Math.round` and token estimates are parameters.
- Clock and ids: `Date.now`, `datetime('now')`, ISO strings and `crypto.randomUUID` are parameters (`Store.Instant`, fresh-id functions). ISO time formatting (`isoTime`, `formatTimestamp`) is not modelled.
- HMAC signing and verification (`crypto.subtle`) are an oracle. Only the token's structure, expiry and lifetime are modelled.
- Gossip: the gossip jobs sent by the stream relay, conversation create/delete, uploads and handoff are fire-and-forget announcements of free text, and are not modelled. Archive's and restore's gossip jobs are modelled.
- The summarize and water-cooler jobs, and the provider call, are oracles. The handoff-notes route (claude.ts:590-677) is one LLM call and is left out.
- Binary base64 of attachment bytes (`toBase64`, claude.ts:56-63): the model sends the stored object body itself.
- Decoding errors: `decodeURIComponent` failures are an error value. The text of V8's `URIError` message is not modelled.
- Wiki routes not modelled:
  - category CRUD (wiki.ts:12-57);
  - page list and page get with backlinks (wiki.ts:59-119);
  - version list, get and restore (wiki.ts:284-352);
  - page-tag add and remove (wiki.ts:375-400);
  - conversation wiki pins (wiki.ts:403-431);
  - generate-wiki (wiki.ts:434-442), which enqueues an LLM job.
- The conversation pin toggle (archive.ts:173-180), a single UPDATE of one flag.
- The streaming example in the closing comment block of `technical/worker/model-detector.js` is documentation, not code.
- Concurrency: `TransformStream` piping, `ctx.waitUntil` lifetimes, and races between concurrent requests (two archives of one conversation, say). The model is sequential.

## Findings

| source | as written | input that shows it | evidently intended | confidence | as-written member | corrected member |
|---|---|---|---|---|---|---|
| src/export.ts:122 | the Markdown front matter puts the title (and, at line 135, the summary) in a double-quoted YAML scalar and escapes only `"` | the title `\n` (a backslash then `n`) is written as `title: "\n"`, which YAML reads back as a line break | escape `\` as well as `"`, so the scalar reads back as the title | medium; not executed | ExportMarkdown.EscapeQuotesLosesBackslash | ExportMarkdown.QuotedRoundTrip |
| src/export.ts:135 | the summary (and, at line 122, the title) is put in a double-quoted YAML scalar with its line breaks left raw | an auto-title cut from a message whose first line is `a` and second `b` is written across two lines, and YAML folds the break, reading `a b` | escape line breaks as `\n` and `\r`, so the scalar reads back as the text | medium; not executed | ExportMarkdown.EscapeQuotesFoldsLineBreak | ExportMarkdown.QuotedRoundTrip |

`ExportMarkdown.GenerateMarkdown` renders the front matter as the program writes it, with `EscapeQuotes`. The YAML reader of the model, `ExportMarkdown.ReadQuoted`, folds a raw line break inside a double-quoted scalar as section 7.3.1 of YAML 1.2 does: the break and the white space around it become one space, or one line feed for each empty line that follows. `ExportMarkdown.FrontMatterTitle` and `ExportMarkdown.FrontMatterSummary` state that the front matter reads back correctly whenever the text has no backslash and no line break. `ExportMarkdown.QuoteYaml` is the corrected quoting, which also escapes `\` and line breaks. `ExportMarkdown.QuotedRoundTrip` proves that it reads back as the original for every string.

=== FILE: ancestry.dfy ===
/** The context of a reply: the walk from the triggering message up the
    `parent_message_id` pointers to the root of its branch
    (`getAncestorChain`). The walk keeps a visited set and a length limit,
    so it halts whatever the stored pointers look like, cycles included. */
module Ancestry {
  import opened Wrappers
  import opened Store
  import opened DistinctIds

  /** What the walk keeps of a row: the parent pointer is dropped. */
  datatype ContextMessage = ContextMessage(id: string, role: string, content: string, createdAt: string)

  function Project(m: Message): ContextMessage {
    ContextMessage(m.id, m.role, m.content, m.createdAt)
  }

  function Projects(ms: seq<Message>): (r: seq<ContextMessage>)
    ensures |r| == |ms|
    ensures forall i :: 0 <= i < |ms| ==> r[i] == Project(ms[i])
  {
    seq(|ms|, i requires 0 <= i < |ms| => Project(ms[i]))
  }

  function Reverse<T>(s: seq<T>): (r: seq<T>)
    ensures |r| == |s|
    ensures forall i :: 0 <= i < |s| ==> r[i] == s[|s| - 1 - i]
  {
    seq(|s|, i requires 0 <= i < |s| => s[|s| - 1 - i])
  }

  /** `new Map(rows.map(m => [m.id, m]))`: every id of the rows is a key,
      and a later row with the same id replaces an earlier one. */
  function IdMap(rows: seq<Message>): (r: map<string, Message>)
    ensures Keyed(r)
    ensures forall id | id in r :: r[id] in rows
    ensures forall i :: 0 <= i < |rows| ==> rows[i].id in r
    decreases |rows|
  {
    if |rows| == 0 then map[]
    else
      var last := rows[|rows| - 1];
      var front := rows[..|rows| - 1];
      assert forall i :: 0 <= i < |front| ==> front[i] == rows[i];
      IdMap(front)[last.id := last]
  }

  /** Every key maps to a row with that id, as `IdMap` builds it. */
  predicate Keyed(m: map<string, Message>) {
    forall id | id in m :: m[id].id == id
  }

  /** Of several rows with one id, the map keeps the last. */
  lemma {:induction false} IdMapLastWins(rows: seq<Message>, i: nat)
    requires i < |rows| && forall j :: i < j < |rows| ==> rows[j].id != rows[i].id
    ensures IdMap(rows)[rows[i].id] == rows[i]
    decreases |rows|
  {
    if i < |rows| - 1 {
      var front := rows[..|rows| - 1];
      assert front[i] == rows[i];
      IdMapLastWins(front, i);
    }
  }

  /** The walk as a recursive definition, leaf first: from `current`,
      with the ids in `visited` already seen and `room` more rows
      allowed. It stops at a null or empty pointer, when the room is used
      up, at an id seen before, and at an id that is not a row of the
      conversation. */
  function Walk(m: map<string, Message>, current: Option<string>, visited: set<string>, room: int): (r: seq<Message>)
    requires Keyed(m)
    ensures |r| <= if room < 0 then 0 else room
    ensures |r| > 0 ==> current.Some? && r[0].id == current.value
    ensures forall i :: 0 <= i < |r| ==> r[i].id in m && m[r[i].id] == r[i] && r[i].id !in visited
    decreases m.Keys - visited
  {
    if !IsSet(current) || room <= 0 || current.value in visited || current.value !in m then []
    else
      var x := current.value;
      assert m.Keys - (visited + {x}) < m.Keys - visited;
      var rest := Walk(m, m[x].parent, visited + {x}, room - 1);
      assert forall i :: 0 < i <= |rest| ==> ([m[x]] + rest)[i] == rest[i - 1];
      [m[x]] + rest
  }

  /** Each row's parent pointer names the row after it. */
  ghost predicate ParentLinked(r: seq<Message>) {
    forall i, j :: 0 <= i < j < |r| && j == i + 1 ==> r[i].parent == Some(r[j].id)
  }

  /** Every row the walk reaches is the parent of the row before it. */
  lemma {:induction false} WalkLinked(m: map<string, Message>, current: Option<string>, visited: set<string>, room: int)
    requires Keyed(m)
    ensures ParentLinked(Walk(m, current, visited, room))
    decreases m.Keys - visited
  {
    if !(!IsSet(current) || room <= 0 || current.value in visited || current.value !in m) {
      var x := current.value;
      var rest := Walk(m, m[x].parent, visited + {x}, room - 1);
      WalkLinked(m, m[x].parent, visited + {x}, room - 1);
      assert forall i :: 0 < i <= |rest| ==> ([m[x]] + rest)[i] == rest[i - 1];
      if |rest| > 0 {
        assert rest[0].id == m[x].parent.value;
      }
    }
  }

  /** No id is reached twice. */
  lemma {:induction false} WalkDistinct(m: map<string, Message>, current: Option<string>, visited: set<string>, room: int)
    requires Keyed(m)
    ensures DistinctMessageIds(Walk(m, current, visited, room))
    decreases m.Keys - visited
  {
    if !(!IsSet(current) || room <= 0 || current.value in visited || current.value !in m) {
      var x := current.value;
      var rest := Walk(m, m[x].parent, visited + {x}, room - 1);
      WalkDistinct(m, m[x].parent, visited + {x}, room - 1);
      var r := [m[x]] + rest;
      forall i, j | 0 <= i < j < |r| ensures r[i].id != r[j].id {
        assert r[j] == rest[j - 1];
        if i > 0 {
          assert r[i] == rest[i - 1];
        }
      }
    }
  }

  /** A walk `r` given `room` that ended short of it stopped at a null or
      empty parent pointer, a parent that is not a key of `m`, or a parent
      already seen. */
  predicate StopsForAReason(m: map<string, Message>, visited: set<string>, r: seq<Message>, room: int) {
    0 < |r| < room ==>
      var p := r[|r| - 1].parent;
      !IsSet(p) || p.value !in m || p.value in visited || exists i :: 0 <= i < |r| && r[i].id == p.value
  }

  /** The walk ends early only for a reason: the last row reached has a
      null or empty parent pointer, a parent that is not a row of the
      conversation, or a parent already seen (a cycle). */
  lemma {:induction false} WalkStops(m: map<string, Message>, current: Option<string>, visited: set<string>, room: int)
    requires Keyed(m)
    ensures StopsForAReason(m, visited, Walk(m, current, visited, room), room)
    decreases m.Keys - visited
  {
    if !(!IsSet(current) || room <= 0 || current.value in visited || current.value !in m) {
      var x := current.value;
      var rest := Walk(m, m[x].parent, visited + {x}, room - 1);
      WalkStops(m, m[x].parent, visited + {x}, room - 1);
      var r := Walk(m, current, visited, room);
      if 0 < |rest| {
        assert r[|r| - 1] == rest[|rest| - 1];
        var p := rest[|rest| - 1].parent;
        if IsSet(p) && p.value in m && p.value in visited + {x} && p.value !in visited {
          assert r[0].id == p.value;
        }
        if IsSet(p) && exists i :: 0 <= i < |rest| && rest[i].id == p.value {
          var i :| 0 <= i < |rest| && rest[i].id == p.value;
          assert r[i + 1].id == p.value;
        }
      }
    }
  }

  /** The walk over the conversation's rows, leaf first. */
  function LeafFirst(rows: seq<Message>, conversationId: string, leaf: string, limit: int): seq<Message> {
    Walk(IdMap(MessagesOf(rows, conversationId)), Some(leaf), {}, limit)
  }

  /** The chain the handler returns: the walk reversed, root first, leaf
      last. */
  function Chain(rows: seq<Message>, conversationId: string, leaf: string, limit: int): seq<ContextMessage> {
    Reverse(Projects(LeafFirst(rows, conversationId, leaf, limit)))
  }

  /** A row the walk reaches is a row of the conversation. */
  lemma ReachedRowIsStored(rows: seq<Message>, conversationId: string, leaf: string, limit: int, i: nat)
    requires i < |LeafFirst(rows, conversationId, leaf, limit)|
    ensures var w := LeafFirst(rows, conversationId, leaf, limit)[i];
      exists k :: 0 <= k < |rows| && rows[k].conversationId == conversationId && rows[k].id == w.id
  {
    var w := LeafFirst(rows, conversationId, leaf, limit)[i];
    assert w in MessagesOf(rows, conversationId);
    var k :| 0 <= k < |rows| && rows[k] == w;
  }

  predicate DistinctContext(chain: seq<ContextMessage>) {
    forall i, j :: 0 <= i < j < |chain| ==> chain[i].id != chain[j].id
  }

  /** Each entry's stored row names the entry before it as its parent. */
  ghost predicate LinkedIn(m: map<string, Message>, chain: seq<ContextMessage>) {
    forall i, j :: 0 <= i < j < |chain| && j == i + 1 ==> chain[j].id in m && m[chain[j].id].parent == Some(chain[i].id)
  }

  /** Every entry is a row of the conversation. */
  predicate StoredIn(rows: seq<Message>, conversationId: string, chain: seq<ContextMessage>) {
    forall i :: 0 <= i < |chain| ==>
      exists k :: 0 <= k < |rows| && rows[k].conversationId == conversationId && rows[k].id == chain[i].id
  }

  /** An unknown leaf gives an empty chain. */
  lemma UnknownLeaf(rows: seq<Message>, conversationId: string, leaf: string, limit: int)
    requires forall k :: 0 <= k < |rows| ==> rows[k].conversationId != conversationId || rows[k].id != leaf
    ensures Chain(rows, conversationId, leaf, limit) == []
  {
    var m := IdMap(MessagesOf(rows, conversationId));
    assert leaf !in m by {
      forall id | id in m ensures id != leaf {
        assert m[id] in MessagesOf(rows, conversationId);
      }
    }
  }

  lemma ReversedDistinct(w: seq<Message>)
    requires DistinctMessageIds(w)
    ensures DistinctContext(Reverse(Projects(w)))
  {
    var chain := Reverse(Projects(w));
    forall i, j | 0 <= i < j < |chain| ensures chain[i].id != chain[j].id {
      assert chain[i].id == w[|w| - 1 - i].id && chain[j].id == w[|w| - 1 - j].id;
    }
  }

  lemma ReversedLinked(m: map<string, Message>, w: seq<Message>)
    requires ParentLinked(w)
    requires forall i :: 0 <= i < |w| ==> w[i].id in m && m[w[i].id] == w[i]
    ensures LinkedIn(m, Reverse(Projects(w)))
  {
    var chain := Reverse(Projects(w));
    forall i, j | 0 <= i < j < |chain| && j == i + 1
      ensures chain[j].id in m && m[chain[j].id].parent == Some(chain[i].id)
    {
      var a := |w| - 1 - j;
      assert chain[j].id == w[a].id && chain[i].id == w[a + 1].id;
    }
  }

  /** No id appears twice in the chain. */
  lemma ChainDistinct(rows: seq<Message>, conversationId: string, leaf: string, limit: int)
    ensures DistinctContext(Chain(rows, conversationId, leaf, limit))
  {
    var m := IdMap(MessagesOf(rows, conversationId));
    WalkDistinct(m, Some(leaf), {}, limit);
    ReversedDistinct(LeafFirst(rows, conversationId, leaf, limit));
  }

  /** Each row of the chain is the stored parent of the row after it. */
  lemma ChainLinked(rows: seq<Message>, conversationId: string, leaf: string, limit: int)
    ensures LinkedIn(IdMap(MessagesOf(rows, conversationId)), Chain(rows, conversationId, leaf, limit))
  {
    var m := IdMap(MessagesOf(rows, conversationId));
    WalkLinked(m, Some(leaf), {}, limit);
    ReversedLinked(m, LeafFirst(rows, conversationId, leaf, limit));
  }

  /** Every row of the chain is a row of the conversation. */
  lemma ChainStored(rows: seq<Message>, conversationId: string, leaf: string, limit: int)
    ensures StoredIn(rows, conversationId, Chain(rows, conversationId, leaf, limit))
  {
    var w := LeafFirst(rows, conversationId, leaf, limit);
    var chain := Chain(rows, conversationId, leaf, limit);
    forall i | 0 <= i < |chain|
      ensures exists k :: 0 <= k < |rows| && rows[k].conversationId == conversationId && rows[k].id == chain[i].id
    {
      ReachedRowIsStored(rows, conversationId, leaf, limit, |w| - 1 - i);
    }
  }

  /** One step of the walk. */
  lemma WalkStep(m: map<string, Message>, current: Option<string>, visited: set<string>, room: int)
    requires Keyed(m) && IsSet(current) && room > 0 && current.value !in visited && current.value in m
    ensures Walk(m, current, visited, room) ==
            [m[current.value]] + Walk(m, m[current.value].parent, visited + {current.value}, room - 1)
  {
  }

  /** The walk is empty at a missing id, a repeated id, or an exhausted budget. */
  lemma WalkEmpty(m: map<string, Message>, current: Option<string>, visited: set<string>, room: int)
    requires Keyed(m)
    requires !(IsSet(current) && room > 0 && current.value !in visited && current.value in m)
    ensures Walk(m, current, visited, room) == []
  {
  }

  lemma ProjectsSnoc(ms: seq<Message>, x: Message)
    ensures Projects(ms + [x]) == Projects(ms) + [Project(x)]
  {
  }

  /** What the climb keeps: the rows walked so far, then the walk from the
      current id, make up the whole walk from the leaf. */
  ghost predicate ClimbedSoFar(m: map<string, Message>, leaf: string, limit: int, walked: seq<Message>,
                               current: Option<string>, visited: set<string>)
    requires Keyed(m)
  {
    Walk(m, Some(leaf), {}, limit) == walked + Walk(m, current, visited, limit - |walked|)
  }

  /** One step of the climb moves the reached row from the rest of the walk
      to the rows walked so far. */
  lemma ClimbAdvance(m: map<string, Message>, leaf: string, limit: int, walked: seq<Message>,
                     current: Option<string>, visited: set<string>)
    requires Keyed(m) && IsSet(current) && |walked| < limit && current.value !in visited && current.value in m
    requires ClimbedSoFar(m, leaf, limit, walked, current, visited)
    ensures ClimbedSoFar(m, leaf, limit, walked + [m[current.value]], m[current.value].parent, visited + {current.value})
  {
    var room := limit - |walked|;
    WalkStep(m, current, visited, room);
    var rest := Walk(m, m[current.value].parent, visited + {current.value}, room - 1);
    assert walked + ([m[current.value]] + rest) == (walked + [m[current.value]]) + rest;
  }

  /** Where the climb stops, the rows walked are the whole walk. */
  lemma ClimbDone(m: map<string, Message>, leaf: string, limit: int, walked: seq<Message>,
                  current: Option<string>, visited: set<string>)
    requires Keyed(m) && ClimbedSoFar(m, leaf, limit, walked, current, visited)
    requires !(IsSet(current) && |walked| < limit && current.value !in visited && current.value in m)
    ensures Walk(m, Some(leaf), {}, limit) == walked
  {
    WalkEmpty(m, current, visited, limit - |walked|);
    assert walked + [] == walked;
  }

  /** The loop of `getAncestorChain`: push each row reached, leaf first. */
  method Climb(m: map<string, Message>, leaf: string, limit: int) returns (pushed: seq<ContextMessage>)
    requires Keyed(m)
    ensures pushed == Projects(Walk(m, Some(leaf), {}, limit))
  {
    pushed := [];
    ghost var walked: seq<Message> := [];
    var current: Option<string> := Some(leaf);
    var visited: set<string> := {};
    while IsSet(current) && |pushed| < limit
      invariant pushed == Projects(walked)
      invariant ClimbedSoFar(m, leaf, limit, walked, current, visited)
      decreases m.Keys - visited
    {
      if current.value in visited {
        break;
      }
      var id := current.value;
      if id !in m {
        break;
      }
      var msg := m[id];
      assert m.Keys - (visited + {id}) < m.Keys - visited;
      ClimbAdvance(m, leaf, limit, walked, current, visited);
      ProjectsSnoc(walked, msg);
      pushed := pushed + [Project(msg)];
      walked := walked + [msg];
      visited := visited + {id};
      current := msg.parent;
    }
    ClimbDone(m, leaf, limit, walked, current, visited);
  }

  /** `getAncestorChain(db, conversationId, leaf, limit)`: the rows of the
      conversation keyed by id, the climb, and the reversal that puts the
      root first and the leaf last. */
  method GetAncestorChain(rows: seq<Message>, conversationId: string, leaf: string, limit: int)
    returns (chain: seq<ContextMessage>)
    ensures chain == Chain(rows, conversationId, leaf, limit)
    ensures |chain| <= if limit < 0 then 0 else limit
    ensures |chain| > 0 ==> chain[|chain| - 1].id == leaf
  {
    var m := IdMap(MessagesOf(rows, conversationId));
    var pushed := Climb(m, leaf, limit);
    chain := Reverse(pushed);
  }
}

=== FILE: archive.dfy ===
/** `archiveConversation` of `src/routes/archive.ts` as a sequence of store
    writes: the guards run first, then the snapshot is written, then the
    attachment rows are detached, then the live rows are deleted, then the
    conversation is marked. Each write is a `Step`, so every intermediate
    state (where a crash would leave the store) can be named. */
module Archive {
  import opened Wrappers
  import opened Text
  import opened Json
  import opened Store
  import opened Jobs
  import opened Export

  datatype Step =
    | PutSnapshot(key: string, text: string)
    | DetachImages
    | DetachFiles
    | DeleteMessages
    | DeleteFts
    | DeleteAnnotations
    | MarkArchived(at: string, key: string)
    | Announce(job: QueueJob)

  /** `archives/{id}.json`. */
  function ArchiveKey(conversationId: string): string {
    "archives/" + conversationId + ".json"
  }

  /** Rows of `rows` whose `message_id` names one of `gone`: the rows the
      `ON DELETE CASCADE` foreign key removes with those messages. */
  predicate Cascaded(a: Attachment, gone: set<string>) {
    a.messageId.Some? && a.messageId.value in gone
  }

  function ApplyStep(db: Db, conversationId: string, step: Step, now: Instant): Db {
    match step
    case PutSnapshot(key, text) => PutText(db, key, text, "application/json", now.ms)
    case DetachImages => db.(images := DetachAll(db.images, conversationId))
    case DetachFiles => db.(files := DetachAll(db.files, conversationId))
    case DeleteMessages =>
      var gone := MessageIds(MessagesOf(db.messages, conversationId));
      db.(messages := Filter(db.messages, (m: Message) => m.conversationId != conversationId),
          images := Filter(db.images, (a: Attachment) => !Cascaded(a, gone)),
          files := Filter(db.files, (a: Attachment) => !Cascaded(a, gone)))
    case DeleteFts => db.(messagesFts := Filter(db.messagesFts, (f: FtsRow) => f.conversationId != conversationId))
    case DeleteAnnotations => db.(annotations := Filter(db.annotations, (a: Annotation) => a.conversationId != conversationId))
    case MarkArchived(at, key) =>
      db.(conversations := UpdateConversation(db.conversations, conversationId,
                                              (c: Conversation) => c.(archivedAt := Some(at), archiveKey := Some(key))))
    case Announce(job) => db.(outbox := db.outbox + [job])
  }

  /** The state after running `steps` in order. */
  function ApplySteps(db: Db, conversationId: string, steps: seq<Step>, now: Instant): Db
    decreases |steps|
  {
    if |steps| == 0 then db
    else ApplyStep(ApplySteps(db, conversationId, steps[..|steps| - 1], now), conversationId, steps[|steps| - 1], now)
  }

  /** The gossip line of a finished archive. */
  function ArchiveGossip(title: string, count: nat): string {
    "Just archived \"" + title + "\" \U{2014} " + NatToString(count)
    + " messages safely tucked away in R2. My indexes feel lighter already."
  }

  /** The JSON document written to the archive: the export of the
      conversation. */
  function Snapshot(db: Db, conversationId: string, now: Instant): (r: Result<Json>)
    requires FindConversation(db.conversations, conversationId).Some?
    ensures r.Err? <==> FindConversation(db.conversations, conversationId).value.vibes.MalformedVibes?
  {
    GenerateJson(FetchExportData(db, conversationId).value, now.iso)
  }

  /** The writes, in order, once the guards have passed. */
  function Plan(conversationId: string, text: string, now: Instant, announcement: QueueJob): (r: seq<Step>)
    ensures |r| == 8
  {
    var key := ArchiveKey(conversationId);
    [PutSnapshot(key, text), DetachImages, DetachFiles, DeleteMessages, DeleteFts, DeleteAnnotations,
     MarkArchived(now.sql, key), Announce(announcement)]
  }

  /** The writes `archiveConversation` performs, or the error it throws
      before writing anything. */
  function ArchiveSteps(db: Db, conversationId: string, now: Instant, stringify: Json -> string): (r: Result<seq<Step>>)
    ensures r.Err? <==>
      || FindConversation(db.conversations, conversationId).None?
      || IsSet(FindConversation(db.conversations, conversationId).value.archivedAt)
      || FindConversation(db.conversations, conversationId).value.vibes.MalformedVibes?
    ensures FindConversation(db.conversations, conversationId).None? ==> r == Err("Conversation not found")
    ensures var c := FindConversation(db.conversations, conversationId);
      c.Some? && IsSet(c.value.archivedAt) ==> r == Err("Already archived")
  {
    match FindConversation(db.conversations, conversationId)
    case None => Err("Conversation not found")
    case Some(conv) =>
      if IsSet(conv.archivedAt) then Err("Already archived")
      else
        match Snapshot(db, conversationId, now)
        case Err(e) => Err(e)
        case Ok(snapshot) =>
          var count := |MessagesOf(db.messages, conversationId)|;
          Ok(Plan(conversationId, stringify(snapshot), now,
                  GossipJob(D1Worker, ArchiveGossip(conv.title, count), Some("archive"), Some(conversationId))))
  }

  /** `archiveConversation`: the store after all the writes. */
  function ArchiveConversation(db: Db, conversationId: string, now: Instant, stringify: Json -> string): (r: Result<Db>)
    ensures r.Err? <==> ArchiveSteps(db, conversationId, now, stringify).Err?
  {
    var steps :- ArchiveSteps(db, conversationId, now, stringify);
    Ok(ApplySteps(db, conversationId, steps, now))
  }

  // ------------------------------------------------------------ lemmas

  /** The plan an accepted archive runs. */
  lemma PlanOf(db: Db, conversationId: string, now: Instant, stringify: Json -> string)
    requires ArchiveSteps(db, conversationId, now, stringify).Ok?
    ensures var conv := FindConversation(db.conversations, conversationId).value;
      var snapshot := Snapshot(db, conversationId, now);
      && snapshot.Ok?
      && ArchiveSteps(db, conversationId, now, stringify).value ==
         Plan(conversationId, stringify(snapshot.value), now,
              GossipJob(D1Worker, ArchiveGossip(conv.title, |MessagesOf(db.messages, conversationId)|),
                        Some("archive"), Some(conversationId)))
  {
  }

  lemma ApplyStepsSnoc(db: Db, conversationId: string, steps: seq<Step>, k: nat, now: Instant)
    requires k < |steps|
    ensures ApplySteps(db, conversationId, steps[..k + 1], now) ==
            ApplyStep(ApplySteps(db, conversationId, steps[..k], now), conversationId, steps[k], now)
  {
    assert steps[..k + 1][..k] == steps[..k];
  }

  /** Only the snapshot write touches the files bucket. */
  lemma StepKeepsBucket(db: Db, conversationId: string, step: Step, now: Instant)
    requires !step.PutSnapshot?
    ensures ApplyStep(db, conversationId, step, now).fileBucket == db.fileBucket
  {
  }

  /** A store whose first write is a `PutSnapshot` and whose later writes
      never touch the bucket keeps the object from the first write. */
  lemma {:induction false} FirstPutStays(db: Db, conversationId: string, steps: seq<Step>, k: nat, now: Instant)
    requires 1 <= k <= |steps| && steps[0].PutSnapshot?
    requires forall i :: 1 <= i < |steps| ==> !steps[i].PutSnapshot?
    ensures ApplySteps(db, conversationId, steps[..k], now).fileBucket ==
            PutText(db, steps[0].key, steps[0].text, "application/json", now.ms).fileBucket
    decreases k
  {
    ApplyStepsSnoc(db, conversationId, steps, k - 1, now);
    if k == 1 {
      assert steps[..0] == [];
    } else {
      FirstPutStays(db, conversationId, steps, k - 1, now);
      StepKeepsBucket(ApplySteps(db, conversationId, steps[..k - 1], now), conversationId, steps[k - 1], now);
    }
  }

  /** The snapshot is the first write of the plan: the state after it
      differs from the original only in the files bucket, and from then on
      every intermediate state holds the snapshot under
      `archives/{id}.json`. */
  lemma SnapshotWrittenFirst(db: Db, conversationId: string, text: string, now: Instant, announcement: QueueJob, k: nat)
    requires 1 <= k <= 8
    ensures var state := ApplySteps(db, conversationId, Plan(conversationId, text, now, announcement)[..k], now);
      var key := ArchiveKey(conversationId);
      && key in state.fileBucket
      && state.fileBucket[key] == StoredObject(TextBody(text), Some("application/json"), now.ms)
      && (k == 1 ==> state == db.(fileBucket := state.fileBucket))
  {
    var steps := Plan(conversationId, text, now, announcement);
    FirstPutStays(db, conversationId, steps, k, now);
    if k == 1 {
      ApplyStepsSnoc(db, conversationId, steps, 0, now);
      assert steps[..0] == [];
    }
  }

  /** An attachment row's `message_id`, when set, names a message of the
      row's own conversation. */
  predicate AttachmentsLocal(rows: seq<Attachment>, messages: seq<Message>) {
    forall a, m | a in rows && m in messages :: a.messageId == Some(m.id) ==> m.conversationId == a.conversationId
  }

  /** The same rows in the same order, `message_id` aside. */
  predicate SameRows(a: seq<Attachment>, b: seq<Attachment>) {
    |a| == |b| && forall i :: 0 <= i < |a| ==> a[i] == b[i].(messageId := a[i].messageId)
  }

  lemma {:induction false} FilterAll<T(!new)>(s: seq<T>, p: T -> bool)
    requires forall i :: 0 <= i < |s| ==> p(s[i])
    ensures Filter(s, p) == s
    decreases |s|
  {
    if |s| > 0 {
      FilterAll(s[1..], p);
    }
  }

  /** Once the conversation's rows are detached, deleting its messages
      cascades to no attachment row. */
  lemma NoCascadeAfterDetach(rows: seq<Attachment>, messages: seq<Message>, conversationId: string)
    requires AttachmentsLocal(rows, messages)
    ensures var gone := MessageIds(MessagesOf(messages, conversationId));
      Filter(DetachAll(rows, conversationId), (a: Attachment) => !Cascaded(a, gone)) == DetachAll(rows, conversationId)
  {
    var gone := MessageIds(MessagesOf(messages, conversationId));
    var d := DetachAll(rows, conversationId);
    forall i | 0 <= i < |d| ensures !Cascaded(d[i], gone) {
      if d[i].messageId.Some? {
        assert rows[i] in rows;
        forall m | m in MessagesOf(messages, conversationId) ensures m.id != d[i].messageId.value {
          assert m in messages;
        }
      }
    }
    FilterAll(d, (a: Attachment) => !Cascaded(a, gone));
  }

  /** Without the detach, the same delete removes every row linked to one
      of the conversation's messages: the order of the writes matters. */
  lemma CascadeWithoutDetach(db: Db, conversationId: string, now: Instant, i: nat)
    requires i < |db.images| && db.images[i].conversationId == conversationId
    requires exists m :: m in db.messages && m.conversationId == conversationId && db.images[i].messageId == Some(m.id)
    ensures db.images[i] !in ApplyStep(db, conversationId, DeleteMessages, now).images
  {
  }

  lemma DetachSameRows(rows: seq<Attachment>, conversationId: string)
    ensures SameRows(DetachAll(rows, conversationId), rows)
  {
  }

  /** Steps 2, 3 and 4 detach the images, detach the files and delete
      the messages; no other step touches those tables. */
  predicate TableSteps(steps: seq<Step>) {
    && |steps| == 8
    && steps[1] == DetachImages && steps[2] == DetachFiles && steps[3] == DeleteMessages
    && forall i :: 0 <= i < 8 && i != 1 && i != 2 && i != 3 ==>
         !steps[i].DetachImages? && !steps[i].DetachFiles? && !steps[i].DeleteMessages?
  }

  lemma PlanTableSteps(conversationId: string, text: string, now: Instant, announcement: QueueJob)
    ensures TableSteps(Plan(conversationId, text, now, announcement))
  {
  }

  /** What one step does to the messages table. */
  lemma StepMessages(st: Db, conversationId: string, step: Step, now: Instant)
    ensures ApplyStep(st, conversationId, step, now).messages ==
            if step.DeleteMessages? then Filter(st.messages, (m: Message) => m.conversationId != conversationId)
            else st.messages
  {
  }

  /** The messages table changes at step 4 only. */
  lemma {:induction false} MessagesAfter(db: Db, conversationId: string, steps: seq<Step>, k: nat, now: Instant)
    requires TableSteps(steps) && k <= 8
    ensures ApplySteps(db, conversationId, steps[..k], now).messages ==
            if k < 4 then db.messages else Filter(db.messages, (m: Message) => m.conversationId != conversationId)
    decreases k
  {
    if k == 0 {
      assert steps[..0] == [];
    } else {
      MessagesAfter(db, conversationId, steps, k - 1, now);
      ApplyStepsSnoc(db, conversationId, steps, k - 1, now);
      StepMessages(ApplySteps(db, conversationId, steps[..k - 1], now), conversationId, steps[k - 1], now);
    }
  }

  /** What one step does to an attachment table: `DetachImages` or
      `DetachFiles` (`detach`) clears its links, and `DeleteMessages`
      cascades. */
  lemma StepImages(st: Db, conversationId: string, step: Step, now: Instant)
    ensures ApplyStep(st, conversationId, step, now).images ==
            if step.DetachImages? then DetachAll(st.images, conversationId)
            else if step.DeleteMessages? then
              Filter(st.images, (a: Attachment) => !Cascaded(a, MessageIds(MessagesOf(st.messages, conversationId))))
            else st.images
  {
  }

  lemma StepFiles(st: Db, conversationId: string, step: Step, now: Instant)
    ensures ApplyStep(st, conversationId, step, now).files ==
            if step.DetachFiles? then DetachAll(st.files, conversationId)
            else if step.DeleteMessages? then
              Filter(st.files, (a: Attachment) => !Cascaded(a, MessageIds(MessagesOf(st.messages, conversationId))))
            else st.files
  {
  }

  /** The images table is detached at step 2, and deleting the messages
      afterwards removes none of its rows. */
  lemma {:induction false} ImagesAfter(db: Db, conversationId: string, steps: seq<Step>, k: nat, now: Instant)
    requires TableSteps(steps) && k <= 8
    requires AttachmentsLocal(db.images, db.messages)
    ensures ApplySteps(db, conversationId, steps[..k], now).images ==
            if k < 2 then db.images else DetachAll(db.images, conversationId)
    decreases k
  {
    if k == 0 {
      assert steps[..0] == [];
    } else {
      ImagesAfter(db, conversationId, steps, k - 1, now);
      ApplyStepsSnoc(db, conversationId, steps, k - 1, now);
      StepImages(ApplySteps(db, conversationId, steps[..k - 1], now), conversationId, steps[k - 1], now);
      if k == 4 {
        MessagesAfter(db, conversationId, steps, 3, now);
        NoCascadeAfterDetach(db.images, db.messages, conversationId);
      }
    }
  }

  /** The files table is detached at step 3, and deleting the messages
      afterwards removes none of its rows. */
  lemma {:induction false} FilesAfter(db: Db, conversationId: string, steps: seq<Step>, k: nat, now: Instant)
    requires TableSteps(steps) && k <= 8
    requires AttachmentsLocal(db.files, db.messages)
    ensures ApplySteps(db, conversationId, steps[..k], now).files ==
            if k < 3 then db.files else DetachAll(db.files, conversationId)
    decreases k
  {
    if k == 0 {
      assert steps[..0] == [];
    } else {
      FilesAfter(db, conversationId, steps, k - 1, now);
      ApplyStepsSnoc(db, conversationId, steps, k - 1, now);
      StepFiles(ApplySteps(db, conversationId, steps[..k - 1], now), conversationId, steps[k - 1], now);
      if k == 4 {
        MessagesAfter(db, conversationId, steps, 3, now);
        NoCascadeAfterDetach(db.files, db.messages, conversationId);
      }
    }
  }

  /** No attachment row is removed at any point of the archive, and the
      messages are deleted only after both tables are detached. */
  lemma AttachmentsSurvive(db: Db, conversationId: string, text: string, now: Instant, announcement: QueueJob, k: nat)
    requires AttachmentsLocal(db.images, db.messages) && AttachmentsLocal(db.files, db.messages)
    requires k <= 8
    ensures var st := ApplySteps(db, conversationId, Plan(conversationId, text, now, announcement)[..k], now);
      && SameRows(st.images, db.images)
      && SameRows(st.files, db.files)
      && (st.messages != db.messages ==>
            st.images == DetachAll(db.images, conversationId) && st.files == DetachAll(db.files, conversationId))
  {
    var steps := Plan(conversationId, text, now, announcement);
    PlanTableSteps(conversationId, text, now, announcement);
    ImagesAfter(db, conversationId, steps, k, now);
    FilesAfter(db, conversationId, steps, k, now);
    MessagesAfter(db, conversationId, steps, k, now);
    DetachSameRows(db.images, conversationId);
    DetachSameRows(db.files, conversationId);
  }

  /** Steps 5 to 8 delete the search rows, delete the annotations, mark
      the conversation and send the gossip; no earlier step touches those
      tables. */
  predicate TailSteps(steps: seq<Step>, at: string, key: string, job: QueueJob) {
    && |steps| == 8
    && steps[4] == DeleteFts && steps[5] == DeleteAnnotations && steps[6] == MarkArchived(at, key) && steps[7] == Announce(job)
    && forall i :: 0 <= i < 4 ==>
         !steps[i].DeleteFts? && !steps[i].DeleteAnnotations? && !steps[i].MarkArchived? && !steps[i].Announce?
  }

  /** The kind of step `i`, read off the plan's shape. */
  lemma TailStepAt(steps: seq<Step>, at: string, key: string, job: QueueJob, i: nat)
    requires TailSteps(steps, at, key, job) && i < 8
    ensures steps[i].DeleteFts? <==> i == 4
    ensures steps[i].DeleteAnnotations? <==> i == 5
    ensures steps[i].MarkArchived? <==> i == 6
    ensures i == 6 ==> steps[i] == MarkArchived(at, key)
    ensures steps[i].Announce? <==> i == 7
    ensures i == 7 ==> steps[i] == Announce(job)
  {
    if i < 4 {
    } else if i == 4 {
    } else if i == 5 {
    } else if i == 6 {
    } else {
    }
  }

  lemma PlanTailSteps(conversationId: string, text: string, now: Instant, announcement: QueueJob)
    ensures TailSteps(Plan(conversationId, text, now, announcement), now.sql, ArchiveKey(conversationId), announcement)
  {
  }

  lemma StepFts(st: Db, conversationId: string, step: Step, now: Instant)
    ensures ApplyStep(st, conversationId, step, now).messagesFts ==
            if step.DeleteFts? then Filter(st.messagesFts, (f: FtsRow) => f.conversationId != conversationId)
            else st.messagesFts
  {
  }

  /** The search index after `k` steps. */
  lemma {:induction false} FtsAfter(db: Db, conversationId: string, steps: seq<Step>, at: string, key: string, job: QueueJob,
                                    k: nat, now: Instant)
    requires TailSteps(steps, at, key, job) && k <= 8
    ensures var st := ApplySteps(db, conversationId, steps[..k], now);
      st.messagesFts == (if k < 5 then db.messagesFts
                         else Filter(db.messagesFts, (f: FtsRow) => f.conversationId != conversationId))
    decreases k
  {
    if k == 0 {
      assert steps[..0] == [];
    } else {
      FtsAfter(db, conversationId, steps, at, key, job, k - 1, now);
      ApplyStepsSnoc(db, conversationId, steps, k - 1, now);
      StepFts(ApplySteps(db, conversationId, steps[..k - 1], now), conversationId, steps[k - 1], now);
      TailStepAt(steps, at, key, job, k - 1);
    }
  }

  lemma StepAnnotations(st: Db, conversationId: string, step: Step, now: Instant)
    ensures ApplyStep(st, conversationId, step, now).annotations ==
            if step.DeleteAnnotations? then Filter(st.annotations, (a: Annotation) => a.conversationId != conversationId)
            else st.annotations
  {
  }

  /** The annotations after `k` steps. */
  lemma {:induction false} AnnotationsAfter(db: Db, conversationId: string, steps: seq<Step>, at: string, key: string, job: QueueJob,
                                            k: nat, now: Instant)
    requires TailSteps(steps, at, key, job) && k <= 8
    ensures var st := ApplySteps(db, conversationId, steps[..k], now);
      st.annotations == (if k < 6 then db.annotations
                         else Filter(db.annotations, (a: Annotation) => a.conversationId != conversationId))
    decreases k
  {
    if k == 0 {
      assert steps[..0] == [];
    } else {
      AnnotationsAfter(db, conversationId, steps, at, key, job, k - 1, now);
      ApplyStepsSnoc(db, conversationId, steps, k - 1, now);
      StepAnnotations(ApplySteps(db, conversationId, steps[..k - 1], now), conversationId, steps[k - 1], now);
      TailStepAt(steps, at, key, job, k - 1);
    }
  }

  lemma StepConversations(st: Db, conversationId: string, step: Step, now: Instant)
    ensures ApplyStep(st, conversationId, step, now).conversations ==
            if step.MarkArchived? then
              UpdateConversation(st.conversations, conversationId,
                                 (c: Conversation) => c.(archivedAt := Some(step.at), archiveKey := Some(step.key)))
            else st.conversations
  {
  }

  /** The conversations after `k` steps. */
  lemma {:induction false} ConversationsAfter(db: Db, conversationId: string, steps: seq<Step>, at: string, key: string, job: QueueJob,
                                              k: nat, now: Instant)
    requires TailSteps(steps, at, key, job) && k <= 8
    ensures var st := ApplySteps(db, conversationId, steps[..k], now);
      st.conversations == (if k < 7 then db.conversations
                           else UpdateConversation(db.conversations, conversationId,
                                                   (c: Conversation) => c.(archivedAt := Some(at), archiveKey := Some(key))))
    decreases k
  {
    if k == 0 {
      assert steps[..0] == [];
    } else {
      ConversationsAfter(db, conversationId, steps, at, key, job, k - 1, now);
      ApplyStepsSnoc(db, conversationId, steps, k - 1, now);
      StepConversations(ApplySteps(db, conversationId, steps[..k - 1], now), conversationId, steps[k - 1], now);
      TailStepAt(steps, at, key, job, k - 1);
    }
  }

  lemma StepOutbox(st: Db, conversationId: string, step: Step, now: Instant)
    ensures ApplyStep(st, conversationId, step, now).outbox ==
            if step.Announce? then st.outbox + [step.job] else st.outbox
  {
  }

  /** The outbox after `k` steps. */
  lemma {:induction false} OutboxAfter(db: Db, conversationId: string, steps: seq<Step>, at: string, key: string, job: QueueJob,
                                       k: nat, now: Instant)
    requires TailSteps(steps, at, key, job) && k <= 8
    ensures var st := ApplySteps(db, conversationId, steps[..k], now);
      st.outbox == (if k < 8 then db.outbox else db.outbox + [job])
    decreases k
  {
    if k == 0 {
      assert steps[..0] == [];
    } else {
      OutboxAfter(db, conversationId, steps, at, key, job, k - 1, now);
      ApplyStepsSnoc(db, conversationId, steps, k - 1, now);
      StepOutbox(ApplySteps(db, conversationId, steps[..k - 1], now), conversationId, steps[k - 1], now);
      TailStepAt(steps, at, key, job, k - 1);
    }
  }

  /** The search index, the annotations, the conversations and the outbox
      after all eight steps. */
  lemma RestAfter(db: Db, conversationId: string, steps: seq<Step>, at: string, key: string, job: QueueJob, now: Instant)
    requires TailSteps(steps, at, key, job)
    ensures var st := ApplySteps(db, conversationId, steps[..8], now);
      && st.messagesFts == Filter(db.messagesFts, (f: FtsRow) => f.conversationId != conversationId)
      && st.annotations == Filter(db.annotations, (a: Annotation) => a.conversationId != conversationId)
      && st.conversations == UpdateConversation(db.conversations, conversationId,
                                                (c: Conversation) => c.(archivedAt := Some(at), archiveKey := Some(key)))
      && st.outbox == db.outbox + [job]
  {
    FtsAfter(db, conversationId, steps, at, key, job, 8, now);
    AnnotationsAfter(db, conversationId, steps, at, key, job, 8, now);
    ConversationsAfter(db, conversationId, steps, at, key, job, 8, now);
    OutboxAfter(db, conversationId, steps, at, key, job, 8, now);
  }

  /** The whole plan: the conversation's messages, search rows and
      annotations are gone, every other row stays, and the attachment rows
      are kept with their links cleared. */
  lemma PlanRemovesLiveRows(db: Db, conversationId: string, text: string, now: Instant, announcement: QueueJob)
    requires AttachmentsLocal(db.images, db.messages) && AttachmentsLocal(db.files, db.messages)
    ensures var st := ApplySteps(db, conversationId, Plan(conversationId, text, now, announcement), now);
      && (forall m :: m in st.messages <==> m in db.messages && m.conversationId != conversationId)
      && (forall f :: f in st.messagesFts <==> f in db.messagesFts && f.conversationId != conversationId)
      && (forall a :: a in st.annotations <==> a in db.annotations && a.conversationId != conversationId)
      && st.images == DetachAll(db.images, conversationId)
      && st.files == DetachAll(db.files, conversationId)
  {
    var steps := Plan(conversationId, text, now, announcement);
    assert steps[..8] == steps;
    PlanTableSteps(conversationId, text, now, announcement);
    PlanTailSteps(conversationId, text, now, announcement);
    MessagesAfter(db, conversationId, steps, 8, now);
    ImagesAfter(db, conversationId, steps, 8, now);
    FilesAfter(db, conversationId, steps, 8, now);
    RestAfter(db, conversationId, steps, now.sql, ArchiveKey(conversationId), announcement, now);
  }

  /** The whole plan marks the conversation with the archive time and key,
      announces once, and leaves the snapshot under the key. */
  lemma PlanMarks(db: Db, conversationId: string, text: string, now: Instant, announcement: QueueJob)
    ensures var st := ApplySteps(db, conversationId, Plan(conversationId, text, now, announcement), now);
      var key := ArchiveKey(conversationId);
      && st.conversations == UpdateConversation(db.conversations, conversationId,
                                                (c: Conversation) => c.(archivedAt := Some(now.sql), archiveKey := Some(key)))
      && st.outbox == db.outbox + [announcement]
      && key in st.fileBucket && st.fileBucket[key] == StoredObject(TextBody(text), Some("application/json"), now.ms)
  {
    var steps := Plan(conversationId, text, now, announcement);
    assert steps[..8] == steps;
    PlanTailSteps(conversationId, text, now, announcement);
    RestAfter(db, conversationId, steps, now.sql, ArchiveKey(conversationId), announcement, now);
    SnapshotWrittenFirst(db, conversationId, text, now, announcement, 8);
  }

  /** After `WHERE conversation_id != ?` no message of that conversation
      is left. */
  lemma NoMessagesLeft(ms: seq<Message>, conversationId: string)
    ensures MessagesOf(Filter(ms, (m: Message) => m.conversationId != conversationId), conversationId) == []
  {
    var rest := Filter(ms, (m: Message) => m.conversationId != conversationId);
    assert forall i :: 0 <= i < |rest| ==> rest[i] in rest;
    NoneOf(rest, conversationId);
  }

  lemma {:induction false} NoneOf(ms: seq<Message>, conversationId: string)
    requires forall i :: 0 <= i < |ms| ==> ms[i].conversationId != conversationId
    ensures MessagesOf(ms, conversationId) == []
    decreases |ms|
  {
    if |ms| > 0 {
      NoneOf(ms[1..], conversationId);
    }
  }

  /** The store a successful `archiveConversation` leaves behind. */
  lemma ArchiveResult(db: Db, conversationId: string, now: Instant, stringify: Json -> string)
    requires ArchiveConversation(db, conversationId, now, stringify).Ok?
    ensures var conv := FindConversation(db.conversations, conversationId).value;
      var text := stringify(Snapshot(db, conversationId, now).value);
      var job := GossipJob(D1Worker, ArchiveGossip(conv.title, |MessagesOf(db.messages, conversationId)|),
                           Some("archive"), Some(conversationId));
      ArchiveConversation(db, conversationId, now, stringify).value == ApplySteps(db, conversationId, Plan(conversationId, text, now, job), now)
  {
    PlanOf(db, conversationId, now, stringify);
  }

  /** A successful `archiveConversation` marks the conversation archived
      under `archives/{id}.json` and stores the snapshot there. */
  lemma ArchiveMarksConversation(db: Db, conversationId: string, now: Instant, stringify: Json -> string)
    requires ArchiveConversation(db, conversationId, now, stringify).Ok?
    ensures var st := ArchiveConversation(db, conversationId, now, stringify).value;
      var conv := FindConversation(db.conversations, conversationId).value;
      var key := ArchiveKey(conversationId);
      && FindConversation(st.conversations, conversationId) == Some(conv.(archivedAt := Some(now.sql), archiveKey := Some(key)))
      && key in st.fileBucket
      && st.fileBucket[key] == StoredObject(TextBody(stringify(Snapshot(db, conversationId, now).value)), Some("application/json"), now.ms)
  {
    ArchiveResult(db, conversationId, now, stringify);
    var conv := FindConversation(db.conversations, conversationId).value;
    var text := stringify(Snapshot(db, conversationId, now).value);
    var job := GossipJob(D1Worker, ArchiveGossip(conv.title, |MessagesOf(db.messages, conversationId)|),
                         Some("archive"), Some(conversationId));
    PlanMarks(db, conversationId, text, now, job);
    FindUpdated(db.conversations, conversationId,
                (c: Conversation) => c.(archivedAt := Some(now.sql), archiveKey := Some(ArchiveKey(conversationId))));
  }

  /** A successful `archiveConversation` leaves no message of the
      conversation and keeps every attachment row. */
  lemma ArchiveClearsMessages(db: Db, conversationId: string, now: Instant, stringify: Json -> string)
    requires ArchiveConversation(db, conversationId, now, stringify).Ok?
    requires AttachmentsLocal(db.images, db.messages) && AttachmentsLocal(db.files, db.messages)
    ensures var st := ArchiveConversation(db, conversationId, now, stringify).value;
      && MessagesOf(st.messages, conversationId) == []
      && SameRows(st.images, db.images) && SameRows(st.files, db.files)
  {
    ArchiveResult(db, conversationId, now, stringify);
    var conv := FindConversation(db.conversations, conversationId).value;
    var text := stringify(Snapshot(db, conversationId, now).value);
    var job := GossipJob(D1Worker, ArchiveGossip(conv.title, |MessagesOf(db.messages, conversationId)|),
                         Some("archive"), Some(conversationId));
    var steps := Plan(conversationId, text, now, job);
    assert steps[..8] == steps;
    PlanTableSteps(conversationId, text, now, job);
    MessagesAfter(db, conversationId, steps, 8, now);
    NoMessagesLeft(db.messages, conversationId);
    AttachmentsSurvive(db, conversationId, text, now, job, 8);
  }

  /** Archiving is not repeated: once a conversation is archived at a
      non-empty time, a second archive fails before writing. */
  lemma ArchiveTwice(db: Db, conversationId: string, now: Instant, later: Instant, stringify: Json -> string)
    requires ArchiveConversation(db, conversationId, now, stringify).Ok?
    requires now.sql != ""
    ensures ArchiveConversation(ArchiveConversation(db, conversationId, now, stringify).value, conversationId, later, stringify)
            == Err("Already archived")
  {
    ArchiveMarksConversation(db, conversationId, now, stringify);
  }

  /** The store apart from the tables and objects an archive writes. */
  predicate SameOutsideArchive(a: Db, b: Db) {
    a == b.(conversations := a.conversations, messages := a.messages, messagesFts := a.messagesFts,
            images := a.images, files := a.files, annotations := a.annotations,
            fileBucket := a.fileBucket, outbox := a.outbox)
  }

  lemma StepFrame(st: Db, conversationId: string, step: Step, now: Instant)
    ensures SameOutsideArchive(ApplyStep(st, conversationId, step, now), st)
  {
  }

  /** No step writes outside the conversation's rows, the bucket and the
      outbox: tags, wiki tables, gossip and the image bucket stay. */
  lemma {:induction false} StepsFrame(db: Db, conversationId: string, steps: seq<Step>, now: Instant)
    ensures SameOutsideArchive(ApplySteps(db, conversationId, steps, now), db)
    decreases |steps|
  {
    if |steps| > 0 {
      StepsFrame(db, conversationId, steps[..|steps| - 1], now);
      StepFrame(ApplySteps(db, conversationId, steps[..|steps| - 1], now), conversationId, steps[|steps| - 1], now);
    }
  }

  /** The whole store a successful `archiveConversation` leaves, table by
      table. */
  lemma ArchivedStore(db: Db, conversationId: string, now: Instant, stringify: Json -> string)
    requires ArchiveConversation(db, conversationId, now, stringify).Ok?
    requires AttachmentsLocal(db.images, db.messages) && AttachmentsLocal(db.files, db.messages)
    ensures var st := ArchiveConversation(db, conversationId, now, stringify).value;
      var conv := FindConversation(db.conversations, conversationId).value;
      st == db.(conversations := UpdateConversation(db.conversations, conversationId,
                  (c: Conversation) => c.(archivedAt := Some(now.sql), archiveKey := Some(ArchiveKey(conversationId)))),
                messages := Filter(db.messages, (m: Message) => m.conversationId != conversationId),
                messagesFts := Filter(db.messagesFts, (f: FtsRow) => f.conversationId != conversationId),
                images := DetachAll(db.images, conversationId),
                files := DetachAll(db.files, conversationId),
                annotations := Filter(db.annotations, (a: Annotation) => a.conversationId != conversationId),
                fileBucket := st.fileBucket,
                outbox := db.outbox + [GossipJob(D1Worker, ArchiveGossip(conv.title, |MessagesOf(db.messages, conversationId)|),
                                                 Some("archive"), Some(conversationId))])
  {
    ArchiveResult(db, conversationId, now, stringify);
    var conv := FindConversation(db.conversations, conversationId).value;
    var text := stringify(Snapshot(db, conversationId, now).value);
    var job := GossipJob(D1Worker, ArchiveGossip(conv.title, |MessagesOf(db.messages, conversationId)|),
                         Some("archive"), Some(conversationId));
    var steps := Plan(conversationId, text, now, job);
    assert steps[..8] == steps;
    PlanTableSteps(conversationId, text, now, job);
    PlanTailSteps(conversationId, text, now, job);
    MessagesAfter(db, conversationId, steps, 8, now);
    ImagesAfter(db, conversationId, steps, 8, now);
    FilesAfter(db, conversationId, steps, 8, now);
    RestAfter(db, conversationId, steps, now.sql, ArchiveKey(conversationId), job, now);
    StepsFrame(db, conversationId, steps, now);
  }
}

=== FILE: archive_roundtrip.dfy ===
/** Archiving a conversation and then restoring it (`src/routes/archive.ts`)
    gives back its message rows, its attachment links and its conversation
    row, and the export of the conversation is the same as before. The
    conditions are the ones the schema and the handlers keep: primary keys
    are distinct, every attachment link names a message of the row's own
    conversation, and no column the snapshot reads back as `null` holds
    the empty string. */
module ArchiveRoundTrip {
  import opened Wrappers
  import opened Json
  import Jobs
  import opened Sorting
  import opened Store
  import opened Export
  import opened Archive
  import opened Restore
  import opened SnapshotCodec
  import opened RestoreBatch
  import opened Relink
  import opened DistinctIds

  /** Every attachment link names an existing message (the foreign key of
      `message_images` and `message_files`). */
  predicate LinksResolve(rows: seq<Attachment>, messages: seq<Message>) {
    forall a | a in rows && a.messageId.Some? :: exists m :: m in messages && m.id == a.messageId.value
  }

  /** The store invariants the round trip relies on. */
  predicate Consistent(db: Db, conversationId: string) {
    && DistinctMessageIds(db.messages)
    && DistinctAttachmentIds(db.images) && DistinctAttachmentIds(db.files)
    && AttachmentsLocal(db.images, db.messages) && AttachmentsLocal(db.files, db.messages)
    && LinksResolve(db.images, db.messages) && LinksResolve(db.files, db.messages)
    && (forall m | m in db.messages && m.conversationId == conversationId :: m.parent != Some(""))
    && (forall a | a in db.annotations && a.conversationId == conversationId :: a.labelText != Some(""))
    && (forall c | c in db.conversations && c.id == conversationId :: c.archivedAt.None? && c.archiveKey.None?)
  }

  /** `crypto.randomUUID()` for the annotations: never an id in use, never
      the same twice. */
  ghost predicate NewIds(db: Db, newId: nat -> string) {
    && (forall n: nat :: !AnnotationIdUsed(db.annotations, newId(n)))
    && (forall n: nat, m: nat :: n != m ==> newId(n) != newId(m))
  }

  /** The entries the restore loop reads from the snapshot of `db`. */
  function Readback(db: Db, conversationId: string): (r: seq<SnapMessage>)
    ensures |r| == |Chronological(db, conversationId)|
  {
    Readings(EnrichAll(db, conversationId, Chronological(db, conversationId)))
  }

  function Mark(at: string, key: string): Conversation -> Conversation {
    (c: Conversation) => c.(archivedAt := Some(at), archiveKey := Some(key))
  }

  function Unmark(): Conversation -> Conversation {
    (c: Conversation) => c.(archivedAt := None, archiveKey := None)
  }

  // ------------------------------------------------------------ reading

  /** After the archive, the restore finds the conversation marked, reads
      the snapshot back and goes on to the batch. */
  lemma RestoreReadsSnapshot(db: Db, conversationId: string, now: Instant, later: Instant,
                             stringify: Json -> string, parse: string -> Option<Json>, newId: nat -> string)
    requires ArchiveConversation(db, conversationId, now, stringify).Ok?
    requires now.sql != ""
    requires parse(stringify(Snapshot(db, conversationId, now).value)) == Some(Snapshot(db, conversationId, now).value)
    ensures var conv := FindConversation(db.conversations, conversationId).value;
      RestoreConversation(ArchiveConversation(db, conversationId, now, stringify).value, conversationId, later, parse, newId)
      == Reinstate(ArchiveConversation(db, conversationId, now, stringify).value,
                   conv.(archivedAt := Some(now.sql), archiveKey := Some(ArchiveKey(conversationId))),
                   Readback(db, conversationId), later, newId)
  {
    ArchiveMarksConversation(db, conversationId, now, stringify);
    var archived := ArchiveConversation(db, conversationId, now, stringify).value;
    var conv := FindConversation(db.conversations, conversationId).value;
    var snapshot := Snapshot(db, conversationId, now).value;
    SnapshotBack(FetchExportData(db, conversationId).value, now.iso);
    assert |ArchiveKey(conversationId)| > 0;
    RestoreReads(archived, conversationId, later, parse, newId,
                 conv.(archivedAt := Some(now.sql), archiveKey := Some(ArchiveKey(conversationId))), snapshot);
  }

  /** The entries have the conversation's message ids, in export order,
      and no two are the same. */
  lemma ReadbackDistinct(db: Db, conversationId: string)
    requires DistinctMessageIds(db.messages)
    ensures var sms := Readback(db, conversationId);
      forall x, y :: 0 <= x < y < |sms| ==> sms[x].id != sms[y].id
  {
    FilterDistinct(db.messages, (m: Message) => m.conversationId == conversationId);
    PermDistinct(MessagesOf(db.messages, conversationId), Chronological(db, conversationId));
    var sorted := Chronological(db, conversationId);
    assert forall i :: 0 <= i < |sorted| ==> Readback(db, conversationId)[i].id == sorted[i].id;
  }

  /** No entry's id is left in the archived messages table. */
  lemma EntriesAbsent(db: Db, conversationId: string, i: nat)
    requires DistinctMessageIds(db.messages)
    requires i < |Chronological(db, conversationId)|
    ensures FindMessage(Filter(db.messages, (m: Message) => m.conversationId != conversationId),
                        Readback(db, conversationId)[i].id).None?
  {
    var left := Filter(db.messages, (m: Message) => m.conversationId != conversationId);
    var x := Chronological(db, conversationId)[i];
    assert x in multiset(Chronological(db, conversationId));
    assert x in MessagesOf(db.messages, conversationId);
    forall k | 0 <= k < |left| ensures left[k].id != x.id {
      assert left[k] in left;
      DifferentRowsDifferentIds(db.messages, left[k], x);
    }
  }

  /** The archived store gives the restore batch no key to clash with. */
  lemma FreshAfterArchive(db: Db, archived: Db, conversationId: string, newId: nat -> string)
    requires DistinctMessageIds(db.messages) && NewIds(db, newId)
    requires archived.messages == Filter(db.messages, (m: Message) => m.conversationId != conversationId)
    requires archived.annotations == Filter(db.annotations, (a: Annotation) => a.conversationId != conversationId)
    ensures Fresh(archived, Readback(db, conversationId), newId)
  {
    var sms := Readback(db, conversationId);
    ReadbackDistinct(db, conversationId);
    forall i | 0 <= i < |sms| ensures FindMessage(archived.messages, sms[i].id).None? {
      EntriesAbsent(db, conversationId, i);
    }
    forall i | 0 <= i < |sms| ensures !AnnotationIdUsed(archived.annotations, newId(i)) {
      forall k | 0 <= k < |archived.annotations| ensures archived.annotations[k].id != newId(i) {
        assert archived.annotations[k] in db.annotations;
      }
    }
  }

  // ------------------------------------------------------------ messages

  /** Each entry becomes the message row it was exported from. */
  lemma MessagesReadBack(db: Db, conversationId: string)
    requires forall m | m in db.messages && m.conversationId == conversationId :: m.parent != Some("")
    ensures RestoredAll(conversationId, Readback(db, conversationId)) == Chronological(db, conversationId)
  {
    var sorted := Chronological(db, conversationId);
    var back := RestoredAll(conversationId, Readback(db, conversationId));
    forall i | 0 <= i < |sorted| ensures back[i] == sorted[i] {
      assert sorted[i] in multiset(sorted);
      assert sorted[i] in MessagesOf(db.messages, conversationId);
    }
  }

  /** The rows the archive keeps and the rows the restore reinserts are,
      together, the rows there were. */
  lemma MessageRowsBack(db: Db, conversationId: string)
    ensures multiset(Filter(db.messages, (m: Message) => m.conversationId != conversationId) + Chronological(db, conversationId))
            == multiset(db.messages)
  {
    var keep := Filter(db.messages, (m: Message) => m.conversationId != conversationId);
    var sorted := Chronological(db, conversationId);
    assert multiset(keep + sorted) == multiset(keep) + multiset(sorted);
    FilterSplitNot(db.messages, conversationId);
  }

  /** The conversation's rows and the other rows partition the table. */
  lemma FilterSplitNot(ms: seq<Message>, conversationId: string)
    ensures multiset(MessagesOf(ms, conversationId)) +
            multiset(Filter(ms, (m: Message) => m.conversationId != conversationId)) == multiset(ms)
  {
    FilterPartition(ms, (m: Message) => m.conversationId == conversationId,
                    (m: Message) => m.conversationId != conversationId);
  }

  /** Filtering by a test and by its negation splits a sequence in two. */
  lemma {:induction false} FilterPartition<T(!new)>(s: seq<T>, p: T -> bool, q: T -> bool)
    requires forall x :: q(x) == !p(x)
    ensures multiset(Filter(s, p)) + multiset(Filter(s, q)) == multiset(s)
    decreases |s|
  {
    if |s| > 0 {
      var x, t := s[0], s[1..];
      FilterPartition(t, p, q);
      assert s == [x] + t;
      if p(x) {
        assert Filter(s, p) == [x] + Filter(t, p);
        assert Filter(s, q) == Filter(t, q);
      } else {
        assert Filter(s, p) == Filter(t, p);
        assert Filter(s, q) == [x] + Filter(t, q);
      }
    }
  }

  // ------------------------------------------------------------ attachments

  /** An entry lists an image row of the conversation exactly when the row
      was linked to that entry's message. */
  lemma ImageListed(db: Db, conversationId: string, a: Attachment, i: nat)
    requires DistinctAttachmentIds(db.images)
    requires a in db.images && a.conversationId == conversationId
    requires i < |Chronological(db, conversationId)|
    ensures var sm := Readback(db, conversationId)[i];
      a.id in IdsOf(sm, true) <==> a.messageId == Some(sm.id)
  {
    var m := Chronological(db, conversationId)[i];
    var linked := RowsOfMessage(LinkedRows(db.images, conversationId), m.id);
    GroupIsFilter(LinkedRows(db.images, conversationId), m.id);
    var ids := ImageIds(ImageRefs(linked));
    assert Readback(db, conversationId)[i].imageIds == ids;
    IdOfLinkedRow(db.images, linked, ids, a, m.id);
  }

  lemma FileListed(db: Db, conversationId: string, a: Attachment, i: nat)
    requires DistinctAttachmentIds(db.files)
    requires a in db.files && a.conversationId == conversationId
    requires i < |Chronological(db, conversationId)|
    ensures var sm := Readback(db, conversationId)[i];
      a.id in IdsOf(sm, false) <==> a.messageId == Some(sm.id)
  {
    var m := Chronological(db, conversationId)[i];
    var linked := RowsOfMessage(LinkedRows(db.files, conversationId), m.id);
    GroupIsFilter(LinkedRows(db.files, conversationId), m.id);
    var ids := FileIds(FileRefs(linked));
    assert Readback(db, conversationId)[i].fileIds == ids;
    IdOfLinkedRow(db.files, linked, ids, a, m.id);
  }

  /** With distinct ids, a row's id is among the ids of the rows linked to
      a message exactly when the row is linked to it. */
  lemma IdOfLinkedRow(rows: seq<Attachment>, linked: seq<Attachment>, ids: seq<string>, a: Attachment, messageId: string)
    requires DistinctAttachmentIds(rows) && a in rows
    requires forall x :: x in linked ==> x in rows && x.messageId == Some(messageId)
    requires a.messageId == Some(messageId) ==> a in linked
    requires |ids| == |linked| && forall k :: 0 <= k < |ids| ==> ids[k] == linked[k].id
    ensures a.id in ids <==> a.messageId == Some(messageId)
  {
    if a.id in ids {
      var k :| 0 <= k < |ids| && ids[k] == a.id;
      assert linked[k] in linked;
      SameAttachmentId(rows, linked[k], a);
    }
    if a.messageId == Some(messageId) {
      var k :| 0 <= k < |linked| && linked[k] == a;
      assert ids[k] == a.id;
    }
  }

  /** A linked attachment row of the conversation names one of the
      entries. */
  lemma LinkNamesEntry(db: Db, rows: seq<Attachment>, conversationId: string, a: Attachment)
    requires AttachmentsLocal(rows, db.messages) && LinksResolve(rows, db.messages)
    requires a in rows && a.conversationId == conversationId && a.messageId.Some?
    ensures exists i :: 0 <= i < |Readback(db, conversationId)| && Readback(db, conversationId)[i].id == a.messageId.value
  {
    var m :| m in db.messages && m.id == a.messageId.value;
    assert m in MessagesOf(db.messages, conversationId);
    var sorted := Chronological(db, conversationId);
    assert m in multiset(sorted);
    var i :| 0 <= i < |sorted| && sorted[i] == m;
    assert Readback(db, conversationId)[i].id == m.id;
  }

  /** Relinking after the archive's detach gives back the image rows. */
  lemma ImagesBack(db: Db, conversationId: string)
    requires DistinctAttachmentIds(db.images)
    requires AttachmentsLocal(db.images, db.messages) && LinksResolve(db.images, db.messages)
    ensures LinkAll(DetachAll(db.images, conversationId), conversationId, Readback(db, conversationId), true) == db.images
  {
    var sms := Readback(db, conversationId);
    forall a, i | a in db.images && a.conversationId == conversationId && 0 <= i < |sms|
      ensures a.id in IdsOf(sms[i], true) <==> a.messageId == Some(sms[i].id)
    {
      ImageListed(db, conversationId, a, i);
    }
    forall a | a in db.images && a.conversationId == conversationId && a.messageId.Some?
      ensures exists i :: 0 <= i < |sms| && sms[i].id == a.messageId.value
    {
      LinkNamesEntry(db, db.images, conversationId, a);
    }
    RelinkRestores(db.images, conversationId, sms, true);
  }

  /** Relinking after the archive's detach gives back the file rows. */
  lemma FilesBack(db: Db, conversationId: string)
    requires DistinctAttachmentIds(db.files)
    requires AttachmentsLocal(db.files, db.messages) && LinksResolve(db.files, db.messages)
    ensures LinkAll(DetachAll(db.files, conversationId), conversationId, Readback(db, conversationId), false) == db.files
  {
    var sms := Readback(db, conversationId);
    forall a, i | a in db.files && a.conversationId == conversationId && 0 <= i < |sms|
      ensures a.id in IdsOf(sms[i], false) <==> a.messageId == Some(sms[i].id)
    {
      FileListed(db, conversationId, a, i);
    }
    forall a | a in db.files && a.conversationId == conversationId && a.messageId.Some?
      ensures exists i :: 0 <= i < |sms| && sms[i].id == a.messageId.value
    {
      LinkNamesEntry(db, db.files, conversationId, a);
    }
    RelinkRestores(db.files, conversationId, sms, false);
  }

  // ------------------------------------------------------------ annotations

  /** After the round trip the conversation's annotation rows are exactly
      the reinserted ones. */
  lemma AnnotationRowsBack(db: Db, conversationId: string, newId: nat -> string, at: string)
    ensures var inserted := AnnotationsAll(conversationId, Readback(db, conversationId), newId, at);
      Filter(Filter(db.annotations, (a: Annotation) => a.conversationId != conversationId) + inserted,
             (a: Annotation) => a.conversationId == conversationId) == inserted
  {
    var keep := Filter(db.annotations, (a: Annotation) => a.conversationId != conversationId);
    var inserted := AnnotationsAll(conversationId, Readback(db, conversationId), newId, at);
    var mine := (a: Annotation) => a.conversationId == conversationId;
    FilterAppend(keep, inserted, mine);
    assert forall k :: 0 <= k < |keep| ==> keep[k] in keep;
    FilterNone(keep, mine);
    forall k | 0 <= k < |inserted| ensures mine(inserted[k]) {
      AnnotationsAllAbout(conversationId, Readback(db, conversationId), newId, at, inserted[k]);
    }
    FilterAll(inserted, mine);
    assert [] + inserted == inserted;
  }

  /** The entry read back for a message carries the annotation the export
      showed for it. */
  lemma EntryAnnotation(db: Db, conversationId: string, i: nat)
    requires forall a | a in db.annotations && a.conversationId == conversationId :: a.labelText != Some("")
    requires i < |Chronological(db, conversationId)|
    ensures Readback(db, conversationId)[i].annotation == Enrich(db, conversationId, Chronological(db, conversationId)[i]).annotation
  {
    var m := Chronological(db, conversationId)[i];
    ExportedAnnotation(db, conversationId, m);
    var rows := Filter(db.annotations, (a: Annotation) => a.conversationId == conversationId);
    var k := LastAnnotation(rows, m.id);
    if k >= 0 {
      assert rows[k] in rows;
    }
  }

  /** After the round trip the export shows each message's annotation as
      before (the row's id and time are new). */
  lemma AnnotationBack(db: Db, restored: Db, conversationId: string, newId: nat -> string, at: string, i: nat)
    requires DistinctMessageIds(db.messages)
    requires forall a | a in db.annotations && a.conversationId == conversationId :: a.labelText != Some("")
    requires restored.annotations == Filter(db.annotations, (a: Annotation) => a.conversationId != conversationId)
                                     + AnnotationsAll(conversationId, Readback(db, conversationId), newId, at)
    requires i < |Chronological(db, conversationId)|
    ensures var m := Chronological(db, conversationId)[i];
      Enrich(restored, conversationId, m).annotation == Enrich(db, conversationId, m).annotation
  {
    var sms := Readback(db, conversationId);
    var m := Chronological(db, conversationId)[i];
    AnnotationRowsBack(db, conversationId, newId, at);
    ReadbackDistinct(db, conversationId);
    LastOfAll(conversationId, sms, newId, at, i);
    ExportedAnnotation(restored, conversationId, m);
    EntryAnnotation(db, conversationId, i);
  }

  // ------------------------------------------------------------ order

  /** After the round trip the conversation's messages, in export order,
      are the same as before. */
  lemma ChronologicalBack(db: Db, restored: Db, conversationId: string)
    requires restored.messages == Filter(db.messages, (m: Message) => m.conversationId != conversationId)
                                  + Chronological(db, conversationId)
    ensures Chronological(restored, conversationId) == Chronological(db, conversationId)
  {
    var keep := Filter(db.messages, (m: Message) => m.conversationId != conversationId);
    var sorted := Chronological(db, conversationId);
    var mine := (m: Message) => m.conversationId == conversationId;
    FilterAppend(keep, sorted, mine);
    assert forall k :: 0 <= k < |keep| ==> keep[k] in keep;
    FilterNone(keep, mine);
    forall k | 0 <= k < |sorted| ensures mine(sorted[k]) {
      assert sorted[k] in multiset(sorted);
      assert sorted[k] in MessagesOf(db.messages, conversationId);
    }
    FilterAll(sorted, mine);
    assert [] + sorted == sorted;
    StrLeIsTotalPreorder();
    SortBySorted(MessagesOf(db.messages, conversationId), CreatedNoLater);
    SortBySortedIsSame(sorted, CreatedNoLater);
  }

  // ------------------------------------------------------------ mark

  /** Marking and then unmarking gives back conversation rows that were
      never archived. */
  lemma ConversationsBack(cs: seq<Conversation>, conversationId: string, at: string, key: string)
    requires forall c | c in cs && c.id == conversationId :: c.archivedAt.None? && c.archiveKey.None?
    ensures UpdateConversation(UpdateConversation(cs, conversationId, Mark(at, key)), conversationId, Unmark()) == cs
  {
    var r := UpdateConversation(UpdateConversation(cs, conversationId, Mark(at, key)), conversationId, Unmark());
    forall k | 0 <= k < |cs| ensures r[k] == cs[k] {
      assert cs[k] in cs;
    }
  }

  // ------------------------------------------------------------ the round trip

  /** The conditions of the round trip: the archive succeeds at a
      non-empty time, the store is consistent, the snapshot text parses
      back to the snapshot and the annotation ids drawn are fresh. */
  ghost predicate Setting(db: Db, conversationId: string, now: Instant, stringify: Json -> string,
                          parse: string -> Option<Json>, newId: nat -> string) {
    && ArchiveConversation(db, conversationId, now, stringify).Ok?
    && now.sql != ""
    && Consistent(db, conversationId)
    && parse(stringify(Snapshot(db, conversationId, now).value)) == Some(Snapshot(db, conversationId, now).value)
    && NewIds(db, newId)
  }

  /** The store an archive leaves, given its parts. */
  function ArchivedForm(db: Db, conversationId: string, at: string, key: string, bucket: map<string, StoredObject>,
                        job: Jobs.QueueJob): Db {
    db.(conversations := UpdateConversation(db.conversations, conversationId, Mark(at, key)),
        messages := Filter(db.messages, (m: Message) => m.conversationId != conversationId),
        messagesFts := Filter(db.messagesFts, (f: FtsRow) => f.conversationId != conversationId),
        images := DetachAll(db.images, conversationId),
        files := DetachAll(db.files, conversationId),
        annotations := Filter(db.annotations, (a: Annotation) => a.conversationId != conversationId),
        fileBucket := bucket,
        outbox := db.outbox + [job])
  }

  /** The store a restore of `ArchivedForm` leaves, given its parts. */
  function RestoredForm(db: Db, conversationId: string, at: string, key: string, bucket: map<string, StoredObject>,
                        jobs: seq<Jobs.QueueJob>, sms: seq<SnapMessage>, newId: nat -> string, restoredAt: string): Db {
    db.(conversations := UpdateConversation(UpdateConversation(db.conversations, conversationId, Mark(at, key)),
                                            conversationId, Unmark()),
        messages := Filter(db.messages, (m: Message) => m.conversationId != conversationId)
                    + RestoredAll(conversationId, sms),
        messagesFts := Filter(db.messagesFts, (f: FtsRow) => f.conversationId != conversationId)
                       + FtsOf(conversationId, sms),
        images := LinkAll(DetachAll(db.images, conversationId), conversationId, sms, true),
        files := LinkAll(DetachAll(db.files, conversationId), conversationId, sms, false),
        annotations := Filter(db.annotations, (a: Annotation) => a.conversationId != conversationId)
                       + AnnotationsAll(conversationId, sms, newId, restoredAt),
        fileBucket := bucket,
        outbox := db.outbox + jobs)
  }

  /** The archive leaves `ArchivedForm`. */
  lemma ArchivedIsForm(db: Db, conversationId: string, now: Instant, stringify: Json -> string)
    requires ArchiveConversation(db, conversationId, now, stringify).Ok?
    requires AttachmentsLocal(db.images, db.messages) && AttachmentsLocal(db.files, db.messages)
    ensures var archived := ArchiveConversation(db, conversationId, now, stringify).value;
      var conv := FindConversation(db.conversations, conversationId).value;
      archived == ArchivedForm(db, conversationId, now.sql, ArchiveKey(conversationId), archived.fileBucket,
                               Jobs.GossipJob(Jobs.D1Worker, ArchiveGossip(conv.title, |MessagesOf(db.messages, conversationId)|),
                                              Some("archive"), Some(conversationId)))
  {
    ArchivedStore(db, conversationId, now, stringify);
  }

  /** Reinstating entries over `ArchivedForm` gives `RestoredForm`. */
  lemma ReinstateForm(db: Db, conversationId: string, at: string, key: string, bucket: map<string, StoredObject>,
                      job: Jobs.QueueJob, conv: Conversation, sms: seq<SnapMessage>, later: Instant, newId: nat -> string)
    requires conv.id == conversationId
    requires Fresh(ArchivedForm(db, conversationId, at, key, bucket, job), sms, newId)
    ensures Reinstate(ArchivedForm(db, conversationId, at, key, bucket, job), conv, sms, later, newId) ==
            Ok(RestoredForm(db, conversationId, at, key, bucket,
                            [job, Jobs.GossipJob(Jobs.D1Worker, RestoreGossip(conv.title, |sms|), Some("restore"), Some(conversationId))],
                            sms, newId, later.sql))
  {
    var archived := ArchivedForm(db, conversationId, at, key, bucket, job);
    ReinstateTables(archived, conv, sms, later, newId);
    assert db.outbox + [job] + [Jobs.GossipJob(Jobs.D1Worker, RestoreGossip(conv.title, |sms|), Some("restore"), Some(conversationId))]
        == db.outbox + [job, Jobs.GossipJob(Jobs.D1Worker, RestoreGossip(conv.title, |sms|), Some("restore"), Some(conversationId))];
  }

  /** The store after archiving and then restoring, table by table. */
  lemma RoundTripStore(db: Db, conversationId: string, now: Instant, later: Instant,
                       stringify: Json -> string, parse: string -> Option<Json>, newId: nat -> string)
    requires Setting(db, conversationId, now, stringify, parse, newId)
    ensures var archived := ArchiveConversation(db, conversationId, now, stringify).value;
      var sms := Readback(db, conversationId);
      var conv := FindConversation(db.conversations, conversationId).value;
      RestoreConversation(archived, conversationId, later, parse, newId) ==
      Ok(RestoredForm(db, conversationId, now.sql, ArchiveKey(conversationId), archived.fileBucket,
                      [Jobs.GossipJob(Jobs.D1Worker, ArchiveGossip(conv.title, |MessagesOf(db.messages, conversationId)|),
                                      Some("archive"), Some(conversationId)),
                       Jobs.GossipJob(Jobs.D1Worker, RestoreGossip(conv.title, |sms|), Some("restore"), Some(conversationId))],
                      sms, newId, later.sql))
  {
    var archived := ArchiveConversation(db, conversationId, now, stringify).value;
    var sms := Readback(db, conversationId);
    var conv := FindConversation(db.conversations, conversationId).value;
    var job := Jobs.GossipJob(Jobs.D1Worker, ArchiveGossip(conv.title, |MessagesOf(db.messages, conversationId)|),
                              Some("archive"), Some(conversationId));
    var marked := conv.(archivedAt := Some(now.sql), archiveKey := Some(ArchiveKey(conversationId)));
    ArchivedIsForm(db, conversationId, now, stringify);
    RestoreReadsSnapshot(db, conversationId, now, later, stringify, parse, newId);
    FreshAfterArchive(db, archived, conversationId, newId);
    ReinstateForm(db, conversationId, now.sql, ArchiveKey(conversationId), archived.fileBucket, job, marked, sms, later, newId);
  }

  /** Archive then restore: the restore succeeds, the message table holds
      the same rows (the conversation's now in export order), every
      attachment row is as it was, links included, and the conversation
      rows are as they were. */
  lemma ArchiveThenRestore(db: Db, conversationId: string, now: Instant, later: Instant,
                           stringify: Json -> string, parse: string -> Option<Json>, newId: nat -> string)
    requires Setting(db, conversationId, now, stringify, parse, newId)
    ensures var archived := ArchiveConversation(db, conversationId, now, stringify).value;
      var r := RestoreConversation(archived, conversationId, later, parse, newId);
      && r.Ok?
      && multiset(r.value.messages) == multiset(db.messages)
      && r.value.images == db.images
      && r.value.files == db.files
      && r.value.conversations == db.conversations
  {
    RoundTripStore(db, conversationId, now, later, stringify, parse, newId);
    MessagesReadBack(db, conversationId);
    MessageRowsBack(db, conversationId);
    ImagesBack(db, conversationId);
    FilesBack(db, conversationId);
    ConversationsBack(db.conversations, conversationId, now.sql, ArchiveKey(conversationId));
  }

  /** A store that differs from `db` only as the round trip leaves it
      exports the conversation the same way. */
  lemma ExportUnchanged(db: Db, restored: Db, conversationId: string, newId: nat -> string, at: string)
    requires DistinctMessageIds(db.messages)
    requires forall a | a in db.annotations && a.conversationId == conversationId :: a.labelText != Some("")
    requires restored.conversations == db.conversations
    requires restored.messages == Filter(db.messages, (m: Message) => m.conversationId != conversationId)
                                  + Chronological(db, conversationId)
    requires restored.images == db.images && restored.files == db.files
    requires restored.annotations == Filter(db.annotations, (a: Annotation) => a.conversationId != conversationId)
                                     + AnnotationsAll(conversationId, Readback(db, conversationId), newId, at)
    requires restored.tags == db.tags && restored.conversationTags == db.conversationTags
    ensures FetchExportData(restored, conversationId) == FetchExportData(db, conversationId)
  {
    ChronologicalBack(db, restored, conversationId);
    EnrichedSame(db, restored, conversationId, newId, at);
  }

  /** The messages, enriched from either store, are the same. */
  lemma EnrichedSame(db: Db, restored: Db, conversationId: string, newId: nat -> string, at: string)
    requires DistinctMessageIds(db.messages)
    requires forall a | a in db.annotations && a.conversationId == conversationId :: a.labelText != Some("")
    requires restored.images == db.images && restored.files == db.files
    requires restored.annotations == Filter(db.annotations, (a: Annotation) => a.conversationId != conversationId)
                                     + AnnotationsAll(conversationId, Readback(db, conversationId), newId, at)
    ensures var sorted := Chronological(db, conversationId);
      EnrichAll(restored, conversationId, sorted) == EnrichAll(db, conversationId, sorted)
  {
    var sorted := Chronological(db, conversationId);
    forall i | 0 <= i < |sorted| ensures Enrich(restored, conversationId, sorted[i]) == Enrich(db, conversationId, sorted[i]) {
      AnnotationBack(db, restored, conversationId, newId, at, i);
    }
  }

  /** Archive then restore: exporting the conversation gives the same
      document data as before (conversation, messages in order with their
      attachments and annotations, tags). */
  lemma ExportSurvivesRoundTrip(db: Db, conversationId: string, now: Instant, later: Instant,
                                stringify: Json -> string, parse: string -> Option<Json>, newId: nat -> string)
    requires Setting(db, conversationId, now, stringify, parse, newId)
    ensures var archived := ArchiveConversation(db, conversationId, now, stringify).value;
      var r := RestoreConversation(archived, conversationId, later, parse, newId);
      r.Ok? && FetchExportData(r.value, conversationId) == FetchExportData(db, conversationId)
  {
    RoundTripStore(db, conversationId, now, later, stringify, parse, newId);
    var archived := ArchiveConversation(db, conversationId, now, stringify).value;
    var restored := RestoreConversation(archived, conversationId, later, parse, newId).value;
    MessagesReadBack(db, conversationId);
    ImagesBack(db, conversationId);
    FilesBack(db, conversationId);
    ConversationsBack(db.conversations, conversationId, now.sql, ArchiveKey(conversationId));
    ExportUnchanged(db, restored, conversationId, newId, later.sql);
  }

  /** Archive then restore: the snapshot stays in the bucket, each message
      gets one search row back, and two gossip jobs are sent, the
      archive's and the restore's. */
  lemma RoundTripLeavesSnapshot(db: Db, conversationId: string, now: Instant, later: Instant,
                                stringify: Json -> string, parse: string -> Option<Json>, newId: nat -> string)
    requires Setting(db, conversationId, now, stringify, parse, newId)
    ensures var archived := ArchiveConversation(db, conversationId, now, stringify).value;
      var r := RestoreConversation(archived, conversationId, later, parse, newId);
      var key := ArchiveKey(conversationId);
      var sorted := Chronological(db, conversationId);
      && r.Ok?
      && key in r.value.fileBucket
      && r.value.fileBucket[key] == StoredObject(TextBody(stringify(Snapshot(db, conversationId, now).value)),
                                                 Some("application/json"), now.ms)
      && |r.value.outbox| == |db.outbox| + 2
      && r.value.messagesFts == Filter(db.messagesFts, (f: FtsRow) => f.conversationId != conversationId)
                                + FtsOf(conversationId, Readback(db, conversationId))
      && forall i :: 0 <= i < |sorted| ==>
           FtsOf(conversationId, Readback(db, conversationId))[i] ==
           FtsRow(sorted[i].id, conversationId, sorted[i].role, sorted[i].content)
  {
    RoundTripStore(db, conversationId, now, later, stringify, parse, newId);
    ArchiveMarksConversation(db, conversationId, now, stringify);
  }
}

=== FILE: auth.dfy ===
/** Bearer-token authentication of `src/auth.ts`: the shape and expiry
    checks of `verifyToken`, the `authenticate` middleware and the token
    `handleLogin` issues. HMAC signing and verification are parameters
    (`sign`, `sigValid`), and so are `JSON.stringify` and `JSON.parse` of
    the token's two JSON parts. */
module Auth {
  import opened Wrappers
  import opened Text
  import opened Base64
  import opened Json

  /** `TOKEN_MAX_AGE_SECONDS`: thirty days. */
  const TokenMaxAgeSeconds: nat := 30 * 24 * 60 * 60

  /** The element of a destructured array, with `undefined` (a missing
      element) as the empty string: both are falsy. */
  function Nth(parts: seq<string>, i: nat): string {
    if i < |parts| then parts[i] else ""
  }

  /** `payload.exp < now` for a value read from parsed JSON. Numbers compare
      as numbers and booleans as 0/1; a string is converted by `toNumber`
      (`None` for NaN); an array compares as the number of its `toString`
      (see `ArrayNumber`); an object's `toString` is `[object Object]`,
      which is NaN, and NaN compares false. */
  predicate ExpBefore(exp: Json, now: int, toNumber: string -> Option<real>) {
    match exp
    case JNum(n) => n < now as real
    case JBool(b) => (if b then 1 else 0) < now
    case JStr(s) => toNumber(s).Some? && toNumber(s).value < now as real
    case JArr(items) => ArrayNumber(items, toNumber).Some? && ArrayNumber(items, toNumber).value < now as real
    case _ => false
  }

  /** The number an array converts to: its `toString` joins the elements'
      strings with commas, so two or more elements give NaN (`None`); no
      element, or a `null` one, gives the empty string, which is 0; a single
      number, string or array converts as that element's string does;
      `true`, `false` and objects give NaN. */
  function ArrayNumber(items: seq<Json>, toNumber: string -> Option<real>): (r: Option<real>)
    ensures |items| == 0 ==> r == Some(0.0)
    ensures |items| > 1 ==> r.None?
    ensures |items| == 1 && items[0].JNum? ==> r == Some(items[0].n)
    decreases items
  {
    if |items| == 0 then Some(0.0)
    else if |items| > 1 then None
    else match items[0]
      case JNull => Some(0.0)
      case JNum(n) => Some(n)
      case JStr(s) => toNumber(s)
      case JArr(inner) => ArrayNumber(inner, toNumber)
      case _ => None
  }

  /** The destructuring `[header, body, signature] = token.split(".")`
      and the check that all three are non-empty. */
  function TokenParts(token: string): (r: Option<(string, string, string)>)
    ensures var parts := Split(token, '.');
      r.Some? <==> |parts| >= 3 && parts[0] != "" && parts[1] != "" && parts[2] != ""
    ensures r.Some? ==> r.value == (Split(token, '.')[0], Split(token, '.')[1], Split(token, '.')[2])
  {
    var parts := Split(token, '.');
    var header, body, signature := Nth(parts, 0), Nth(parts, 1), Nth(parts, 2);
    if header == "" || body == "" || signature == "" then None
    else Some((header, body, signature))
  }

  /** The HMAC check over `header.body`; a signature that is not base64
      makes `atob` throw. */
  predicate SignatureOk(header: string, body: string, signature: string,
                        sigValid: (string, seq<Byte>) -> bool) {
    match FromBase64Url(signature)
    case None => false
    case Some(sig) => sigValid(header + "." + body, sig)
  }

  /** The expiry check on the parsed payload: reading `exp` of `null`
      throws; a falsy `exp` never expires. */
  predicate NotExpired(payload: Json, nowSeconds: int, toNumber: string -> Option<real>) {
    match Prop(payload, "exp")
    case Err(_) => false
    case Ok(exp) => !(Truthy(exp) && ExpBefore(exp.value, nowSeconds, toNumber))
  }

  /** Decoding and parsing of the body, then the expiry check. */
  predicate PayloadOk(body: string, nowSeconds: int,
                      parseJson: seq<Byte> -> Option<Json>, toNumber: string -> Option<real>) {
    match FromBase64Url(body)
    case None => false
    case Some(bytes) =>
      match parseJson(bytes)
      case None => false
      case Some(payload) => NotExpired(payload, nowSeconds, toNumber)
  }

  /** `verifyToken(token, secret)` at wall-clock time `nowMs`. Every throw
      inside the `try` (a bad base64 part, unparseable JSON, a `null`
      payload) yields `false`; the checks run in `verifyToken`'s order and
      each failure is final, so their conjunction is the result. */
  function VerifyToken(token: string, nowMs: nat,
                       sigValid: (string, seq<Byte>) -> bool,
                       parseJson: seq<Byte> -> Option<Json>,
                       toNumber: string -> Option<real>): (ok: bool)
    ensures ok ==> TokenParts(token).Some?
    ensures ok ==> var (h, b, s) := TokenParts(token).value; SignatureOk(h, b, s, sigValid)
  {
    match TokenParts(token)
    case None => false
    case Some((header, body, signature)) =>
      SignatureOk(header, body, signature, sigValid) && PayloadOk(body, nowMs / 1000, parseJson, toNumber)
  }

  /** The header `createToken` signs: `{"alg":"HS256","typ":"JWT"}`. */
  const TokenHeader: Json := JObj([("alg", JStr("HS256")), ("typ", JStr("JWT"))])

  /** `createToken(payload, secret)`: three URL-safe base64 parts joined by dots. */
  function CreateToken(payload: Json, stringify: Json -> seq<Byte>, sign: string -> seq<Byte>): (token: string)
    ensures var header, body := ToBase64Url(stringify(TokenHeader)), ToBase64Url(stringify(payload));
      token == header + "." + body + "." + ToBase64Url(sign(header + "." + body))
  {
    var header := ToBase64Url(stringify(TokenHeader));
    var body := ToBase64Url(stringify(payload));
    var data := header + "." + body;
    data + "." + ToBase64Url(sign(data))
  }

  /** The claims `handleLogin` signs at time `nowMs`. */
  function LoginClaims(nowMs: nat): (claims: Json)
    ensures claims.JObj?
    ensures Field(claims.fields, "exp") == Some(JNum((nowMs / 1000 + TokenMaxAgeSeconds) as real))
    ensures Field(claims.fields, "iat") == Some(JNum((nowMs / 1000) as real))
  {
    var now := nowMs / 1000;
    JObj([("sub", JStr("user")), ("iat", JNum(now as real)), ("exp", JNum((now + TokenMaxAgeSeconds) as real))])
  }

  /** `handleLogin`: a token for the configured password. A body that is
      not JSON, or is JSON `null`, is "Invalid request body" (400). */
  function HandleLogin(body: Option<Json>, authPassword: string, nowMs: nat,
                       stringify: Json -> seq<Byte>, sign: string -> seq<Byte>): (r: Reply<string>)
    ensures r.Reply? <==>
      && body.Some? && body.value.JObj? && authPassword != ""
      && Field(body.value.fields, "password") == Some(JStr(authPassword))
    ensures r.Reply? ==> r.value == CreateToken(LoginClaims(nowMs), stringify, sign)
    ensures r.Fail? ==> r.status == 400 || r.status == 401
  {
    match body
    case None => Fail(400, "Invalid request body")
    case Some(j) =>
      match Prop(j, "password")
      case Err(_) => Fail(400, "Invalid request body")
      case Ok(password) =>
        if !Truthy(password) || password != Some(JStr(authPassword)) then Fail(401, "Invalid password")
        else Reply(CreateToken(LoginClaims(nowMs), stringify, sign))
  }

  /** `authenticate`: `None` when the request may proceed (`authenticate`
      returns `null`), else the 401 reply. */
  function Authenticate(authHeader: Option<string>, nowMs: nat,
                        sigValid: (string, seq<Byte>) -> bool,
                        parseJson: seq<Byte> -> Option<Json>,
                        toNumber: string -> Option<real>): (r: Option<(nat, string)>)
    ensures r.None? <==>
      && authHeader.Some? && StartsWith(authHeader.value, "Bearer ")
      && VerifyToken(authHeader.value[7..], nowMs, sigValid, parseJson, toNumber)
    ensures r.Some? ==> r.value.0 == 401
    ensures authHeader.None? || !StartsWith(authHeader.value, "Bearer ") ==> r == Some((401, "Unauthorized"))
  {
    if authHeader.None? || authHeader.value == "" || !StartsWith(authHeader.value, "Bearer ") then
      Some((401, "Unauthorized"))
    else if !VerifyToken(authHeader.value[7..], nowMs, sigValid, parseJson, toNumber) then
      Some((401, "Invalid token"))
    else None
  }

  // ----------------------------------------------------------------- proofs

  lemma ToBase64UrlNonEmpty(bytes: seq<Byte>)
    requires |bytes| > 0
    ensures ToBase64Url(bytes) != ""
  {
  }

  /** A created token splits into exactly its three parts. */
  lemma CreatedTokenParts(payload: Json, stringify: Json -> seq<Byte>, sign: string -> seq<Byte>)
    ensures var header, body := ToBase64Url(stringify(TokenHeader)), ToBase64Url(stringify(payload));
      Split(CreateToken(payload, stringify, sign), '.') ==
        [header, body, ToBase64Url(sign(header + "." + body))]
  {
    var header := ToBase64Url(stringify(TokenHeader));
    var body := ToBase64Url(stringify(payload));
    ToBase64UrlAlphabet(stringify(TokenHeader));
    ToBase64UrlAlphabet(stringify(payload));
    ToBase64UrlAlphabet(sign(header + "." + body));
    SplitThree(header, body, ToBase64Url(sign(header + "." + body)), '.');
  }

  /** Expiry is strict: a payload whose `exp` equals the current second
      passes, one second later it fails. A zero `exp` is falsy and never
      expires. */
  lemma ExpiryBoundary(nowSeconds: int, toNumber: string -> Option<real>, exp: real)
    ensures NotExpired(JObj([("exp", JNum(exp))]), nowSeconds, toNumber) <==>
      exp == 0.0 || exp >= nowSeconds as real
  {
    assert Field([("exp", JNum(exp))], "exp") == Some(JNum(exp));
  }

  /** An array `exp` is truthy, so it expires when the number it converts
      to is before now: `[]` as soon as the clock is past 0, `[n]` as `n`
      would, and never when it has two or more elements. */
  lemma ArrayExpiry(nowSeconds: int, toNumber: string -> Option<real>, items: seq<Json>)
    ensures NotExpired(JObj([("exp", JArr(items))]), nowSeconds, toNumber) <==>
      !(ArrayNumber(items, toNumber).Some? && ArrayNumber(items, toNumber).value < nowSeconds as real)
    ensures |items| == 0 ==> (NotExpired(JObj([("exp", JArr(items))]), nowSeconds, toNumber) <==> nowSeconds <= 0)
    ensures |items| > 1 ==> NotExpired(JObj([("exp", JArr(items))]), nowSeconds, toNumber)
  {
    assert Field([("exp", JArr(items))], "exp") == Some(JArr(items));
  }

  /** A payload without `exp` never expires; a `null` payload always fails. */
  lemma ExpiryEdgeCases(nowSeconds: int, toNumber: string -> Option<real>)
    ensures NotExpired(JObj([]), nowSeconds, toNumber)
    ensures !NotExpired(JNull, nowSeconds, toNumber)
  {
  }

  /** The claims `handleLogin` signs expire exactly when the current
      second passes `iat + 30 days`. */
  lemma LoginClaimsExpiry(issuedMs: nat, nowSeconds: int, toNumber: string -> Option<real>)
    ensures NotExpired(LoginClaims(issuedMs), nowSeconds, toNumber) <==>
      nowSeconds <= issuedMs / 1000 + TokenMaxAgeSeconds
  {
    var claims := LoginClaims(issuedMs);
    assert Prop(claims, "exp") == Ok(Some(JNum((issuedMs / 1000 + TokenMaxAgeSeconds) as real)));
  }

  /** The parts of an issued token are non-empty, so the shape check passes. */
  lemma IssuedTokenShape(issuedMs: nat, stringify: Json -> seq<Byte>, sign: string -> seq<Byte>)
    requires forall j :: stringify(j) != []
    requires forall d :: |sign(d)| == 32
    ensures var header, body := ToBase64Url(stringify(TokenHeader)), ToBase64Url(stringify(LoginClaims(issuedMs)));
      TokenParts(CreateToken(LoginClaims(issuedMs), stringify, sign)) ==
        Some((header, body, ToBase64Url(sign(header + "." + body))))
  {
    var header := ToBase64Url(stringify(TokenHeader));
    var body := ToBase64Url(stringify(LoginClaims(issuedMs)));
    ToBase64UrlNonEmpty(stringify(TokenHeader));
    ToBase64UrlNonEmpty(stringify(LoginClaims(issuedMs)));
    ToBase64UrlNonEmpty(sign(header + "." + body));
    CreatedTokenParts(LoginClaims(issuedMs), stringify, sign);
  }

  lemma IssuedSignatureOk(header: string, body: string, sign: string -> seq<Byte>,
                          sigValid: (string, seq<Byte>) -> bool)
    requires forall d :: sigValid(d, sign(d))
    ensures SignatureOk(header, body, ToBase64Url(sign(header + "." + body)), sigValid)
  {
    FromToBase64Url(sign(header + "." + body));
  }

  lemma IssuedPayload(payload: Json, nowSeconds: int, stringify: Json -> seq<Byte>,
                      parseJson: seq<Byte> -> Option<Json>, toNumber: string -> Option<real>)
    requires forall j :: parseJson(stringify(j)) == Some(j)
    ensures PayloadOk(ToBase64Url(stringify(payload)), nowSeconds, parseJson, toNumber) ==
      NotExpired(payload, nowSeconds, toNumber)
  {
    FromToBase64Url(stringify(payload));
  }

  /** A token issued by `handleLogin` at `issuedMs` is accepted at `nowMs`
      exactly while the current second has not passed `iat + 30 days`,
      provided verification accepts what signing produces, parsing inverts
      stringifying, JSON text is never empty and signatures are 32 bytes
      (HMAC-SHA-256). */
  lemma IssuedTokenLifetime(issuedMs: nat, nowMs: nat,
                            stringify: Json -> seq<Byte>, sign: string -> seq<Byte>,
                            sigValid: (string, seq<Byte>) -> bool,
                            parseJson: seq<Byte> -> Option<Json>,
                            toNumber: string -> Option<real>)
    requires forall j :: stringify(j) != []
    requires forall d :: |sign(d)| == 32
    requires forall d :: sigValid(d, sign(d))
    requires forall j :: parseJson(stringify(j)) == Some(j)
    ensures VerifyToken(CreateToken(LoginClaims(issuedMs), stringify, sign), nowMs, sigValid, parseJson, toNumber) <==>
      nowMs / 1000 <= issuedMs / 1000 + TokenMaxAgeSeconds
  {
    var claims := LoginClaims(issuedMs);
    var header := ToBase64Url(stringify(TokenHeader));
    var body := ToBase64Url(stringify(claims));
    IssuedTokenShape(issuedMs, stringify, sign);
    IssuedSignatureOk(header, body, sign, sigValid);
    IssuedPayload(claims, nowMs / 1000, stringify, parseJson, toNumber);
    LoginClaimsExpiry(issuedMs, nowMs / 1000, toNumber);
  }
}

=== FILE: base64.dfy ===
/** Base64 as the runtime's `btoa`/`atob` implement it (the forgiving decoder
    of the HTML standard), and the URL-safe variant of section 5 of RFC 4648
    built on them by `toBase64Url`/`fromBase64Url` in `src/auth.ts`.
    `btoa` takes a string of code units 0..255; the model takes those bytes. */
module Base64 {
  import opened Wrappers
  import opened Text

  type Byte = x: int | 0 <= x < 256
  type Sextet = x: int | 0 <= x < 64

  /** The alphabet of standard base64 (section 4 of RFC 4648). */
  predicate IsB64Char(c: char) {
    IsUpper(c) || IsLowerLetter(c) || IsDigit(c) || c == '+' || c == '/'
  }

  predicate IsUrlChar(c: char) {
    IsUpper(c) || IsLowerLetter(c) || IsDigit(c) || c == '-' || c == '_'
  }

  function CharOf(v: Sextet): (c: char)
    ensures IsB64Char(c)
  {
    if v < 26 then ('A' as int + v) as char
    else if v < 52 then ('a' as int + (v - 26)) as char
    else if v < 62 then ('0' as int + (v - 52)) as char
    else if v == 62 then '+'
    else '/'
  }

  function ValueOf(c: char): (v: Sextet)
    requires IsB64Char(c)
    ensures CharOf(v) == c
  {
    if IsUpper(c) then c as int - 'A' as int
    else if IsLowerLetter(c) then c as int - 'a' as int + 26
    else if IsDigit(c) then c as int - '0' as int + 52
    else if c == '+' then 62
    else 63
  }

  lemma ValueOfCharOf(v: Sextet)
    ensures ValueOf(CharOf(v)) == v
  {
  }

  // ------------------------------------------------------------- encoding

  /** Three bytes as four characters. */
  function EncodeBlock(a: Byte, b: Byte, c: Byte): (r: string)
    ensures |r| == 4
  {
    [CharOf(a / 4), CharOf((a % 4) * 16 + b / 16), CharOf((b % 16) * 4 + c / 64), CharOf(c % 64)]
  }

  /** Length of the unpadded encoding of `n` bytes: four characters per
      whole block, then two or three for a final block of one or two. */
  function EncodedLength(n: nat): (len: nat)
    ensures len % 4 != 1
  {
    if n == 0 then 0 else if n == 1 then 2 else if n == 2 then 3 else 4 + EncodedLength(n - 3)
  }

  /** The number of `=` `btoa` appends for `n` bytes. */
  function PadOf(n: nat): (k: nat)
    ensures k < 3
    ensures k == 0 ==> EncodedLength(n) % 4 == 0
    ensures k == 1 ==> EncodedLength(n) % 4 == 3
    ensures k == 2 ==> EncodedLength(n) % 4 == 2
  {
    if n == 0 then 0 else if n == 1 then 2 else if n == 2 then 1 else PadOf(n - 3)
  }

  /** The characters of the encoding without its `=` padding. */
  function EncodeUnpadded(bytes: seq<Byte>): (r: string)
    ensures |r| == EncodedLength(|bytes|)
    ensures forall i :: 0 <= i < |r| ==> IsB64Char(r[i])
    decreases |bytes|
  {
    if |bytes| == 0 then ""
    else if |bytes| == 1 then
      [CharOf(bytes[0] / 4), CharOf((bytes[0] % 4) * 16)]
    else if |bytes| == 2 then
      [CharOf(bytes[0] / 4), CharOf((bytes[0] % 4) * 16 + bytes[1] / 16), CharOf((bytes[1] % 16) * 4)]
    else
      EncodeBlock(bytes[0], bytes[1], bytes[2]) + EncodeUnpadded(bytes[3..])
  }

  /** `"=".repeat(n)` for the counts that occur, below four. */
  function Padding(n: nat): (r: string)
    requires n < 4
    ensures |r| == n && forall i :: 0 <= i < n ==> r[i] == '='
  {
    if n == 0 then "" else if n == 1 then "=" else if n == 2 then "==" else "==="
  }

  /** `btoa`: standard base64 padded with `=` to a multiple of four. */
  function Btoa(bytes: seq<Byte>): (r: string)
    ensures |r| % 4 == 0
  {
    EncodeUnpadded(bytes) + Padding(PadOf(|bytes|))
  }

  // ------------------------------------------------------------- decoding

  /** The ASCII whitespace the forgiving decoder strips first. */
  predicate IsAsciiWhite(c: char) {
    c == '\t' || c == '\n' || c == '\U{000C}' || c == '\r' || c == ' '
  }

  function RemoveAsciiWhite(s: string): (r: string)
    ensures |r| <= |s|
    ensures (forall i :: 0 <= i < |s| ==> !IsAsciiWhite(s[i])) ==> r == s
  {
    if |s| == 0 then ""
    else (if IsAsciiWhite(s[0]) then "" else [s[0]]) + RemoveAsciiWhite(s[1..])
  }

  predicate AllB64(s: string) {
    forall i :: 0 <= i < |s| ==> IsB64Char(s[i])
  }

  function DecodeBlock(s: string): (r: seq<Byte>)
    requires |s| == 4 && AllB64(s)
    ensures |r| == 3
  {
    var a, b, c, d := ValueOf(s[0]), ValueOf(s[1]), ValueOf(s[2]), ValueOf(s[3]);
    [a * 4 + b / 16, (b % 16) * 16 + c / 4, (c % 4) * 64 + d]
  }

  /** Decoding of validated characters; leftover bits of a final group of
      two or three characters are discarded. */
  function DecodeChars(s: string): (r: seq<Byte>)
    requires AllB64(s) && |s| % 4 != 1
    decreases |s|
  {
    if |s| == 0 then []
    else if |s| == 2 then
      [ValueOf(s[0]) * 4 + ValueOf(s[1]) / 16]
    else if |s| == 3 then
      var b := ValueOf(s[1]);
      [ValueOf(s[0]) * 4 + b / 16, (b % 16) * 16 + ValueOf(s[2]) / 4]
    else
      DecodeBlock(s[..4]) + DecodeChars(s[4..])
  }

  /** The forgiving decoder's removal of the one or two `=` that end a
      length divisible by four. */
  function StripPadding(d: string): (e: string)
    ensures |e| <= |d| && e == d[..|e|]
    ensures |d| % 4 != 0 || !EndsWith(d, "=") ==> e == d
  {
    if |d| % 4 == 0 && EndsWith(d, "==") then d[..|d| - 2]
    else if |d| % 4 == 0 && EndsWith(d, "=") then d[..|d| - 1]
    else d
  }

  /** Decoding of what is left: throws on a dangling sixth of a group or a
      character outside the alphabet. */
  function DecodeValidated(e: string): (r: Option<seq<Byte>>)
    ensures r.Some? <==> |e| % 4 != 1 && AllB64(e)
  {
    if |e| % 4 == 1 || !AllB64(e) then None else Some(DecodeChars(e))
  }

  /** `atob`: `None` where it throws `InvalidCharacterError`. */
  function Atob(s: string): Option<seq<Byte>> {
    DecodeValidated(StripPadding(RemoveAsciiWhite(s)))
  }

  // ------------------------------------------------------ url-safe variant

  /** `.replace(/x/g, "y")` for single characters x and y. */
  function MapChar(s: string, from: char, to: char): (r: string)
    ensures |r| == |s|
    ensures forall i :: 0 <= i < |s| ==> r[i] == if s[i] == from then to else s[i]
  {
    seq(|s|, i requires 0 <= i < |s| => if s[i] == from then to else s[i])
  }

  /** `.replace(/=+$/, "")`: drops the trailing run of `=`. */
  function StripTrailingEq(s: string): (r: string)
    ensures |r| <= |s| && r == s[..|r|]
    ensures |r| == 0 || r[|r| - 1] != '='
    ensures forall i :: |r| <= i < |s| ==> s[i] == '='
  {
    if |s| > 0 && s[|s| - 1] == '=' then StripTrailingEq(s[..|s| - 1]) else s
  }

  /** `toBase64Url`. */
  function ToBase64Url(bytes: seq<Byte>): (r: string)
    ensures forall i :: 0 <= i < |r| ==> IsUrlChar(r[i])
    ensures |r| == EncodedLength(|bytes|)
  {
    var r := StripTrailingEq(MapChar(MapChar(Btoa(bytes), '+', '-'), '/', '_'));
    ToBase64UrlIsMappedUnpadded(bytes);
    r
  }

  /** The number of `=` `fromBase64Url` appends to reach a multiple of four. */
  function PadCount(n: nat): (k: nat)
    ensures (n + k) % 4 == 0 && k < 4
  {
    (4 - n % 4) % 4
  }

  /** `fromBase64Url`: `None` where `atob` throws. */
  function FromBase64Url(s: string): Option<seq<Byte>> {
    var b64 := MapChar(MapChar(s, '-', '+'), '_', '/');
    Atob(b64 + Padding(PadCount(|b64|)))
  }

  // ----------------------------------------------------------------- proofs

  /** The URL-safe form is the unpadded encoding with `+` and `/` renamed. */
  lemma ToBase64UrlIsMappedUnpadded(bytes: seq<Byte>)
    ensures StripTrailingEq(MapChar(MapChar(Btoa(bytes), '+', '-'), '/', '_')) ==
      MapChar(MapChar(EncodeUnpadded(bytes), '+', '-'), '/', '_')
  {
    var u := EncodeUnpadded(bytes);
    var pad := Padding(PadOf(|bytes|));
    var m := MapChar(MapChar(u, '+', '-'), '/', '_');
    assert MapChar(MapChar(u + pad, '+', '-'), '/', '_') == m + pad;
    StripAfterNonEq(m, pad);
  }

  lemma StripAfterNonEq(m: string, pad: string)
    requires |m| == 0 || m[|m| - 1] != '='
    requires forall i :: 0 <= i < |pad| ==> pad[i] == '='
    ensures StripTrailingEq(m + pad) == m
    decreases |pad|
  {
    if |pad| > 0 {
      assert (m + pad)[..|m + pad| - 1] == m + pad[..|pad| - 1];
      StripAfterNonEq(m, pad[..|pad| - 1]);
    } else {
      assert m + pad == m;
    }
  }

  lemma UnmapUrl(u: string)
    requires AllB64(u)
    ensures MapChar(MapChar(MapChar(MapChar(u, '+', '-'), '/', '_'), '-', '+'), '_', '/') == u
  {
  }

  lemma HighLow(a: Byte, b: Byte)
    ensures ((a % 4) * 16 + b / 16) / 16 == a % 4
    ensures ((a % 4) * 16 + b / 16) % 16 == b / 16
    ensures (a / 4) * 4 + a % 4 == a
  {
  }

  lemma MidLow(b: Byte, c: Byte)
    ensures ((b % 16) * 4 + c / 64) / 4 == b % 16
    ensures ((b % 16) * 4 + c / 64) % 4 == c / 64
    ensures (b / 16) * 16 + b % 16 == b
    ensures (c / 64) * 64 + c % 64 == c
  {
  }

  /** One block of three bytes survives encoding and decoding. */
  lemma BlockRoundTrip(a: Byte, b: Byte, c: Byte)
    ensures AllB64(EncodeBlock(a, b, c))
    ensures DecodeBlock(EncodeBlock(a, b, c)) == [a, b, c]
  {
    var s1: Sextet := (a % 4) * 16 + b / 16;
    var s2: Sextet := (b % 16) * 4 + c / 64;
    ValueOfCharOf(a / 4);
    ValueOfCharOf(s1);
    ValueOfCharOf(s2);
    ValueOfCharOf(c % 64);
    HighLow(a, b);
    MidLow(b, c);
  }

  lemma DecodeCharsAppend(x: string, y: string)
    requires |x| == 4 && AllB64(x) && AllB64(y) && |y| % 4 != 1
    ensures AllB64(x + y) && (x + y)[..4] == x && (x + y)[4..] == y
    ensures DecodeChars(x + y) == DecodeBlock(x) + DecodeChars(y)
  {
  }

  lemma OneByteRoundTrip(a: Byte)
    ensures AllB64(EncodeUnpadded([a]))
    ensures DecodeChars(EncodeUnpadded([a])) == [a]
  {
    ValueOfCharOf(a / 4);
    ValueOfCharOf((a % 4) * 16);
    HighLow(a, 0);
  }

  lemma TwoBytesRoundTrip(a: Byte, b: Byte)
    ensures AllB64(EncodeUnpadded([a, b]))
    ensures DecodeChars(EncodeUnpadded([a, b])) == [a, b]
  {
    var s1: Sextet := (a % 4) * 16 + b / 16;
    ValueOfCharOf(a / 4);
    ValueOfCharOf(s1);
    ValueOfCharOf((b % 16) * 4);
    HighLow(a, b);
    MidLow(b, 0);
  }

  lemma ManyBytesStep(bytes: seq<Byte>)
    requires |bytes| >= 3
    requires AllB64(EncodeUnpadded(bytes[3..]))
    requires DecodeChars(EncodeUnpadded(bytes[3..])) == bytes[3..]
    ensures AllB64(EncodeUnpadded(bytes))
    ensures DecodeChars(EncodeUnpadded(bytes)) == bytes
  {
    var x := EncodeBlock(bytes[0], bytes[1], bytes[2]);
    var y := EncodeUnpadded(bytes[3..]);
    assert EncodeUnpadded(bytes) == x + y;
    BlockRoundTrip(bytes[0], bytes[1], bytes[2]);
    DecodeCharsAppend(x, y);
    PeelThree(bytes);
  }

  lemma PeelThree(bytes: seq<Byte>)
    requires |bytes| >= 3
    ensures [bytes[0], bytes[1], bytes[2]] + bytes[3..] == bytes
  {
  }

  lemma PadCountShift(x: nat)
    ensures PadCount(x + 4) == PadCount(x)
  {
    assert (x + 4) % 4 == x % 4;
  }

  /** The padding `btoa` appends is the one that completes the last group. */
  lemma {:induction false} PadOfIsPadCount(n: nat)
    ensures PadCount(EncodedLength(n)) == PadOf(n)
  {
    if n >= 3 {
      PadOfIsPadCount(n - 3);
      PadCountShift(EncodedLength(n - 3));
    }
  }

  /** Decoding inverts the unpadded encoding. */
  lemma {:induction false} DecodeEncodeUnpadded(bytes: seq<Byte>)
    ensures AllB64(EncodeUnpadded(bytes))
    ensures DecodeChars(EncodeUnpadded(bytes)) == bytes
    decreases |bytes|
  {
    if |bytes| == 1 {
      assert bytes == [bytes[0]];
      OneByteRoundTrip(bytes[0]);
    } else if |bytes| == 2 {
      assert bytes == [bytes[0], bytes[1]];
      TwoBytesRoundTrip(bytes[0], bytes[1]);
    } else if |bytes| >= 3 {
      DecodeEncodeUnpadded(bytes[3..]);
      ManyBytesStep(bytes);
    }
  }

  lemma NoAsciiWhiteInPadded(u: string, k: nat)
    requires AllB64(u) && k < 4
    ensures RemoveAsciiWhite(u + Padding(k)) == u + Padding(k)
  {
    var e := u + Padding(k);
    assert forall i :: 0 <= i < |e| ==> e[i] == '=' || IsB64Char(e[i]);
  }

  lemma StripUnpadded(e: string)
    requires AllB64(e)
    ensures StripPadding(e) == e
  {
    if |e| > 0 {
      assert IsB64Char(e[|e| - 1]);
    }
  }

  lemma AtobUnpadded(e: string)
    requires AllB64(e) && |e| % 4 != 1
    ensures Atob(e) == Some(DecodeChars(e))
  {
    NoAsciiWhiteInPadded(e, 0);
    assert e + Padding(0) == e;
    StripUnpadded(e);
  }

  lemma StripOneEq(u: string)
    requires AllB64(u) && |u| % 4 == 3
    ensures StripPadding(u + "=") == u
  {
    var e := u + "=";
    assert e[|e| - 2] == u[|u| - 1];
    assert e[..|e| - 1] == u;
  }

  lemma AtobOneEq(u: string)
    requires AllB64(u) && |u| % 4 == 3
    ensures Atob(u + "=") == Some(DecodeChars(u))
  {
    NoAsciiWhiteInPadded(u, 1);
    StripOneEq(u);
  }

  lemma StripTwoEq(u: string)
    requires |u| % 4 == 2
    ensures StripPadding(u + "==") == u
  {
    var e := u + "==";
    assert e[..|e| - 2] == u;
  }

  lemma AtobTwoEq(u: string)
    requires AllB64(u) && |u| % 4 == 2
    ensures Atob(u + "==") == Some(DecodeChars(u))
  {
    NoAsciiWhiteInPadded(u, 2);
    StripTwoEq(u);
  }

  /** `atob` inverts `btoa`. */
  lemma AtobBtoa(bytes: seq<Byte>)
    ensures Atob(Btoa(bytes)) == Some(bytes)
  {
    var u := EncodeUnpadded(bytes);
    var k := PadOf(|bytes|);
    DecodeEncodeUnpadded(bytes);
    if k == 2 {
      assert Padding(k) == "==";
      AtobTwoEq(u);
    } else if k == 1 {
      assert Padding(k) == "=";
      AtobOneEq(u);
    } else {
      assert u + Padding(k) == u;
      AtobUnpadded(u);
    }
  }

  /** Round trip: `fromBase64Url(toBase64Url(s)) == s` for every byte string. */
  lemma FromToBase64Url(bytes: seq<Byte>)
    ensures FromBase64Url(ToBase64Url(bytes)) == Some(bytes)
  {
    var u := EncodeUnpadded(bytes);
    var url := ToBase64Url(bytes);
    assert url == MapChar(MapChar(u, '+', '-'), '/', '_');
    UnmapUrl(u);
    assert MapChar(MapChar(url, '-', '+'), '_', '/') == u;
    PadOfIsPadCount(|bytes|);
    AtobBtoa(bytes);
  }

  /** The URL-safe form never contains `+`, `/` or `=`, and so never a dot
      either, which keeps the three parts of a token apart. */
  lemma ToBase64UrlAlphabet(bytes: seq<Byte>)
    ensures '+' !in ToBase64Url(bytes) && '/' !in ToBase64Url(bytes)
    ensures '=' !in ToBase64Url(bytes) && '.' !in ToBase64Url(bytes)
  {
    var r := ToBase64Url(bytes);
    forall i | 0 <= i < |r|
      ensures r[i] != '+' && r[i] != '/' && r[i] != '=' && r[i] != '.'
    {
      assert IsUrlChar(r[i]);
    }
  }

  /** A group of one leftover character cannot be decoded: `atob` throws,
      so a URL-safe string of length 4k+1 is rejected. */
  lemma FromBase64UrlRejectsLengthOneMod4(s: string)
    requires |s| % 4 == 1
    requires forall i :: 0 <= i < |s| ==> IsUrlChar(s[i])
    ensures FromBase64Url(s).None?
  {
    var b64 := MapChar(MapChar(s, '-', '+'), '_', '/');
    UrlMappedIsB64(s);
    assert Padding(PadCount(|b64|)) == "===";
    AtobRejectsThreeEq(b64);
  }

  lemma UrlMappedIsB64(s: string)
    requires forall i :: 0 <= i < |s| ==> IsUrlChar(s[i])
    ensures AllB64(MapChar(MapChar(s, '-', '+'), '_', '/'))
  {
  }

  /** Three `=` after a group of one character leave one `=` in place,
      which `atob` refuses. */
  lemma AtobRejectsThreeEq(u: string)
    requires AllB64(u) && |u| % 4 == 1
    ensures Atob(u + "===").None?
  {
    NoAsciiWhiteInPadded(u, 3);
    assert u + Padding(3) == u + "===";
    StripThreeEq(u);
    assert (u + "=")[|u|] == '=';
  }

  lemma StripThreeEq(u: string)
    requires |u| % 4 == 1
    ensures StripPadding(u + "===") == u + "="
  {
    var e := u + "===";
    assert e[..|e| - 2] == u + "=";
  }
}

=== FILE: chat.dfy ===
/** The two routes that ask the model for a reply (`POST …/messages` to
    send a user message, `POST …/regenerate` to answer an existing one
    again) and what `streamClaudeResponse` does around the relay: the
    provider request, the events written to the client, and the rows
    written once the read loop has ended. */
module Chat {
  import opened Wrappers
  import opened Text
  import opened Json
  import opened Store
  import opened Sorting
  import opened Ancestry
  import opened Outgoing
  import opened SystemPrompt
  import opened StreamRelay
  import opened ModelDetector

  /** How many messages of the branch go into the context. */
  const ContextLimit: nat := 50
  const MaxTokens: nat := 4096
  /** The title a conversation is created with. */
  const NewChat: string := "New Chat"
  /** Auto-titles keep this many characters of the first message. */
  const TitleLength: nat := 50

  // ------------------------------------------------------------ provider

  /** The JSON body posted to the provider. `system` is left out when the
      prompt is empty. */
  datatype ProviderRequest = ProviderRequest(model: string, maxTokens: nat, temperature: real,
                                             system: Option<string>, messages: seq<Outgoing>)

  /** How the provider answers: a non-2xx status with its body text, or a
      stream of which `chunks` were read before the loop ended, either at
      the end of the body (`failure == None`) or by an exception carrying
      the given message. */
  datatype Answer = Refused(status: nat, body: string) | Streamed(chunks: seq<string>, failure: Option<string>)

  /** An event written to the client's stream. */
  datatype Event = Delta(text: string) | Done(id: string, conversationId: string) | StreamError(message: string)

  /** The auto-title material of a call: only send passes it. */
  datatype TitleHint = TitleHint(content: Option<string>, contextLength: Option<int>)

  const NoHint: TitleHint := TitleHint(None, None)

  /** Everything a reply depends on besides the store and the model log:
      the clock (with the time as the prompt shows it), the two fresh ids,
      and the oracles for discovery, UTF-8 decoding, `JSON.parse` and the
      provider itself. */
  datatype Env = Env(now: Instant, shownTime: string, userId: string, assistantId: string,
                     discover: string -> Option<seq<Discovered>>, utf8: seq<Byte> -> string,
                     parse: string -> Option<Json>, provider: ProviderRequest -> Answer)

  /** The store and model log afterwards, and the HTTP reply: the event
      stream, or an error status and message. */
  datatype Outcome = Outcome(db: Db, kv: ModelKv, reply: Reply<seq<Event>>)

  function Request(conv: Conversation, system: string, messages: seq<Outgoing>): (r: ProviderRequest)
    ensures r.system.Some? <==> system != ""
    ensures r.system.Some? ==> r.system.value == system
    ensures r.model == conv.model && r.temperature == conv.temperature && r.maxTokens == MaxTokens
    ensures r.messages == messages
  {
    ProviderRequest(conv.model, MaxTokens, conv.temperature, if system != "" then Some(system) else None, messages)
  }

  // ------------------------------------------------------------ events

  function DeltaEvents(deltas: seq<string>): (r: seq<Event>)
    ensures |r| == |deltas|
    ensures forall i :: 0 <= i < |r| ==> r[i] == Delta(deltas[i])
  {
    seq(|deltas|, i requires 0 <= i < |deltas| => Delta(deltas[i]))
  }

  /** The text a client reassembles from the stream: the delta events'
      texts in order. */
  function Written(events: seq<Event>): string {
    if |events| == 0 then ""
    else Written(events[..|events| - 1]) + (if events[|events| - 1].Delta? then events[|events| - 1].text else "")
  }

  lemma {:induction false} WrittenDeltas(deltas: seq<string>)
    ensures Written(DeltaEvents(deltas)) == Concat(deltas)
    decreases |deltas|
  {
    if |deltas| > 0 {
      var n := |deltas|;
      assert DeltaEvents(deltas)[..n - 1] == DeltaEvents(deltas[..n - 1]);
      WrittenDeltas(deltas[..n - 1]);
    }
  }

  /** A closing event adds nothing to the reassembled text. */
  lemma WrittenThenClose(deltas: seq<string>, close: Event)
    requires !close.Delta?
    ensures Written(DeltaEvents(deltas) + [close]) == Concat(deltas)
  {
    var es := DeltaEvents(deltas) + [close];
    assert es[..|es| - 1] == DeltaEvents(deltas);
    WrittenDeltas(deltas);
  }

  // ------------------------------------------------------------ finishing

  /** `autoTitleContent && (contextLength ?? 999) <= 1`. */
  predicate TitleApplies(hint: TitleHint) {
    hint.content.Some? && hint.content.value != "" && hint.contextLength.GetOr(999) <= 1
  }

  /** The first 50 characters, with "..." when the message is longer. */
  function AutoTitle(content: string): (t: string)
    ensures |content| <= TitleLength ==> t == content
    ensures |content| > TitleLength ==> |t| == TitleLength + 3 && t[..TitleLength] == content[..TitleLength]
                                        && EndsWith(t, "...")
  {
    if |content| > TitleLength then content[..TitleLength] + "..." else content
  }

  /** The conversation row update after a completed reply: with a title
      hint, `SET title, updated_at … WHERE id = ? AND title = 'New Chat'`
      (a row with another title is not touched at all); without one,
      `SET updated_at`. */
  function Touch(cs: seq<Conversation>, id: string, hint: TitleHint, now: string): (r: seq<Conversation>)
    ensures |r| == |cs|
    ensures forall i :: 0 <= i < |cs| && cs[i].id != id ==> r[i] == cs[i]
    ensures forall i :: 0 <= i < |cs| && cs[i].id == id ==>
      r[i] == if !TitleApplies(hint) then cs[i].(updatedAt := now)
              else if cs[i].title == NewChat then cs[i].(title := AutoTitle(hint.content.value), updatedAt := now)
              else cs[i]
  {
    if TitleApplies(hint) then
      UpdateConversation(cs, id, (c: Conversation) =>
        if c.title == NewChat then c.(title := AutoTitle(hint.content.value), updatedAt := now) else c)
    else UpdateConversation(cs, id, (c: Conversation) => c.(updatedAt := now))
  }

  /** `trackModel` runs only for a detected model: a string other than
      "unknown". */
  function Tracked(kv: ModelKv, model: Json, nowMs: int): (r: ModelKv)
    ensures model == Unknown || !model.JStr? ==> r == kv
    ensures model.JStr? && model != Unknown ==> r == TrackModel(kv, model.s, Usage(None, None), nowMs)
  {
    if model.JStr? && model.s != "unknown" then TrackModel(kv, model.s, Usage(None, None), nowMs) else kv
  }

  function AssistantMessage(env: Env, conversationId: string, text: string, parentId: string): Message {
    Message(env.assistantId, conversationId, "assistant", text, Some(parentId), env.now.sql)
  }

  /** The writes after a read loop that ended normally: the assistant row,
      its index row, and the conversation update. */
  function Finish(db: Db, conversationId: string, parentId: string, text: string, hint: TitleHint, env: Env): (r: Db)
    ensures r.messages == db.messages + [AssistantMessage(env, conversationId, text, parentId)]
    ensures r.messagesFts == db.messagesFts + [FtsRow(env.assistantId, conversationId, "assistant", text)]
    ensures r.conversations == Touch(db.conversations, conversationId, hint, env.now.sql)
    ensures r == db.(messages := r.messages, messagesFts := r.messagesFts, conversations := r.conversations)
  {
    db.(messages := db.messages + [AssistantMessage(env, conversationId, text, parentId)],
        messagesFts := db.messagesFts + [FtsRow(env.assistantId, conversationId, "assistant", text)],
        conversations := Touch(db.conversations, conversationId, hint, env.now.sql))
  }

  /** `streamClaudeResponse`: ask the provider, relay its deltas, and
      write the reply only once the read loop has ended normally. */
  function Respond(db: Db, kv: ModelKv, conversationId: string, request: ProviderRequest, parentId: string,
                   hint: TitleHint, env: Env): (o: Outcome)
  {
    match env.provider(request)
    case Refused(status, body) => Outcome(db, kv, Fail(status, "Claude API error: " + body))
    case Streamed(chunks, failure) =>
      var relay := RelayStream(chunks, env.parse);
      if failure.Some? then Outcome(db, kv, Reply(DeltaEvents(relay.deltas) + [StreamError(failure.value)]))
      else
        Outcome(Finish(db, conversationId, parentId, relay.text, hint, env),
                Tracked(kv, relay.model, env.now.ms),
                Reply(DeltaEvents(relay.deltas) + [Done(env.assistantId, conversationId)]))
  }

  /** A refusal or a failure while reading writes nothing: neither the
      store nor the model log changes, and a failed stream ends with an
      error event after the deltas already relayed. */
  lemma FailureWritesNothing(db: Db, kv: ModelKv, conversationId: string, request: ProviderRequest, parentId: string,
                             hint: TitleHint, env: Env)
    requires env.provider(request).Refused? || env.provider(request).failure.Some?
    ensures var o := Respond(db, kv, conversationId, request, parentId, hint, env);
      o.db == db && o.kv == kv
    ensures env.provider(request).Streamed? ==>
      var o := Respond(db, kv, conversationId, request, parentId, hint, env);
      && o.reply.Reply? && |o.reply.value| > 0
      && o.reply.value[|o.reply.value| - 1] == StreamError(env.provider(request).failure.value)
  {
  }

  /** After a normal end of stream exactly one row is added, the assistant
      reply under the triggering message, and its content is exactly the
      text the client reassembles from the delta events. */
  lemma ReplyIsWhatWasStreamed(db: Db, kv: ModelKv, conversationId: string, request: ProviderRequest, parentId: string,
                               hint: TitleHint, env: Env)
    requires env.provider(request).Streamed? && env.provider(request).failure.None?
    ensures var o := Respond(db, kv, conversationId, request, parentId, hint, env);
      && o.reply.Reply?
      && o.reply.value[|o.reply.value| - 1] == Done(env.assistantId, conversationId)
      && |o.db.messages| == |db.messages| + 1
      && o.db.messages[..|db.messages|] == db.messages
      && o.db.messages[|db.messages|].id == env.assistantId
      && o.db.messages[|db.messages|].role == "assistant"
      && o.db.messages[|db.messages|].parent == Some(parentId)
      && o.db.messages[|db.messages|].content == Written(o.reply.value)
  {
    var relay := RelayStream(env.provider(request).chunks, env.parse);
    WrittenThenClose(relay.deltas, Done(env.assistantId, conversationId));
    var o := Respond(db, kv, conversationId, request, parentId, hint, env);
    assert o.db.messages == db.messages + [AssistantMessage(env, conversationId, relay.text, parentId)];
  }

  /** Without a title hint no conversation's title changes, whatever the
      provider answers. */
  lemma NoHintKeepsTitles(db: Db, kv: ModelKv, conversationId: string, request: ProviderRequest, parentId: string, env: Env)
    ensures var o := Respond(db, kv, conversationId, request, parentId, NoHint, env);
      && |o.db.conversations| == |db.conversations|
      && forall i :: 0 <= i < |db.conversations| ==> o.db.conversations[i].title == db.conversations[i].title
  {
  }

  // ------------------------------------------------------------ send

  datatype SendBody = SendBody(content: Option<string>, imageIds: seq<string>, fileIds: seq<string>,
                               parentMessageId: Option<string>)

  /** `!body.content || !body.content.trim()`. */
  predicate Blank(content: Option<string>) {
    content.None? || Trim(content.value) == ""
  }

  /** `ORDER BY created_at DESC LIMIT 1`: a row with the greatest creation
      time. SQLite leaves the order of ties open; here the earliest such
      row wins. */
  function Latest(ms: seq<Message>): (r: Option<Message>)
    ensures r.None? <==> |ms| == 0
    ensures r.Some? ==> r.value in ms
  {
    if |ms| == 0 then None
    else match Latest(ms[1..])
      case None => Some(ms[0])
      case Some(m) => if StrLe(m.createdAt, ms[0].createdAt) then Some(ms[0]) else Some(m)
  }

  lemma {:induction false} LatestIsGreatest(ms: seq<Message>)
    requires |ms| > 0
    ensures forall i :: 0 <= i < |ms| ==> StrLe(ms[i].createdAt, Latest(ms).value.createdAt)
  {
    var r := Latest(ms).value;
    if |ms| == 1 {
      StrLeReflexive(ms[0].createdAt);
    } else {
      LatestIsGreatest(ms[1..]);
      var m := Latest(ms[1..]).value;
      StrLeTotal(m.createdAt, ms[0].createdAt);
      forall i | 1 <= i < |ms| ensures StrLe(ms[i].createdAt, r.createdAt) {
        assert ms[i] == ms[1..][i - 1];
        if r != m {
          StrLeTransitive(ms[i].createdAt, m.createdAt, r.createdAt);
        }
      }
      if r == ms[0] { StrLeReflexive(r.createdAt); }
    }
  }

  /** The new user message's parent: the given id when truthy, else the
      conversation's most recent message, else none. */
  function ParentOf(ms: seq<Message>, conversationId: string, given: Option<string>): Option<string> {
    if IsSet(given) then given
    else match Latest(MessagesOf(ms, conversationId))
      case None => None
      case Some(m) => Some(m.id)
  }

  /** Without an explicit parent, the user message hangs under the most
      recent message of its conversation, and is a root only when the
      conversation has none. */
  lemma DefaultParentIsLatest(ms: seq<Message>, conversationId: string, given: Option<string>)
    requires !IsSet(given)
    ensures ParentOf(ms, conversationId, given).None? <==> MessagesOf(ms, conversationId) == []
    ensures ParentOf(ms, conversationId, given).Some? ==>
      exists m :: m in ms && m.conversationId == conversationId && m.id == ParentOf(ms, conversationId, given).value
               && forall k :: 0 <= k < |ms| && ms[k].conversationId == conversationId ==> StrLe(ms[k].createdAt, m.createdAt)
  {
    var own := MessagesOf(ms, conversationId);
    if |own| > 0 {
      LatestIsGreatest(own);
      var m := Latest(own).value;
      forall k | 0 <= k < |ms| && ms[k].conversationId == conversationId ensures StrLe(ms[k].createdAt, m.createdAt) {
        assert ms[k] in own;
        var j :| 0 <= j < |own| && own[j] == ms[k];
      }
    }
  }

  /** The uploads named in the body get the new message's id, each only
      when it belongs to the conversation; no other column or row changes. */
  function LinkUploads(rows: seq<Attachment>, ids: seq<string>, conversationId: string, messageId: string): (r: seq<Attachment>)
    ensures |r| == |rows|
    ensures forall i :: 0 <= i < |rows| ==>
      r[i] == if rows[i].id in ids && rows[i].conversationId == conversationId then rows[i].(messageId := Some(messageId)) else rows[i]
    decreases |ids|
  {
    if |ids| == 0 then rows
    else LinkUploads(LinkAttachment(rows, ids[0], conversationId, Some(messageId)), ids[1..], conversationId, messageId)
  }

  function UserMessage(env: Env, conversationId: string, content: string, parent: Option<string>): Message {
    Message(env.userId, conversationId, "user", content, parent, env.now.sql)
  }

  /** The writes before the provider is called: the user row, its index
      row, and the links of the uploads. */
  function SaveUser(db: Db, conversationId: string, body: SendBody, env: Env): (r: Db)
    requires body.content.Some?
    ensures r.messages == db.messages + [UserMessage(env, conversationId, body.content.value,
                                                     ParentOf(db.messages, conversationId, body.parentMessageId))]
    ensures r.messagesFts == db.messagesFts + [FtsRow(env.userId, conversationId, "user", body.content.value)]
    ensures r == db.(messages := r.messages, messagesFts := r.messagesFts, images := r.images, files := r.files)
  {
    var parent := ParentOf(db.messages, conversationId, body.parentMessageId);
    db.(messages := db.messages + [UserMessage(env, conversationId, body.content.value, parent)],
        messagesFts := db.messagesFts + [FtsRow(env.userId, conversationId, "user", body.content.value)],
        images := LinkUploads(db.images, body.imageIds, conversationId, env.userId),
        files := LinkUploads(db.files, body.fileIds, conversationId, env.userId))
  }

  /** A route's work up to the provider call: the error of a failed
      guard, or the store with the route's own writes, the conversation,
      the user message the reply answers (and will hang under), that
      message's text, and the title hint. */
  datatype Prepared = Rejected(status: nat, message: string)
                    | Ready(saved: Db, conv: Conversation, leaf: string, content: string, hint: TitleHint)

  /** What both routes ask the provider: the conversation's model and
      temperature, the system prompt for the user message, and the context
      chain ending at that message. */
  function RequestFor(saved: Db, conv: Conversation, leaf: string, content: string, env: Env): ProviderRequest {
    var context := Chain(saved.messages, conv.id, leaf, ContextLimit);
    var system := BuildSystemPrompt(env.shownTime, conv, saved, content, env.discover);
    Request(conv, system, BuildClaudeMessages(context, saved.images, saved.files, saved.imageBucket, saved.fileBucket, env.utf8))
  }

  /** The rest of a route once its guards have passed: the reply. */
  function Conclude(db: Db, kv: ModelKv, conversationId: string, p: Prepared, env: Env): (o: Outcome)
    ensures p.Rejected? ==> o == Outcome(db, kv, Fail(p.status, p.message))
  {
    match p
    case Rejected(status, message) => Outcome(db, kv, Fail(status, message))
    case Ready(saved, conv, leaf, content, hint) =>
      Respond(saved, kv, conversationId, RequestFor(saved, conv, leaf, content, env), leaf, hint, env)
  }

  /** Send up to the provider call: the guards in the handler's order,
      then the user's writes. The title hint carries the message and the
      length of its context chain. */
  function PrepareSend(db: Db, conversationId: string, body: SendBody, env: Env): (p: Prepared)
    ensures Blank(body.content) ==> p == Rejected(400, "Message content is required")
    ensures !Blank(body.content) && FindConversation(db.conversations, conversationId).None? ==>
      p == Rejected(404, "Conversation not found")
    ensures !Blank(body.content) && FindConversation(db.conversations, conversationId).Some? ==>
      && p.Ready? && p.saved == SaveUser(db, conversationId, body, env)
      && p.leaf == env.userId && p.content == body.content.value
      && p.hint == TitleHint(body.content, Some(|Chain(p.saved.messages, conversationId, env.userId, ContextLimit)|))
  {
    if Blank(body.content) then Rejected(400, "Message content is required")
    else match FindConversation(db.conversations, conversationId)
      case None => Rejected(404, "Conversation not found")
      case Some(conv) =>
        var saved := SaveUser(db, conversationId, body, env);
        var content := body.content.value;
        Ready(saved, conv, env.userId, content,
              TitleHint(Some(content), Some(|Chain(saved.messages, conversationId, env.userId, ContextLimit)|)))
  }

  /** The send route. */
  function Send(db: Db, kv: ModelKv, conversationId: string, body: SendBody, env: Env): Outcome {
    Conclude(db, kv, conversationId, PrepareSend(db, conversationId, body, env), env)
  }

  /** Whatever the request and whatever the provider answers, a prepared
      route keeps its own writes and adds at most the reply, under the
      user message. */
  lemma ReadyKeepsSaved(kv: ModelKv, conversationId: string, p: Prepared, request: ProviderRequest, env: Env)
    requires p.Ready?
    ensures var o := Respond(p.saved, kv, conversationId, request, p.leaf, p.hint, env);
      && |p.saved.messages| <= |o.db.messages| <= |p.saved.messages| + 1
      && o.db.messages[..|p.saved.messages|] == p.saved.messages
      && (forall i :: |p.saved.messages| <= i < |o.db.messages| ==> o.db.messages[i].parent == Some(p.leaf))
  {
    var answer := env.provider(request);
    if answer.Streamed? && answer.failure.None? {
      var relay := RelayStream(answer.chunks, env.parse);
      var o := Respond(p.saved, kv, conversationId, request, p.leaf, p.hint, env);
      assert o.db.messages == p.saved.messages + [AssistantMessage(env, conversationId, relay.text, p.leaf)];
    }
  }

  /** A send that passes the guards has stored the user message before the
      provider is called: whatever is asked and answered, the user row
      stays, and the reply (if any) hangs under it. */
  lemma UserMessageSavedFirst(db: Db, kv: ModelKv, conversationId: string, body: SendBody, env: Env, request: ProviderRequest)
    requires !Blank(body.content) && FindConversation(db.conversations, conversationId).Some?
    ensures var p := PrepareSend(db, conversationId, body, env);
      var o := Respond(p.saved, kv, conversationId, request, p.leaf, p.hint, env);
      && |o.db.messages| > |db.messages|
      && o.db.messages[..|db.messages| + 1] == SaveUser(db, conversationId, body, env).messages
      && (forall i :: |db.messages| < i < |o.db.messages| ==> o.db.messages[i].parent == Some(env.userId))
  {
    var p := PrepareSend(db, conversationId, body, env);
    ReadyKeepsSaved(kv, conversationId, p, request, env);
  }

  /** The walk from a root message that is the conversation's last row
      is that message alone. */
  lemma RootChainIsOne(rows: seq<Message>, conversationId: string, m: Message)
    requires m.conversationId == conversationId && m.parent.None? && m.id != ""
    ensures |Chain(rows + [m], conversationId, m.id, ContextLimit)| == 1
  {
    var own := MessagesOf(rows + [m], conversationId);
    OwnRowsSnoc(rows, conversationId, m);
    LastRowMapped(own);
    RootWalk(IdMap(own), m);
  }

  lemma OwnRowsSnoc(rows: seq<Message>, conversationId: string, m: Message)
    requires m.conversationId == conversationId
    ensures MessagesOf(rows + [m], conversationId) == MessagesOf(rows, conversationId) + [m]
  {
    FilterAppend(rows, [m], (x: Message) => x.conversationId == conversationId);
  }

  lemma LastRowMapped(own: seq<Message>)
    requires |own| > 0
    ensures own[|own| - 1].id in IdMap(own) && IdMap(own)[own[|own| - 1].id] == own[|own| - 1]
  {
    IdMapLastWins(own, |own| - 1);
  }

  lemma RootWalk(byId: map<string, Message>, m: Message)
    requires Keyed(byId) && m.id in byId && byId[m.id] == m && m.parent.None? && m.id != ""
    ensures Walk(byId, Some(m.id), {}, ContextLimit) == [m]
  {
    assert Walk(byId, None, {m.id}, ContextLimit - 1) == [];
  }

  /** A completed reply under a hint that applies names a conversation
      still called "New Chat" after the message. */
  lemma HintNames(saved: Db, kv: ModelKv, conversationId: string, request: ProviderRequest, parentId: string,
                  hint: TitleHint, env: Env, i: nat)
    requires env.provider(request).Streamed? && env.provider(request).failure.None?
    requires TitleApplies(hint)
    requires i < |saved.conversations| && saved.conversations[i].id == conversationId
    requires saved.conversations[i].title == NewChat
    ensures var o := Respond(saved, kv, conversationId, request, parentId, hint, env);
      i < |o.db.conversations| && o.db.conversations[i].title == AutoTitle(hint.content.value)
  {
  }

  /** The first message of a conversation still called "New Chat" names
      it, once the reply has streamed to the end: its context chain is the
      message alone, so the hint applies. */
  lemma FirstMessageNamesConversation(db: Db, kv: ModelKv, conversationId: string, body: SendBody, env: Env,
                                      request: ProviderRequest, i: nat)
    requires !Blank(body.content) && !IsSet(body.parentMessageId) && env.userId != ""
    requires MessagesOf(db.messages, conversationId) == []
    requires i < |db.conversations| && db.conversations[i].id == conversationId && db.conversations[i].title == NewChat
    requires env.provider(request).Streamed? && env.provider(request).failure.None?
    ensures var p := PrepareSend(db, conversationId, body, env);
      var o := Respond(p.saved, kv, conversationId, request, p.leaf, p.hint, env);
      i < |o.db.conversations| && o.db.conversations[i].title == AutoTitle(body.content.value)
  {
    assert FindConversation(db.conversations, conversationId).Some?;
    var p := PrepareSend(db, conversationId, body, env);
    assert ParentOf(db.messages, conversationId, body.parentMessageId) == None;
    RootChainIsOne(db.messages, conversationId, UserMessage(env, conversationId, body.content.value, None));
    HintNames(p.saved, kv, conversationId, request, p.leaf, p.hint, env, i);
  }

  /** A hint with a longer context never retitles. */
  lemma LongContextKeepsTitle(cs: seq<Conversation>, id: string, content: string, n: int, now: string)
    requires n > 1
    ensures forall i :: 0 <= i < |cs| ==> Touch(cs, id, TitleHint(Some(content), Some(n)), now)[i].title == cs[i].title
  {
  }

  // ------------------------------------------------------------ regenerate

  /** `SELECT … FROM messages WHERE id = ? AND conversation_id = ?`. */
  function FindInConversation(ms: seq<Message>, id: string, conversationId: string): (r: Option<Message>)
    ensures r.Some? ==> r.value in ms && r.value.id == id && r.value.conversationId == conversationId
    ensures r.None? <==> forall k :: 0 <= k < |ms| ==> ms[k].id != id || ms[k].conversationId != conversationId
  {
    var own := MessagesOf(ms, conversationId);
    var r := FindMessage(own, id);
    assert r.None? ==> forall k :: 0 <= k < |ms| && ms[k].conversationId == conversationId ==> ms[k] in own;
    r
  }

  /** Regenerate up to the provider call: the guards in the handler's
      order. It writes nothing itself, and it never passes a title hint.
      The target is looked up within the conversation, its parent by id
      alone. */
  function PrepareRegenerate(db: Db, conversationId: string, messageId: Option<string>): (p: Prepared)
    ensures !IsSet(messageId) ==> p == Rejected(400, "message_id is required")
    ensures IsSet(messageId) && FindInConversation(db.messages, messageId.value, conversationId).None? ==>
      p == Rejected(404, "Message not found")
    ensures IsSet(messageId) && FindInConversation(db.messages, messageId.value, conversationId).Some?
            && !IsSet(FindInConversation(db.messages, messageId.value, conversationId).value.parent) ==>
      p == Rejected(400, "Cannot regenerate root message")
    ensures IsSet(messageId) && FindInConversation(db.messages, messageId.value, conversationId).Some? ==>
      var t := FindInConversation(db.messages, messageId.value, conversationId).value;
      IsSet(t.parent) ==>
        && (FindMessage(db.messages, t.parent.value).None? ==> p == Rejected(404, "Parent user message not found"))
        && (FindMessage(db.messages, t.parent.value).Some? && FindConversation(db.conversations, conversationId).None? ==>
              p == Rejected(404, "Conversation not found"))
        && (FindMessage(db.messages, t.parent.value).Some? && FindConversation(db.conversations, conversationId).Some? ==>
              p.Ready? && p.conv == FindConversation(db.conversations, conversationId).value)
    ensures p.Ready? ==>
      && IsSet(messageId) && FindInConversation(db.messages, messageId.value, conversationId).Some?
      && p.saved == db && p.hint == NoHint
      && Some(p.leaf) == FindInConversation(db.messages, messageId.value, conversationId).value.parent
      && FindMessage(db.messages, p.leaf).Some? && FindMessage(db.messages, p.leaf).value.content == p.content
  {
    if !IsSet(messageId) then Rejected(400, "message_id is required")
    else match FindInConversation(db.messages, messageId.value, conversationId)
      case None => Rejected(404, "Message not found")
      case Some(target) =>
        if !IsSet(target.parent) then Rejected(400, "Cannot regenerate root message")
        else
          var userId := target.parent.value;
          match FindMessage(db.messages, userId)
          case None => Rejected(404, "Parent user message not found")
          case Some(user) =>
            match FindConversation(db.conversations, conversationId)
            case None => Rejected(404, "Conversation not found")
            case Some(conv) => Ready(db, conv, userId, user.content, NoHint)
  }

  /** The regenerate route: a fresh reply to the user message above
      `messageId`, written next to the old one. */
  function Regenerate(db: Db, kv: ModelKv, conversationId: string, messageId: Option<string>, env: Env): Outcome {
    Conclude(db, kv, conversationId, PrepareRegenerate(db, conversationId, messageId), env)
  }

  /** Regenerating never renames a conversation, and every existing
      message, the old reply included, stays where it was; at most the
      new reply is added, as a sibling of the target. */
  lemma RegenerateAddsSibling(db: Db, kv: ModelKv, conversationId: string, messageId: Option<string>, env: Env,
                              request: ProviderRequest)
    requires PrepareRegenerate(db, conversationId, messageId).Ready?
    ensures var p := PrepareRegenerate(db, conversationId, messageId);
      var o := Respond(p.saved, kv, conversationId, request, p.leaf, p.hint, env);
      && |o.db.conversations| == |db.conversations|
      && (forall i :: 0 <= i < |db.conversations| ==> o.db.conversations[i].title == db.conversations[i].title)
      && |db.messages| <= |o.db.messages| <= |db.messages| + 1
      && o.db.messages[..|db.messages|] == db.messages
      && (|o.db.messages| > |db.messages| ==>
            o.db.messages[|db.messages|].parent == FindInConversation(db.messages, messageId.value, conversationId).value.parent)
  {
    var p := PrepareRegenerate(db, conversationId, messageId);
    ReadyKeepsSaved(kv, conversationId, p, request, env);
    NoHintKeepsTitles(db, kv, conversationId, request, p.leaf, env);
  }
}

=== FILE: conversations.dfy ===
/** The conversation routes of `src/routes/conversations.ts`: listing,
    creating, updating and deleting conversations, the enriched message
    list, and image upload and serving. */
module Conversations {
  import opened Wrappers
  import opened Text
  import opened Store
  import opened Utils
  import opened Sorting
  import Export
  import Search
  import Files

  // ------------------------------------------------------------------ list

  /** A conversation as `GET /api/conversations` lists it. */
  datatype Listed = Listed(conversation: Conversation, tags: seq<Tag>)

  /** `conversation_tags JOIN tags` restricted to one conversation, in
      link order. */
  function JoinTags(links: seq<ConversationTag>, tags: seq<Tag>, conversationId: string): (r: seq<Tag>)
    ensures forall t :: t in r <==> t in tags && exists l :: l in links && l.conversationId == conversationId && l.tagId == t.id
  {
    if |links| == 0 then []
    else
      var l := links[0];
      var rest := JoinTags(links[1..], tags, conversationId);
      assert forall x :: x in links[1..] ==> x in links;
      assert forall x :: x in links ==> x == l || x in links[1..];
      (if l.conversationId == conversationId then Filter(tags, (t: Tag) => t.id == l.tagId) else []) + rest
  }

  function WithTags(db: Db, cs: seq<Conversation>): (r: seq<Listed>)
    ensures |r| == |cs|
    ensures forall i :: 0 <= i < |cs| ==> r[i] == Listed(cs[i], JoinTags(db.conversationTags, db.tags, cs[i].id))
  {
    if |cs| == 0 then [] else [Listed(cs[0], JoinTags(db.conversationTags, db.tags, cs[0].id))] + WithTags(db, cs[1..])
  }

  /** Every conversation, most recently updated first, each with the tags
      linked to it. */
  function ListConversations(db: Db): (r: seq<Listed>)
    ensures |r| == |db.conversations|
    ensures forall c :: c in db.conversations <==> exists i :: 0 <= i < |r| && r[i].conversation == c
    ensures forall i, j :: 0 <= i < j < |r| ==> StrLe(r[j].conversation.updatedAt, r[i].conversation.updatedAt)
    ensures forall i :: 0 <= i < |r| ==> forall t :: t in r[i].tags <==>
      t in db.tags && exists l :: l in db.conversationTags && l.conversationId == r[i].conversation.id && l.tagId == t.id
  {
    var sorted := SortBy(db.conversations, Search.UpdatedLater);
    Search.UpdatedLaterOrders();
    SortBySorted(db.conversations, Search.UpdatedLater);
    assert forall c :: c in db.conversations <==> c in multiset(sorted);
    WithTags(db, sorted)
  }

  // ---------------------------------------------------------------- create

  /** The request body of `POST /api/conversations`; absent fields are
      `None`. */
  datatype NewConversation = NewConversation(title: Option<string>, model: Option<string>,
                                             temperature: Option<real>, systemPrompt: Option<string>)

  /** The reply body of a create. */
  datatype Created = Created(id: string, title: string, model: string, temperature: real, systemPrompt: string)

  const DefaultTitle: string := "New Chat"
  const DefaultModel: string := "claude-sonnet-4-20250514"
  const DefaultTemperature: real := 1.0

  /** A new row: the given columns, and the table's defaults for the rest. */
  function FreshRow(c: Created, now: Instant): Conversation {
    Conversation(c.id, c.title, c.model, c.temperature, c.systemPrompt, None, NoVibes, None,
                 now.sql, now.sql, None, None, false, None)
  }

  /** An empty title or model falls back to its default (`||`); only an
      absent temperature or system prompt does (`??`). */
  function Create(db: Db, body: NewConversation, id: string, now: Instant): (r: (Db, Created))
    ensures r.1.id == id
    ensures IsSet(body.title) ==> r.1.title == body.title.value
    ensures !IsSet(body.title) ==> r.1.title == DefaultTitle
    ensures IsSet(body.model) ==> r.1.model == body.model.value
    ensures !IsSet(body.model) ==> r.1.model == DefaultModel
    ensures r.1.temperature == body.temperature.GetOr(DefaultTemperature)
    ensures r.1.systemPrompt == body.systemPrompt.GetOr("")
    ensures r.0 == db.(conversations := db.conversations + [FreshRow(r.1, now)])
  {
    var title := if IsSet(body.title) then body.title.value else DefaultTitle;
    var model := if IsSet(body.model) then body.model.value else DefaultModel;
    var c := Created(id, title, model, body.temperature.GetOr(DefaultTemperature), body.systemPrompt.GetOr(""));
    (db.(conversations := db.conversations + [FreshRow(c, now)]), c)
  }

  /** A created conversation reads back as the reply describes it: not yet
      summarised, archived or pinned, and updated when it was created. */
  lemma CreateThenFind(db: Db, body: NewConversation, id: string, now: Instant)
    requires FindConversation(db.conversations, id).None?
    ensures var (db', c) := Create(db, body, id, now);
      var row := FindConversation(db'.conversations, id);
      && row.Some?
      && (row.value.id, row.value.title, row.value.model, row.value.temperature, row.value.systemPrompt)
         == (c.id, c.title, c.model, c.temperature, c.systemPrompt)
      && row.value.summary.None? && row.value.archivedAt.None? && !row.value.pinned
      && row.value.createdAt == row.value.updatedAt == now.sql
  {
    var (db', c) := Create(db, body, id, now);
    FindAfterAppend(db.conversations, FreshRow(c, now));
  }

  lemma {:induction false} FindAfterAppend(cs: seq<Conversation>, c: Conversation)
    requires FindConversation(cs, c.id).None?
    ensures FindConversation(cs + [c], c.id) == Some(c)
    decreases |cs|
  {
    if |cs| == 0 {
      assert cs + [c] == [c];
    } else {
      assert (cs + [c])[1..] == cs[1..] + [c];
      FindAfterAppend(cs[1..], c);
    }
  }

  // ---------------------------------------------------------------- update

  /** The request body of `PUT /api/conversations/:id`. */
  datatype Changes = Changes(title: Option<string>, model: Option<string>, temperature: Option<real>,
                             systemPrompt: Option<string>, handoffNotes: Option<string>)

  /** Whether any column would be set: title and model when truthy, the
      other three whenever present. */
  predicate HasChanges(ch: Changes) {
    IsSet(ch.title) || IsSet(ch.model) || ch.temperature.Some? || ch.systemPrompt.Some? || ch.handoffNotes.Some?
  }

  function Apply(c: Conversation, ch: Changes, now: string): (r: Conversation)
    ensures r == c.(title := r.title, model := r.model, temperature := r.temperature,
                    systemPrompt := r.systemPrompt, handoffNotes := r.handoffNotes, updatedAt := now)
    ensures r.title == if IsSet(ch.title) then ch.title.value else c.title
    ensures r.model == if IsSet(ch.model) then ch.model.value else c.model
    ensures r.temperature == ch.temperature.GetOr(c.temperature)
    ensures r.systemPrompt == ch.systemPrompt.GetOr(c.systemPrompt)
    ensures ch.handoffNotes.Some? ==> r.handoffNotes == ch.handoffNotes
    ensures ch.handoffNotes.None? ==> r.handoffNotes == c.handoffNotes
  {
    c.(title := if IsSet(ch.title) then ch.title.value else c.title,
       model := if IsSet(ch.model) then ch.model.value else c.model,
       temperature := ch.temperature.GetOr(c.temperature),
       systemPrompt := ch.systemPrompt.GetOr(c.systemPrompt),
       handoffNotes := if ch.handoffNotes.Some? then ch.handoffNotes else c.handoffNotes,
       updatedAt := now)
  }

  function ApplyTo(ch: Changes, now: string): Conversation -> Conversation {
    (c: Conversation) => Apply(c, ch, now)
  }

  /** The row is not looked up first: an update of a missing id replies
      `{ ok: true }` and changes nothing. */
  function Update(db: Db, id: string, ch: Changes, now: Instant): (r: (Db, Reply<()>))
    ensures r.1 == Fail(400, "Nothing to update") <==> !HasChanges(ch)
    ensures r.1.Fail? ==> r.0 == db
    ensures r.0 == db.(conversations := r.0.conversations)
    ensures |r.0.conversations| == |db.conversations|
    ensures forall i :: 0 <= i < |db.conversations| && db.conversations[i].id != id ==>
      r.0.conversations[i] == db.conversations[i]
  {
    if !HasChanges(ch) then (db, Fail(400, "Nothing to update"))
    else (db.(conversations := UpdateConversation(db.conversations, id, ApplyTo(ch, now.sql))), Reply(()))
  }

  /** After an update the row reads back with exactly the given changes. */
  lemma UpdateThenFind(db: Db, id: string, ch: Changes, now: Instant)
    requires HasChanges(ch)
    requires FindConversation(db.conversations, id).Some?
    ensures FindConversation(Update(db, id, ch, now).0.conversations, id)
         == Some(Apply(FindConversation(db.conversations, id).value, ch, now.sql))
  {
    FindUpdated(db.conversations, id, ApplyTo(ch, now.sql));
  }

  lemma UpdateMissingIsNoop(db: Db, id: string, ch: Changes, now: Instant)
    requires HasChanges(ch)
    requires FindConversation(db.conversations, id).None?
    ensures Update(db, id, ch, now) == (db, Reply(()))
  {
    var cs' := Update(db, id, ch, now).0.conversations;
    assert cs' == db.conversations;
  }

  lemma ApplyIdempotent(c: Conversation, ch: Changes, now: string)
    ensures Apply(Apply(c, ch, now), ch, now) == Apply(c, ch, now)
  {
  }

  /** Sending the same update twice at the same instant is the same as
      sending it once. */
  lemma UpdateIdempotent(db: Db, id: string, ch: Changes, now: Instant)
    requires HasChanges(ch)
    ensures Update(Update(db, id, ch, now).0, id, ch, now) == Update(db, id, ch, now)
  {
    var once := Update(db, id, ch, now).0;
    var twice := Update(once, id, ch, now).0;
    forall i | 0 <= i < |db.conversations|
      ensures twice.conversations[i] == once.conversations[i]
    {
      ApplyIdempotent(db.conversations[i], ch, now.sql);
    }
    assert twice.conversations == once.conversations;
  }

  // ---------------------------------------------------------------- delete

  /** The storage keys of a conversation's attachment rows, linked to a
      message or not. */
  function KeysOf(rows: seq<Attachment>, conversationId: string): (r: set<string>)
    ensures forall k :: k in r <==> exists a :: a in rows && a.conversationId == conversationId && a.r2Key == k
  {
    set a | a in rows && a.conversationId == conversationId :: a.r2Key
  }

  function OtherFts(id: string): FtsRow -> bool { (f: FtsRow) => f.conversationId != id }
  function OtherAttachment(id: string): Attachment -> bool { (a: Attachment) => a.conversationId != id }
  function OtherMessage(id: string): Message -> bool { (m: Message) => m.conversationId != id }
  function OtherConversation(id: string): Conversation -> bool { (c: Conversation) => c.id != id }

  /** `DELETE /api/conversations/:id`: the keys are collected before the
      rows go, so unsent uploads lose their objects too. */
  function Delete(db: Db, id: string): (r: Db)
    ensures r == db.(conversations := r.conversations, messages := r.messages, messagesFts := r.messagesFts,
                     images := r.images, files := r.files, imageBucket := r.imageBucket, fileBucket := r.fileBucket)
  {
    db.(messagesFts := Filter(db.messagesFts, OtherFts(id)),
        images := Filter(db.images, OtherAttachment(id)),
        files := Filter(db.files, OtherAttachment(id)),
        messages := Filter(db.messages, OtherMessage(id)),
        conversations := Filter(db.conversations, OtherConversation(id)),
        imageBucket := db.imageBucket - KeysOf(db.images, id),
        fileBucket := db.fileBucket - KeysOf(db.files, id))
  }

  /** Exactly the conversation's rows go, and exactly the objects its
      attachment rows name. */
  lemma DeleteRemovesConversation(db: Db, id: string)
    ensures var r := Delete(db, id);
      && (forall c :: c in r.conversations <==> c in db.conversations && c.id != id)
      && (forall m :: m in r.messages <==> m in db.messages && m.conversationId != id)
      && (forall f :: f in r.messagesFts <==> f in db.messagesFts && f.conversationId != id)
      && (forall a :: a in r.images <==> a in db.images && a.conversationId != id)
      && (forall a :: a in r.files <==> a in db.files && a.conversationId != id)
      && (forall k :: k in r.imageBucket <==> k in db.imageBucket && k !in KeysOf(db.images, id))
      && (forall k :: k in r.fileBucket <==> k in db.fileBucket && k !in KeysOf(db.files, id))
  {
  }

  /** An upload that was never sent with a message is removed from its
      bucket along with the conversation. */
  lemma DeleteRemovesUnsentUploads(db: Db, id: string, a: Attachment)
    requires a in db.images || a in db.files
    requires a.conversationId == id && a.messageId.None?
    ensures a in db.images ==> a.r2Key !in Delete(db, id).imageBucket
    ensures a in db.files ==> a.r2Key !in Delete(db, id).fileBucket
  {
    DeleteRemovesConversation(db, id);
  }

  lemma {:induction false} FilterAll<T(!new)>(s: seq<T>, p: T -> bool)
    requires forall i :: 0 <= i < |s| ==> p(s[i])
    ensures Filter(s, p) == s
    decreases |s|
  {
    if |s| > 0 {
      FilterAll(s[1..], p);
    }
  }

  lemma FilterTwice<T(!new)>(s: seq<T>, p: T -> bool)
    ensures Filter(Filter(s, p), p) == Filter(s, p)
  {
    var f := Filter(s, p);
    assert forall i :: 0 <= i < |f| ==> f[i] in f;
    FilterAll(f, p);
  }

  /** Deleting a conversation twice is deleting it once. */
  lemma DeleteIdempotent(db: Db, id: string)
    ensures Delete(Delete(db, id), id) == Delete(db, id)
  {
    var once := Delete(db, id);
    var twice := Delete(once, id);
    assert twice.messagesFts == once.messagesFts by { FilterTwice(db.messagesFts, OtherFts(id)); }
    assert twice.images == once.images by { FilterTwice(db.images, OtherAttachment(id)); }
    assert twice.files == once.files by { FilterTwice(db.files, OtherAttachment(id)); }
    assert twice.messages == once.messages by { FilterTwice(db.messages, OtherMessage(id)); }
    assert twice.conversations == once.conversations by { FilterTwice(db.conversations, OtherConversation(id)); }
    assert twice.imageBucket == once.imageBucket by { NoKeysLeft(db.images, id); }
    assert twice.fileBucket == once.fileBucket by { NoKeysLeft(db.files, id); }
  }

  lemma NoKeysLeft(rows: seq<Attachment>, id: string)
    ensures KeysOf(Filter(rows, OtherAttachment(id)), id) == {}
  {
    var kept := Filter(rows, OtherAttachment(id));
    assert forall a :: a in kept ==> a.conversationId != id;
  }

  // ------------------------------------------------------------- messages

  /** A message as `GET /api/conversations/:id/messages` lists it. */
  datatype MessageView = MessageView(message: Message, images: seq<Attachment>, files: seq<Attachment>,
                                     annotation: Option<Annotation>)

  /** The annotation `Map` of the list: each row overwrites its message's
      entry. */
  function AnnotationRows(rows: seq<Annotation>): map<string, Annotation>
  {
    if |rows| == 0 then map[]
    else
      var a := rows[|rows| - 1];
      AnnotationRows(rows[..|rows| - 1])[a.messageId := a]
  }

  /** With several annotations on a message, the list shows the last. */
  lemma {:induction false} AnnotationRowsIsLast(rows: seq<Annotation>, messageId: string)
    ensures messageId in AnnotationRows(rows) <==> Export.LastAnnotation(rows, messageId) >= 0
    ensures messageId in AnnotationRows(rows) ==>
      AnnotationRows(rows)[messageId] == rows[Export.LastAnnotation(rows, messageId)]
    decreases |rows|
  {
    if |rows| > 0 {
      AnnotationRowsIsLast(rows[..|rows| - 1], messageId);
    }
  }

  function InConversation(id: string): Annotation -> bool { (a: Annotation) => a.conversationId == id }

  function ViewOf(db: Db, conversationId: string, m: Message): MessageView {
    var annotations := AnnotationRows(Filter(db.annotations, InConversation(conversationId)));
    MessageView(m,
                Export.Lookup(Export.GroupByMessage(Export.LinkedRows(db.images, conversationId)), m.id),
                Export.Lookup(Export.GroupByMessage(Export.LinkedRows(db.files, conversationId)), m.id),
                if m.id in annotations then Some(annotations[m.id]) else None)
  }

  function ViewAll(db: Db, conversationId: string, ms: seq<Message>): (r: seq<MessageView>)
    ensures |r| == |ms|
    ensures forall i :: 0 <= i < |ms| ==> r[i] == ViewOf(db, conversationId, ms[i])
  {
    if |ms| == 0 then [] else [ViewOf(db, conversationId, ms[0])] + ViewAll(db, conversationId, ms[1..])
  }

  /** The conversation's messages, oldest first, each with its images,
      files and annotation. */
  function ListMessages(db: Db, conversationId: string): (r: seq<MessageView>)
    ensures |r| == |MessagesOf(db.messages, conversationId)|
    ensures forall i :: 0 <= i < |r| ==> r[i].message in db.messages && r[i].message.conversationId == conversationId
  {
    var ms := Export.Chronological(db, conversationId);
    assert forall i :: 0 <= i < |ms| ==> ms[i] in multiset(MessagesOf(db.messages, conversationId));
    ViewAll(db, conversationId, ms)
  }

  /** Each listed message carries exactly the attachments linked to it, in
      table order, and the conversation's last annotation on it. */
  lemma ListedAttachments(db: Db, conversationId: string, i: nat)
    requires i < |ListMessages(db, conversationId)|
    ensures var v := ListMessages(db, conversationId)[i];
      && v.images == Filter(Export.LinkedRows(db.images, conversationId), (a: Attachment) => a.messageId == Some(v.message.id))
      && v.files == Filter(Export.LinkedRows(db.files, conversationId), (a: Attachment) => a.messageId == Some(v.message.id))
      && (forall a :: a in v.images <==> a in db.images && a.conversationId == conversationId && a.messageId == Some(v.message.id))
  {
    var v := ListMessages(db, conversationId)[i];
    Export.GroupIsFilter(Export.LinkedRows(db.images, conversationId), v.message.id);
    Export.GroupIsFilter(Export.LinkedRows(db.files, conversationId), v.message.id);
  }

  lemma ListedAnnotation(db: Db, conversationId: string, i: nat)
    requires i < |ListMessages(db, conversationId)|
    ensures var v := ListMessages(db, conversationId)[i];
      var rows := Filter(db.annotations, InConversation(conversationId));
      var k := Export.LastAnnotation(rows, v.message.id);
      && (v.annotation.None? <==> k < 0)
      && (v.annotation.Some? ==> v.annotation.value == rows[k])
  {
    var v := ListMessages(db, conversationId)[i];
    AnnotationRowsIsLast(Filter(db.annotations, InConversation(conversationId)), v.message.id);
  }

  // ---------------------------------------------------------------- images

  /** What `GET /api/images/:id` sends: the object, its type, and a
      year-long immutable cache header. */
  datatype ServedImage = ServedImage(stored: StoredObject, contentType: string, cacheControl: string)

  const ImageCacheControl: string := "public, max-age=31536000, immutable"

  function ServeImage(db: Db, id: string): (r: Reply<ServedImage>)
    ensures r == Fail(404, "Image not found") <==> FindAttachment(db.images, id).None?
    ensures r == Fail(404, "Image file missing") <==>
      FindAttachment(db.images, id).Some? && FindAttachment(db.images, id).value.r2Key !in db.imageBucket
    ensures r.Reply? ==> var row := FindAttachment(db.images, id).value;
      r.value == ServedImage(db.imageBucket[row.r2Key], row.mediaType, ImageCacheControl)
  {
    match FindAttachment(db.images, id)
    case None => Fail(404, "Image not found")
    case Some(row) =>
      if row.r2Key !in db.imageBucket then Fail(404, "Image file missing")
      else Reply(ServedImage(db.imageBucket[row.r2Key], row.mediaType, ImageCacheControl))
  }

  /** The reply body of an image upload. */
  datatype ImageUploaded = ImageUploaded(id: string, mediaType: string, originalFilename: string, sizeBytes: nat)

  function Unsupported(mediaType: string): (m: string)
    ensures StartsWith(m, "Unsupported image type: ")
  {
    var m := "Unsupported image type: " + mediaType + ". Use PNG, JPEG, GIF, or WebP.";
    assert m[..24] == "Unsupported image type: ";
    m
  }

  /** The oversize message, the size printed by `toFixed(1)` of megabytes. */
  function ImageTooLarge(size: nat, sizes: Files.Sizes): (m: string)
    ensures StartsWith(m, "Image too large (")
  {
    var m := "Image too large (" + sizes.fixed1(size) + "MB). Max 5MB.";
    assert m[..17] == "Image too large (";
    m
  }

  /** `{conversation}/{id}.{ext}`. */
  function ImageKey(conversationId: string, imageId: string, mediaType: string): (key: string)
    ensures StartsWith(key, conversationId + "/" + imageId + ".")
    ensures LastPiece(key, '.') == ExtFromMediaType(mediaType)
  {
    var prefix := conversationId + "/" + imageId;
    var ext := ExtFromMediaType(mediaType);
    assert '.' !in ext;
    LastPieceAfterDot(prefix, ext);
    assert (prefix + "." + ext)[..|prefix + "."|] == prefix + ".";
    prefix + "." + ext
  }

  /** The text after the last dot, when the tail has no dot. */
  lemma LastPieceAfterDot(prefix: string, ext: string)
    requires '.' !in ext
    ensures LastPiece(prefix + "." + ext, '.') == ext
  {
    var s := prefix + "." + ext;
    var l := LastPiece(s, '.');
    assert s[|s| - |ext| - 1] == '.';
    LastPieceIsSuffix(s, '.');
    assert s[|s| - |l| - 1] == '.';
    assert |l| == |ext|;
    assert s[|s| - |ext|..] == ext;
  }

  /** The key's extension names the image's type. */
  lemma ImageKeyNamesType(conversationId: string, imageId: string, mediaType: string)
    requires IsAllowedImageType(mediaType)
    ensures MediaTypeOfExt(LastPiece(ImageKey(conversationId, imageId, mediaType), '.')) == Some(mediaType)
  {
  }

  /** The store after an accepted image: the object under its key and an
      unlinked `message_images` row. */
  function AcceptImage(db: Db, conversationId: string, f: Files.Upload, imageId: string, uploaded: int): (r: Db)
    ensures r == db.(imageBucket := r.imageBucket, images := r.images)
  {
    var key := ImageKey(conversationId, imageId, f.mediaType);
    var row := Attachment(imageId, None, conversationId, key, f.mediaType, NullIfEmpty(Some(f.name)), f.size);
    db.(imageBucket := db.imageBucket[key := StoredObject(BytesBody(f.bytes), Some(f.mediaType), uploaded)],
        images := db.images + [row])
  }

  /** `POST /api/conversations/:id/images`. */
  function UploadImage(db: Db, conversationId: string, file: Option<Files.Upload>, imageId: string, uploaded: int,
                       sizes: Files.Sizes): (r: (Db, Reply<ImageUploaded>))
    ensures r.1.Fail? ==> r.0 == db
    ensures r.1.Reply? <==>
      && FindConversation(db.conversations, conversationId).Some?
      && file.Some? && IsAllowedImageType(file.value.mediaType) && file.value.size <= MaxImageSize
    ensures r.1.Reply? ==> var f := file.value;
      && r.0 == AcceptImage(db, conversationId, f, imageId, uploaded)
      && r.1.value == ImageUploaded(imageId, f.mediaType, f.name, f.size)
    ensures r.1 == Fail(404, "Conversation not found") <==> FindConversation(db.conversations, conversationId).None?
    ensures FindConversation(db.conversations, conversationId).Some? ==>
      (r.1 == Fail(400, "No file provided") <==> file.None?)
  {
    if FindConversation(db.conversations, conversationId).None? then (db, Fail(404, "Conversation not found"))
    else if file.None? then (db, Fail(400, "No file provided"))
    else
      var f := file.value;
      if !IsAllowedImageType(f.mediaType) then
        var m := Unsupported(f.mediaType);
        assert m != "No file provided" by { assert m[0] == 'U'; }
        (db, Fail(400, m))
      else if f.size > MaxImageSize then
        var m := ImageTooLarge(f.size, sizes);
        assert m != "No file provided" by { assert m[0] == 'I'; }
        (db, Fail(400, m))
      else (AcceptImage(db, conversationId, f, imageId, uploaded), Reply(ImageUploaded(imageId, f.mediaType, f.name, f.size)))
  }

  /** An uploaded image is served back with its bytes and its type,
      provided the id is new. */
  lemma UploadImageThenServe(db: Db, conversationId: string, f: Files.Upload, imageId: string, uploaded: int)
    requires FindAttachment(db.images, imageId).None?
    ensures ServeImage(AcceptImage(db, conversationId, f, imageId, uploaded), imageId)
         == Reply(ServedImage(StoredObject(BytesBody(f.bytes), Some(f.mediaType), uploaded), f.mediaType, ImageCacheControl))
  {
    var key := ImageKey(conversationId, imageId, f.mediaType);
    var row := Attachment(imageId, None, conversationId, key, f.mediaType, NullIfEmpty(Some(f.name)), f.size);
    FindAttachmentSnoc(db.images, row);
  }
}

=== FILE: distinct_ids.dfy ===
/** Primary keys: no two rows of a table share an id. The facts here say
    that the property survives taking a subset of the rows (a `WHERE`) and
    reordering them (an `ORDER BY`). */
module DistinctIds {
  import opened Store

  predicate DistinctMessageIds(ms: seq<Message>) {
    forall i, j :: 0 <= i < j < |ms| ==> ms[i].id != ms[j].id
  }

  predicate DistinctAttachmentIds(rows: seq<Attachment>) {
    forall i, j :: 0 <= i < j < |rows| ==> rows[i].id != rows[j].id
  }

  /** Two different rows of a table with distinct ids have different ids. */
  lemma DifferentRowsDifferentIds(ms: seq<Message>, x: Message, y: Message)
    requires DistinctMessageIds(ms) && x in ms && y in ms && x != y
    ensures x.id != y.id
  {
    var p :| 0 <= p < |ms| && ms[p] == x;
    var q :| 0 <= q < |ms| && ms[q] == y;
    if p > q {
      assert ms[q].id != ms[p].id;
    }
  }

  /** An attachment row is determined by its id. */
  lemma SameAttachmentId(rows: seq<Attachment>, x: Attachment, y: Attachment)
    requires DistinctAttachmentIds(rows) && x in rows && y in rows && x.id == y.id
    ensures x == y
  {
    var p :| 0 <= p < |rows| && rows[p] == x;
    var q :| 0 <= q < |rows| && rows[q] == y;
    assert p == q;
  }

  lemma ConsDistinct(x: Message, t: seq<Message>)
    requires DistinctMessageIds(t)
    requires forall k :: 0 <= k < |t| ==> t[k].id != x.id
    ensures DistinctMessageIds([x] + t)
  {
    var s := [x] + t;
    forall i, j | 0 <= i < j < |s| ensures s[i].id != s[j].id {
      assert s[j] == t[j - 1];
      if i > 0 {
        assert s[i] == t[i - 1];
      }
    }
  }

  /** A `WHERE` keeps the ids distinct. */
  lemma {:induction false} FilterDistinct(ms: seq<Message>, p: Message -> bool)
    requires DistinctMessageIds(ms)
    ensures DistinctMessageIds(Filter(ms, p))
    decreases |ms|
  {
    if |ms| > 0 {
      var rest := ms[1..];
      assert DistinctMessageIds(rest) by {
        forall i, j | 0 <= i < j < |rest| ensures rest[i].id != rest[j].id {
          assert rest[i] == ms[i + 1] && rest[j] == ms[j + 1];
        }
      }
      FilterDistinct(rest, p);
      if p(ms[0]) {
        var t := Filter(rest, p);
        forall k | 0 <= k < |t| ensures t[k].id != ms[0].id {
          assert t[k] in rest;
          var q :| 0 <= q < |rest| && rest[q] == t[k];
          assert ms[q + 1] == t[k];
        }
        ConsDistinct(ms[0], t);
      }
    }
  }

  /** A value at two positions is counted twice. */
  lemma CountTwo<T>(s: seq<T>, i: nat, j: nat)
    requires i < j < |s| && s[i] == s[j]
    ensures multiset(s)[s[i]] >= 2
  {
    assert s == s[..j] + [s[j]] + s[j + 1..];
    assert s[i] in s[..j];
    assert multiset(s) == multiset(s[..j]) + multiset{s[j]} + multiset(s[j + 1..]);
  }

  /** A value counted twice sits at two positions. */
  lemma TwoPlaces<T>(s: seq<T>, x: T) returns (p: nat, q: nat)
    requires multiset(s)[x] >= 2
    ensures p < q < |s| && s[p] == x && s[q] == x
  {
    assert x in multiset(s);
    var k :| 0 <= k < |s| && s[k] == x;
    assert s == s[..k] + [x] + s[k + 1..];
    assert multiset(s) == multiset(s[..k]) + multiset{x} + multiset(s[k + 1..]);
    if x in multiset(s[..k]) {
      assert x in s[..k];
      var a :| 0 <= a < k && s[..k][a] == x;
      p, q := a, k;
    } else {
      assert x in multiset(s[k + 1..]);
      assert x in s[k + 1..];
      var b :| 0 <= b < |s| - k - 1 && s[k + 1..][b] == x;
      p, q := k, k + 1 + b;
    }
  }

  /** Two positions of a permutation come from two positions of the
      original. */
  lemma TwoIndices<T>(a: seq<T>, b: seq<T>, i: nat, j: nat) returns (p: nat, q: nat)
    requires multiset(a) == multiset(b) && i < j < |b|
    ensures p < |a| && q < |a| && p != q && a[p] == b[i] && a[q] == b[j]
  {
    if b[i] == b[j] {
      CountTwo(b, i, j);
      p, q := TwoPlaces(a, b[i]);
    } else {
      assert b[i] in multiset(b) && b[j] in multiset(b);
      assert b[i] in a && b[j] in a;
      p :| 0 <= p < |a| && a[p] == b[i];
      q :| 0 <= q < |a| && a[q] == b[j];
    }
  }

  /** Reordering keeps the ids distinct. */
  lemma PermDistinct(a: seq<Message>, b: seq<Message>)
    requires multiset(a) == multiset(b) && DistinctMessageIds(a)
    ensures DistinctMessageIds(b)
  {
    forall i, j | 0 <= i < j < |b| ensures b[i].id != b[j].id {
      var p, q := TwoIndices(a, b, i, j);
      if p < q {
        assert a[p].id != a[q].id;
      } else {
        assert a[q].id != a[p].id;
      }
    }
  }
}

=== FILE: export.dfy ===
/** The conversation export of `src/export.ts`: the data gathered from the
    store, its JSON document (also the archive snapshot) and its Markdown
    rendering. JSON text, locale time formatting and number printing are
    parameters (`stringify`, `formatTime`, `showNumber`). */
module Export {
  import opened Wrappers
  import opened Text
  import opened Json
  import opened Sorting
  import opened Store
  import opened Jobs

  datatype ImageRef = ImageRef(id: string, originalFilename: Option<string>)
  datatype FileRef = FileRef(id: string, originalFilename: Option<string>, mediaType: string, sizeBytes: nat)
  datatype AnnotationRef = AnnotationRef(kind: string, labelText: Option<string>)
  datatype ExportMessage = ExportMessage(id: string, role: string, content: string, createdAt: string,
                                         parent: Option<string>, images: seq<ImageRef>, files: seq<FileRef>,
                                         annotation: Option<AnnotationRef>)
  datatype TagRef = TagRef(name: string, color: Option<string>)
  datatype ExportData = ExportData(conversation: Conversation, messages: seq<ExportMessage>, tags: seq<TagRef>)

  // --------------------------------------------------------------- grouping

  /** The attachment rows the export queries select: this conversation's,
      with a non-NULL `message_id`, in table order. */
  function LinkedRows(rows: seq<Attachment>, conversationId: string): (r: seq<Attachment>)
    ensures forall a :: a in r <==> a in rows && a.conversationId == conversationId && a.messageId.Some?
  {
    Filter(rows, (a: Attachment) => a.conversationId == conversationId && a.messageId.Some?)
  }

  /** The `Map` the export builds with `get(...) || []`, `push`, `set`. */
  function GroupByMessage(rows: seq<Attachment>): map<string, seq<Attachment>>
  {
    if |rows| == 0 then map[]
    else
      var g := GroupByMessage(rows[..|rows| - 1]);
      var a := rows[|rows| - 1];
      if a.messageId.None? then g
      else g[a.messageId.value := Lookup(g, a.messageId.value) + [a]]
  }

  /** `map.get(id) || []`. */
  function Lookup(g: map<string, seq<Attachment>>, id: string): seq<Attachment> {
    if id in g then g[id] else []
  }

  /** The rows linked to one message, in table order. */
  function RowsOfMessage(rows: seq<Attachment>, messageId: string): (r: seq<Attachment>)
    ensures forall a :: a in r <==> a in rows && a.messageId == Some(messageId)
  {
    Filter(rows, (a: Attachment) => a.messageId == Some(messageId))
  }

  lemma FilterSnoc<T(!new)>(s: seq<T>, x: T, p: T -> bool)
    ensures Filter(s + [x], p) == Filter(s, p) + (if p(x) then [x] else [])
    decreases |s|
  {
    if |s| > 0 {
      assert (s + [x])[1..] == s[1..] + [x];
      FilterSnoc(s[1..], x, p);
    } else {
      assert s + [x] == [x];
    }
  }

  /** Grouping by `message_id` gives each message exactly its rows, in
      order. */
  lemma {:induction false} GroupIsFilter(rows: seq<Attachment>, messageId: string)
    ensures Lookup(GroupByMessage(rows), messageId) == RowsOfMessage(rows, messageId)
    decreases |rows|
  {
    if |rows| > 0 {
      var init, a := rows[..|rows| - 1], rows[|rows| - 1];
      assert rows == init + [a];
      GroupIsFilter(init, messageId);
      FilterSnoc(init, a, (x: Attachment) => x.messageId == Some(messageId));
    }
  }

  /** The annotation `Map`: each row overwrites the entry of its message. */
  function AnnotationMap(rows: seq<Annotation>): map<string, AnnotationRef>
  {
    if |rows| == 0 then map[]
    else
      var a := rows[|rows| - 1];
      AnnotationMap(rows[..|rows| - 1])[a.messageId := AnnotationRef(a.kind, a.labelText)]
  }

  /** The index of the last row about a message, or -1. */
  function LastAnnotation(rows: seq<Annotation>, messageId: string): (r: int)
    ensures -1 <= r < |rows|
    ensures r >= 0 ==> rows[r].messageId == messageId
    ensures forall j :: r < j < |rows| ==> rows[j].messageId != messageId
  {
    if |rows| == 0 then -1
    else if rows[|rows| - 1].messageId == messageId then |rows| - 1
    else LastAnnotation(rows[..|rows| - 1], messageId)
  }

  /** With several annotation rows for a message, the later row wins. */
  lemma {:induction false} AnnotationMapIsLast(rows: seq<Annotation>, messageId: string)
    ensures messageId in AnnotationMap(rows) <==> LastAnnotation(rows, messageId) >= 0
    ensures messageId in AnnotationMap(rows) ==>
      var a := rows[LastAnnotation(rows, messageId)];
      AnnotationMap(rows)[messageId] == AnnotationRef(a.kind, a.labelText)
    decreases |rows|
  {
    if |rows| > 0 {
      AnnotationMapIsLast(rows[..|rows| - 1], messageId);
    }
  }

  // ---------------------------------------------------------------- gather

  /** `ORDER BY created_at ASC`. */
  predicate CreatedNoLater(a: Message, b: Message) {
    StrLe(a.createdAt, b.createdAt)
  }

  function Chronological(db: Db, conversationId: string): (r: seq<Message>)
    ensures multiset(r) == multiset(MessagesOf(db.messages, conversationId))
  {
    SortBy(MessagesOf(db.messages, conversationId), CreatedNoLater)
  }

  function ImageRefs(rows: seq<Attachment>): (r: seq<ImageRef>)
    ensures |r| == |rows|
    ensures forall i :: 0 <= i < |rows| ==> r[i] == ImageRef(rows[i].id, rows[i].originalFilename)
  {
    if |rows| == 0 then [] else [ImageRef(rows[0].id, rows[0].originalFilename)] + ImageRefs(rows[1..])
  }

  function FileRefs(rows: seq<Attachment>): (r: seq<FileRef>)
    ensures |r| == |rows|
    ensures forall i :: 0 <= i < |rows| ==>
      r[i] == FileRef(rows[i].id, rows[i].originalFilename, rows[i].mediaType, rows[i].sizeBytes)
  {
    if |rows| == 0 then []
    else [FileRef(rows[0].id, rows[0].originalFilename, rows[0].mediaType, rows[0].sizeBytes)] + FileRefs(rows[1..])
  }

  /** One entry of `enrichedMessages`. */
  function Enrich(db: Db, conversationId: string, m: Message): ExportMessage {
    var annotations := Filter(db.annotations, (a: Annotation) => a.conversationId == conversationId);
    var annotationMap := AnnotationMap(annotations);
    ExportMessage(m.id, m.role, m.content, m.createdAt, m.parent,
                  ImageRefs(Lookup(GroupByMessage(LinkedRows(db.images, conversationId)), m.id)),
                  FileRefs(Lookup(GroupByMessage(LinkedRows(db.files, conversationId)), m.id)),
                  if m.id in annotationMap then Some(annotationMap[m.id]) else None)
  }

  function EnrichAll(db: Db, conversationId: string, ms: seq<Message>): (r: seq<ExportMessage>)
    ensures |r| == |ms|
    ensures forall i :: 0 <= i < |ms| ==> r[i] == Enrich(db, conversationId, ms[i])
  {
    if |ms| == 0 then [] else [Enrich(db, conversationId, ms[0])] + EnrichAll(db, conversationId, ms[1..])
  }

  /** `conversation_tags` joined with `tags`. */
  function TagsOf(links: seq<ConversationTag>, tags: seq<Tag>, conversationId: string): seq<TagRef>
  {
    if |links| == 0 then []
    else
      var here := if links[0].conversationId == conversationId then TagsWithId(tags, links[0].tagId) else [];
      here + TagsOf(links[1..], tags, conversationId)
  }

  function TagsWithId(tags: seq<Tag>, id: string): (r: seq<TagRef>)
    ensures forall t :: t in r <==> exists g :: g in tags && g.id == id && t == TagRef(g.name, g.color)
  {
    if |tags| == 0 then []
    else (if tags[0].id == id then [TagRef(tags[0].name, tags[0].color)] else []) + TagsWithId(tags[1..], id)
  }

  /** `fetchExportData(env, conversationId)`. */
  function FetchExportData(db: Db, conversationId: string): (r: Result<ExportData>)
    ensures r.Err? <==> FindConversation(db.conversations, conversationId).None?
    ensures r.Err? ==> r.message == "Conversation not found"
    ensures r.Ok? ==> r.value.conversation == FindConversation(db.conversations, conversationId).value
    ensures r.Ok? ==> |r.value.messages| == |MessagesOf(db.messages, conversationId)|
  {
    match FindConversation(db.conversations, conversationId)
    case None => Err("Conversation not found")
    case Some(c) =>
      Ok(ExportData(c, EnrichAll(db, conversationId, Chronological(db, conversationId)),
                    TagsOf(db.conversationTags, db.tags, conversationId)))
  }

  /** Every exported message carries exactly the image and file rows of
      this conversation linked to it; unlinked rows appear nowhere. */
  lemma ExportedAttachments(db: Db, conversationId: string, i: nat)
    requires FetchExportData(db, conversationId).Ok?
    requires i < |FetchExportData(db, conversationId).value.messages|
    ensures var m := FetchExportData(db, conversationId).value.messages[i];
      && m.images == ImageRefs(RowsOfMessage(LinkedRows(db.images, conversationId), m.id))
      && m.files == FileRefs(RowsOfMessage(LinkedRows(db.files, conversationId), m.id))
  {
    var m := FetchExportData(db, conversationId).value.messages[i];
    GroupIsFilter(LinkedRows(db.images, conversationId), m.id);
    GroupIsFilter(LinkedRows(db.files, conversationId), m.id);
  }

  /** The exported messages are the conversation's, oldest first, with their
      parent pointers as stored. */
  lemma ExportedMessagesInOrder(db: Db, conversationId: string)
    requires FetchExportData(db, conversationId).Ok?
    ensures var ms := FetchExportData(db, conversationId).value.messages;
      var sorted := Chronological(db, conversationId);
      && (forall i :: 0 <= i < |ms| ==> ms[i].id == sorted[i].id && ms[i].parent == sorted[i].parent &&
                                         ms[i].createdAt == sorted[i].createdAt)
      && (forall i, j :: 0 <= i < j < |ms| ==> StrLe(ms[i].createdAt, ms[j].createdAt))
  {
    var sorted := Chronological(db, conversationId);
    StrLeIsTotalPreorder();
    SortBySorted(MessagesOf(db.messages, conversationId), CreatedNoLater);
  }

  lemma StrLeIsTotalPreorder()
    ensures Total(CreatedNoLater) && Transitive(CreatedNoLater)
  {
    forall a: Message, b: Message ensures CreatedNoLater(a, b) || CreatedNoLater(b, a) {
      StrLeTotal(a.createdAt, b.createdAt);
    }
    forall a: Message, b: Message, c: Message | CreatedNoLater(a, b) && CreatedNoLater(b, c)
      ensures CreatedNoLater(a, c)
    {
      StrLeTransitive(a.createdAt, b.createdAt, c.createdAt);
    }
  }

  /** The annotation an exported message carries is the last of the
      conversation's annotation rows about it. */
  lemma ExportedAnnotation(db: Db, conversationId: string, m: Message)
    ensures var rows := Filter(db.annotations, (a: Annotation) => a.conversationId == conversationId);
      var k := LastAnnotation(rows, m.id);
      Enrich(db, conversationId, m).annotation ==
        if k < 0 then None else Some(AnnotationRef(rows[k].kind, rows[k].labelText))
  {
    AnnotationMapIsLast(Filter(db.annotations, (a: Annotation) => a.conversationId == conversationId), m.id);
  }

  // ------------------------------------------------------------------ JSON

  /** A nullable column as JSON. */
  function StrOrNull(v: Option<string>): (r: Json)
    ensures r.JNull? <==> v.None?
  {
    match v
    case None => JNull
    case Some(s) => JStr(s)
  }

  /** `conversation.vibes ? JSON.parse(conversation.vibes) : []`. */
  function VibesJson(v: Vibes): (r: Result<Json>)
    ensures r.Err? <==> v.MalformedVibes?
    ensures v.NoVibes? ==> r == Ok(JArr([]))
  {
    match v
    case NoVibes => Ok(JArr([]))
    case VibeList(items) => Ok(JArr(StrList(items)))
    case MalformedVibes => Err("Unexpected token in JSON")
  }

  function StrList(items: seq<string>): (r: seq<Json>)
    ensures |r| == |items|
    ensures forall i :: 0 <= i < |items| ==> r[i] == JStr(items[i])
  {
    if |items| == 0 then [] else [JStr(items[0])] + StrList(items[1..])
  }

  function TagJson(t: TagRef): Json {
    JObj([("name", JStr(t.name)), ("color", StrOrNull(t.color))])
  }

  function TagsJson(tags: seq<TagRef>): (r: seq<Json>)
    ensures |r| == |tags|
    ensures forall i :: 0 <= i < |tags| ==> r[i] == TagJson(tags[i])
  {
    if |tags| == 0 then [] else [TagJson(tags[0])] + TagsJson(tags[1..])
  }

  /** The `conversation` member: the selected columns in order, `vibes`
      parsed in place, then `tags`. */
  function ConversationJson(c: Conversation, tags: seq<TagRef>): Result<Json> {
    var vibes :- VibesJson(c.vibes);
    Ok(JObj([("id", JStr(c.id)), ("title", JStr(c.title)), ("model", JStr(c.model)),
             ("temperature", JNum(c.temperature)), ("system_prompt", JStr(c.systemPrompt)),
             ("summary", StrOrNull(c.summary)), ("vibes", vibes), ("created_at", JStr(c.createdAt)),
             ("tags", JArr(TagsJson(tags)))]))
  }

  function ImageJson(i: ImageRef): Json {
    JObj([("id", JStr(i.id)), ("filename", StrOrNull(i.originalFilename)), ("url", JStr("/api/images/" + i.id))])
  }

  function FileJson(f: FileRef): Json {
    JObj([("id", JStr(f.id)), ("filename", StrOrNull(f.originalFilename)), ("media_type", JStr(f.mediaType)),
          ("size_bytes", JNum(f.sizeBytes as real)), ("url", JStr("/api/files/" + f.id))])
  }

  function ImagesJson(images: seq<ImageRef>): (r: seq<Json>)
    ensures |r| == |images|
    ensures forall i :: 0 <= i < |images| ==> r[i] == ImageJson(images[i])
  {
    if |images| == 0 then [] else [ImageJson(images[0])] + ImagesJson(images[1..])
  }

  function FilesJson(files: seq<FileRef>): (r: seq<Json>)
    ensures |r| == |files|
    ensures forall i :: 0 <= i < |files| ==> r[i] == FileJson(files[i])
  {
    if |files| == 0 then [] else [FileJson(files[0])] + FilesJson(files[1..])
  }

  /** `m.annotation || null`. */
  function AnnotationJson(a: Option<AnnotationRef>): (r: Json)
    ensures r.JNull? <==> a.None?
  {
    match a
    case None => JNull
    case Some(x) => JObj([("type", JStr(x.kind)), ("label", StrOrNull(x.labelText))])
  }

  function MessageJson(m: ExportMessage): Json {
    JObj([("id", JStr(m.id)), ("role", JStr(m.role)), ("content", JStr(m.content)),
          ("created_at", JStr(m.createdAt)), ("parent_message_id", StrOrNull(m.parent)),
          ("images", JArr(ImagesJson(m.images))), ("files", JArr(FilesJson(m.files))),
          ("annotation", AnnotationJson(m.annotation))])
  }

  function MessagesJson(ms: seq<ExportMessage>): (r: seq<Json>)
    ensures |r| == |ms|
    ensures forall i :: 0 <= i < |ms| ==> r[i] == MessageJson(ms[i])
  {
    if |ms| == 0 then [] else [MessageJson(ms[0])] + MessagesJson(ms[1..])
  }

  /** `generateJSON`, before `JSON.stringify`: fails where `JSON.parse` of
      the stored vibes throws. */
  function GenerateJson(data: ExportData, exportedAt: string): (r: Result<Json>)
    ensures r.Err? <==> data.conversation.vibes.MalformedVibes?
  {
    var conversation :- ConversationJson(data.conversation, data.tags);
    Ok(JObj([("version", JNum(1.0)), ("conversation", conversation),
             ("messages", JArr(MessagesJson(data.messages))), ("exported_at", JStr(exportedAt))]))
  }

  // ------------------------------------------------------------ reading the document

  /** `v[key]` on a value that may be missing or not an object. */
  function Get(v: Option<Json>, key: string): Option<Json> {
    if v.Some? && v.value.JObj? then Field(v.value.fields, key) else None
  }

  /** `v[i]` on a value that may be missing or not an array. */
  function Nth(v: Option<Json>, i: nat): Option<Json> {
    if v.Some? && v.value.JArr? && i < |v.value.items| then Some(v.value.items[i]) else None
  }

  /** The JSON export is version 1, embeds the tags under `conversation`,
      and links image `j` of message `i` as `/api/images/{id}` and file
      `j` as `/api/files/{id}`. */
  lemma GenerateJsonLinks(data: ExportData, exportedAt: string)
    requires GenerateJson(data, exportedAt).Ok?
    ensures var doc := Some(GenerateJson(data, exportedAt).value);
      && Get(doc, "version") == Some(JNum(1.0))
      && Get(Get(doc, "conversation"), "tags") == Some(JArr(TagsJson(data.tags)))
      && (forall i, j :: 0 <= i < |data.messages| && 0 <= j < |data.messages[i].images| ==>
            Get(Nth(Get(Nth(Get(doc, "messages"), i), "images"), j), "url")
              == Some(JStr("/api/images/" + data.messages[i].images[j].id)))
      && (forall i, j :: 0 <= i < |data.messages| && 0 <= j < |data.messages[i].files| ==>
            Get(Nth(Get(Nth(Get(doc, "messages"), i), "files"), j), "url")
              == Some(JStr("/api/files/" + data.messages[i].files[j].id)))
  {
    var doc := Some(GenerateJson(data, exportedAt).value);
    DocumentMembers(data, exportedAt);
    ConversationTags(data.conversation, data.tags);
    forall i | 0 <= i < |data.messages|
      ensures Get(Nth(Get(doc, "messages"), i), "images") == Some(JArr(ImagesJson(data.messages[i].images)))
      ensures Get(Nth(Get(doc, "messages"), i), "files") == Some(JArr(FilesJson(data.messages[i].files)))
    {
      assert Nth(Get(doc, "messages"), i) == Some(MessageJson(data.messages[i]));
      MessageLinks(data.messages[i]);
    }
  }

  /** The three members the links lemma reads from the document. */
  lemma DocumentMembers(data: ExportData, exportedAt: string)
    requires GenerateJson(data, exportedAt).Ok?
    ensures var doc := Some(GenerateJson(data, exportedAt).value);
      && Get(doc, "version") == Some(JNum(1.0))
      && Get(doc, "conversation") == Some(ConversationJson(data.conversation, data.tags).value)
      && Get(doc, "messages") == Some(JArr(MessagesJson(data.messages)))
  {
    var conversation := ConversationJson(data.conversation, data.tags).value;
    var head := [("version", JNum(1.0)), ("conversation", conversation)];
    var withMessages := head + [("messages", JArr(MessagesJson(data.messages)))];
    assert GenerateJson(data, exportedAt).value.fields == withMessages + [("exported_at", JStr(exportedAt))];
    assert "exported_at"[0] != "messages"[0] && "exported_at"[0] != "conversation"[0] && "exported_at"[0] != "version"[0];
    assert "messages"[0] != "conversation"[0] && "messages"[0] != "version"[0];
    FieldSnoc(withMessages, "exported_at", JStr(exportedAt), "messages");
    FieldSnoc(withMessages, "exported_at", JStr(exportedAt), "conversation");
    FieldSnoc(withMessages, "exported_at", JStr(exportedAt), "version");
    FieldSnoc(head, "messages", JArr(MessagesJson(data.messages)), "conversation");
    FieldSnoc(head, "messages", JArr(MessagesJson(data.messages)), "version");
    assert head == [("version", JNum(1.0))] + [("conversation", conversation)];
    FieldSnoc([("version", JNum(1.0))], "conversation", conversation, "version");
  }

  /** The tags are the last member of `conversation`. */
  lemma ConversationTags(c: Conversation, tags: seq<TagRef>)
    requires ConversationJson(c, tags).Ok?
    ensures Get(Some(ConversationJson(c, tags).value), "tags") == Some(JArr(TagsJson(tags)))
  {
  }

  /** A message's `images` and `files` members. */
  lemma MessageLinks(m: ExportMessage)
    ensures Get(Some(MessageJson(m)), "images") == Some(JArr(ImagesJson(m.images)))
    ensures Get(Some(MessageJson(m)), "files") == Some(JArr(FilesJson(m.files)))
    ensures forall j :: 0 <= j < |m.images| ==>
      Get(Nth(Get(Some(MessageJson(m)), "images"), j), "url") == Some(JStr("/api/images/" + m.images[j].id))
    ensures forall j :: 0 <= j < |m.files| ==>
      Get(Nth(Get(Some(MessageJson(m)), "files"), j), "url") == Some(JStr("/api/files/" + m.files[j].id))
  {
    var front := [("id", JStr(m.id)), ("role", JStr(m.role)), ("content", JStr(m.content)),
                  ("created_at", JStr(m.createdAt)), ("parent_message_id", StrOrNull(m.parent))];
    var withImages := front + [("images", JArr(ImagesJson(m.images)))];
    var withFiles := withImages + [("files", JArr(FilesJson(m.files)))];
    assert MessageJson(m).fields == withFiles + [("annotation", AnnotationJson(m.annotation))];
    assert "annotation"[0] != "images"[0] && "annotation"[0] != "files"[0] && "files"[0] != "images"[0];
    FieldSnoc(withFiles, "annotation", AnnotationJson(m.annotation), "images");
    FieldSnoc(withFiles, "annotation", AnnotationJson(m.annotation), "files");
    FieldSnoc(withImages, "files", JArr(FilesJson(m.files)), "images");
    FieldSnoc(withImages, "files", JArr(FilesJson(m.files)), "files");
    FieldSnoc(front, "images", JArr(ImagesJson(m.images)), "images");
  }

}

=== FILE: export_markdown.dfy ===
/** The Markdown rendering of an export (`generateMarkdown` in
    `src/export.ts`): YAML front matter, a title heading, then one section
    per message. Locale time formatting and number printing are parameters. */
module ExportMarkdown {
  import opened Wrappers
  import opened Text
  import opened Store
  import opened Export
  import opened Json
  import opened Jobs

  // ------------------------------------------------------- YAML quoting

  /** The character a YAML double-quoted escape `\e` stands for (section
      5.7 of YAML 1.2, the single-character escapes the model needs). */
  function YamlEscape(e: char): Option<char> {
    if e == '"' then Some('"')
    else if e == '\\' then Some('\\')
    else if e == '/' then Some('/')
    else if e == 'n' then Some('\n')
    else if e == 't' then Some('\t')
    else if e == 'r' then Some('\r')
    else if e == '0' then Some('\0')
    else None
  }

  /** A line break character (section 5.4 of YAML 1.2). */
  predicate IsBreak(c: char) {
    c == '\n' || c == '\r'
  }

  /** White space inside a line (section 5.5 of YAML 1.2). */
  predicate IsWhite(c: char) {
    c == ' ' || c == '\t'
  }

  /** The length of the run of white space `s` opens with. */
  function WhiteRun(s: string): (n: nat)
    ensures n <= |s|
    ensures forall i :: 0 <= i < n ==> IsWhite(s[i])
    ensures n < |s| ==> !IsWhite(s[n])
  {
    if |s| > 0 && IsWhite(s[0]) then 1 + WhiteRun(s[1..]) else 0
  }

  /** The text after the line break `s` opens with; CR LF is one break. */
  function AfterBreak(s: string): (r: string)
    requires |s| > 0 && IsBreak(s[0])
    ensures |r| < |s|
  {
    if s[0] == '\r' && |s| > 1 && s[1] == '\n' then s[2..] else s[1..]
  }

  /** Line folding after a line break (sections 6.5 and 7.3.1 of YAML
      1.2): the number of following lines that hold only white space, and
      the text after them with the next line's leading white space
      dropped. */
  function EmptyLines(s: string): (r: (nat, string))
    ensures |r.1| <= |s|
    ensures |r.1| > 0 ==> !IsWhite(r.1[0]) && !IsBreak(r.1[0])
    decreases |s|
  {
    var n := WhiteRun(s);
    if n < |s| && IsBreak(s[n]) then
      var e := EmptyLines(AfterBreak(s[n..]));
      (e.0 + 1, e.1)
    else (0, s[n..])
  }

  /** `k` line feeds. */
  function Newlines(k: nat): (r: string)
    ensures |r| == k
    ensures forall i :: 0 <= i < k ==> r[i] == '\n'
  {
    if k == 0 then "" else "\n" + Newlines(k - 1)
  }

  /** What a folded line break reads as: a space, or one line feed for
      each empty line after it. */
  function Folded(k: nat): (r: string)
    ensures |r| == if k == 0 then 1 else k
    ensures r[0] == ' ' <==> k == 0
  {
    if k == 0 then " " else Newlines(k)
  }

  /** Reads a YAML double-quoted scalar whose opening quote has been
      consumed: its value and the text after the closing quote, or `None`
      when it is unterminated or holds an unknown escape. A raw line break
      folds, dropping the white space on either side of it; an escaped
      one is left out. */
  function ReadQuoted(s: string): (r: Option<(string, string)>)
    ensures r.Some? ==> |r.value.1| < |s|
    decreases |s|
  {
    if |s| == 0 then None
    else if s[0] == '"' then Some(("", s[1..]))
    else if s[0] == '\\' then
      if |s| < 2 then None
      else if IsBreak(s[1]) then
        var e := EmptyLines(AfterBreak(s[1..]));
        match ReadQuoted(e.1)
        case None => None
        case Some(vr) => Some((Newlines(e.0) + vr.0, vr.1))
      else match YamlEscape(s[1])
        case None => None
        case Some(c) =>
          match ReadQuoted(s[2..])
          case None => None
          case Some(vr) => Some(([c] + vr.0, vr.1))
    else
      var n := WhiteRun(s);
      if n < |s| && IsBreak(s[n]) then
        var e := EmptyLines(AfterBreak(s[n..]));
        match ReadQuoted(e.1)
        case None => None
        case Some(vr) => Some((Folded(e.0) + vr.0, vr.1))
      else
        match ReadQuoted(s[1..])
        case None => None
        case Some(vr) => Some(([s[0]] + vr.0, vr.1))
  }

  /** The value of a complete double-quoted scalar. */
  function Unquote(q: string): (r: Option<string>)
    ensures r.Some? ==> |q| >= 2 && q[0] == '"'
  {
    if |q| == 0 || q[0] != '"' then None
    else match ReadQuoted(q[1..])
      case Some(vr) => if vr.1 == "" then Some(vr.0) else None
      case None => None
  }

  /** As written: `replace(/"/g, '\\"')`, which escapes quotes but not
      backslashes or line breaks. */
  function EscapeQuotes(s: string): string {
    ReplaceAll(s, '"', "\\\"")
  }

  /** Corrected: backslashes and line breaks are escaped as well. */
  function QuoteYaml(s: string): (r: string)
    ensures |r| >= |s|
    ensures forall i :: 0 <= i < |r| ==> !IsBreak(r[i])
  {
    if |s| == 0 then "" else QuoteChar(s[0]) + QuoteYaml(s[1..])
  }

  /** One character of the corrected escape. */
  function QuoteChar(c: char): (r: string)
    ensures |r| >= 1
    ensures forall i :: 0 <= i < |r| ==> !IsBreak(r[i])
    ensures IsWhite(r[0]) ==> r == [c]
  {
    if c == '"' then "\\\""
    else if c == '\\' then "\\\\"
    else if c == '\n' then "\\n"
    else if c == '\r' then "\\r"
    else [c]
  }

  /** No line break follows the white space `t` opens with, so reading
      `t` does not fold there. */
  predicate NoFoldAhead(t: string) {
    WhiteRun(t) == |t| || !IsBreak(t[WhiteRun(t)])
  }

  lemma {:induction false} QuotedNoFold(s: string, rest: string)
    ensures NoFoldAhead(QuoteYaml(s) + "\"" + rest)
    decreases |s|
  {
    var t := QuoteYaml(s) + "\"" + rest;
    if |s| == 0 {
      assert t[0] == '"';
    } else {
      var u := QuoteYaml(s[1..]) + "\"" + rest;
      QuoteYamlCons(s, "\"" + rest);
      assert t == QuoteChar(s[0]) + u;
      if IsWhite(QuoteChar(s[0])[0]) {
        QuotedNoFold(s[1..], rest);
        assert t[1..] == u;
      } else {
        assert t[0] == QuoteChar(s[0])[0];
      }
    }
  }

  /** Reading one escaped character, then the rest. */
  lemma ReadQuoteChar(c: char, t: string, v: string, rest: string)
    requires ReadQuoted(t) == Some((v, rest))
    requires NoFoldAhead(t)
    ensures ReadQuoted(QuoteChar(c) + t) == Some(([c] + v, rest))
  {
    var u := QuoteChar(c) + t;
    if c == '"' || c == '\\' || c == '\n' || c == '\r' {
      assert u[0] == '\\' && u[1] == QuoteChar(c)[1] && !IsBreak(u[1]);
      assert YamlEscape(u[1]) == Some(c);
      assert u[2..] == t;
    } else {
      assert u[0] == c && u[1..] == t;
      if IsWhite(c) {
        assert WhiteRun(u) == 1 + WhiteRun(t);
      }
    }
  }

  lemma QuoteYamlCons(s: string, tail: string)
    requires |s| > 0
    ensures QuoteYaml(s) + tail == QuoteChar(s[0]) + (QuoteYaml(s[1..]) + tail)
  {
  }

  /** A YAML reader reads the corrected quoting of any string back to
      that string, stopping at the closing quote. */
  lemma {:induction false} ReadQuoteYaml(s: string, rest: string)
    ensures ReadQuoted(QuoteYaml(s) + "\"" + rest) == Some((s, rest))
    decreases |s|
  {
    if |s| == 0 {
      assert QuoteYaml(s) + "\"" + rest == "\"" + rest;
    } else {
      ReadQuoteYaml(s[1..], rest);
      QuotedNoFold(s[1..], rest);
      assert QuoteYaml(s) + "\"" + rest == QuoteYaml(s) + ("\"" + rest);
      QuoteYamlCons(s, "\"" + rest);
      assert QuoteYaml(s[1..]) + ("\"" + rest) == QuoteYaml(s[1..]) + "\"" + rest;
      ReadQuoteChar(s[0], QuoteYaml(s[1..]) + "\"" + rest, s[1..], rest);
      assert [s[0]] + s[1..] == s;
    }
  }

  /** The quoted form with the corrected escape. */
  function Quoted(s: string): string {
    "\"" + QuoteYaml(s) + "\""
  }

  /** The quoted form the front matter writes: the escape as written. */
  function QuotedAsWritten(s: string): string {
    "\"" + EscapeQuotes(s) + "\""
  }

  /** With the corrected escape, a YAML reader gives back exactly the
      quoted string, line breaks included. */
  lemma QuotedRoundTrip(s: string)
    ensures Unquote(Quoted(s)) == Some(s)
  {
    ReadQuoteYaml(s, "");
    assert Quoted(s)[1..] == QuoteYaml(s) + "\"" + "";
  }

  /** Text the escape as written handles: no backslash and no line
      break. */
  predicate QuotesSafely(s: string) {
    '\\' !in s && '\n' !in s && '\r' !in s
  }

  /** The escape as written agrees with the corrected one on text without
      a backslash or a line break, so it round-trips exactly there. */
  lemma {:induction false} EscapeQuotesAgrees(s: string)
    requires QuotesSafely(s)
    ensures EscapeQuotes(s) == QuoteYaml(s)
    decreases |s|
  {
    if |s| > 0 {
      assert s == [s[0]] + s[1..];
      ReplaceAllAppend([s[0]], s[1..], '"', "\\\"");
      EscapeQuotesAgrees(s[1..]);
    }
  }

  /** On such text, the front matter's quoting reads back exactly. */
  lemma QuotedAsWrittenReadsBack(s: string)
    requires QuotesSafely(s)
    ensures Unquote(QuotedAsWritten(s)) == Some(s)
  {
    EscapeQuotesAgrees(s);
    QuotedRoundTrip(s);
  }

  /** A quoted scalar holding one escape. */
  lemma UnquoteEscape(e: char, c: char)
    requires YamlEscape(e) == Some(c) && !IsBreak(e)
    ensures Unquote(['"', '\\', e, '"']) == Some([c])
  {
    var q := ['"', '\\', e, '"'];
    assert q[1..][2..] == ['"'];
    assert ReadQuoted(['"']) == Some(("", ""));
    assert [c] + "" == [c];
  }

  /** As written, a title holding the two characters `\n` reads back from
      the front matter as a line break. */
  lemma EscapeQuotesLosesBackslash()
    ensures Unquote(QuotedAsWritten("\\n")) == Some("\n")
  {
    var s := "\\n";
    assert '"' !in s by { assert s[0] != '"' && s[1] != '"'; }
    ReplaceAllAbsent(s, '"', "\\\"");
    assert QuotedAsWritten(s) == ['"', '\\', 'n', '"'];
    UnquoteEscape('n', '\n');
  }

  /** Reading a plain character, then the rest. */
  lemma ReadPlain(c: char, t: string, v: string, rest: string)
    requires c != '"' && c != '\\' && !IsBreak(c) && !IsWhite(c)
    requires ReadQuoted(t) == Some((v, rest))
    ensures ReadQuoted([c] + t) == Some(([c] + v, rest))
  {
    var u := [c] + t;
    assert u[0] == c && u[1..] == t;
    assert WhiteRun(u) == 0;
  }

  /** Reading a raw line feed followed by a character that is neither
      white space nor a break: it folds to a space. */
  lemma ReadFold(t: string, v: string, rest: string)
    requires |t| > 0 && !IsWhite(t[0]) && !IsBreak(t[0])
    requires ReadQuoted(t) == Some((v, rest))
    ensures ReadQuoted("\n" + t) == Some((" " + v, rest))
  {
    var u := "\n" + t;
    assert WhiteRun(u) == 0;
    assert AfterBreak(u[0..]) == t by { assert u[0..] == u && u[1..] == t; }
    assert WhiteRun(t) == 0;
    assert EmptyLines(t) == (0, t) by { assert t[0..] == t; }
  }

  /** As written, a title holding a line break, as an auto-title cut from
      a multi-line message can, reads back with the break folded to a
      space. */
  lemma EscapeQuotesFoldsLineBreak()
    ensures Unquote(QuotedAsWritten("a\nb")) == Some("a b")
  {
    var s := "a\nb";
    assert '"' !in s by { assert s[0] != '"' && s[1] != '"' && s[2] != '"'; }
    ReplaceAllAbsent(s, '"', "\\\"");
    assert QuotedAsWritten(s) == "\"" + ("a" + ("\n" + ("b" + "\"")));
    assert ReadQuoted("\"") == Some(("", ""));
    ReadPlain('b', "\"", "", "");
    assert ['b'] + "" == "b" && ['b'] + "\"" == "b" + "\"";
    ReadFold("b" + "\"", "b", "");
    assert " " + "b" == " b";
    ReadPlain('a', "\n" + ("b" + "\""), " b", "");
    assert ['a'] + " b" == "a b" && ['a'] + ("\n" + ("b" + "\"")) == "a" + ("\n" + ("b" + "\""));
    assert QuotedAsWritten(s)[1..] == "a" + ("\n" + ("b" + "\""));
  }

  // ---------------------------------------------------- front matter

  /** The parsed vibes list the Markdown iterates over; `JSON.parse`
      failing fails the export. */
  function VibeItems(v: Vibes): (r: Result<seq<string>>)
    ensures r.Err? <==> v.MalformedVibes?
    ensures v.NoVibes? ==> r == Ok([])
  {
    match v
    case NoVibes => Ok([])
    case VibeList(items) => Ok(items)
    case MalformedVibes => Err("Unexpected token in JSON")
  }

  /** Each item as `"item"`. */
  function QuoteEach(items: seq<string>): (r: seq<string>)
    ensures |r| == |items|
  {
    if |items| == 0 then [] else ["\"" + items[0] + "\""] + QuoteEach(items[1..])
  }

  function TagNames(tags: seq<TagRef>): (r: seq<string>)
    ensures |r| == |tags|
  {
    if |tags| == 0 then [] else [tags[0].name] + TagNames(tags[1..])
  }

  /** The lines between and including the two `---` fences. */
  function FrontMatter(data: ExportData, exportedIso: string, vibes: seq<string>, showNumber: real -> string): seq<string> {
    Head(data, exportedIso, showNumber) + Tail(data, vibes)
  }

  /** The lines up to `messages:`. */
  function Head(data: ExportData, exportedIso: string, showNumber: real -> string): seq<string> {
    FixedHead(data, exportedIso, showNumber) + ["messages: " + NatToString(|data.messages|)]
  }

  /** A reader of `key: value` lines: the value on the first line for the
      key. */
  function ValueOf(lines: seq<string>, key: string): Option<string> {
    if |lines| == 0 then None
    else if StartsWith(lines[0], key + ": ") then Some(lines[0][|key| + 2..])
    else ValueOf(lines[1..], key)
  }

  /** A line that differs from `key: ` at some position is not read for
      that key. */
  lemma OtherKey(line: string, key: string, i: nat, rest: seq<string>)
    requires i < |line| && i < |key| && line[i] != key[i]
    ensures ValueOf([line] + rest, key) == ValueOf(rest, key)
  {
    assert (key + ": ")[i] == key[i];
    assert ([line] + rest)[1..] == rest;
  }

  lemma KeyLine(key: string, value: string, rest: seq<string>)
    ensures ValueOf([key + ": " + value] + rest, key) == Some(value)
  {
    assert (key + ": " + value)[..|key| + 2] == key + ": ";
    assert (key + ": " + value)[|key| + 2..] == value;
  }

  /** `line` is not a `key: ` line, as position `i` shows. */
  lemma Differ(line: string, key: string, i: nat)
    requires i < |line| && i < |key| && line[i] != key[i]
    ensures !StartsWith(line, key + ": ")
  {
    assert (key + ": ")[i] == key[i];
  }

  lemma {:induction false} ValueOfSkip(a: seq<string>, b: seq<string>, key: string)
    requires forall i :: 0 <= i < |a| ==> !StartsWith(a[i], key + ": ")
    ensures ValueOf(a + b, key) == ValueOf(b, key)
    decreases |a|
  {
    if |a| > 0 {
      assert (a + b)[0] == a[0];
      assert (a + b)[1..] == a[1..] + b;
      ValueOfSkip(a[1..], b, key);
    } else {
      assert a + b == b;
    }
  }

  /** The fixed lines before `messages:`. */
  function FixedHead(data: ExportData, exportedIso: string, showNumber: real -> string): seq<string> {
    var c := data.conversation;
    ["---", "title: " + QuotedAsWritten(c.title), "model: " + c.model, "temperature: " + showNumber(c.temperature),
     "created: " + c.createdAt, "exported: " + exportedIso]
  }

  /** A YAML flow sequence of quoted items. */
  function FlowList(items: seq<string>): string {
    "[" + Join(QuoteEach(items), ", ") + "]"
  }

  function TagLines(data: ExportData): seq<string> {
    if |data.tags| > 0 then ["tags: " + FlowList(TagNames(data.tags))] else []
  }

  function VibeLines(vibes: seq<string>): seq<string> {
    if |vibes| > 0 then ["vibes: " + FlowList(vibes)] else []
  }

  function SummaryLines(data: ExportData): seq<string> {
    if IsSet(data.conversation.summary) then ["summary: " + QuotedAsWritten(data.conversation.summary.value)] else []
  }

  /** The optional lines and the closing fence. */
  function Tail(data: ExportData, vibes: seq<string>): seq<string> {
    TagLines(data) + (VibeLines(vibes) + (SummaryLines(data) + ["---"]))
  }

  /** No line before the optional ones is a `tags`, `vibes` or `summary`
      line. */
  lemma HeadLacksOptionalKeys(data: ExportData, exportedIso: string, showNumber: real -> string, key: string)
    requires key == "tags" || key == "vibes" || key == "summary"
    ensures forall i :: 0 <= i < |Head(data, exportedIso, showNumber)| ==>
      !StartsWith(Head(data, exportedIso, showNumber)[i], key + ": ")
  {
    var head := Head(data, exportedIso, showNumber);
    var k := if key == "tags" then 1 else 0;
    forall i | 0 <= i < |head| ensures !StartsWith(head[i], key + ": ") {
      Differ(head[i], key, if i == 1 || i == 3 then k else 0);
    }
  }

  /** The front matter reads back the message count. */
  lemma FrontMatterMessages(data: ExportData, exportedIso: string, vibes: seq<string>, showNumber: real -> string)
    ensures ValueOf(FrontMatter(data, exportedIso, vibes, showNumber), "messages") == Some(NatToString(|data.messages|))
  {
    var head := FixedHead(data, exportedIso, showNumber);
    var line := "messages: " + NatToString(|data.messages|);
    var rest := Tail(data, vibes);
    FixedHeadLacksMessages(data, exportedIso, showNumber);
    assert FrontMatter(data, exportedIso, vibes, showNumber) == head + ([line] + rest);
    ValueOfSkip(head, [line] + rest, "messages");
    KeyLine("messages", NatToString(|data.messages|), rest);
  }

  /** No line before `messages:` is read for that key. */
  lemma FixedHeadLacksMessages(data: ExportData, exportedIso: string, showNumber: real -> string)
    ensures var head := FixedHead(data, exportedIso, showNumber);
      forall i :: 0 <= i < |head| ==> !StartsWith(head[i], "messages" + ": ")
  {
    var head := FixedHead(data, exportedIso, showNumber);
    forall i | 0 <= i < |head| ensures !StartsWith(head[i], "messages" + ": ") {
      Differ(head[i], "messages", if i == 2 then 1 else 0);
    }
  }

  /** The front matter's title is the quoted title, which reads back
      exactly when the title holds no backslash. */
  lemma FrontMatterTitle(data: ExportData, exportedIso: string, vibes: seq<string>, showNumber: real -> string)
    ensures var v := ValueOf(FrontMatter(data, exportedIso, vibes, showNumber), "title");
      && v == Some(QuotedAsWritten(data.conversation.title))
      && (QuotesSafely(data.conversation.title) ==> Unquote(v.value) == Some(data.conversation.title))
  {
    var fm := FrontMatter(data, exportedIso, vibes, showNumber);
    var q := QuotedAsWritten(data.conversation.title);
    Differ("---", "title", 0);
    assert fm == ["---"] + (["title: " + q] + fm[2..]);
    ValueOfSkip(["---"], ["title: " + q] + fm[2..], "title");
    KeyLine("title", q, fm[2..]);
    if QuotesSafely(data.conversation.title) {
      QuotedAsWrittenReadsBack(data.conversation.title);
    }
  }

  lemma ValueOfAbsent(lines: seq<string>, key: string)
    requires forall i :: 0 <= i < |lines| ==> !StartsWith(lines[i], key + ": ")
    ensures ValueOf(lines, key) == None
  {
    ValueOfSkip(lines, [], key);
    assert lines + [] == lines;
  }

  /** The optional lines and the closing fence, which begin with `key`'s
      lines when `key` is present. */
  lemma ReadOptional(data: ExportData, exportedIso: string, vibes: seq<string>, showNumber: real -> string, key: string)
    requires key == "tags" || key == "vibes" || key == "summary"
    ensures ValueOf(FrontMatter(data, exportedIso, vibes, showNumber), key) == ValueOf(Tail(data, vibes), key)
  {
    HeadLacksOptionalKeys(data, exportedIso, showNumber, key);
    ValueOfSkip(Head(data, exportedIso, showNumber), Tail(data, vibes), key);
  }

  lemma TagsAbsent(data: ExportData, vibes: seq<string>)
    requires |data.tags| == 0
    ensures ValueOf(Tail(data, vibes), "tags") == None
  {
    var t := Tail(data, vibes);
    forall i | 0 <= i < |t| ensures !StartsWith(t[i], "tags: ") {
      Differ(t[i], "tags", 0);
    }
    ValueOfAbsent(t, "tags");
  }

  /** A `tags:` line is present exactly when the conversation has tags. */
  lemma FrontMatterTags(data: ExportData, exportedIso: string, vibes: seq<string>, showNumber: real -> string)
    ensures ValueOf(FrontMatter(data, exportedIso, vibes, showNumber), "tags").Some? <==> |data.tags| > 0
  {
    ReadOptional(data, exportedIso, vibes, showNumber, "tags");
    if |data.tags| > 0 {
      KeyLine("tags", FlowList(TagNames(data.tags)), VibeLines(vibes) + (SummaryLines(data) + ["---"]));
    } else {
      TagsAbsent(data, vibes);
    }
  }

  lemma VibesAbsent(data: ExportData, vibes: seq<string>)
    requires |vibes| == 0
    ensures ValueOf(Tail(data, vibes), "vibes") == None
  {
    var t := Tail(data, vibes);
    forall i | 0 <= i < |t| ensures !StartsWith(t[i], "vibes: ") {
      Differ(t[i], "vibes", 0);
    }
    ValueOfAbsent(t, "vibes");
  }

  lemma VibesPresent(data: ExportData, vibes: seq<string>)
    requires |vibes| > 0
    ensures ValueOf(Tail(data, vibes), "vibes") == Some(FlowList(vibes))
  {
    var tags := TagLines(data);
    forall i | 0 <= i < |tags| ensures !StartsWith(tags[i], "vibes: ") {
      Differ(tags[i], "vibes", 0);
    }
    var rest := SummaryLines(data) + ["---"];
    ValueOfSkip(tags, VibeLines(vibes) + rest, "vibes");
    KeyLine("vibes", FlowList(vibes), rest);
  }

  /** A `vibes:` line is present exactly when the vibes list is non-empty. */
  lemma FrontMatterVibes(data: ExportData, exportedIso: string, vibes: seq<string>, showNumber: real -> string)
    ensures ValueOf(FrontMatter(data, exportedIso, vibes, showNumber), "vibes").Some? <==> |vibes| > 0
  {
    ReadOptional(data, exportedIso, vibes, showNumber, "vibes");
    if |vibes| > 0 {
      VibesPresent(data, vibes);
    } else {
      VibesAbsent(data, vibes);
    }
  }

  lemma SummaryInTail(data: ExportData, vibes: seq<string>)
    ensures ValueOf(Tail(data, vibes), "summary") == ValueOf(SummaryLines(data) + ["---"], "summary")
  {
    var before := TagLines(data) + VibeLines(vibes);
    assert Tail(data, vibes) == before + (SummaryLines(data) + ["---"]);
    forall i | 0 <= i < |before| ensures !StartsWith(before[i], "summary: ") {
      Differ(before[i], "summary", 0);
    }
    ValueOfSkip(before, SummaryLines(data) + ["---"], "summary");
  }

  /** A `summary:` line is present exactly when the summary is non-empty;
      it holds the quoted summary, which reads back exactly when the
      summary holds no backslash. */
  lemma FrontMatterSummary(data: ExportData, exportedIso: string, vibes: seq<string>, showNumber: real -> string)
    ensures var v := ValueOf(FrontMatter(data, exportedIso, vibes, showNumber), "summary");
      && (v.Some? <==> IsSet(data.conversation.summary))
      && (v.Some? ==> v.value == QuotedAsWritten(data.conversation.summary.value))
      && (v.Some? && QuotesSafely(data.conversation.summary.value) ==> Unquote(v.value) == data.conversation.summary)
  {
    ReadOptional(data, exportedIso, vibes, showNumber, "summary");
    SummaryInTail(data, vibes);
    if IsSet(data.conversation.summary) {
      KeyLine("summary", QuotedAsWritten(data.conversation.summary.value), ["---"]);
      if QuotesSafely(data.conversation.summary.value) {
        QuotedAsWrittenReadsBack(data.conversation.summary.value);
      }
    } else {
      Differ("---", "summary", 0);
      ValueOfAbsent(["---"], "summary");
      assert SummaryLines(data) + ["---"] == ["---"];
    }
  }

  // ----------------------------------------------------------- body

  function RoleName(role: string): (r: string)
    ensures r == "User" <==> role == "user"
    ensures r == "User" || r == "Claude"
  {
    if role == "user" then "User" else "Claude"
  }

  /** The emoji of an annotation type. */
  function AnnotationMark(kind: string): string {
    if kind == "pin" then "\U{1F4CC}" else if kind == "bookmark" then "\U{1F516}" else "\U{2B50}"
  }

  /** The heading's annotation suffix: nothing without an annotation. */
  function AnnotationSuffix(a: Option<AnnotationRef>): (r: string)
    ensures r == "" <==> a.None?
  {
    match a
    case None => ""
    case Some(x) => " " + AnnotationMark(x.kind) + (if IsSet(x.labelText) then " " + x.labelText.value else "")
  }

  /** `original_filename || fallback`. */
  function DisplayName(name: Option<string>, fallback: string): (r: string)
    ensures IsSet(name) ==> r == name.value
    ensures !IsSet(name) ==> r == fallback
  {
    if IsSet(name) then name.value else fallback
  }

  /** A file size as a number and a unit: bytes below 1024, otherwise
      kilobytes rounded to the nearest integer, halves up (`toFixed(0)`). */
  function SizeParts(n: nat): (r: (nat, string))
    ensures n < 1024 ==> r == (n, "B")
    ensures n >= 1024 ==> r.1 == "KB" && r.0 >= 1 && r.0 * 1024 - 512 <= n < r.0 * 1024 + 512
  {
    if n < 1024 then (n, "B") else ((n + 512) / 1024, "KB")
  }

  function SizeText(n: nat): string {
    var p := SizeParts(n);
    NatToString(p.0) + p.1
  }

  function ImageLine(i: ImageRef): string {
    "![" + DisplayName(i.originalFilename, "image-" + i.id) + "](/api/images/" + i.id + ")"
  }

  function FileLine(f: FileRef): string {
    "\U{1F4CE} [" + DisplayName(f.originalFilename, "file-" + f.id) + "](/api/files/" + f.id + ") ("
    + SizeText(f.sizeBytes) + ")"
  }

  function ImageLines(images: seq<ImageRef>): (r: seq<string>)
    ensures |r| == |images|
    ensures forall k :: 0 <= k < |images| ==> r[k] == ImageLine(images[k])
  {
    if |images| == 0 then [] else [ImageLine(images[0])] + ImageLines(images[1..])
  }

  function FileLines(files: seq<FileRef>): (r: seq<string>)
    ensures |r| == |files|
    ensures forall k :: 0 <= k < |files| ==> r[k] == FileLine(files[k])
  {
    if |files| == 0 then [] else [FileLine(files[0])] + FileLines(files[1..])
  }

  /** The heading line of a message. */
  function Heading(m: ExportMessage, formatTime: string -> string): string {
    "## " + RoleName(m.role) + " \U{2014} " + formatTime(m.createdAt) + AnnotationSuffix(m.annotation)
  }

  /** The image lines and a blank line, or nothing without images. */
  function ImageBlock(images: seq<ImageRef>): (r: seq<string>)
    ensures |r| == if |images| > 0 then |images| + 1 else 0
    ensures forall k :: 0 <= k < |images| ==> r[k] == ImageLine(images[k])
  {
    if |images| > 0 then ImageLines(images) + [""] else []
  }

  /** The file lines and a blank line, or nothing without files. */
  function FileBlock(files: seq<FileRef>): (r: seq<string>)
    ensures |r| == if |files| > 0 then |files| + 1 else 0
    ensures forall k :: 0 <= k < |files| ==> r[k] == FileLine(files[k])
  {
    if |files| > 0 then FileLines(files) + [""] else []
  }

  /** One message's section: heading, blank line, the image block, the
      file block, the content, a blank line. Every image and file has its
      line, the content comes right after the attachment blocks, and
      nothing else is in the section. */
  function MessageLines(m: ExportMessage, formatTime: string -> string): (lines: seq<string>)
    ensures var ib, fb := ImageBlock(m.images), FileBlock(m.files);
      && |lines| == 4 + |ib| + |fb|
      && lines[0] == Heading(m, formatTime)
      && lines[2..2 + |ib|] == ib
      && lines[2 + |ib|..2 + |ib| + |fb|] == fb
      && lines[2 + |ib| + |fb|] == m.content
  {
    var ib, fb := ImageBlock(m.images), FileBlock(m.files);
    var lines := [Heading(m, formatTime), ""] + (ib + (fb + [m.content, ""]));
    Layout([Heading(m, formatTime), ""], ib, fb, [m.content, ""]);
    lines
  }

  /** Where the blocks of a message section sit. */
  lemma Layout(head: seq<string>, ib: seq<string>, fb: seq<string>, tail: seq<string>)
    requires |head| == 2
    ensures var lines := head + (ib + (fb + tail));
      && lines[2..2 + |ib|] == ib
      && lines[2 + |ib|..2 + |ib| + |fb|] == fb
      && lines[2 + |ib| + |fb|..] == tail
  {
    var lines := head + (ib + (fb + tail));
    assert lines[2..] == ib + (fb + tail);
    assert lines[2 + |ib|..] == fb + tail;
  }

  function BodyLines(ms: seq<ExportMessage>, formatTime: string -> string): seq<string> {
    if |ms| == 0 then [] else MessageLines(ms[0], formatTime) + BodyLines(ms[1..], formatTime)
  }

  /** The whole document, lines joined with `\n`. */
  function GenerateMarkdown(data: ExportData, exportedIso: string, formatTime: string -> string,
                            showNumber: real -> string): (r: Result<string>)
    ensures r.Err? <==> data.conversation.vibes.MalformedVibes?
  {
    var vibes :- VibeItems(data.conversation.vibes);
    Ok(Join(FrontMatter(data, exportedIso, vibes, showNumber) + ["", "# " + data.conversation.title, ""]
            + BodyLines(data.messages, formatTime), "\n"))
  }

  // -------------------------------------------------------- export job

  /** `new Date().toISOString().replace(/[:.]/g, "-")`. */
  function KeyTimestamp(iso: string): (r: string)
    ensures ':' !in r && '.' !in r
    ensures forall x :: x in r ==> x in iso || x == '-'
  {
    ReplaceAll(ReplaceAll(iso, ':', "-"), '.', "-")
  }

  function Extension(format: ExportFormat): string {
    if format.Markdown? then "md" else "json"
  }

  function ContentTypeOf(format: ExportFormat): string {
    if format.Markdown? then "text/markdown" else "application/json"
  }

  /** `exports/{conversation}/{timestamp}.{ext}`. */
  function ExportKey(conversationId: string, iso: string, format: ExportFormat): string {
    "exports/" + conversationId + "/" + KeyTimestamp(iso) + "." + Extension(format)
  }

  datatype ExportResult = ExportResult(db: Db, key: string, size: nat)

  /** The document text in the requested format. */
  function Content(data: ExportData, format: ExportFormat, iso: string, stringify: Json -> string,
                   formatTime: string -> string, showNumber: real -> string): (r: Result<string>)
    ensures r.Err? <==> data.conversation.vibes.MalformedVibes?
  {
    if format.Markdown? then GenerateMarkdown(data, iso, formatTime, showNumber)
    else match GenerateJson(data, iso)
      case Ok(j) => Ok(stringify(j))
      case Err(e) => Err(e)
  }

  /** `exportConversation`: the document is rendered and stored in the
      files bucket under a key derived from the clock; the size is the
      content's length. */
  function ExportConversation(db: Db, conversationId: string, format: ExportFormat, now: Instant,
                              stringify: Json -> string, formatTime: string -> string,
                              showNumber: real -> string): (r: Result<ExportResult>)
    ensures r.Err? <==> FetchExportData(db, conversationId).Err? ||
                        FetchExportData(db, conversationId).value.conversation.vibes.MalformedVibes?
    ensures r.Ok? ==> r.value.key == ExportKey(conversationId, now.iso, format)
    ensures r.Ok? ==>
      var text := Content(FetchExportData(db, conversationId).value, format, now.iso, stringify, formatTime, showNumber);
      && text.Ok?
      && r.value.size == |text.value|
      && r.value.db == PutText(db, r.value.key, text.value, ContentTypeOf(format), now.ms)
  {
    match FetchExportData(db, conversationId)
    case Err(e) => Err(e)
    case Ok(data) =>
      match Content(data, format, now.iso, stringify, formatTime, showNumber)
      case Err(e) => Err(e)
      case Ok(content) =>
        var key := ExportKey(conversationId, now.iso, format);
        Ok(ExportResult(PutText(db, key, content, ContentTypeOf(format), now.ms), key, |content|))
  }
}

=== FILE: export_routes.dfy ===
/** The export routes of `src/routes/exports.ts`: starting an export and
    downloading the stored document through its percent-encoded key. */
module ExportRoutes {
  import opened Wrappers
  import opened Text
  import opened Store
  import opened Json
  import opened Jobs
  import ExportMarkdown
  import Percent

  /** `body.format === "json" ? "json" : "markdown"`. */
  function FormatOf(requested: Option<string>): (f: ExportFormat)
    ensures f.JsonFormat? <==> requested == Some("json")
  {
    if requested == Some("json") then JsonFormat else Markdown
  }

  function FormatName(f: ExportFormat): (name: string)
    ensures FormatOf(Some(name)) == f
  {
    if f.JsonFormat? then "json" else "markdown"
  }

  const DownloadPrefix: string := "/api/exports/"

  /** The reply of `POST /api/conversations/:id/export`. */
  datatype Started = Started(downloadUrl: string, format: string, size: nat)

  /** The renderers the export needs: `JSON.stringify`, the message time
      format and the number format. */
  datatype Renderers = Renderers(stringify: Json -> string, formatTime: string -> string, showNumber: real -> string)

  function StartExport(db: Db, conversationId: string, requested: Option<string>, now: Instant, render: Renderers): (r: (Db, Reply<Started>))
    ensures r.1.Fail? ==> r.0 == db && r.1.status == 500 && StartsWith(r.1.message, "Export failed: ")
    ensures r.1.Reply? <==>
      ExportMarkdown.ExportConversation(db, conversationId, FormatOf(requested), now,
                                        render.stringify, render.formatTime, render.showNumber).Ok?
    ensures r.1.Reply? ==>
      var key := ExportMarkdown.ExportKey(conversationId, now.iso, FormatOf(requested));
      && r.1.value.downloadUrl == DownloadPrefix + Percent.Encode(key)
      && r.1.value.format == FormatName(FormatOf(requested))
      && key in r.0.fileBucket
  {
    var format := FormatOf(requested);
    match ExportMarkdown.ExportConversation(db, conversationId, format, now, render.stringify, render.formatTime, render.showNumber)
    case Err(e) =>
      var m := "Export failed: " + e;
      assert m[..15] == "Export failed: ";
      (db, Fail(500, m))
    case Ok(done) => (done.db, Reply(Started(DownloadPrefix + Percent.Encode(done.key), FormatName(format), done.size)))
  }

  // -------------------------------------------------------------- download

  /** What the download sends: the object, its content type, and the name
      in the `Content-Disposition` header. */
  datatype Download = Download(stored: StoredObject, contentType: string, filename: string)

  const UriMalformed: string := "Internal error: URI malformed"

  /** `r2Key.split("/").pop() || "export"`. */
  function DownloadName(key: string): (name: string)
    ensures name != ""
    ensures '/' !in name
    ensures LastPiece(key, '/') != "" ==> EndsWith(key, name)
  {
    var last := LastPiece(key, '/');
    LastPieceIsSuffix(key, '/');
    if last != "" then last else "export"
  }

  /** `GET /api/exports/{encoded key}`, given the path after the prefix.
      A malformed escape makes `decodeURIComponent` throw, which the
      worker's top-level handler turns into a 500. */
  function DownloadExport(db: Db, encoded: string): (r: Reply<Download>)
    ensures r == Fail(500, UriMalformed) <==> Percent.Decode(encoded).None?
    ensures r == Fail(400, "Invalid export path") <==>
      Percent.Decode(encoded).Some? && !StartsWith(Percent.Decode(encoded).value, "exports/")
    ensures r == Fail(404, "Export not found") <==>
      Percent.Decode(encoded).Some? && StartsWith(Percent.Decode(encoded).value, "exports/")
      && Percent.Decode(encoded).value !in db.fileBucket
    ensures r.Reply? ==> var key := Percent.Decode(encoded).value;
      && key in db.fileBucket && r.value.stored == db.fileBucket[key]
      && (r.value.contentType == "application/json" <==> EndsWith(key, ".json"))
      && (r.value.contentType == "text/markdown" <==> !EndsWith(key, ".json"))
      && r.value.filename == DownloadName(key)
  {
    match Percent.Decode(encoded)
    case None => Fail(500, UriMalformed)
    case Some(key) =>
      if key == "" || !StartsWith(key, "exports/") then Fail(400, "Invalid export path")
      else if key !in db.fileBucket then Fail(404, "Export not found")
      else Reply(Download(db.fileBucket[key], if EndsWith(key, ".json") then "application/json" else "text/markdown",
                          DownloadName(key)))
  }

  lemma ExtensionDecidesJson(conversationId: string, iso: string, format: ExportFormat)
    ensures EndsWith(ExportMarkdown.ExportKey(conversationId, iso, format), ".json") <==> format.JsonFormat?
  {
    var key := ExportMarkdown.ExportKey(conversationId, iso, format);
    if format.Markdown? {
      assert key[|key| - 1] == 'd';
    } else {
      assert key[|key| - 5..] == ".json";
    }
  }

  lemma ExportKeyPrefix(conversationId: string, iso: string, format: ExportFormat)
    ensures StartsWith(ExportMarkdown.ExportKey(conversationId, iso, format), "exports/")
  {
    var key := ExportMarkdown.ExportKey(conversationId, iso, format);
    assert key[..8] == "exports/";
  }

  /** The download URL an export replies with serves the document just
      stored, as JSON exactly when JSON was asked for. */
  lemma StartThenDownload(db: Db, conversationId: string, requested: Option<string>, now: Instant, render: Renderers)
    requires StartExport(db, conversationId, requested, now, render).1.Reply?
    ensures var (db', started) := StartExport(db, conversationId, requested, now, render);
      var key := ExportMarkdown.ExportKey(conversationId, now.iso, FormatOf(requested));
      var d := DownloadExport(db', started.value.downloadUrl[|DownloadPrefix|..]);
      && d.Reply?
      && d.value.stored == db'.fileBucket[key]
      && (d.value.contentType == "application/json" <==> requested == Some("json"))
  {
    var (db', started) := StartExport(db, conversationId, requested, now, render);
    var key := ExportMarkdown.ExportKey(conversationId, now.iso, FormatOf(requested));
    assert started.value.downloadUrl[|DownloadPrefix|..] == Percent.Encode(key);
    Percent.DecodeEncode(key);
    ExportKeyPrefix(conversationId, now.iso, FormatOf(requested));
    ExtensionDecidesJson(conversationId, now.iso, FormatOf(requested));
  }
}

=== FILE: files.dfy ===
/** Document attachments (`src/routes/files.ts`): serving a stored file,
    and the validation, key and row of an upload. */
module Files {
  import opened Wrappers
  import opened Text
  import opened Store
  import opened Utils

  // ------------------------------------------------------------ serve

  /** What `GET /api/files/:id` sends: the object, the row's media type,
      and the download name. */
  datatype Served = Served(stored: StoredObject, contentType: string, filename: string)

  /** `original_filename || "file-{id}"`. */
  function DownloadName(original: Option<string>, id: string): (r: string)
    ensures IsSet(original) ==> r == original.value
    ensures !IsSet(original) ==> r == "file-" + id
  {
    if IsSet(original) then original.value else "file-" + id
  }

  function Serve(db: Db, id: string): (r: Reply<Served>)
    ensures r == Fail(404, "File not found") <==> FindAttachment(db.files, id).None?
    ensures r == Fail(404, "File missing from storage") <==>
      FindAttachment(db.files, id).Some? && FindAttachment(db.files, id).value.r2Key !in db.fileBucket
    ensures r.Reply? ==> var row := FindAttachment(db.files, id).value;
      r.value == Served(db.fileBucket[row.r2Key], row.mediaType, DownloadName(row.originalFilename, id))
  {
    match FindAttachment(db.files, id)
    case None => Fail(404, "File not found")
    case Some(row) =>
      if row.r2Key !in db.fileBucket then Fail(404, "File missing from storage")
      else Reply(Served(db.fileBucket[row.r2Key], row.mediaType, DownloadName(row.originalFilename, id)))
  }

  // ------------------------------------------------------------ upload

  /** The `file` field of the form: its type, name (possibly empty), size
      in bytes and contents. */
  datatype Upload = Upload(mediaType: string, name: string, size: nat, bytes: seq<Byte>)

  /** The reply body of a successful upload. */
  datatype Uploaded = Uploaded(id: string, mediaType: string, originalFilename: string, sizeBytes: nat, support: FileSupport)

  /** `attachments/{conversation}/{id}.{ext}`, the extension taken from
      the name or from "file.bin" when the name is empty. */
  function AttachmentKey(conversationId: string, fileId: string, name: string): (key: string)
    ensures StartsWith(key, "attachments/" + conversationId + "/" + fileId + ".")
    ensures name == "" ==> key == "attachments/" + conversationId + "/" + fileId + "." + "bin"
  {
    var ext := ExtFromFilename(if name != "" then name else DefaultName);
    DefaultNameExt();
    var prefix := "attachments/" + conversationId + "/" + fileId + ".";
    assert (prefix + ext)[..|prefix|] == prefix;
    prefix + ext
  }

  /** The name used for the extension when the upload has none. */
  const DefaultName: string := "file" + "." + "bin"

  /** The extension of the default name is "bin". */
  lemma DefaultNameExt()
    ensures ExtFromFilename(DefaultName) == "bin"
  {
    var bin := "bin";
    assert !IsUpper(bin[0]) && !IsUpper(bin[1]) && !IsUpper(bin[2]);
    ExtAfterLastDot("file", bin);
  }

  /** Without upper-case letters, the extension is the text after the last dot. */
  lemma ExtAfterLastDot(base: string, ext: string)
    requires '.' !in ext
    requires forall i :: 0 <= i < |ext| ==> !IsUpper(ext[i])
    ensures ExtFromFilename(base + "." + ext) == ext
  {
    LowerNoUpper(ext);
    var f := base + "." + ext;
    assert f[|base|] == '.';
    var k :| 0 <= k < |f| && f[k] == '.' && '.' !in f[k + 1..] && ExtFromFilename(f) == Lower(f[k + 1..]);
    assert f[|base| + 1..] == ext;
  }

  /** How the oversize reply prints megabytes: `toFixed(1)` of the file
      size and `toFixed(0)` of the limit. */
  datatype Sizes = Sizes(fixed1: nat -> string, fixed0: nat -> string)

  function TooLarge(size: nat, limit: nat, sizes: Sizes): (m: string)
    ensures StartsWith(m, "File too large (")
  {
    var m := "File too large (" + sizes.fixed1(size) + "MB). Max " + sizes.fixed0(limit) + "MB for this type.";
    assert m[..16] == "File too large (";
    m
  }

  const AbsoluteCapMessage: string := "File exceeds absolute max size of 10MB"
  const AbsoluteCapReply: Reply<Uploaded> := Fail(400, AbsoluteCapMessage)

  /** The store after an accepted upload: the object under its key with
      the file's type, and an unlinked `message_files` row. */
  function Accept(db: Db, conversationId: string, f: Upload, fileId: string, uploaded: int): (r: Db)
    ensures r == db.(fileBucket := r.fileBucket, files := r.files)
  {
    var key := AttachmentKey(conversationId, fileId, f.name);
    var row := Attachment(fileId, None, conversationId, key, f.mediaType, NullIfEmpty(Some(f.name)), f.size);
    db.(fileBucket := db.fileBucket[key := StoredObject(BytesBody(f.bytes), Some(f.mediaType), uploaded)],
        files := db.files + [row])
  }

  /** `POST /api/conversations/:id/files`. */
  function UploadFile(db: Db, conversationId: string, file: Option<Upload>, fileId: string, uploaded: int, sizes: Sizes): (r: (Db, Reply<Uploaded>))
    ensures r.1.Fail? ==> r.0 == db
    ensures r.1.Reply? ==> file.Some? && r.0 == Accept(db, conversationId, file.value, fileId, uploaded)
    ensures r.1 == Fail(404, "Conversation not found") <==> FindConversation(db.conversations, conversationId).None?
    ensures FindConversation(db.conversations, conversationId).Some? ==>
      && (r.1 == Fail(400, "No file provided") <==> file.None?)
      && (file.Some? && IsAllowedImageType(file.value.mediaType) ==> r.1 == Fail(400, "Use the images endpoint for image files"))
    ensures r.1.Reply? ==> var f := file.value;
      && !IsAllowedImageType(f.mediaType)
      && f.size <= GetFileConfig(f.mediaType, Some(f.name)).maxSize <= MaxFileSize
      && r.1.value == Uploaded(fileId, f.mediaType, f.name, f.size, GetFileConfig(f.mediaType, Some(f.name)).support)
  {
    if FindConversation(db.conversations, conversationId).None? then (db, Fail(404, "Conversation not found"))
    else if file.None? then (db, Fail(400, "No file provided"))
    else
      var f := file.value;
      if IsAllowedImageType(f.mediaType) then (db, Fail(400, "Use the images endpoint for image files"))
      else
        var config := GetFileConfig(f.mediaType, Some(f.name));
        if f.size > config.maxSize then
          var m := TooLarge(f.size, config.maxSize, sizes);
          assert m != "No file provided" && m != "Use the images endpoint for image files" by {
            assert m[5] == 't';
          }
          (db, Fail(400, m))
        else if f.size > MaxFileSize then (db, AbsoluteCapReply)
        else (Accept(db, conversationId, f, fileId, uploaded), Reply(Uploaded(fileId, f.mediaType, f.name, f.size, config.support)))
  }

  /** The per-type limit never exceeds the absolute cap, so the absolute
      check never rejects a file: every upload that passes the first size
      check passes the second. */
  lemma AbsoluteCapUnreachable(db: Db, conversationId: string, file: Option<Upload>, fileId: string, uploaded: int, sizes: Sizes)
    ensures UploadFile(db, conversationId, file, fileId, uploaded, sizes).1 != AbsoluteCapReply
  {
    if file.Some? {
      var f := file.value;
      var config := GetFileConfig(f.mediaType, Some(f.name));
      var m := TooLarge(f.size, config.maxSize, sizes);
      assert m != AbsoluteCapMessage by {
        assert m[5] == 't';
      }
    }
  }

  /** An uploaded file is served back: its bytes, its type, and its name
      (or "file-{id}" when it had none), provided the id is new. */
  lemma UploadThenServe(db: Db, conversationId: string, f: Upload, fileId: string, uploaded: int)
    requires FindAttachment(db.files, fileId).None?
    ensures Serve(Accept(db, conversationId, f, fileId, uploaded), fileId)
        == Reply(Served(StoredObject(BytesBody(f.bytes), Some(f.mediaType), uploaded), f.mediaType,
                        if f.name != "" then f.name else "file-" + fileId))
  {
    var key := AttachmentKey(conversationId, fileId, f.name);
    var row := Attachment(fileId, None, conversationId, key, f.mediaType, NullIfEmpty(Some(f.name)), f.size);
    FindAttachmentSnoc(db.files, row);
  }
}

=== FILE: fts_query.dfy ===
/** The quoting rule applied to a full-text query before `MATCH`: a query
    holding any character other than word characters and whitespace
    becomes one FTS5 string, in double quotes with every inner double quote
    doubled; any other query passes through unchanged. */
module FtsQuery {
  import opened Wrappers
  import opened Text

  /** `/[^\w\s]/.test(q)`. */
  predicate HasSpecial(q: string) {
    exists i :: 0 <= i < |q| && !IsWord(q[i]) && !IsWhite(q[i])
  }

  /** `"${q.replace(/"/g, '""')}"`. */
  function Quote(q: string): string {
    "\"" + ReplaceAll(q, '"', "\"\"") + "\""
  }

  function FtsQuery(q: string): (r: string)
    ensures !HasSpecial(q) ==> r == q
    ensures HasSpecial(q) ==> |r| >= 2 && r[0] == '"' && r[|r| - 1] == '"'
  {
    if HasSpecial(q) then Quote(q) else q
  }

  /** How FTS5 reads the inside of a string: a doubled quote stands for
      one quote, and a lone quote would end the string (`None` here). */
  function Undouble(s: string): (r: Option<string>)
    decreases |s|
  {
    if |s| == 0 then Some("")
    else if s[0] == '"' then
      if |s| >= 2 && s[1] == '"' then
        match Undouble(s[2..]) case Some(t) => Some("\"" + t) case None => None
      else None
    else
      match Undouble(s[1..]) case Some(t) => Some([s[0]] + t) case None => None
  }

  /** How FTS5 reads a quoted query: one string spanning the whole query. */
  function Unquote(r: string): Option<string> {
    if |r| >= 2 && r[0] == '"' && r[|r| - 1] == '"' then Undouble(r[1..|r| - 1]) else None
  }

  lemma {:induction false} UndoubleDoubled(q: string)
    ensures Undouble(ReplaceAll(q, '"', "\"\"")) == Some(q)
    decreases |q|
  {
    if |q| > 0 {
      var rest := ReplaceAll(q[1..], '"', "\"\"");
      UndoubleDoubled(q[1..]);
      if q[0] == '"' {
        assert ReplaceAll(q, '"', "\"\"") == "\"\"" + rest;
        assert ("\"\"" + rest)[2..] == rest;
      } else {
        assert ReplaceAll(q, '"', "\"\"") == [q[0]] + rest;
        assert ([q[0]] + rest)[1..] == rest;
      }
      assert q == [q[0]] + q[1..];
    }
  }

  /** The quoted query is one well-formed FTS5 string whose value is the
      query itself. */
  lemma QuoteRoundTrip(q: string)
    ensures Unquote(Quote(q)) == Some(q)
  {
    var inner := ReplaceAll(q, '"', "\"\"");
    assert Quote(q)[1..|Quote(q)| - 1] == inner;
    UndoubleDoubled(q);
  }

  /** Whatever the query, `MATCH` receives it unchanged or as one string
      that reads back as the query. */
  lemma FtsQueryReadsBack(q: string)
    ensures FtsQuery(q) == q || Unquote(FtsQuery(q)) == Some(q)
    ensures HasSpecial(q) ==> Unquote(FtsQuery(q)) == Some(q)
  {
    QuoteRoundTrip(q);
  }
}

=== FILE: jobs.dfy ===
/** The queue job union of `src/types.ts`, closed, plus the case every
    consumer of an untyped queue body must have: a tag it does not know. */
module Jobs {
  import opened Wrappers

  /** `WorkerPersona`. */
  datatype Persona = StreamWorker | CronWorker | D1Worker | GatewayWorker

  /** The two export formats. */
  datatype ExportFormat = Markdown | JsonFormat

  datatype QueueJob =
    | GossipJob(persona: Persona, message: string, eventType: Option<string>, conversationRef: Option<string>)
    | SummarizeConversation(conversationId: string)
    | SummarizeBatch
    | WaterCooler
    | ExportConversation(conversationId: string, format: ExportFormat)
    | WikiSnapshot(pageId: string, title: string, content: string, editedAt: string)
    | DatabaseBackup
    | ArchiveBatch
    | ArchiveConversation(conversationId: string)
    | UnknownJob(typeName: string)

  /** The `type` tag each job carries on the wire. */
  function TypeTag(job: QueueJob): (tag: string)
    ensures job.UnknownJob? ==> tag == job.typeName
  {
    match job
    case GossipJob(_, _, _, _) => "gossip"
    case SummarizeConversation(_) => "summarize_conversation"
    case SummarizeBatch => "summarize_batch"
    case WaterCooler => "water_cooler"
    case ExportConversation(_, _) => "export_conversation"
    case WikiSnapshot(_, _, _, _) => "wiki_snapshot"
    case DatabaseBackup => "database_backup"
    case ArchiveBatch => "archive_batch"
    case ArchiveConversation(_) => "archive_conversation"
    case UnknownJob(t) => t
  }

  /** The tags of the closed union. */
  predicate KnownTag(tag: string) {
    tag in {"gossip", "summarize_conversation", "summarize_batch", "water_cooler", "export_conversation",
            "wiki_snapshot", "database_backup", "archive_batch", "archive_conversation"}
  }

  /** Every kind of the union carries a tag of the closed set. */
  lemma KnownJobsHaveKnownTags(job: QueueJob)
    requires !job.UnknownJob?
    ensures KnownTag(TypeTag(job))
  {
  }
}

=== FILE: json.dfy ===
/** JSON values as trees. `JSON.stringify` and `JSON.parse` are not modelled
    as text: where the program stores or sends JSON, the model keeps the tree,
    and where it parses text it cannot see, the parse is a parameter. */
module Json {
  import opened Wrappers

  datatype Json =
    | JNull
    | JBool(b: bool)
    | JNum(n: real)
    | JStr(s: string)
    | JArr(items: seq<Json>)
    | JObj(fields: seq<(string, Json)>)

  /** `o[key]` on a parsed object: the last binding of `key` wins, as with
      `JSON.parse` on duplicate keys. `None` is `undefined`. */
  function Field(fields: seq<(string, Json)>, key: string): (r: Option<Json>)
    ensures r.None? <==> forall i :: 0 <= i < |fields| ==> fields[i].0 != key
    ensures r.Some? ==> exists i :: 0 <= i < |fields| && fields[i] == (key, r.value)
  {
    if |fields| == 0 then None
    else
      var last := fields[|fields| - 1];
      if last.0 == key then Some(last.1)
      else
        var r := Field(fields[..|fields| - 1], key);
        assert forall i :: 0 <= i < |fields| - 1 ==> fields[..|fields| - 1][i] == fields[i];
        r
  }

  /** JavaScript truthiness of a value read from parsed JSON (`None` is
      `undefined`). */
  predicate Truthy(v: Option<Json>) {
    match v
    case None => false
    case Some(JNull) => false
    case Some(JBool(b)) => b
    case Some(JNum(n)) => n != 0.0
    case Some(JStr(s)) => s != ""
    case Some(_) => true
  }

  /** `v.key` on any parsed value: `Err` where JavaScript throws a
      `TypeError` (reading a property of `null`), `Ok(None)` for a missing
      property or a primitive. */
  function Prop(v: Json, key: string): (r: Result<Option<Json>>)
    ensures r.Err? <==> v.JNull?
    ensures v.JObj? ==> r == Ok(Field(v.fields, key))
  {
    match v
    case JNull => Err("Cannot read properties of null")
    case JObj(fields) => Ok(Field(fields, key))
    case _ => Ok(None)
  }

  /** A binding added at the end is the one read for its key, and the
      others read as before. */
  lemma FieldSnoc(fields: seq<(string, Json)>, k: string, v: Json, key: string)
    ensures Field(fields + [(k, v)], key) == if k == key then Some(v) else Field(fields, key)
  {
    assert (fields + [(k, v)])[..|fields|] == fields;
  }
}

=== FILE: model_detector.dfy ===
/** Model-name classification and the KV-backed model tracker of
    `src/model-detector.ts`; `technical/worker/model-detector.js` is a copy
    with the same behaviour, so this one model serves both. The KV
    namespace is the record `ModelKv`; the clock is the parameter `now`. */
module ModelDetector {
  import opened Wrappers
  import opened Text
  import opened Json

  // ------------------------------------------------------------ extraction

  /** The candidate fields `extractModelFromBody` reads, in its order:
      `model`, `modelVersion` (Gemini), `meta.model` (Cohere). */
  function Candidates(body: Json): (c: seq<Option<Json>>)
    ensures |c| == 3
  {
    match body
    case JObj(fields) =>
      var meta := Field(fields, "meta");
      var metaModel := if Truthy(meta) then (match Prop(meta.value, "model") case Ok(v) => v case Err(_) => None) else None;
      [Field(fields, "model"), Field(fields, "modelVersion"), metaModel]
    case _ => [None, None, None]
  }

  /** The first truthy candidate, or `None`. */
  function FirstTruthy(c: seq<Option<Json>>): (r: Option<Json>)
    ensures r.Some? ==> Truthy(r) && Some(r.value) in c
    ensures r.None? <==> forall i :: 0 <= i < |c| ==> !Truthy(c[i])
    ensures r.Some? ==> exists i :: 0 <= i < |c| && c[i] == r && forall j :: 0 <= j < i ==> !Truthy(c[j])
  {
    if |c| == 0 then None
    else if Truthy(c[0]) then c[0]
    else
      var r := FirstTruthy(c[1..]);
      assert forall i :: 1 <= i < |c| ==> c[i] == c[1..][i - 1];
      r
  }

  /** `extractModelFromBody(body)`: the first truthy of the candidate
      fields, else "unknown". Non-objects (and `null`) give "unknown". */
  function ExtractModelFromBody(body: Json): (r: Json)
    ensures Truthy(Some(r))
    ensures !body.JObj? ==> r == JStr("unknown")
    ensures body.JObj? && Truthy(Field(body.fields, "model")) ==> r == Field(body.fields, "model").value
    ensures body.JObj? && !Truthy(Field(body.fields, "model")) && Truthy(Field(body.fields, "modelVersion")) ==>
      r == Field(body.fields, "modelVersion").value
  {
    if !body.JObj? then JStr("unknown")
    else
      var fields := body.fields;
      if Truthy(Field(fields, "model")) then Field(fields, "model").value
      else if Truthy(Field(fields, "modelVersion")) then Field(fields, "modelVersion").value
      else
        var meta := Field(fields, "meta");
        if Truthy(meta) && meta.value.JObj? && Truthy(Field(meta.value.fields, "model")) then
          Field(meta.value.fields, "model").value
        else JStr("unknown")
  }

  /** The if-chain of `extractModelFromBody` is "first truthy candidate". */
  lemma ExtractModelIsFirstTruthy(body: Json)
    ensures ExtractModelFromBody(body) == FirstTruthy(Candidates(body)).GetOr(JStr("unknown"))
  {
    if body.JObj? {
      var c := Candidates(body);
      if !Truthy(c[0]) && !Truthy(c[1]) {
        assert FirstTruthy(c) == FirstTruthy(c[1..]);
        assert FirstTruthy(c[1..]) == FirstTruthy(c[2..]);
        assert c[2..] == [c[2]];
      }
    }
  }

  /** `extractModelFromSSE(data)` given the parse of `data` (`None` when
      it is not JSON): a `message_start` event names the model inside its
      `message`; any other object may name it at the top level. Reading a
      property of `null` throws and is caught, like a parse failure. The
      third test of `extractModelFromBody` (`type === "message"` with a `model`) is already
      covered by the second and adds nothing. */
  function ExtractModelFromSse(parsed: Option<Json>): (r: Json)
    ensures Truthy(Some(r))
    ensures parsed.None? || !parsed.value.JObj? ==> r == JStr("unknown")
    ensures parsed.Some? && parsed.value.JObj? && !(Field(parsed.value.fields, "type") == Some(JStr("message_start")))
            && Truthy(Field(parsed.value.fields, "model"))
            ==> r == Field(parsed.value.fields, "model").value
  {
    if parsed.None? || !parsed.value.JObj? then JStr("unknown")
    else
      var fields := parsed.value.fields;
      var message := Field(fields, "message");
      if Field(fields, "type") == Some(JStr("message_start")) && Truthy(message) then
        if message.value.JObj? && Truthy(Field(message.value.fields, "model")) then Field(message.value.fields, "model").value
        else JStr("unknown")
      else if Truthy(Field(fields, "model")) then Field(fields, "model").value
      else JStr("unknown")
  }

  /** A `message_start` event whose message names a model yields that
      model, whatever the top level says. */
  lemma SseMessageStartModel(fields: seq<(string, Json)>, messageFields: seq<(string, Json)>)
    requires Field(fields, "type") == Some(JStr("message_start"))
    requires Field(fields, "message") == Some(JObj(messageFields))
    requires Truthy(Field(messageFields, "model"))
    ensures ExtractModelFromSse(Some(JObj(fields))) == Field(messageFields, "model").value
  {
  }

  // --------------------------------------------------------------- provider

  /** `detectProvider(model)`: prefix rules on the lower-cased name, the
      first matching rule wins. */
  function DetectProvider(model: string): (r: string)
    ensures r in {"anthropic", "openai", "xai", "google", "mistral", "cohere", "meta", "deepseek", "unknown"}
    ensures model == "" ==> r == "unknown"
  {
    var m := Lower(model);
    if StartsWith(m, "claude") then "anthropic"
    else if StartsWith(m, "gpt-") || StartsWith(m, "o1") || StartsWith(m, "o3") || StartsWith(m, "o4") || StartsWith(m, "chatgpt") then "openai"
    else if StartsWith(m, "grok") then "xai"
    else if StartsWith(m, "gemini") then "google"
    else if StartsWith(m, "mistral") || StartsWith(m, "codestral") then "mistral"
    else if StartsWith(m, "command") then "cohere"
    else if StartsWith(m, "llama") || StartsWith(m, "meta-llama") then "meta"
    else if StartsWith(m, "deepseek") then "deepseek"
    else "unknown"
  }

  /** A provider rule: any of the prefixes selects the provider. */
  datatype Rule = Rule(prefixes: seq<string>, provider: string)

  /** `m` starts with one of `prefixes`. */
  predicate AnyPrefix(m: string, prefixes: seq<string>)
    ensures AnyPrefix(m, prefixes) <==> exists i :: 0 <= i < |prefixes| && StartsWith(m, prefixes[i])
  {
    if |prefixes| == 0 then false
    else
      assert forall i :: 1 <= i < |prefixes| ==> prefixes[i] == prefixes[1..][i - 1];
      StartsWith(m, prefixes[0]) || AnyPrefix(m, prefixes[1..])
  }

  /** The rules of `detectProvider` as a table, in `detectProvider`'s order. */
  const ProviderRules: seq<Rule> := [
    Rule(["claude"], "anthropic"),
    Rule(["gpt-", "o1", "o3", "o4", "chatgpt"], "openai"),
    Rule(["grok"], "xai"),
    Rule(["gemini"], "google"),
    Rule(["mistral", "codestral"], "mistral"),
    Rule(["command"], "cohere"),
    Rule(["llama", "meta-llama"], "meta"),
    Rule(["deepseek"], "deepseek")
  ]

  /** First-match classification over a rule table. */
  function Classify(rules: seq<Rule>, m: string): (r: string)
    ensures r == "unknown" || exists i :: 0 <= i < |rules| && r == rules[i].provider
  {
    if |rules| == 0 then "unknown"
    else if AnyPrefix(m, rules[0].prefixes) then rules[0].provider
    else
      var r := Classify(rules[1..], m);
      assert forall i :: 1 <= i < |rules| ==> rules[i] == rules[1..][i - 1];
      r
  }

  /** With no rule naming the provider "unknown", classification answers
      "unknown" exactly when no rule matches. */
  lemma {:induction false} ClassifyUnknown(rules: seq<Rule>, m: string)
    requires forall i :: 0 <= i < |rules| ==> rules[i].provider != "unknown"
    ensures Classify(rules, m) == "unknown" <==> forall i :: 0 <= i < |rules| ==> !AnyPrefix(m, rules[i].prefixes)
  {
    if |rules| > 0 && !AnyPrefix(m, rules[0].prefixes) {
      ClassifyUnknown(rules[1..], m);
      assert forall i :: 1 <= i < |rules| ==> rules[i] == rules[1..][i - 1];
    }
  }

  /** Each rule of the table matches when one of its prefixes does. */
  lemma RuleMatchFacts(m: string)
    ensures AnyPrefix(m, ProviderRules[0].prefixes) == StartsWith(m, "claude")
    ensures AnyPrefix(m, ProviderRules[1].prefixes) ==
      (StartsWith(m, "gpt-") || StartsWith(m, "o1") || StartsWith(m, "o3") || StartsWith(m, "o4") || StartsWith(m, "chatgpt"))
    ensures AnyPrefix(m, ProviderRules[2].prefixes) == StartsWith(m, "grok")
    ensures AnyPrefix(m, ProviderRules[3].prefixes) == StartsWith(m, "gemini")
    ensures AnyPrefix(m, ProviderRules[4].prefixes) == (StartsWith(m, "mistral") || StartsWith(m, "codestral"))
    ensures AnyPrefix(m, ProviderRules[5].prefixes) == StartsWith(m, "command")
    ensures AnyPrefix(m, ProviderRules[6].prefixes) == (StartsWith(m, "llama") || StartsWith(m, "meta-llama"))
    ensures AnyPrefix(m, ProviderRules[7].prefixes) == StartsWith(m, "deepseek")
  {
    var p := ProviderRules[1].prefixes;
    AnyPrefixCons(m, "gpt-", ["o1", "o3", "o4", "chatgpt"]);
    AnyPrefixCons(m, "o1", ["o3", "o4", "chatgpt"]);
    AnyPrefixCons(m, "o3", ["o4", "chatgpt"]);
    AnyPrefixCons(m, "o4", ["chatgpt"]);
  }

  lemma AnyPrefixCons(m: string, p: string, rest: seq<string>)
    ensures AnyPrefix(m, [p] + rest) == (StartsWith(m, p) || AnyPrefix(m, rest))
  {
    assert ([p] + rest)[1..] == rest;
  }

  /** One step of first-match classification. */
  lemma ClassifyStep(rules: seq<Rule>, k: nat, m: string)
    requires k < |rules|
    ensures Classify(rules[k..], m) ==
      if AnyPrefix(m, rules[k].prefixes) then rules[k].provider else Classify(rules[k + 1..], m)
  {
    assert rules[k..][1..] == rules[k + 1..];
  }

  /** The if-chain is first-match classification over the table. */
  lemma DetectProviderIsFirstMatch(model: string)
    ensures DetectProvider(model) == Classify(ProviderRules, Lower(model))
  {
    var m, R := Lower(model), ProviderRules;
    RuleMatchFacts(m);
    assert R[0..] == R;
    ClassifyStep(R, 0, m);
    ClassifyStep(R, 1, m);
    ClassifyStep(R, 2, m);
    ClassifyStep(R, 3, m);
    ClassifyStep(R, 4, m);
    ClassifyStep(R, 5, m);
    ClassifyStep(R, 6, m);
    ClassifyStep(R, 7, m);
    assert R[8..] == [];
  }

  /** `detectProvider` says "unknown" exactly when no rule's prefix fits. */
  lemma DetectProviderUnknown(model: string)
    ensures DetectProvider(model) == "unknown" <==>
      forall i :: 0 <= i < |ProviderRules| ==> !AnyPrefix(Lower(model), ProviderRules[i].prefixes)
  {
    DetectProviderIsFirstMatch(model);
    ProviderRulesNamed();
    ClassifyUnknown(ProviderRules, Lower(model));
  }

  /** No rule of the table answers "unknown". */
  lemma ProviderRulesNamed()
    ensures forall i :: 0 <= i < |ProviderRules| ==> ProviderRules[i].provider != "unknown"
  {
  }

  /** Classification ignores ASCII case. */
  lemma DetectProviderCaseInsensitive(model: string)
    ensures DetectProvider(Lower(model)) == DetectProvider(model)
  {
    DetectProviderIsFirstMatch(model);
    DetectProviderIsFirstMatch(Lower(model));
    LowerIdempotent(model);
  }

  // ----------------------------------------------------------------- family

  /** `\d`. */
  predicate DigitsAt(t: string, from: nat, count: nat)
    requires from + count <= |t|
  {
    forall k :: from <= k < from + count ==> IsDigit(t[k])
  }

  /** `t` matches `-\d{4}-?\d{2}-?\d{2}` in full. */
  predicate IsDateSuffix(t: string) {
    && |t| > 0 && t[0] == '-'
    && (|t| == 11 ==> DigitsAt(t, 1, 4) && t[5] == '-' && DigitsAt(t, 6, 2) && t[8] == '-' && DigitsAt(t, 9, 2))
    && (|t| == 10 ==> DigitsAt(t, 1, 4) && ((t[5] == '-' && DigitsAt(t, 6, 4)) || (DigitsAt(t, 5, 2) && t[7] == '-' && DigitsAt(t, 8, 2))))
    && (|t| == 9 ==> DigitsAt(t, 1, 8))
    && 9 <= |t| <= 11
  }

  /** `m.match(/^(.+?)-\d{4}-?\d{2}-?\d{2}$/)` can succeed with group 1 of
      length `i`: a non-empty prefix without line terminators (what `.`
      accepts) followed by a date suffix reaching the end. */
  predicate DateSplit(m: string, i: int) {
    1 <= i <= |m| && IsDateSuffix(m[i..]) && forall k :: 0 <= k < i ==> !IsLineTerminator(m[k])
  }

  /** Group 1 of the date match: the lazy `.+?` takes the shortest prefix
      that lets the rest match, so the longest possible suffix wins. */
  function DateStripped(m: string): (r: Option<string>)
    ensures r.None? <==> forall i :: 1 <= i <= |m| ==> !DateSplit(m, i)
    ensures r.Some? ==> exists i :: DateSplit(m, i) && r.value == m[..i] && forall j :: 1 <= j < i ==> !DateSplit(m, j)
  {
    var n := |m|;
    if n >= 12 && DateSplit(m, n - 11) then Some(m[..n - 11])
    else if n >= 11 && DateSplit(m, n - 10) then Some(m[..n - 10])
    else if n >= 10 && DateSplit(m, n - 9) then Some(m[..n - 9])
    else None
  }

  /** `modelFamily(model)`. */
  function ModelFamily(model: string): (r: string)
    ensures Contains(Lower(model), "opus") ==> r == "opus"
    ensures !Contains(Lower(model), "opus") && Contains(Lower(model), "sonnet") ==> r == "sonnet"
    ensures !Contains(Lower(model), "opus") && !Contains(Lower(model), "sonnet") && Contains(Lower(model), "haiku") ==> r == "haiku"
    ensures && !Contains(Lower(model), "opus") && !Contains(Lower(model), "sonnet") && !Contains(Lower(model), "haiku")
            && DateStripped(Lower(model)).Some?
            ==> r == DateStripped(Lower(model)).value
    ensures r != "opus" && r != "sonnet" && r != "haiku" && DateStripped(Lower(model)).None? ==>
      r == (if model == "" then "unknown" else model)
    ensures r != ""
  {
    var m := Lower(model);
    if Contains(m, "opus") then "opus"
    else if Contains(m, "sonnet") then "sonnet"
    else if Contains(m, "haiku") then "haiku"
    else match DateStripped(m)
      case Some(prefix) => prefix
      case None => if model == "" then "unknown" else model
  }

  /** The Claude examples of the doc comment in the JavaScript copy. */
  lemma ModelFamilyClaudeExamples()
    ensures ModelFamily("claude-opus-4-6") == "opus"
    ensures ModelFamily("claude-sonnet-4-20250514") == "sonnet"
    ensures ModelFamily("claude-3-5-haiku-20241022") == "haiku"
  {
    OpusExample();
    SonnetExample();
    HaikuExample();
  }

  /** A lower-case name containing "opus" is of the opus family. */
  lemma OpusFamily(s: string)
    requires Lower(s) == s && Contains(s, "opus")
    ensures ModelFamily(s) == "opus"
  {
  }

  lemma SonnetFamily(s: string)
    requires Lower(s) == s && !Contains(s, "opus") && Contains(s, "sonnet")
    ensures ModelFamily(s) == "sonnet"
  {
  }

  lemma HaikuFamily(s: string)
    requires Lower(s) == s && !Contains(s, "opus") && !Contains(s, "sonnet") && Contains(s, "haiku")
    ensures ModelFamily(s) == "haiku"
  {
  }

  lemma OpusExample()
    ensures ModelFamily("claude-opus-4-6") == "opus"
  {
    var s := "claude-opus-4-6";
    LowerNoUpper(s);
    assert OccursAt(s, "opus", 7);
    OpusFamily(s);
  }

  lemma SonnetExample()
    ensures ModelFamily("claude-sonnet-4-20250514") == "sonnet"
  {
    var s := "claude-sonnet-4-20250514";
    LowerNoUpper(s);
    if Contains(s, "opus") { ContainsHasChar(s, "opus", 1); }
    assert OccursAt(s, "sonnet", 7);
    SonnetFamily(s);
  }

  lemma HaikuExample()
    ensures ModelFamily("claude-3-5-haiku-20241022") == "haiku"
  {
    var h := "claude-3-5-haiku-20241022";
    HaikuExampleNoOtherWord();
    assert OccursAt(h, "haiku", 11);
    HaikuFamily(h);
  }

  lemma HaikuExampleNoOtherWord()
    ensures var h := "claude-3-5-haiku-20241022";
      Lower(h) == h && !Contains(h, "opus") && !Contains(h, "sonnet")
  {
    var h := "claude-3-5-haiku-20241022";
    LowerNoUpper(h);
    if Contains(h, "opus") { ContainsHasChar(h, "opus", 0); }
    if Contains(h, "sonnet") { ContainsHasChar(h, "sonnet", 0); }
  }

  /** The dated example has no family word in it. */
  lemma DatedExampleNoFamilyWord()
    ensures var g := "gpt-4o-2024-08-06";
      Lower(g) == g && !Contains(g, "opus") && !Contains(g, "sonnet") && !Contains(g, "haiku")
  {
    var g := "gpt-4o-2024-08-06";
    LowerNoUpper(g);
    if Contains(g, "opus") { ContainsHasChar(g, "opus", 2); }
    if Contains(g, "sonnet") { ContainsHasChar(g, "sonnet", 0); }
    if Contains(g, "haiku") { ContainsHasChar(g, "haiku", 0); }
  }

  /** The dated example splits before its eleven-character date. */
  lemma DatedExampleSplit()
    ensures DateStripped("gpt-4o-2024-08-06") == Some("gpt-4o")
  {
    var g := "gpt-4o-2024-08-06";
    assert g[6..] == "-2024-08-06";
    assert DateSplit(g, 6);
    assert g[..6] == "gpt-4o";
  }

  /** The dated example of the doc comment: the date suffix is stripped. */
  lemma ModelFamilyDatedExample()
    ensures ModelFamily("gpt-4o-2024-08-06") == "gpt-4o"
  {
    DatedExampleNoFamilyWord();
    DatedExampleSplit();
  }

  /** Names without a family word or a date suffix are kept as given, case
      included; the empty name becomes "unknown". */
  lemma ModelFamilyUndatedExamples()
    ensures ModelFamily("grok-3") == "grok-3"
    ensures ModelFamily("") == "unknown"
  {
    var g := "grok-3";
    LowerNoUpper(g);
    if Contains(g, "opus") { ContainsHasChar(g, "opus", 1); }
    if Contains(g, "sonnet") { ContainsHasChar(g, "sonnet", 0); }
    if Contains(g, "haiku") { ContainsHasChar(g, "haiku", 0); }
    assert !Contains("", "opus");
  }

  // ---------------------------------------------------------------- tracker

  /** `ModelCurrent`; the placeholder `getModelStatus` returns has no
      timestamp. `isoTime` is a formatting of `timestamp` and left out. */
  datatype Current = Current(model: string, family: string, provider: string, timestamp: Option<int>)

  /** One entry of `FamilyCounts`. */
  datatype FamilyCount = FamilyCount(requests: nat, inputTokens: nat, outputTokens: nat, lastSeen: int, provider: string)

  /** `ModelChange`. */
  datatype Change = Change(from: string, fromFamily: string, to: string, toFamily: string,
                           fromProvider: string, toProvider: string, timestamp: int, note: string)

  /** The three KV keys `model:current`, `model:counts`, `model:gossip`;
      `None` is a missing key. */
  datatype ModelKv = ModelKv(current: Option<Current>, counts: Option<map<string, FamilyCount>>, gossip: Option<seq<Change>>)

  /** The `usage` argument; a missing or zero count adds nothing. */
  datatype Usage = Usage(inputTokens: Option<nat>, outputTokens: Option<nat>)

  const MaxChanges: nat := 20

  /** `logModelChange`: the new entry goes first, the list is cut to 20. */
  function LogModelChange(gossip: Option<seq<Change>>, fromModel: string, toModel: string, timestamp: int): (r: seq<Change>)
    ensures 1 <= |r| <= MaxChanges
    ensures r[0].from == fromModel && r[0].to == toModel && r[0].timestamp == timestamp
    ensures r[0].note == ModelFamily(fromModel) + " -> " + ModelFamily(toModel)
    ensures r[1..] == Take(gossip.GetOr([]), MaxChanges - 1)
  {
    var entry := Change(fromModel, ModelFamily(fromModel), toModel, ModelFamily(toModel),
                        DetectProvider(fromModel), DetectProvider(toModel), timestamp,
                        ModelFamily(fromModel) + " -> " + ModelFamily(toModel));
    Take([entry] + gossip.GetOr([]), MaxChanges)
  }

  /** The count of a family before a request: zero when absent. */
  function CountOf(counts: map<string, FamilyCount>, family: string): FamilyCount {
    if family in counts then counts[family] else FamilyCount(0, 0, 0, 0, "")
  }

  /** `trackModel(kv, modelUsed, usage)` at time `now`. */
  function TrackModel(kv: ModelKv, modelUsed: string, usage: Usage, now: int): (r: ModelKv)
    ensures r.current == Some(Current(modelUsed, ModelFamily(modelUsed), DetectProvider(modelUsed), Some(now)))
    ensures r.counts.Some?
    ensures var family, before := ModelFamily(modelUsed), CountOf(kv.counts.GetOr(map[]), ModelFamily(modelUsed));
      && family in r.counts.value
      && r.counts.value[family].requests == before.requests + 1
      && r.counts.value[family].inputTokens == before.inputTokens + usage.inputTokens.GetOr(0)
      && r.counts.value[family].outputTokens == before.outputTokens + usage.outputTokens.GetOr(0)
      && r.counts.value[family].lastSeen == now
    ensures forall f :: f in kv.counts.GetOr(map[]) && f != ModelFamily(modelUsed) ==>
      f in r.counts.value && r.counts.value[f] == kv.counts.GetOr(map[])[f]
    ensures r.counts.value.Keys == kv.counts.GetOr(map[]).Keys + {ModelFamily(modelUsed)}
    ensures kv.current.Some? && kv.current.value.model != modelUsed ==>
      r.gossip == Some(LogModelChange(kv.gossip, kv.current.value.model, modelUsed, now))
    ensures kv.current.None? || kv.current.value.model == modelUsed ==> r.gossip == kv.gossip
  {
    var family := ModelFamily(modelUsed);
    var provider := DetectProvider(modelUsed);
    var counts := kv.counts.GetOr(map[]);
    var before := CountOf(counts, family);
    var after := FamilyCount(before.requests + 1,
                             before.inputTokens + usage.inputTokens.GetOr(0),
                             before.outputTokens + usage.outputTokens.GetOr(0),
                             now, provider);
    var gossip := if kv.current.Some? && kv.current.value.model != modelUsed
                  then Some(LogModelChange(kv.gossip, kv.current.value.model, modelUsed, now))
                  else kv.gossip;
    ModelKv(Some(Current(modelUsed, family, provider, Some(now))), Some(counts[family := after]), gossip)
  }

  /** Repeated tracking never grows the change log beyond 20 entries. */
  lemma {:induction false} TrackModelKeepsLogBounded(kv: ModelKv, models: seq<string>, now: int)
    requires kv.gossip.None? || |kv.gossip.value| <= MaxChanges
    ensures var r := TrackAll(kv, models, now); r.gossip.None? || |r.gossip.value| <= MaxChanges
    decreases |models|
  {
    if |models| > 0 {
      var next := TrackModel(kv, models[0], Usage(None, None), now);
      TrackModelKeepsLogBounded(next, models[1..], now);
    }
  }

  /** A sequence of tracked responses (used to state the log bound). */
  function TrackAll(kv: ModelKv, models: seq<string>, now: int): ModelKv
    decreases |models|
  {
    if |models| == 0 then kv else TrackAll(TrackModel(kv, models[0], Usage(None, None), now), models[1..], now)
  }

  /** Tracking the same model twice logs nothing the second time and
      counts two requests. */
  lemma TrackSameModelTwice(kv: ModelKv, model: string, now1: int, now2: int)
    ensures var once := TrackModel(kv, model, Usage(None, None), now1);
      var twice := TrackModel(once, model, Usage(None, None), now2);
      && twice.gossip == once.gossip
      && twice.counts.value[ModelFamily(model)].requests ==
         CountOf(kv.counts.GetOr(map[]), ModelFamily(model)).requests + 2
  {
  }

  /** What `getModelStatus` returns. */
  datatype Status = Status(current: Current, counts: map<string, FamilyCount>, recentChanges: seq<Change>)

  /** `getModelStatus(kv)`. */
  function GetModelStatus(kv: ModelKv): (r: Status)
    ensures kv.current.None? ==> r.current == Current("none yet", "unknown", "unknown", None)
    ensures kv.current.Some? ==> r.current == kv.current.value
    ensures |r.recentChanges| <= 5
    ensures |r.recentChanges| <= |kv.gossip.GetOr([])| && r.recentChanges == kv.gossip.GetOr([])[..|r.recentChanges|]
    ensures kv.gossip.Some? && |kv.gossip.value| >= 5 ==> |r.recentChanges| == 5
  {
    Status(kv.current.GetOr(Current("none yet", "unknown", "unknown", None)),
           kv.counts.GetOr(map[]),
           Take(kv.gossip.GetOr([]), 5))
  }

  /** After a model change, the status shows it as the most recent change. */
  lemma ChangeShowsInStatus(kv: ModelKv, modelUsed: string, usage: Usage, now: int)
    requires kv.current.Some? && kv.current.value.model != modelUsed
    ensures var s := GetModelStatus(TrackModel(kv, modelUsed, usage, now));
      |s.recentChanges| >= 1 && s.recentChanges[0].from == kv.current.value.model &&
      s.recentChanges[0].to == modelUsed
  {
  }
}

=== FILE: outgoing.dfy ===
/** The messages sent to the model (`buildClaudeMessages`): the context
    chain in order, where only the last five user messages may carry their
    attachments. An attached message becomes a list of content parts:
    images, then files, then the message text. The base64 text of a blob
    is left abstract: a part carries the stored body it encodes. */
module Outgoing {
  import opened Wrappers
  import opened Text
  import opened Utils
  import opened Store
  import opened Ancestry

  /** How many of the latest user messages have their attachments looked up. */
  const RecentUserLimit: nat := 5

  const PdfType: string := "application/pdf"

  datatype Part =
    | ImagePart(mediaType: string, data: Body)
    | DocumentPart(data: Body)
    | TextPart(text: string)

  /** A message's `content`: the bare string, or the list of parts. */
  datatype Content = PlainText(text: string) | Parts(parts: seq<Part>)

  datatype Outgoing = Outgoing(role: string, content: Content)

  // ------------------------------------------------------------ recent users

  /** The ids of the user messages, in chain order. */
  function UserIds(ctx: seq<ContextMessage>): (r: seq<string>)
    ensures |r| <= |ctx|
  {
    if |ctx| == 0 then [] else OwnId(ctx[0]) + UserIds(ctx[1..])
  }

  function OwnId(m: ContextMessage): seq<string> {
    if m.role == "user" then [m.id] else []
  }

  /** `.slice(-n)`: the last `n` elements, or all of them when there are
      fewer. */
  function LastN<T>(s: seq<T>, n: nat): (r: seq<T>)
    ensures |r| == if |s| < n then |s| else n
    ensures forall i :: 0 <= i < |r| ==> r[i] == s[|s| - |r| + i]
  {
    if |s| <= n then s else s[|s| - n..]
  }

  /** `recentUserMsgIds`. */
  function RecentUserIds(ctx: seq<ContextMessage>): (r: seq<string>)
    ensures |r| <= RecentUserLimit
  {
    LastN(UserIds(ctx), RecentUserLimit)
  }

  lemma {:induction false} UserIdsAppend(a: seq<ContextMessage>, b: seq<ContextMessage>)
    ensures UserIds(a + b) == UserIds(a) + UserIds(b)
    decreases |a|
  {
    if |a| == 0 {
      assert a + b == b;
    } else {
      assert (a + b)[0] == a[0] && (a + b)[1..] == a[1..] + b;
      UserIdsAppend(a[1..], b);
      assert OwnId(a[0]) + (UserIds(a[1..]) + UserIds(b)) == OwnId(a[0]) + UserIds(a[1..]) + UserIds(b);
    }
  }

  lemma UserIdsOfThree(pre: seq<ContextMessage>, x: ContextMessage, post: seq<ContextMessage>)
    ensures UserIds(pre + [x] + post) == UserIds(pre) + OwnId(x) + UserIds(post)
  {
    UserIdsAppend(pre + [x], post);
    UserIdsAppend(pre, [x]);
    assert UserIds([x]) == OwnId(x) + UserIds([]);
  }

  /** The user message at index `i` sits in the id list after the user
      messages before it. */
  lemma UserIdsAround(ctx: seq<ContextMessage>, i: nat)
    requires i < |ctx| && ctx[i].role == "user"
    ensures UserIds(ctx) == UserIds(ctx[..i]) + [ctx[i].id] + UserIds(ctx[i + 1..])
  {
    AroundIndex(ctx, i);
    UserIdsOfThree(ctx[..i], ctx[i], ctx[i + 1..]);
  }

  /** Every entry of the id list comes from a user message, with as many
      user messages before it as its position. */
  lemma {:induction false} UserIdsOrigin(ctx: seq<ContextMessage>, p: nat) returns (i: nat)
    requires p < |UserIds(ctx)|
    ensures i < |ctx| && ctx[i].role == "user" && ctx[i].id == UserIds(ctx)[p]
    ensures |UserIds(ctx[..i])| == p
    decreases |ctx|
  {
    if ctx[0].role == "user" && p == 0 {
      i := 0;
      assert ctx[..0] == [];
    } else {
      var q := if ctx[0].role == "user" then p - 1 else p;
      var j := UserIdsOrigin(ctx[1..], q);
      i := j + 1;
      assert ctx[..i] == [ctx[0]] + ctx[1..][..j];
      UserIdsAppend([ctx[0]], ctx[1..][..j]);
    }
  }

  /** The number of user messages after index `i`. */
  function UsersAfter(ctx: seq<ContextMessage>, i: nat): nat
    requires i < |ctx|
  {
    |UserIds(ctx[i + 1..])|
  }

  /** A message's attachments are looked up exactly when it is a user
      message followed by fewer than five user messages (or shares its id
      with one). */
  lemma RecentUserIdsMeaning(ctx: seq<ContextMessage>, id: string)
    ensures id in RecentUserIds(ctx) <==>
      exists i :: 0 <= i < |ctx| && ctx[i].role == "user" && ctx[i].id == id && UsersAfter(ctx, i) < RecentUserLimit
  {
    var u := UserIds(ctx);
    var r := RecentUserIds(ctx);
    if id in r {
      var k :| 0 <= k < |r| && r[k] == id;
      var p := |u| - |r| + k;
      var i := UserIdsOrigin(ctx, p);
      UserIdsAround(ctx, i);
    }
    if exists i :: 0 <= i < |ctx| && ctx[i].role == "user" && ctx[i].id == id && UsersAfter(ctx, i) < RecentUserLimit {
      var i :| 0 <= i < |ctx| && ctx[i].role == "user" && ctx[i].id == id && UsersAfter(ctx, i) < RecentUserLimit;
      UserIdsAround(ctx, i);
      var p := |UserIds(ctx[..i])|;
      assert u[p] == id;
      assert r[p - (|u| - |r|)] == id;
    }
  }

  // ------------------------------------------------------------ attachments

  /** The rows of one attachment table the handler holds for message `id`:
      those linked to it, in table order, when `id` is recent, else none. */
  function RowsFor(table: seq<Attachment>, recent: seq<string>, id: string): (r: seq<Attachment>)
    ensures forall a :: a in r <==> id in recent && a in table && a.messageId == Some(id)
  {
    if id in recent then Filter(table, (a: Attachment) => a.messageId == Some(id)) else []
  }

  /** The image loop: one part per row whose blob is in the bucket. */
  function ImageParts(rows: seq<Attachment>, bucket: map<string, StoredObject>): (r: seq<Part>)
    ensures forall i :: 0 <= i < |r| ==> r[i].ImagePart?
  {
    if |rows| == 0 then []
    else
      (if rows[0].r2Key in bucket then [ImagePart(rows[0].mediaType, bucket[rows[0].r2Key].body)] else [])
      + ImageParts(rows[1..], bucket)
  }

  /** `obj.text()`: a text body as stored, bytes through the UTF-8 decoder. */
  function BodyText(b: Body, utf8: seq<Byte> -> string): string {
    match b
    case TextBody(t) => t
    case BytesBody(bytes) => utf8(bytes)
  }

  /** The wrapper a text file travels in. */
  function Wrapped(filename: string, text: string): string {
    "--- File: " + filename + " ---\n" + text + "\n--- End of " + filename + " ---"
  }

  /** The body of the file loop for one row: skip unsupported types, skip
      missing blobs, send a PDF as a document, a text file wrapped, and
      anything else (a native type that is not a PDF) not at all. */
  function FilePart(a: Attachment, bucket: map<string, StoredObject>, utf8: seq<Byte> -> string): Option<Part> {
    var config := GetFileConfig(a.mediaType, a.originalFilename);
    if config.support == NoSupport then None
    else if a.r2Key !in bucket then None
    else if config.support == Native && a.mediaType == PdfType then Some(DocumentPart(bucket[a.r2Key].body))
    else if config.support == TextSupport then
      var name := if IsSet(a.originalFilename) then a.originalFilename.value else "file";
      Some(TextPart(Wrapped(name, BodyText(bucket[a.r2Key].body, utf8))))
    else None
  }

  function FileParts(rows: seq<Attachment>, bucket: map<string, StoredObject>, utf8: seq<Byte> -> string): (r: seq<Part>)
    ensures forall i :: 0 <= i < |r| ==> !r[i].ImagePart?
  {
    if |rows| == 0 then []
    else
      (match FilePart(rows[0], bucket, utf8) case Some(p) => [p] case None => [])
      + FileParts(rows[1..], bucket, utf8)
  }

  /** The rows the file loop sends, stated independently of the loop: a
      supported type, a blob in the bucket, and either text handling or a
      PDF. */
  predicate Sent(a: Attachment, bucket: map<string, StoredObject>) {
    var support := GetFileConfig(a.mediaType, a.originalFilename).support;
    && a.r2Key in bucket
    && (support == TextSupport || (support == Native && a.mediaType == PdfType))
  }

  /** What a sent row becomes: a PDF a document, anything else its text in
      the wrapper, under the name "file" when it has none. */
  function SentPart(a: Attachment, bucket: map<string, StoredObject>, utf8: seq<Byte> -> string): Part
    requires Sent(a, bucket)
  {
    if a.mediaType == PdfType && GetFileConfig(a.mediaType, a.originalFilename).support == Native
    then DocumentPart(bucket[a.r2Key].body)
    else TextPart(Wrapped(if IsSet(a.originalFilename) then a.originalFilename.value else "file",
                          BodyText(bucket[a.r2Key].body, utf8)))
  }

  function SentParts(rows: seq<Attachment>, bucket: map<string, StoredObject>, utf8: seq<Byte> -> string): seq<Part>
    requires forall a | a in rows :: Sent(a, bucket)
  {
    if |rows| == 0 then [] else [SentPart(rows[0], bucket, utf8)] + SentParts(rows[1..], bucket, utf8)
  }

  /** The loop body for one row agrees with the description. */
  lemma FilePartIsSentPart(a: Attachment, bucket: map<string, StoredObject>, utf8: seq<Byte> -> string)
    ensures FilePart(a, bucket, utf8) == if Sent(a, bucket) then Some(SentPart(a, bucket, utf8)) else None
  {
  }

  /** The file loop sends one part per sent row, in row order. */
  lemma {:induction false} FilePartsAreSentRows(rows: seq<Attachment>, bucket: map<string, StoredObject>, utf8: seq<Byte> -> string)
    ensures var sent := Filter(rows, (a: Attachment) => Sent(a, bucket));
      FileParts(rows, bucket, utf8) == SentParts(sent, bucket, utf8)
    decreases |rows|
  {
    if |rows| > 0 {
      FilePartsAreSentRows(rows[1..], bucket, utf8);
      FilePartIsSentPart(rows[0], bucket, utf8);
    }
  }

  /** The extension after the one dot of `base.ext`. */
  lemma LastPieceOfName(base: string, ext: string)
    requires '.' !in base && '.' !in ext
    ensures LastPiece(base + ['.'] + ext, '.') == ext
  {
    SplitCons(base, '.', ext);
  }

  lemma PdfIsLower()
    ensures Lower("pdf") == "pdf"
  {
    LowerNoUpper("pdf");
  }

  /** A file stored as `application/octet-stream` under a `.pdf` name
      resolves to native handling, but only `application/pdf` is sent as a
      document, so it is not sent at all. */
  lemma NativeNonPdfDropped(a: Attachment, base: string, bucket: map<string, StoredObject>, utf8: seq<Byte> -> string)
    requires '.' !in base
    requires a.mediaType == "application/octet-stream" && a.originalFilename == Some(base + ".pdf")
    ensures GetFileConfig(a.mediaType, a.originalFilename).support == Native
    ensures FilePart(a, bucket, utf8) == None
  {
    OctetStreamUnlisted(a.mediaType);
    PdfNameExt(base);
    GetFileConfigByExtension(a.mediaType, base + ".pdf", Native);
  }

  /** `application/octet-stream` has no entry and is not a text type. */
  lemma OctetStreamUnlisted(mediaType: string)
    requires mediaType == "application/octet-stream"
    ensures MimeConfig(mediaType).None? && !StartsWith(mediaType, "text/")
  {
    assert mediaType[0] != 't';
  }

  /** A name ending in `.pdf` falls back to the extension "pdf". */
  lemma PdfNameExt(base: string)
    requires '.' !in base
    ensures FallbackExt(base + ".pdf") == "pdf"
  {
    assert base + ".pdf" == base + ['.'] + "pdf";
    LastPieceOfName(base, "pdf");
    PdfIsLower();
  }

  // ------------------------------------------------------------ messages

  /** One entry of the loop over the context. */
  function Build(m: ContextMessage, images: seq<Attachment>, files: seq<Attachment>,
                 imageBucket: map<string, StoredObject>, fileBucket: map<string, StoredObject>,
                 recent: seq<string>, utf8: seq<Byte> -> string): Outgoing
  {
    var ir := RowsFor(images, recent, m.id);
    var fr := RowsFor(files, recent, m.id);
    if |ir| > 0 || |fr| > 0 then
      Outgoing(m.role, Parts(ImageParts(ir, imageBucket) + FileParts(fr, fileBucket, utf8) + [TextPart(m.content)]))
    else Outgoing(m.role, PlainText(m.content))
  }

  /** Image parts come before every other part. */
  predicate ImagesFirst(ps: seq<Part>) {
    forall i, j :: 0 <= i < j < |ps| && ps[j].ImagePart? ==> ps[i].ImagePart?
  }

  /** `buildClaudeMessages(env, ctx)` over the two attachment tables and
      buckets. */
  function BuildClaudeMessages(ctx: seq<ContextMessage>, images: seq<Attachment>, files: seq<Attachment>,
                               imageBucket: map<string, StoredObject>, fileBucket: map<string, StoredObject>,
                               utf8: seq<Byte> -> string): (r: seq<Outgoing>)
    ensures |r| == |ctx|
    ensures forall i :: 0 <= i < |ctx| ==> r[i].role == ctx[i].role
    ensures forall i :: 0 <= i < |ctx| && ctx[i].id !in RecentUserIds(ctx) ==> r[i].content == PlainText(ctx[i].content)
  {
    var recent := RecentUserIds(ctx);
    seq(|ctx|, i requires 0 <= i < |ctx| => Build(ctx[i], images, files, imageBucket, fileBucket, recent, utf8))
  }

  /** Every message keeps its text: as the whole content, or as the last
      part after its image and file parts, images first. */
  lemma MessageTextLast(ctx: seq<ContextMessage>, images: seq<Attachment>, files: seq<Attachment>,
                        imageBucket: map<string, StoredObject>, fileBucket: map<string, StoredObject>,
                        utf8: seq<Byte> -> string, i: nat)
    requires i < |ctx|
    ensures var c := BuildClaudeMessages(ctx, images, files, imageBucket, fileBucket, utf8)[i].content;
      || c == PlainText(ctx[i].content)
      || (c.Parts? && |c.parts| > 0 && c.parts[|c.parts| - 1] == TextPart(ctx[i].content) && ImagesFirst(c.parts))
  {
    var recent := RecentUserIds(ctx);
    var ir := RowsFor(images, recent, ctx[i].id);
    var fr := RowsFor(files, recent, ctx[i].id);
    if |ir| > 0 || |fr| > 0 {
      var im := ImageParts(ir, imageBucket);
      var fp := FileParts(fr, fileBucket, utf8);
      var ps := im + fp + [TextPart(ctx[i].content)];
      forall a, b | 0 <= a < b < |ps| && ps[b].ImagePart? ensures ps[a].ImagePart? {
        assert b < |im|;
      }
    }
  }

  /** A message sends parts exactly when some row of either table is
      linked to it and it is among the recent user messages. */
  lemma PartsIffAttached(ctx: seq<ContextMessage>, images: seq<Attachment>, files: seq<Attachment>,
                         imageBucket: map<string, StoredObject>, fileBucket: map<string, StoredObject>,
                         utf8: seq<Byte> -> string, i: nat)
    requires i < |ctx|
    ensures BuildClaudeMessages(ctx, images, files, imageBucket, fileBucket, utf8)[i].content.Parts? <==>
      ctx[i].id in RecentUserIds(ctx) &&
      exists a :: (a in images || a in files) && a.messageId == Some(ctx[i].id)
  {
    var recent := RecentUserIds(ctx);
    var ir := RowsFor(images, recent, ctx[i].id);
    var fr := RowsFor(files, recent, ctx[i].id);
    if ctx[i].id in recent && exists a :: (a in images || a in files) && a.messageId == Some(ctx[i].id) {
      var a :| (a in images || a in files) && a.messageId == Some(ctx[i].id);
      assert a in ir || a in fr;
    }
    if |ir| > 0 {
      assert ir[0] in ir;
    }
    if |fr| > 0 {
      assert fr[0] in fr;
    }
  }
}

=== FILE: percent.dfy ===
/** Percent-encoding as `encodeURIComponent` and `decodeURIComponent`
    perform it (sections 19.2.6.4 and 19.2.6.5 of ECMA-262, with the
    `%XX` form of section 2.1 of RFC 3986): a character outside the
    unreserved set becomes the `%XX` escapes of its UTF-8 bytes, and
    decoding fails (a `URIError`) on a malformed escape or an invalid
    UTF-8 sequence. */
module Percent {
  import opened Wrappers
  import opened Store

  /** The characters `encodeURIComponent` leaves alone. */
  predicate Unreserved(c: char) {
    ('A' <= c <= 'Z') || ('a' <= c <= 'z') || ('0' <= c <= '9')
    || c == '-' || c == '_' || c == '.' || c == '!' || c == '~' || c == '*' || c == '\'' || c == '(' || c == ')'
  }

  /** An upper-case hexadecimal digit. */
  function HexDigit(n: nat): (c: char)
    requires n < 16
    ensures HexValue(c) == Some(n)
  {
    if n < 10 then (48 + n) as char else (55 + n) as char
  }

  /** The value of a hexadecimal digit of either case. */
  function HexValue(c: char): (r: Option<nat>)
    ensures r.Some? ==> r.value < 16
  {
    if '0' <= c <= '9' then Some(c as int - 48)
    else if 'A' <= c <= 'F' then Some(c as int - 55)
    else if 'a' <= c <= 'f' then Some(c as int - 87)
    else None
  }

  // -------------------------------------------------------------- UTF-8

  /** The UTF-8 encoding of a character: one to four bytes. */
  function Utf8(c: char): (bytes: seq<Byte>)
    ensures 1 <= |bytes| <= 4
  {
    var n := c as int;
    if n < 0x80 then [n]
    else if n < 0x800 then [0xC0 + n / 64, 0x80 + n % 64]
    else if n < 0x10000 then [0xE0 + n / 4096, 0x80 + n / 64 % 64, 0x80 + n % 64]
    else [0xF0 + n / 262144, 0x80 + n / 4096 % 64, 0x80 + n / 64 % 64, 0x80 + n % 64]
  }

  /** The sequence length a lead byte announces, or 0 for a byte that
      cannot lead one. */
  function LeadLength(b: Byte): (n: nat)
    ensures n <= 4
  {
    if b < 0x80 then 1
    else if 0xC0 <= b < 0xE0 then 2
    else if 0xE0 <= b < 0xF0 then 3
    else if 0xF0 <= b < 0xF8 then 4
    else 0
  }

  predicate Continuation(b: Byte) {
    0x80 <= b < 0xC0
  }

  /** The code point a well-shaped sequence spells. */
  function CodePoint(bs: seq<Byte>): int
    requires 1 <= |bs| <= 4
  {
    if |bs| == 1 then bs[0]
    else if |bs| == 2 then (bs[0] as int - 0xC0) * 64 + (bs[1] as int - 0x80)
    else if |bs| == 3 then (bs[0] as int - 0xE0) * 4096 + (bs[1] as int - 0x80) * 64 + (bs[2] as int - 0x80)
    else (bs[0] as int - 0xF0) * 262144 + (bs[1] as int - 0x80) * 4096 + (bs[2] as int - 0x80) * 64 + (bs[3] as int - 0x80)
  }

  /** The shortest form for its length, and a Unicode scalar value. */
  predicate ValidCodePoint(n: nat, cp: int) {
    if n == 1 then 0 <= cp < 0x80
    else if n == 2 then 0x80 <= cp < 0x800
    else if n == 3 then 0x800 <= cp < 0x10000 && !(0xD800 <= cp < 0xE000)
    else 0x10000 <= cp < 0x110000
  }

  /** The character a byte sequence encodes, if it is valid UTF-8 for
      exactly one character. */
  function Utf8Char(bs: seq<Byte>): (r: Option<char>)
  {
    if |bs| == 0 || LeadLength(bs[0]) != |bs| then None
    else if exists i :: 1 <= i < |bs| && !Continuation(bs[i]) then None
    else
      var cp := CodePoint(bs);
      if ValidCodePoint(|bs|, cp) then Some(cp as char) else None
  }

  lemma Utf8Two(n: int)
    requires 0x80 <= n < 0x800
    ensures (n / 64) * 64 + n % 64 == n
  {
  }

  lemma Utf8Three(n: int)
    requires 0x800 <= n < 0x10000
    ensures (n / 4096) * 4096 + (n / 64 % 64) * 64 + n % 64 == n
  {
    assert n / 64 == (n / 4096) * 64 + n / 64 % 64;
  }

  lemma Utf8Four(n: int)
    requires 0x10000 <= n < 0x110000
    ensures (n / 262144) * 262144 + (n / 4096 % 64) * 4096 + (n / 64 % 64) * 64 + n % 64 == n
  {
    assert n / 4096 == (n / 262144) * 64 + n / 4096 % 64;
    assert n / 64 == (n / 4096) * 64 + n / 64 % 64;
  }

  /** Decoding the UTF-8 bytes of a character gives the character back. */
  lemma Utf8RoundTrip(c: char)
    ensures Utf8Char(Utf8(c)) == Some(c)
  {
    var n := c as int;
    var bs := Utf8(c);
    if n < 0x80 {
    } else if n < 0x800 {
      Utf8Two(n);
    } else if n < 0x10000 {
      Utf8Three(n);
    } else {
      Utf8Four(n);
    }
    assert CodePoint(bs) == n;
    assert forall i :: 1 <= i < |bs| ==> Continuation(bs[i]);
  }

  // ----------------------------------------------------------- escapes

  /** A character `encodeURIComponent` may output. */
  predicate Encoded(c: char) {
    c == '%' || HexValue(c).Some? || Unreserved(c)
  }

  /** `%XX` for one byte, upper-case hex. */
  function Escape(b: Byte): (r: string)
    ensures |r| == 3 && r[0] == '%'
    ensures forall i :: 0 <= i < |r| ==> Encoded(r[i])
  {
    ['%', HexDigit(b / 16), HexDigit(b % 16)]
  }

  function EscapeAll(bs: seq<Byte>): (r: string)
    ensures |r| == 3 * |bs|
    ensures forall i :: 0 <= i < |r| ==> Encoded(r[i])
  {
    if |bs| == 0 then "" else Escape(bs[0]) + EscapeAll(bs[1..])
  }

  function EncodeChar(c: char): (r: string)
    ensures 1 <= |r|
    ensures forall i :: 0 <= i < |r| ==> Encoded(r[i])
  {
    if Unreserved(c) then [c] else EscapeAll(Utf8(c))
  }

  /** `encodeURIComponent`. */
  function Encode(s: string): (r: string)
    ensures forall i :: 0 <= i < |r| ==> Encoded(r[i])
  {
    if |s| == 0 then "" else EncodeChar(s[0]) + Encode(s[1..])
  }

  /** The byte escaped at position `i`, if `s[i..i + 3]` is `%XX`. */
  function ByteAt(s: string, i: nat): (r: Option<Byte>)
    ensures r.Some? ==> i + 3 <= |s| && s[i] == '%'
  {
    if i + 3 <= |s| && s[i] == '%' then
      match (HexValue(s[i + 1]), HexValue(s[i + 2]))
      case (Some(h), Some(l)) => Some(h * 16 + l)
      case _ => None
    else None
  }

  /** `n` consecutive escaped bytes at the front of `s`. */
  function Octets(s: string, n: nat): (r: Option<seq<Byte>>)
    ensures r.Some? ==> |r.value| == n && 3 * n <= |s|
  {
    if n == 0 then Some([])
    else match ByteAt(s, 0)
      case None => None
      case Some(b) =>
        match Octets(s[3..], n - 1)
        case None => None
        case Some(rest) => Some([b] + rest)
  }

  /** One character decoded from the escapes at the front of `s`, and how
      many characters of `s` it took. */
  function DecodeEscaped(s: string): (r: Option<(char, nat)>)
    ensures r.Some? ==> 3 <= r.value.1 <= |s|
  {
    match ByteAt(s, 0)
    case None => None
    case Some(lead) =>
      var n := LeadLength(lead);
      if n == 0 then None
      else match Octets(s, n)
        case None => None
        case Some(bs) =>
          match Utf8Char(bs)
          case None => None
          case Some(c) => Some((c, 3 * n))
  }

  /** `decodeURIComponent`; `None` where it throws. */
  function Decode(s: string): (r: Option<string>)
    decreases |s|
  {
    if |s| == 0 then Some("")
    else if s[0] != '%' then
      match Decode(s[1..])
      case None => None
      case Some(t) => Some([s[0]] + t)
    else match DecodeEscaped(s)
      case None => None
      case Some((c, k)) =>
        match Decode(s[k..])
        case None => None
        case Some(t) => Some([c] + t)
  }

  // --------------------------------------------------------- round trip

  lemma ByteAtEscape(b: Byte, rest: string)
    ensures ByteAt(Escape(b) + rest, 0) == Some(b)
  {
    var s := Escape(b) + rest;
    assert s[1] == HexDigit(b / 16) && s[2] == HexDigit(b % 16);
  }

  lemma {:induction false} OctetsEscaped(bs: seq<Byte>, rest: string)
    ensures Octets(EscapeAll(bs) + rest, |bs|) == Some(bs)
    decreases |bs|
  {
    if |bs| > 0 {
      var s := EscapeAll(bs) + rest;
      assert s == Escape(bs[0]) + (EscapeAll(bs[1..]) + rest);
      ByteAtEscape(bs[0], EscapeAll(bs[1..]) + rest);
      assert s[3..] == EscapeAll(bs[1..]) + rest;
      OctetsEscaped(bs[1..], rest);
      assert [bs[0]] + bs[1..] == bs;
    }
  }

  lemma Utf8Lead(c: char)
    ensures LeadLength(Utf8(c)[0]) == |Utf8(c)|
  {
  }

  /** The escapes of a character that is not left alone decode to it. */
  lemma DecodeEscapedChar(c: char, rest: string)
    requires !Unreserved(c)
    ensures DecodeEscaped(EncodeChar(c) + rest) == Some((c, |EncodeChar(c)|))
  {
    var bs := Utf8(c);
    var s := EscapeAll(bs) + rest;
    ByteAtEscape(bs[0], EscapeAll(bs[1..]) + rest);
    assert s == Escape(bs[0]) + (EscapeAll(bs[1..]) + rest);
    Utf8Lead(c);
    OctetsEscaped(bs, rest);
    Utf8RoundTrip(c);
  }

  /** Decoding the encoding of any string gives the string back. */
  lemma {:induction false} DecodeEncode(s: string)
    ensures Decode(Encode(s)) == Some(s)
    decreases |s|
  {
    if |s| > 0 {
      var head := EncodeChar(s[0]);
      var e := Encode(s);
      assert e == head + Encode(s[1..]);
      DecodeEncode(s[1..]);
      if Unreserved(s[0]) {
        assert e[1..] == Encode(s[1..]);
      } else {
        DecodeEscapedChar(s[0], Encode(s[1..]));
        assert e[|head|..] == Encode(s[1..]);
      }
      assert [s[0]] + s[1..] == s;
    }
  }

  /** A string with no `%` decodes to itself. */
  lemma {:induction false} DecodePlain(s: string)
    requires '%' !in s
    ensures Decode(s) == Some(s)
    decreases |s|
  {
    if |s| > 0 {
      DecodePlain(s[1..]);
      assert [s[0]] + s[1..] == s;
    }
  }

  /** A string of unreserved characters is its own encoding. */
  lemma {:induction false} EncodeUnreserved(s: string)
    requires forall i :: 0 <= i < |s| ==> Unreserved(s[i])
    ensures Encode(s) == s
    decreases |s|
  {
    if |s| > 0 {
      EncodeUnreserved(s[1..]);
      assert [s[0]] + s[1..] == s;
    }
  }
}

=== FILE: prompt.dfy ===
/** The system prompt of a reply (`buildSystemPrompt`): optional sections
    in a fixed order, joined by blank lines. Pinned wiki pages and pages
    named by `[[wikilinks]]` are cut to a per-page length and stop being
    added once a running total reaches its budget; pages already pinned
    are not repeated as links, and neither kind is repeated among the
    auto-discovered pages. The clock, the locale formatting of the time
    and the full-text ranking are parameters. */
module SystemPrompt {
  import opened Wrappers
  import opened Text
  import opened Utils
  import opened Sorting
  import opened Store
  import opened FtsQuery

  const MaxPerPage: nat := 4000
  const MaxTotal: nat := 12000
  const MaxLinkChars: nat := 12000
  const MaxLinks: nat := 5
  const PreviewLength: nat := 300

  const PinnedCut: string := "\n\n...[truncated — full page available in wiki]"
  const LinkCut: string := "\n\n...[truncated]"

  /** A wiki page as the prompt queries select it. */
  datatype Page = Page(id: string, title: string, content: string)

  /** One row of the auto-discovery query. */
  datatype Discovered = Discovered(pageId: string, title: string, summary: Option<string>)

  /** One page's block: `### {title}\n{text}`. */
  datatype Block = Block(title: string, text: string)

  datatype Section =
    | TimeSection(time: string)
    | VibesSection(vibes: seq<string>)
    | HandoffSection(notes: string)
    | AnnotationSection(lines: seq<string>)
    | PinnedSection(blocks: seq<Block>)
    | LinkSection(blocks: seq<Block>)
    | AutoSection(lines: seq<string>)
    | CustomSection(text: string)

  /** The position of each kind of section in the prompt. */
  function Rank(s: Section): nat {
    match s
    case TimeSection(_) => 0
    case VibesSection(_) => 1
    case HandoffSection(_) => 2
    case AnnotationSection(_) => 3
    case PinnedSection(_) => 4
    case LinkSection(_) => 5
    case AutoSection(_) => 6
    case CustomSection(_) => 7
  }

  // ------------------------------------------------------------ budgets

  /** `content.length > max ? content.slice(0, max) + cut : content`. */
  function Truncate(content: string, max: nat, cut: string): (r: string)
    ensures |r| <= max + |cut|
    ensures |content| <= max ==> r == content
    ensures |content| > max ==> r == content[..max] + cut
  {
    if |content| > max then content[..max] + cut else content
  }

  function TotalLength(blocks: seq<Block>): nat {
    if |blocks| == 0 then 0 else |blocks[0].text| + TotalLength(blocks[1..])
  }

  /** A pinned page's text in the prompt. */
  function PinnedText(p: Page): (r: string)
    ensures |r| <= MaxPerPage + |PinnedCut|
  {
    Truncate(p.content, MaxPerPage, PinnedCut)
  }

  /** The pinned-page loop from a running total: stop once the total has
      reached the budget, else add the page cut to its per-page length. */
  function PinnedLoop(pages: seq<Page>, total: nat): (r: seq<Block>)
    ensures |r| <= |pages|
    ensures forall i :: 0 <= i < |r| ==> r[i].title == pages[i].title && |r[i].text| <= MaxPerPage + |PinnedCut|
  {
    if |pages| == 0 || total >= MaxTotal then []
    else [Block(pages[0].title, PinnedText(pages[0]))] + PinnedLoop(pages[1..], total + |PinnedText(pages[0])|)
  }

  /** Under the budget the next page is taken, whatever its length. */
  lemma PinnedStep(pages: seq<Page>, total: nat)
    requires |pages| > 0 && total < MaxTotal
    ensures PinnedLoop(pages, total)
         == [Block(pages[0].title, PinnedText(pages[0]))] + PinnedLoop(pages[1..], total + |PinnedText(pages[0])|)
  {
  }

  lemma TotalLengthCons(b: Block, rest: seq<Block>)
    ensures TotalLength([b] + rest) == |b.text| + TotalLength(rest)
  {
    assert ([b] + rest)[1..] == rest;
  }

  lemma {:induction false} TotalLengthSnoc(bs: seq<Block>, b: Block)
    ensures TotalLength(bs + [b]) == TotalLength(bs) + |b.text|
    decreases |bs|
  {
    if |bs| > 0 {
      assert (bs + [b])[1..] == bs[1..] + [b];
      TotalLengthSnoc(bs[1..], b);
    } else {
      assert bs + [b] == [b];
    }
  }

  /** The budget is checked before each page: every page taken was
      started while the total so far was under it. */
  lemma {:induction false} PinnedBudgetBeforeEach(pages: seq<Page>, total: nat, k: nat)
    requires k < |PinnedLoop(pages, total)|
    ensures total + TotalLength(PinnedLoop(pages, total)[..k]) < MaxTotal
    decreases |pages|
  {
    PinnedStep(pages, total);
    if k > 0 {
      var b := Block(pages[0].title, PinnedText(pages[0]));
      var rest := PinnedLoop(pages[1..], total + |b.text|);
      PinnedBudgetBeforeEach(pages[1..], total + |b.text|, k - 1);
      assert PinnedLoop(pages, total)[..k] == [b] + rest[..k - 1];
      TotalLengthCons(b, rest[..k - 1]);
    } else {
      assert PinnedLoop(pages, total)[..0] == [];
    }
  }

  /** Pages are left out only once the budget is used up. */
  lemma {:induction false} PinnedStopsAtBudget(pages: seq<Page>, total: nat)
    ensures |PinnedLoop(pages, total)| < |pages| ==> total + TotalLength(PinnedLoop(pages, total)) >= MaxTotal
    decreases |pages|
  {
    if |pages| > 0 && total < MaxTotal {
      PinnedStep(pages, total);
      var b := Block(pages[0].title, PinnedText(pages[0]));
      PinnedStopsAtBudget(pages[1..], total + |b.text|);
      TotalLengthCons(b, PinnedLoop(pages[1..], total + |b.text|));
    }
  }

  /** The check comes before each page, not after: while the total is
      under the budget the next page is taken whatever its length, so the
      total may end past the budget, though by less than one page. */
  lemma {:induction false} PinnedTotalBound(pages: seq<Page>, total: nat)
    requires total < MaxTotal
    ensures total + TotalLength(PinnedLoop(pages, total)) < MaxTotal + MaxPerPage + |PinnedCut|
    decreases |pages|
  {
    if |pages| > 0 {
      PinnedStep(pages, total);
      var b := Block(pages[0].title, PinnedText(pages[0]));
      TotalLengthCons(b, PinnedLoop(pages[1..], total + |b.text|));
      if total + |b.text| < MaxTotal {
        PinnedTotalBound(pages[1..], total + |b.text|);
      }
    }
  }

  // ------------------------------------------------------------ wikilinks

  /** The length of the leading run of characters other than `]`. */
  function RunLength(s: string): (n: nat)
    ensures n <= |s|
    ensures forall i :: 0 <= i < n ==> s[i] != ']'
    ensures n < |s| ==> s[n] == ']'
  {
    if |s| == 0 || s[0] == ']' then 0 else 1 + RunLength(s[1..])
  }

  /** `[...s.matchAll(/\[\[([^\]]+)\]\]/g)].map(m => m[1])`: at each
      position try `[[`, a non-empty run without `]`, then `]]`; after a
      match continue behind it, else one character on. */
  function WikiLinks(s: string): (r: seq<string>)
    ensures forall i :: 0 <= i < |r| ==> |r[i]| > 0 && ']' !in r[i]
    decreases |s|
  {
    if |s| < 2 then []
    else if s[0] == '[' && s[1] == '[' then
      var n := RunLength(s[2..]);
      if n > 0 && 2 + n + 2 <= |s| && s[2 + n] == ']' && s[2 + n + 1] == ']' then
        [s[2..2 + n]] + WikiLinks(s[2 + n + 2..])
      else WikiLinks(s[1..])
    else WikiLinks(s[1..])
  }

  /** A bracketed title is found as that title, whatever follows. */
  lemma WikiLinkOfBrackets(t: string, rest: string)
    requires |t| > 0 && ']' !in t
    ensures WikiLinks("[[" + t + "]]" + rest) == [t] + WikiLinks(rest)
  {
    var s := "[[" + t + "]]" + rest;
    assert s[2..] == t + "]]" + rest;
    RunLengthOf(t, "]]" + rest);
    assert (t + "]]" + rest) == t + ("]]" + rest);
    assert s[2..2 + |t|] == t;
    assert s[2 + |t| + 2..] == rest;
  }

  lemma {:induction false} RunLengthOf(t: string, rest: string)
    requires ']' !in t && |rest| > 0 && rest[0] == ']'
    ensures RunLength(t + rest) == |t|
    decreases |t|
  {
    if |t| > 0 {
      assert (t + rest)[1..] == t[1..] + rest;
      RunLengthOf(t[1..], rest);
    } else {
      assert t + rest == rest;
    }
  }

  /** The slug form a link is also matched against:
      `title.trim().toLowerCase().replace(/[^\w\s-]/g, "").replace(/\s+/g, "-")`. */
  function LinkSlug(title: string): string {
    CollapseRuns(KeepSlugChars(Lower(Trim(title))), WhiteRun)
  }

  /** `SELECT … FROM wiki_pages WHERE LOWER(title) = LOWER(?) OR
      LOWER(slug) = LOWER(?) LIMIT 1`, the first such page in table order. */
  function FindLinked(pages: seq<WikiPage>, title: string): (r: Option<WikiPage>)
    ensures r.Some? ==> r.value in pages
    ensures r.Some? ==> LinkMatches(r.value, title)
  {
    if |pages| == 0 then None
    else if LinkMatches(pages[0], title) then Some(pages[0])
    else FindLinked(pages[1..], title)
  }

  /** The `WHERE` clause of the link lookup: the title matches the trimmed
      link, or the slug matches its slug form, both compared lower-cased. */
  predicate LinkMatches(p: WikiPage, title: string) {
    Lower(p.title) == Lower(Trim(title)) || Lower(p.slug) == Lower(LinkSlug(title))
  }

  /** The lookup finds nothing exactly when no page matches, and otherwise
      the first matching page in table order. */
  lemma {:induction false} FindLinkedIsFirstMatch(pages: seq<WikiPage>, title: string)
    ensures FindLinked(pages, title).None? <==> forall p :: p in pages ==> !LinkMatches(p, title)
    ensures FindLinked(pages, title).Some? ==>
      exists k :: 0 <= k < |pages| && pages[k] == FindLinked(pages, title).value
        && forall j :: 0 <= j < k ==> !LinkMatches(pages[j], title)
  {
    if |pages| > 0 && !LinkMatches(pages[0], title) {
      FindLinkedIsFirstMatch(pages[1..], title);
      assert forall p :: p in pages ==> p == pages[0] || p in pages[1..];
      if FindLinked(pages, title).Some? {
        var k :| 0 <= k < |pages[1..]| && pages[1..][k] == FindLinked(pages, title).value
          && forall j :: 0 <= j < k ==> !LinkMatches(pages[1..][j], title);
        assert pages[k + 1] == FindLinked(pages, title).value;
        assert forall j :: 0 <= j < k + 1 ==> !LinkMatches(pages[j], title) by {
          forall j | 0 <= j < k + 1 ensures !LinkMatches(pages[j], title) {
            if j > 0 { assert pages[j] == pages[1..][j - 1]; }
          }
        }
      }
    } else if |pages| > 0 {
      assert pages[0] == FindLinked(pages, title).value;
    }
  }

  /** A linked page with its text as the prompt carries it. */
  datatype Linked = Linked(page: WikiPage, text: string)

  /** The lookup of each linked title, in link order. */
  function Lookups(pages: seq<WikiPage>, titles: seq<string>): (r: seq<Option<WikiPage>>)
    ensures |r| == |titles|
    ensures forall i :: 0 <= i < |r| ==> r[i] == FindLinked(pages, titles[i])
  {
    seq(|titles|, i requires 0 <= i < |titles| => FindLinked(pages, titles[i]))
  }

  function LinkText(p: WikiPage): (r: string)
    ensures |r| <= MaxPerPage + |LinkCut|
  {
    Truncate(p.content, MaxPerPage, LinkCut)
  }

  /** A lookup that adds a page: one found and not pinned. */
  predicate Adds(found: Option<WikiPage>, pinned: set<string>) {
    found.Some? && found.value.id !in pinned
  }

  /** The link loop over the lookups from a running character count: stop
      once it has reached the budget; a page found and not pinned is
      added, cut to 4000 characters; anything else adds nothing. */
  function LinkLoop(found: seq<Option<WikiPage>>, pinned: set<string>, chars: nat): (r: seq<Linked>)
    ensures |r| <= |found|
    ensures forall i :: 0 <= i < |r| ==> r[i].page.id !in pinned && |r[i].text| <= MaxPerPage + |LinkCut|
    ensures forall i :: 0 <= i < |r| ==> Some(r[i].page) in found
  {
    if |found| == 0 || chars >= MaxLinkChars then []
    else if Adds(found[0], pinned) then
      [Linked(found[0].value, LinkText(found[0].value))] + LinkLoop(found[1..], pinned, chars + |LinkText(found[0].value)|)
    else LinkLoop(found[1..], pinned, chars)
  }

  function LinkTotal(links: seq<Linked>): nat {
    if |links| == 0 then 0 else |links[0].text| + LinkTotal(links[1..])
  }

  lemma LinkTotalCons(x: Linked, rest: seq<Linked>)
    ensures LinkTotal([x] + rest) == |x.text| + LinkTotal(rest)
  {
    assert ([x] + rest)[1..] == rest;
  }

  /** Under the budget, a lookup that found an unpinned page adds it, and
      any other adds nothing. */
  lemma LinkStep(found: seq<Option<WikiPage>>, pinned: set<string>, chars: nat)
    requires |found| > 0 && chars < MaxLinkChars
    ensures Adds(found[0], pinned) ==>
              LinkLoop(found, pinned, chars)
              == [Linked(found[0].value, LinkText(found[0].value))] + LinkLoop(found[1..], pinned, chars + |LinkText(found[0].value)|)
    ensures !Adds(found[0], pinned) ==> LinkLoop(found, pinned, chars) == LinkLoop(found[1..], pinned, chars)
  {
  }

  /** As with pinned pages, the link budget is checked before each lookup,
      so the linked text ends under the budget plus one page. */
  lemma {:induction false} LinkTotalBound(found: seq<Option<WikiPage>>, pinned: set<string>, chars: nat)
    requires chars < MaxLinkChars
    ensures chars + LinkTotal(LinkLoop(found, pinned, chars)) < MaxLinkChars + MaxPerPage + |LinkCut|
    decreases |found|
  {
    if |found| > 0 {
      LinkStep(found, pinned, chars);
      if Adds(found[0], pinned) {
        var x := Linked(found[0].value, LinkText(found[0].value));
        LinkTotalCons(x, LinkLoop(found[1..], pinned, chars + |x.text|));
        if chars + |x.text| < MaxLinkChars {
          LinkTotalBound(found[1..], pinned, chars + |x.text|);
        }
      } else {
        LinkTotalBound(found[1..], pinned, chars);
      }
    }
  }

  /** Below the budget, no page that was found and is not pinned is
      skipped: the link loop keeps exactly those pages, in order, until the
      budget is reached. */
  lemma {:induction false} LinkLoopUnderBudget(found: seq<Option<WikiPage>>, pinned: set<string>, chars: nat)
    requires chars + LinkTotal(LinkLoop(found, pinned, chars)) < MaxLinkChars
    ensures LinkLoop(found, pinned, chars) == Added(found, pinned)
    decreases |found|
  {
    if |found| > 0 {
      LinkStep(found, pinned, chars);
      if Adds(found[0], pinned) {
        var x := Linked(found[0].value, LinkText(found[0].value));
        LinkTotalCons(x, LinkLoop(found[1..], pinned, chars + |x.text|));
        LinkLoopUnderBudget(found[1..], pinned, chars + |x.text|);
      } else {
        LinkLoopUnderBudget(found[1..], pinned, chars);
      }
    }
  }

  /** Every lookup that found an unpinned page, with no budget. */
  function Added(found: seq<Option<WikiPage>>, pinned: set<string>): seq<Linked> {
    if |found| == 0 then []
    else if Adds(found[0], pinned) then [Linked(found[0].value, LinkText(found[0].value))] + Added(found[1..], pinned)
    else Added(found[1..], pinned)
  }

  // ------------------------------------------------------------ sections

  /** The pinned pages of a conversation: its pins ordered by pin time,
      each joined to its page (a pin whose page is gone drops out). */
  function PinnedPages(db: Db, conversationId: string): seq<Page> {
    var pins := Filter(db.wikiPins, (p: WikiPin) => p.conversationId == conversationId);
    var ordered := SortBy(pins, (a: WikiPin, b: WikiPin) => StrLe(a.createdAt, b.createdAt));
    JoinPins(ordered, db.wikiPages)
  }

  function JoinPins(pins: seq<WikiPin>, pages: seq<WikiPage>): (r: seq<Page>)
    ensures forall i :: 0 <= i < |r| ==> exists p :: p in pages && p.id == r[i].id
  {
    if |pins| == 0 then []
    else
      match FindPage(pages, pins[0].pageId)
      case Some(p) => [Page(p.id, p.title, p.content)] + JoinPins(pins[1..], pages)
      case None => JoinPins(pins[1..], pages)
  }

  function PageIds(pages: seq<Page>): (r: set<string>)
    ensures forall id :: id in r <==> exists i :: 0 <= i < |pages| && pages[i].id == id
  {
    set i | 0 <= i < |pages| :: pages[i].id
  }

  function LinkIds(links: seq<Linked>): (r: set<string>)
    ensures forall id :: id in r <==> exists i :: 0 <= i < |links| && links[i].page.id == id
  {
    set i | 0 <= i < |links| :: links[i].page.id
  }

  /** The annotation line's preview: the first 300 characters, with
      "..." whenever 300 came back, which includes a message of exactly
      300 characters that was not cut. */
  function Preview(content: string): (r: string)
    ensures EndsWith(r, "...") && |r| == PreviewLength + 3 <==> |content| >= PreviewLength
    ensures |content| < PreviewLength ==> r == content
  {
    var head := Take(content, PreviewLength);
    if |head| >= PreviewLength then head + "..." else head
  }

  function TypeLabel(kind: string): string {
    if kind == "pin" then "\U{1F4CC} Pinned"
    else if kind == "bookmark" then "\U{1F516} Bookmarked"
    else "⭐ Highlighted"
  }

  function AnnotationLine(a: Annotation, m: Message): string {
    var role := if m.role == "user" then "User" else "Assistant";
    var note := if IsSet(a.labelText) then " — Note: \"" + a.labelText.value + "\"" else "";
    "- " + TypeLabel(a.kind) + " (" + role + ")" + note + ": \"" + Preview(m.content) + "\""
  }

  /** The annotation query: the conversation's annotations by creation
      time, each joined to its message (one whose message is gone drops
      out). */
  function AnnotationLines(db: Db, conversationId: string): seq<string> {
    var own := Filter(db.annotations, (a: Annotation) => a.conversationId == conversationId);
    JoinAnnotations(SortBy(own, (a: Annotation, b: Annotation) => StrLe(a.createdAt, b.createdAt)), db.messages)
  }

  function JoinAnnotations(anns: seq<Annotation>, ms: seq<Message>): (r: seq<string>)
    ensures |r| <= |anns|
  {
    if |anns| == 0 then []
    else
      match FindMessage(ms, anns[0].messageId)
      case Some(m) => [AnnotationLine(anns[0], m)] + JoinAnnotations(anns[1..], ms)
      case None => JoinAnnotations(anns[1..], ms)
  }

  function AutoLine(p: Discovered): string {
    "- \"" + p.title + "\"" + (if IsSet(p.summary) then ": " + p.summary.value else "")
  }

  function AutoLines(ps: seq<Discovered>): (r: seq<string>)
    ensures |r| == |ps|
  {
    seq(|ps|, i requires 0 <= i < |ps| => AutoLine(ps[i]))
  }

  /** The discovery query text: quoted when the whole message holds a
      special character, over its first 100 characters. */
  function DiscoveryQuery(userContent: string): string {
    var head := Take(userContent, 100);
    if HasSpecial(userContent) then Quote(head) else head
  }

  /** The discovery query reads back as the first 100 characters of the
      message, quoted or not. */
  lemma DiscoveryQueryReadsBack(userContent: string)
    ensures var q := DiscoveryQuery(userContent);
            q == Take(userContent, 100) || Unquote(q) == Some(Take(userContent, 100))
    ensures HasSpecial(userContent) ==> Unquote(DiscoveryQuery(userContent)) == Some(Take(userContent, 100))
  {
    QuoteRoundTrip(Take(userContent, 100));
  }

  /** Discovered pages that are neither pinned nor linked, in rank order. */
  function Fresh(ps: seq<Discovered>, pinned: set<string>, referenced: set<string>): (r: seq<Discovered>)
    ensures forall d :: d in r <==> d in ps && d.pageId !in pinned && d.pageId !in referenced
  {
    Filter(ps, (d: Discovered) => d.pageId !in pinned && d.pageId !in referenced)
  }

  /** Sections appear in rank order, each kind at most once. */
  predicate InOrder(ss: seq<Section>) {
    forall i, j :: 0 <= i < j < |ss| ==> Rank(ss[i]) < Rank(ss[j])
  }

  /** The candidate sections carry the ranks `k`, `k + 1`, ... in turn. */
  predicate RankedFrom(cs: seq<Section>, k: nat) {
    forall i :: 0 <= i < |cs| ==> Rank(cs[i]) == k + i
  }

  /** `if (cond) parts.push(section)` over candidates and their conditions. */
  function Keep(cs: seq<Section>, present: seq<bool>): (r: seq<Section>)
    requires |present| == |cs|
    ensures |r| <= |cs|
  {
    if |cs| == 0 then []
    else (if present[0] then [cs[0]] else []) + Keep(cs[1..], present[1..])
  }

  lemma ConsInOrder(x: Section, t: seq<Section>)
    requires InOrder(t)
    requires forall i :: 0 <= i < |t| ==> Rank(x) < Rank(t[i])
    ensures InOrder([x] + t)
  {
    var s := [x] + t;
    forall i, j | 0 <= i < j < |s| ensures Rank(s[i]) < Rank(s[j]) {
      assert s[j] == t[j - 1];
      if i > 0 {
        assert s[i] == t[i - 1];
      }
    }
  }

  lemma {:induction false} KeepInOrder(cs: seq<Section>, present: seq<bool>, k: nat)
    requires |present| == |cs| && RankedFrom(cs, k)
    ensures InOrder(Keep(cs, present))
    ensures forall i :: 0 <= i < |Keep(cs, present)| ==> k <= Rank(Keep(cs, present)[i])
    decreases |cs|
  {
    if |cs| > 0 {
      assert RankedFrom(cs[1..], k + 1) by {
        forall i | 0 <= i < |cs| - 1 ensures Rank(cs[1..][i]) == k + 1 + i {
          assert cs[1..][i] == cs[i + 1];
        }
      }
      KeepInOrder(cs[1..], present[1..], k + 1);
      if present[0] {
        ConsInOrder(cs[0], Keep(cs[1..], present[1..]));
      }
    }
  }

  /** Every kept section is a candidate whose condition held. */
  lemma {:induction false} KeepOrigin(cs: seq<Section>, present: seq<bool>, x: Section)
    requires |present| == |cs| && x in Keep(cs, present)
    ensures exists j :: 0 <= j < |cs| && present[j] && x == cs[j]
    decreases |cs|
  {
    var rest := Keep(cs[1..], present[1..]);
    if present[0] && x == cs[0] {
    } else {
      assert x in rest;
      KeepOrigin(cs[1..], present[1..], x);
      var j :| 0 <= j < |cs| - 1 && present[1..][j] && x == cs[1..][j];
      assert present[j + 1] && x == cs[j + 1];
    }
  }

  /** The last candidate, when kept, is the last section. */
  lemma {:induction false} KeepLast(cs: seq<Section>, present: seq<bool>)
    requires |present| == |cs| > 0 && present[|cs| - 1]
    ensures |Keep(cs, present)| > 0 && Keep(cs, present)[|Keep(cs, present)| - 1] == cs[|cs| - 1]
    decreases |cs|
  {
    if |cs| > 1 {
      KeepLast(cs[1..], present[1..]);
    }
  }

  /** The pieces a prompt is built from, gathered before the sections. */
  datatype Parts = Parts(
    time: string, vibes: Vibes, handoff: Option<string>, notes: seq<string>,
    pinned: seq<Page>, links: seq<Linked>, auto: seq<Discovered>, custom: string)

  /** The queries behind the prompt. `discover` is the full-text search
      over the wiki (the three best matches for a query, or `None` when the
      query fails). */
  function Gather(time: string, conv: Conversation, db: Db, userContent: string,
                  discover: string -> Option<seq<Discovered>>): (r: Parts)
    ensures forall i :: 0 <= i < |r.links| ==> r.links[i].page.id !in PageIds(r.pinned) && r.links[i].page in db.wikiPages
    ensures forall d :: d in r.auto ==> d.pageId !in PageIds(r.pinned) && d.pageId !in LinkIds(r.links)
    ensures |r.links| <= MaxLinks
  {
    var pinned := PinnedPages(db, conv.id);
    var links := LinkLoop(Lookups(db.wikiPages, Take(WikiLinks(userContent), MaxLinks)), PageIds(pinned), 0);
    var auto := match discover(DiscoveryQuery(userContent))
      case Some(found) => Fresh(found, PageIds(pinned), LinkIds(links))
      case None => [];
    Parts(time, conv.vibes, conv.handoffNotes, AnnotationLines(db, conv.id), pinned, links, auto, conv.systemPrompt)
  }

  function VibeItems(v: Vibes): seq<string> {
    if v.VibeList? then v.items else []
  }

  /** The optional sections, in prompt order, each with whether it is
      shown. */
  function Candidates(p: Parts): (r: seq<Section>)
    ensures |r| == 7 && RankedFrom(r, 1) && r[6] == CustomSection(p.custom)
  {
    [ VibesSection(VibeItems(p.vibes)),
      HandoffSection(if p.handoff.Some? then p.handoff.value else ""),
      AnnotationSection(p.notes),
      PinnedSection(PinnedLoop(p.pinned, 0)),
      LinkSection(LinkBlocks(p.links)),
      AutoSection(AutoLines(p.auto)),
      CustomSection(p.custom) ]
  }

  function Shown(p: Parts): (r: seq<bool>)
    ensures |r| == 7 && (r[6] <==> p.custom != "")
  {
    [ |VibeItems(p.vibes)| > 0, IsSet(p.handoff), |p.notes| > 0, |p.pinned| > 0,
      |p.links| > 0, |p.auto| > 0, p.custom != "" ]
  }

  function Sections(p: Parts): seq<Section> {
    [TimeSection(p.time)] + Keep(Candidates(p), Shown(p))
  }

  /** The time comes first, the sections keep their fixed order, and the
      conversation's own instructions come last when present and are
      absent otherwise. */
  lemma SectionsInOrder(p: Parts)
    ensures InOrder(Sections(p))
    ensures |Sections(p)| > 0 && Sections(p)[0] == TimeSection(p.time)
    ensures p.custom != "" ==> Sections(p)[|Sections(p)| - 1] == CustomSection(p.custom)
    ensures p.custom == "" ==> forall i :: 0 <= i < |Sections(p)| ==> !Sections(p)[i].CustomSection?
  {
    var cs, shown := Candidates(p), Shown(p);
    var kept := Keep(cs, shown);
    KeepInOrder(cs, shown, 1);
    ConsInOrder(TimeSection(p.time), kept);
    if p.custom != "" {
      KeepLast(cs, shown);
    } else {
      forall i | 0 <= i < |kept| ensures !kept[i].CustomSection? {
        KeepOrigin(cs, shown, kept[i]);
        var j :| 0 <= j < |cs| && shown[j] && kept[i] == cs[j];
        assert Rank(cs[j]) == 1 + j;
      }
    }
  }

  function LinkBlocks(links: seq<Linked>): (r: seq<Block>)
    ensures |r| == |links|
  {
    seq(|links|, i requires 0 <= i < |links| => Block(links[i].page.title, links[i].text))
  }

  function RenderBlock(b: Block): string {
    "### " + b.title + "\n" + b.text
  }

  function RenderBlocks(bs: seq<Block>): (r: seq<string>)
    ensures |r| == |bs|
  {
    seq(|bs|, i requires 0 <= i < |bs| => RenderBlock(bs[i]))
  }

  const TimeTail: string :=
    " (Pacific Time). Be naturally aware of the time of day, day of week, and season without explicitly stating this unless relevant.]"

  function TimeLine(t: string): (r: string)
    ensures StartsWith(r, "[Current time: " + t)
  {
    PrefixOfAppend("[Current time: " + t, TimeTail);
    ("[Current time: " + t) + TimeTail
  }

  lemma PrefixOfAppend(a: string, b: string)
    ensures StartsWith(a + b, a)
  {
    assert (a + b)[..|a|] == a;
  }

  function Render(s: Section): string {
    match s
    case TimeSection(t) => TimeLine(t)
    case VibesSection(v) =>
      "[Conversation context: The energy of this conversation has been " + Join(v, ", ")
      + ". Match this tone naturally without explicitly mentioning these vibes.]"
    case HandoffSection(n) =>
      "[Session Handoff Notes from a previous context window — use these to maintain continuity:\n" + n + "\n]"
    case AnnotationSection(lines) =>
      "[User-annotated messages — the user has marked these as important. Reference them naturally when relevant, but don't list them unprompted:\n"
      + Join(lines, "\n") + "\n]"
    case PinnedSection(bs) =>
      "[Pinned Wiki Pages — the user has pinned these knowledge base articles to this conversation. Reference them when relevant:\n\n"
      + Join(RenderBlocks(bs), "\n\n---\n\n") + "\n]"
    case LinkSection(bs) =>
      "[Wiki pages referenced by user with [[wikilinks]] — they are asking about these:\n\n"
      + Join(RenderBlocks(bs), "\n\n---\n\n") + "\n]"
    case AutoSection(lines) =>
      "[Potentially relevant wiki pages (the user can pin them for full content if needed):\n" + Join(lines, "\n") + "\n]"
    case CustomSection(t) => t
  }

  function RenderAll(ss: seq<Section>): (r: seq<string>)
    ensures |r| == |ss|
  {
    seq(|ss|, i requires 0 <= i < |ss| => Render(ss[i]))
  }

  lemma {:induction false} JoinStartsWith(parts: seq<string>, sep: string)
    requires |parts| > 0
    ensures StartsWith(Join(parts, sep), parts[0])
  {
    if |parts| > 1 {
      assert Join(parts, sep) == parts[0] + (sep + Join(parts[1..], sep));
    }
  }

  lemma {:induction false} JoinEndsWith(parts: seq<string>, sep: string)
    requires |parts| > 0
    ensures EndsWith(Join(parts, sep), parts[|parts| - 1])
    decreases |parts|
  {
    if |parts| > 1 {
      JoinEndsWith(parts[1..], sep);
      var tail := Join(parts[1..], sep);
      assert Join(parts, sep) == (parts[0] + sep) + tail;
      SuffixOfLonger(parts[0] + sep, tail, parts[|parts| - 1]);
    }
  }

  lemma SuffixOfLonger(a: string, b: string, suffix: string)
    requires EndsWith(b, suffix)
    ensures EndsWith(a + b, suffix)
  {
    assert (a + b)[|a + b| - |suffix|..] == b[|b| - |suffix|..];
  }

  /** `buildSystemPrompt(env, conversationId, conversation, userContent)`:
      the rendered sections joined by blank lines. */
  function BuildSystemPrompt(time: string, conv: Conversation, db: Db, userContent: string,
                             discover: string -> Option<seq<Discovered>>): string
  {
    Join(RenderAll(Sections(Gather(time, conv, db, userContent, discover))), "\n\n")
  }

  /** Rendered sections that open with the time open with the time line. */
  lemma OpensWithTime(ss: seq<Section>, time: string)
    requires |ss| > 0 && ss[0] == TimeSection(time)
    ensures StartsWith(Join(RenderAll(ss), "\n\n"), "[Current time: " + time)
  {
    var rendered := RenderAll(ss);
    JoinStartsWith(rendered, "\n\n");
    assert rendered[0] == TimeLine(time);
    StartsWithPrefix(TimeLine(time), "[Current time: " + time, Join(rendered, "\n\n"));
  }

  /** Rendered sections that close with the custom instructions close
      with their text. */
  lemma ClosesWithCustom(ss: seq<Section>, custom: string)
    requires |ss| > 0 && ss[|ss| - 1] == CustomSection(custom)
    ensures EndsWith(Join(RenderAll(ss), "\n\n"), custom)
  {
    JoinEndsWith(RenderAll(ss), "\n\n");
  }

  /** The prompt opens with the time line and, when the conversation has
      its own instructions, ends with them. */
  lemma PromptEnds(time: string, conv: Conversation, db: Db, userContent: string,
                   discover: string -> Option<seq<Discovered>>)
    ensures StartsWith(BuildSystemPrompt(time, conv, db, userContent, discover), "[Current time: " + time)
    ensures conv.systemPrompt != "" ==> EndsWith(BuildSystemPrompt(time, conv, db, userContent, discover), conv.systemPrompt)
  {
    var p := Gather(time, conv, db, userContent, discover);
    SectionsInOrder(p);
    OpensWithTime(Sections(p), time);
    if conv.systemPrompt != "" {
      ClosesWithCustom(Sections(p), conv.systemPrompt);
    }
  }

  lemma StartsWithPrefix(a: string, prefix: string, s: string)
    requires StartsWith(a, prefix) && StartsWith(s, a)
    ensures StartsWith(s, prefix)
  {
    assert s[..|prefix|] == a[..|prefix|];
  }
}

=== FILE: queue.dfy ===
/** The queue consumer (`handleQueue`) and its dispatch over the job union
    (`processJob`): every delivered message is acknowledged when its job
    returns and retried when it throws, one after the other, so a failing
    job never holds up the rest of the batch. The jobs that only forward to
    a language model are oracles; the rest are modelled here: gossip rows,
    the two batch selectors that fan out per-conversation jobs, wiki
    version snapshots with their pruning, and database backups with
    theirs. */
module Queue {
  import opened Wrappers
  import opened Text
  import opened Json
  import opened Jobs
  import opened Store
  import opened Sorting
  import Archive
  import ExportMarkdown

  /** Batch selectors send at most this many jobs per run. */
  const FanoutLimit: nat := 20
  /** Versions kept per wiki page. */
  const KeptVersions: nat := 50
  /** Backups kept in the files bucket. */
  const KeptBackups: nat := 10
  /** A conversation needs this many messages to be summarised in a batch. */
  const SummaryMinMessages: nat := 4

  /** What the jobs depend on besides the store: the clock (and the
      archive cut-off, `datetime('now', '-90 days')`), a fresh id per
      position in the batch, the language-model jobs, the serialiser, the
      renderers of the export job, and `SELECT * FROM t` as JSON rows
      (`None` when the read throws). */
  datatype Services = Services(
    now: Instant, archiveCutoff: string, freshId: nat -> string,
    summarize: (Db, string) -> Result<Db>, waterCooler: Db -> Result<Db>,
    stringify: Json -> string, formatTime: string -> string, showNumber: real -> string,
    readTable: (Db, string) -> Option<seq<Json>>)

  // ------------------------------------------------------------ gossip

  /** `WORKERS[persona]`: the display name and emoji. */
  function Worker(p: Persona): (string, string) {
    match p
    case StreamWorker => ("Stream", "\U{26A1}")
    case CronWorker => ("Cron", "\U{23F0}")
    case D1Worker => ("D1", "\U{1F5C4}\U{FE0F}")
    case GatewayWorker => ("Gateway", "\U{1F6AA}")
  }

  function GossipRowOf(job: QueueJob, id: string): GossipRow
    requires job.GossipJob?
  {
    GossipRow(id, Worker(job.persona).0, Worker(job.persona).1, job.message,
              NullIfEmpty(job.eventType), NullIfEmpty(job.conversationRef))
  }

  // ------------------------------------------------------------ fan-out

  /** `… LIMIT 20` without an `ORDER BY`: the first twenty matching rows
      in table order. */
  function Selected(cs: seq<Conversation>, eligible: Conversation -> bool): (r: seq<Conversation>)
    ensures |r| <= FanoutLimit && |r| <= |Filter(cs, eligible)|
    ensures forall i :: 0 <= i < |r| ==> r[i] in cs && eligible(r[i])
    ensures |Filter(cs, eligible)| <= FanoutLimit ==> forall c :: c in cs && eligible(c) ==> c in r
  {
    var all := Filter(cs, eligible);
    var r := Take(all, FanoutLimit);
    assert forall i :: 0 <= i < |r| ==> r[i] in all;
    r
  }

  function Ids(cs: seq<Conversation>): (r: seq<string>)
    ensures |r| == |cs| && forall i :: 0 <= i < |r| ==> r[i] == cs[i].id
  {
    seq(|cs|, i requires 0 <= i < |cs| => cs[i].id)
  }

  /** `env.JOBS.sendBatch(…)` for the selected ids, skipped when there are
      none. */
  function Fanout(db: Db, ids: seq<string>, job: string -> QueueJob): (r: Db)
    ensures r == db.(outbox := r.outbox)
    ensures |r.outbox| == |db.outbox| + |ids| && r.outbox[..|db.outbox|] == db.outbox
    ensures forall i :: 0 <= i < |ids| ==> r.outbox[|db.outbox| + i] == job(ids[i])
  {
    if |ids| == 0 then db
    else db.(outbox := db.outbox + seq(|ids|, i requires 0 <= i < |ids| => job(ids[i])))
  }

  function MessageCount(ms: seq<Message>, conversationId: string): nat {
    |MessagesOf(ms, conversationId)|
  }

  /** Strictly later, comparing the TEXT timestamps as SQLite does. */
  predicate After(a: string, b: string) {
    !StrLe(a, b)
  }

  /** Has a message newer than the last summary (or was never
      summarised), and has at least four messages. */
  predicate NeedsSummary(ms: seq<Message>, c: Conversation) {
    && (exists i :: 0 <= i < |ms| && ms[i].conversationId == c.id
                    && (c.lastSummarizedAt.None? || After(ms[i].createdAt, c.lastSummarizedAt.value)))
    && MessageCount(ms, c.id) >= SummaryMinMessages
  }

  /** Not pinned, not archived, has messages, and none of them newer than
      the cut-off. */
  predicate Archivable(ms: seq<Message>, cutoff: string, c: Conversation) {
    && !c.pinned
    && c.archivedAt.None?
    && (forall i :: 0 <= i < |ms| && ms[i].conversationId == c.id ==> !After(ms[i].createdAt, cutoff))
    && (exists i :: 0 <= i < |ms| && ms[i].conversationId == c.id)
  }

  function SummaryTest(ms: seq<Message>): Conversation -> bool {
    (c: Conversation) => NeedsSummary(ms, c)
  }

  function ArchiveTest(ms: seq<Message>, cutoff: string): Conversation -> bool {
    (c: Conversation) => Archivable(ms, cutoff, c)
  }

  /** The store holds a conversation with this id that a summary batch
      picks up. */
  predicate DueForSummary(db: Db, id: string) {
    exists c :: c in db.conversations && NeedsSummary(db.messages, c) && c.id == id
  }

  /** The store holds a conversation with this id that an archive batch
      picks up. */
  predicate DueForArchive(db: Db, cutoff: string, id: string) {
    exists c :: c in db.conversations && Archivable(db.messages, cutoff, c) && c.id == id
  }

  function SummaryCandidates(db: Db): (r: seq<string>)
    ensures |r| <= FanoutLimit
    ensures forall i :: 0 <= i < |r| ==> DueForSummary(db, r[i])
  {
    var chosen := Selected(db.conversations, SummaryTest(db.messages));
    assert forall i :: 0 <= i < |chosen| ==> DueForSummary(db, chosen[i].id) by {
      forall i | 0 <= i < |chosen| ensures DueForSummary(db, chosen[i].id) {
        assert NeedsSummary(db.messages, chosen[i]);
      }
    }
    Ids(chosen)
  }

  function ArchiveCandidates(db: Db, cutoff: string): (r: seq<string>)
    ensures |r| <= FanoutLimit
    ensures forall i :: 0 <= i < |r| ==> DueForArchive(db, cutoff, r[i])
  {
    var chosen := Selected(db.conversations, ArchiveTest(db.messages, cutoff));
    assert forall i :: 0 <= i < |chosen| ==> DueForArchive(db, cutoff, chosen[i].id) by {
      forall i | 0 <= i < |chosen| ensures DueForArchive(db, cutoff, chosen[i].id) {
        assert Archivable(db.messages, cutoff, chosen[i]);
      }
    }
    Ids(chosen)
  }

  /** An `archive_batch` run sends at most twenty jobs, each for a
      conversation that is neither pinned nor archived, has messages, and
      has none newer than the cut-off; nothing else in the store changes. */
  lemma ArchiveBatchSelects(db: Db, cutoff: string)
    ensures var r := Fanout(db, ArchiveCandidates(db, cutoff), (id: string) => ArchiveConversation(id));
      && r == db.(outbox := r.outbox)
      && |db.outbox| <= |r.outbox| <= |db.outbox| + FanoutLimit
      && forall i :: |db.outbox| <= i < |r.outbox| ==>
           r.outbox[i].ArchiveConversation? && DueForArchive(db, cutoff, r.outbox[i].conversationId)
  {
    var ids := ArchiveCandidates(db, cutoff);
    var r := Fanout(db, ids, (id: string) => ArchiveConversation(id));
    forall i | |db.outbox| <= i < |r.outbox|
      ensures r.outbox[i].ArchiveConversation? && DueForArchive(db, cutoff, r.outbox[i].conversationId)
    {
      assert r.outbox[i] == ArchiveConversation(ids[i - |db.outbox|]);
    }
  }

  /** When no conversation qualifies, the run sends nothing. */
  lemma EmptySelectionSendsNothing(db: Db, cutoff: string)
    requires forall c :: c in db.conversations ==> !Archivable(db.messages, cutoff, c)
    ensures Fanout(db, ArchiveCandidates(db, cutoff), (id: string) => ArchiveConversation(id)) == db
  {
    FilterNone(db.conversations, ArchiveTest(db.messages, cutoff));
  }

  /** A `summarize_batch` run sends at most twenty jobs, each for a
      conversation with at least four messages and one newer than its last
      summary. */
  lemma SummarizeBatchSelects(db: Db)
    ensures var r := Fanout(db, SummaryCandidates(db), (id: string) => SummarizeConversation(id));
      && |db.outbox| <= |r.outbox| <= |db.outbox| + FanoutLimit
      && forall i :: |db.outbox| <= i < |r.outbox| ==>
           r.outbox[i].SummarizeConversation? && DueForSummary(db, r.outbox[i].conversationId)
  {
    var ids := SummaryCandidates(db);
    var r := Fanout(db, ids, (id: string) => SummarizeConversation(id));
    forall i | |db.outbox| <= i < |r.outbox|
      ensures r.outbox[i].SummarizeConversation? && DueForSummary(db, r.outbox[i].conversationId)
    {
      assert r.outbox[i] == SummarizeConversation(ids[i - |db.outbox|]);
    }
  }

  // ------------------------------------------------------------ wiki versions

  /** `wiki-versions/{page}/{editedAt}.md`. */
  function VersionKey(pageId: string, editedAt: string): string {
    "wiki-versions/" + pageId + "/" + editedAt + ".md"
  }

  /** `MAX(version_number)` of a page, 0 for `NULL` (no versions). */
  function MaxVersion(vs: seq<WikiVersion>, pageId: string): (r: nat)
    ensures forall i :: 0 <= i < |vs| && vs[i].pageId == pageId ==> vs[i].versionNumber <= r
    ensures r == 0 || exists i :: 0 <= i < |vs| && vs[i].pageId == pageId && vs[i].versionNumber == r
  {
    if |vs| == 0 then 0
    else
      var rest := MaxVersion(vs[1..], pageId);
      assert forall i :: 1 <= i < |vs| ==> vs[i] == vs[1..][i - 1];
      if vs[0].pageId == pageId && vs[0].versionNumber > rest then vs[0].versionNumber else rest
  }

  /** The number the new version gets: one above every existing version
      of the page, 1 for the first, and never more than that. */
  function NextVersion(vs: seq<WikiVersion>, pageId: string): (r: nat)
    ensures r >= 1
    ensures forall i :: 0 <= i < |vs| && vs[i].pageId == pageId ==> vs[i].versionNumber < r
    ensures r == 1 || exists i :: 0 <= i < |vs| && vs[i].pageId == pageId && vs[i].versionNumber == r - 1
  {
    MaxVersion(vs, pageId) + 1
  }

  lemma NextVersionAbove(vs: seq<WikiVersion>, pageId: string, w: WikiVersion)
    ensures w in vs && w.pageId == pageId ==> w.versionNumber < NextVersion(vs, pageId)
  {
    if w in vs {
      var i :| 0 <= i < |vs| && vs[i] == w;
    }
  }

  lemma FirstVersionIsOne(vs: seq<WikiVersion>, pageId: string)
    requires forall i :: 0 <= i < |vs| ==> vs[i].pageId != pageId || vs[i].versionNumber == 0
    ensures NextVersion(vs, pageId) == 1
  {
  }

  /** Higher version first. */
  predicate NewerVersion(a: WikiVersion, b: WikiVersion) {
    a.versionNumber >= b.versionNumber
  }

  function PageVersions(vs: seq<WikiVersion>, pageId: string): (r: seq<WikiVersion>)
    ensures forall v :: v in r <==> v in vs && v.pageId == pageId
  {
    Filter(vs, (v: WikiVersion) => v.pageId == pageId)
  }

  /** `SELECT id … WHERE page_id = ? ORDER BY version_number DESC LIMIT 50`. */
  function NewestIds(vs: seq<WikiVersion>, pageId: string): (r: seq<string>)
    ensures |r| <= KeptVersions
  {
    var top := Take(SortBy(PageVersions(vs, pageId), NewerVersion), KeptVersions);
    seq(|top|, i requires 0 <= i < |top| => top[i].id)
  }

  /** `DELETE … WHERE page_id = ? AND id NOT IN (…newest fifty…)`. */
  function PruneVersions(vs: seq<WikiVersion>, pageId: string): (r: seq<WikiVersion>)
    ensures forall v :: v in r <==> v in vs && (v.pageId != pageId || v.id in NewestIds(vs, pageId))
  {
    var keep := NewestIds(vs, pageId);
    Filter(vs, (v: WikiVersion) => v.pageId != pageId || v.id in keep)
  }

  /** The table's primary key. */
  predicate DistinctVersionIds(vs: seq<WikiVersion>) {
    forall i, j :: 0 <= i < j < |vs| ==> vs[i].id != vs[j].id
  }

  lemma NewerVersionOrders()
    ensures Total(NewerVersion) && Transitive(NewerVersion)
  {
  }

  /** The sorted versions of a page, with what sorting promises. */
  lemma SortedPage(vs: seq<WikiVersion>, pageId: string)
    ensures var s := SortBy(PageVersions(vs, pageId), NewerVersion);
      && SortedBy(s, NewerVersion)
      && forall v :: v in s <==> v in vs && v.pageId == pageId
  {
    var page := PageVersions(vs, pageId);
    NewerVersionOrders();
    SortBySorted(page, NewerVersion);
    var s := SortBy(page, NewerVersion);
    forall v ensures v in s <==> v in page {
      assert v in s <==> v in multiset(s);
      assert v in page <==> v in multiset(page);
    }
  }

  /** A version of the page whose id is among the newest ids is one of
      the newest rows (ids are a key). */
  lemma KeptIsTop(vs: seq<WikiVersion>, pageId: string, w: WikiVersion) returns (k: nat)
    requires DistinctVersionIds(vs)
    requires w in vs && w.pageId == pageId && w.id in NewestIds(vs, pageId)
    ensures var s := SortBy(PageVersions(vs, pageId), NewerVersion);
      k < |s| && k < KeptVersions && s[k] == w
  {
    var s := SortBy(PageVersions(vs, pageId), NewerVersion);
    SortedPage(vs, pageId);
    var top := Take(s, KeptVersions);
    var ids := NewestIds(vs, pageId);
    var j :| 0 <= j < |ids| && ids[j] == w.id;
    k := j;
    assert top[k] == s[k] && s[k].id == w.id;
    assert s[k] in vs;
    var a :| 0 <= a < |vs| && vs[a] == s[k];
    var b :| 0 <= b < |vs| && vs[b] == w;
    assert a == b;
  }

  /** A version of the page outside the newest ids sits after them in
      the sorted order. */
  lemma DroppedIsLate(vs: seq<WikiVersion>, pageId: string, v: WikiVersion) returns (k: nat)
    requires v in vs && v.pageId == pageId && v.id !in NewestIds(vs, pageId)
    ensures var s := SortBy(PageVersions(vs, pageId), NewerVersion);
      KeptVersions <= k < |s| && s[k] == v
  {
    var s := SortBy(PageVersions(vs, pageId), NewerVersion);
    SortedPage(vs, pageId);
    var j :| 0 <= j < |s| && s[j] == v;
    k := j;
    NewestIdsAt(vs, pageId, k);
  }

  /** The `k`-th newest id is the id of the `k`-th sorted version. */
  lemma NewestIdsAt(vs: seq<WikiVersion>, pageId: string, k: nat)
    ensures var s := SortBy(PageVersions(vs, pageId), NewerVersion);
      k < KeptVersions && k < |s| ==> k < |NewestIds(vs, pageId)| && NewestIds(vs, pageId)[k] == s[k].id
  {
  }

  /** After pruning, every kept version of the page is numbered at least
      as high as every pruned one: the newest fifty remain. */
  lemma PruneKeepsNewest(vs: seq<WikiVersion>, pageId: string, kept: WikiVersion, dropped: WikiVersion)
    requires DistinctVersionIds(vs)
    requires kept in PruneVersions(vs, pageId) && kept.pageId == pageId
    requires dropped in vs && dropped.pageId == pageId && dropped !in PruneVersions(vs, pageId)
    ensures kept.versionNumber >= dropped.versionNumber
  {
    var a := KeptIsTop(vs, pageId, kept);
    var b := DroppedIsLate(vs, pageId, dropped);
    SortedPage(vs, pageId);
  }

  /** Versions of other pages are never pruned, and a page with at most
      fifty versions loses none. */
  lemma PruneKeepsOthers(vs: seq<WikiVersion>, pageId: string)
    ensures forall v :: v in vs && v.pageId != pageId ==> v in PruneVersions(vs, pageId)
    ensures |PageVersions(vs, pageId)| <= KeptVersions ==> forall v :: v in vs ==> v in PruneVersions(vs, pageId)
  {
    if |PageVersions(vs, pageId)| <= KeptVersions {
      SortedPage(vs, pageId);
      var s := SortBy(PageVersions(vs, pageId), NewerVersion);
      forall v | v in vs && v.pageId == pageId ensures v.id in NewestIds(vs, pageId) {
        var k :| 0 <= k < |s| && s[k] == v;
        assert NewestIds(vs, pageId)[k] == v.id;
      }
    }
  }

  /** A `WHERE` keeps version ids distinct. */
  lemma {:induction false} FilterKeepsVersionIds(vs: seq<WikiVersion>, p: WikiVersion -> bool)
    requires DistinctVersionIds(vs)
    ensures DistinctVersionIds(Filter(vs, p))
    decreases |vs|
  {
    if |vs| > 0 {
      var rest := vs[1..];
      assert DistinctVersionIds(rest) by {
        forall i, j | 0 <= i < j < |rest| ensures rest[i].id != rest[j].id {
          assert rest[i] == vs[i + 1] && rest[j] == vs[j + 1];
        }
      }
      FilterKeepsVersionIds(rest, p);
      if p(vs[0]) {
        var t := Filter(rest, p);
        var r := [vs[0]] + t;
        forall i, j | 0 <= i < j < |r| ensures r[i].id != r[j].id {
          assert r[j] == t[j - 1] && t[j - 1] in rest;
          if i == 0 {
            var q :| 0 <= q < |rest| && rest[q] == t[j - 1];
            assert vs[q + 1] == t[j - 1];
          } else {
            assert r[i] == t[i - 1];
          }
        }
      }
    }
  }

  /** A sequence without repeats, all of whose elements lie in `b`, is no
      longer than `b` is large. */
  lemma {:induction false} NoRepeatsFit<T>(a: seq<T>, b: set<T>)
    requires forall i, j :: 0 <= i < j < |a| ==> a[i] != a[j]
    requires forall i :: 0 <= i < |a| ==> a[i] in b
    ensures |a| <= |b|
    decreases |a|
  {
    if |a| > 0 {
      var rest := a[1..];
      forall i | 0 <= i < |rest| ensures rest[i] in b - {a[0]} {
        assert rest[i] == a[i + 1];
      }
      forall i, j | 0 <= i < j < |rest| ensures rest[i] != rest[j] {
        assert rest[i] == a[i + 1] && rest[j] == a[j + 1];
      }
      NoRepeatsFit(rest, b - {a[0]});
    }
  }

  /** A sequence has at most as many distinct elements as positions. */
  lemma {:induction false} SeqSetBound<T>(s: seq<T>)
    ensures |set x | x in s| <= |s|
  {
    if |s| > 0 {
      SeqSetBound(s[1..]);
      assert (set x | x in s) == (set x | x in s[1..]) + {s[0]};
    }
  }

  /** After pruning, a page keeps at most fifty versions. */
  lemma PruneBoundsPage(vs: seq<WikiVersion>, pageId: string)
    requires DistinctVersionIds(vs)
    ensures |PageVersions(PruneVersions(vs, pageId), pageId)| <= KeptVersions
  {
    var pruned := PruneVersions(vs, pageId);
    var kept := PageVersions(pruned, pageId);
    var keep := NewestIds(vs, pageId);
    FilterKeepsVersionIds(vs, (v: WikiVersion) => v.pageId != pageId || v.id in keep);
    FilterKeepsVersionIds(pruned, (v: WikiVersion) => v.pageId == pageId);
    var s := SortBy(PageVersions(vs, pageId), NewerVersion);
    var top := Take(s, KeptVersions);
    forall i | 0 <= i < |kept| ensures kept[i] in (set x | x in top) {
      assert kept[i] in pruned && kept[i].pageId == pageId;
      var k := KeptIsTop(vs, pageId, kept[i]);
      assert top[k] == kept[i];
    }
    NoRepeatsFit(kept, set x | x in top);
    SeqSetBound(top);
  }

  /** The `wiki_snapshot` job: store the content, add the version row
      numbered after the page's highest, then prune the page to its newest
      fifty versions. */
  function Snapshot(db: Db, pageId: string, title: string, content: string, editedAt: string, id: string, uploaded: int): (r: Db)
    ensures var key := VersionKey(pageId, editedAt);
      key in r.fileBucket && r.fileBucket[key] == StoredObject(TextBody(content), None, uploaded)
    ensures r == db.(fileBucket := r.fileBucket, wikiVersions := r.wikiVersions)
  {
    var key := VersionKey(pageId, editedAt);
    var version := WikiVersion(id, pageId, NextVersion(db.wikiVersions, pageId), title, key, |content|);
    db.(fileBucket := db.fileBucket[key := StoredObject(TextBody(content), None, uploaded)],
        wikiVersions := PruneVersions(db.wikiVersions + [version], pageId))
  }

  /** The new version is numbered above every earlier version of the page
      and survives its own pruning. */
  lemma SnapshotKeepsNewVersion(db: Db, pageId: string, title: string, content: string, editedAt: string, id: string, uploaded: int)
    ensures var v := WikiVersion(id, pageId, NextVersion(db.wikiVersions, pageId), title, VersionKey(pageId, editedAt), |content|);
      v in Snapshot(db, pageId, title, content, editedAt, id, uploaded).wikiVersions
  {
    var v := WikiVersion(id, pageId, NextVersion(db.wikiVersions, pageId), title, VersionKey(pageId, editedAt), |content|);
    var vs := db.wikiVersions + [v];
    var s := SortBy(PageVersions(vs, pageId), NewerVersion);
    SortedPage(vs, pageId);
    assert v in s;
    var j :| 0 <= j < |s| && s[j] == v;
    var w := s[0];
    assert w in vs && w.pageId == pageId && NewerVersion(w, v);
    NextVersionAbove(db.wikiVersions, pageId, w);
    assert w == v;
    assert NewestIds(vs, pageId)[0] == v.id;
  }

  // ------------------------------------------------------------ backups

  /** The tables a backup reads, in order. */
  const BackupTables: seq<string> := [
    "conversations", "messages", "gossip_messages", "message_images", "message_files", "tags",
    "conversation_tags", "message_annotations", "wiki_categories", "wiki_pages", "wiki_page_tags",
    "conversation_wiki_pins", "wiki_page_versions", "conversation_wiki_generations"]

  const BackupPrefix: string := "backups/d1-"

  /** A table's rows, or `[]` when its read throws. */
  function TableRows(db: Db, svc: Services, table: string): Json {
    JArr(svc.readTable(db, table).GetOr([]))
  }

  /** The backup document: one key per table. */
  function BackupDocument(db: Db, svc: Services): (r: Json)
    ensures r.JObj? && |r.fields| == |BackupTables|
  {
    JObj(seq(|BackupTables|, i requires 0 <= i < |BackupTables| => (BackupTables[i], TableRows(db, svc, BackupTables[i]))))
  }

  /** Every table reads back from the document as its rows, and a table
      whose read failed as an empty array: the backup goes on. */
  lemma BackupHoldsEveryTable(db: Db, svc: Services, table: string)
    requires table in BackupTables
    ensures Field(BackupDocument(db, svc).fields, table) == Some(TableRows(db, svc, table))
    ensures svc.readTable(db, table).None? ==> Field(BackupDocument(db, svc).fields, table) == Some(JArr([]))
  {
    var fields := BackupDocument(db, svc).fields;
    var k :| 0 <= k < |BackupTables| && BackupTables[k] == table;
    assert fields[k].0 == table;
    var r := Field(fields, table);
    var i :| 0 <= i < |fields| && fields[i] == (table, r.value);
  }

  function BackupKey(iso: string): string {
    BackupPrefix + ExportMarkdown.KeyTimestamp(iso) + ".json"
  }

  /** `k` is the least of `keys` in code-point order. */
  predicate IsLeast(k: string, keys: set<string>) {
    k in keys && forall j :: j in keys ==> StrLe(k, j)
  }

  /** The least key of a set, in code-point order. */
  function Least(keys: set<string>): (k: string)
    requires keys != {}
    ensures k in keys && forall j :: j in keys ==> StrLe(k, j)
  {
    LeastExists(keys);
    StrLeAntisymmetricAll();
    var k :| IsLeast(k, keys);
    k
  }

  lemma StrLeAntisymmetricAll()
    ensures forall a, b :: StrLe(a, b) && StrLe(b, a) ==> a == b
  {
    forall a, b | StrLe(a, b) && StrLe(b, a) ensures a == b {
      StrLeAntisymmetric(a, b);
    }
  }

  lemma {:induction false} LeastExists(keys: set<string>)
    requires keys != {}
    ensures exists k :: IsLeast(k, keys)
    decreases |keys|
  {
    var x :| x in keys;
    if keys == {x} {
      StrLeReflexive(x);
      assert IsLeast(x, keys);
    } else {
      var rest := keys - {x};
      LeastExists(rest);
      var m :| IsLeast(m, rest);
      assert keys == rest + {x};
      LeastOfAdded(x, m, rest);
    }
  }

  /** Adding `x` to a set whose least key is `m`: the least is the smaller
      of the two. */
  lemma LeastOfAdded(x: string, m: string, rest: set<string>)
    requires IsLeast(m, rest)
    ensures IsLeast(x, rest + {x}) || IsLeast(m, rest + {x})
  {
    StrLeTotal(x, m);
    if StrLe(x, m) {
      StrLeReflexive(x);
      forall j | j in rest + {x} ensures StrLe(x, j) {
        if j != x { StrLeTransitive(x, m, j); }
      }
    } else {
      forall j | j in rest + {x} ensures StrLe(m, j) {
        if j != x { assert j in rest; }
      }
    }
  }

  /** R2's listing: the keys in lexicographic order. */
  function InKeyOrder(keys: set<string>): (r: seq<string>)
    ensures |r| == |keys|
    ensures forall k :: k in r <==> k in keys
    ensures forall i, j :: 0 <= i < j < |r| ==> r[i] != r[j]
    decreases |keys|
  {
    if keys == {} then []
    else
      var k := Least(keys);
      var rest := InKeyOrder(keys - {k});
      assert forall i :: 0 < i <= |rest| ==> ([k] + rest)[i] == rest[i - 1];
      [k] + rest
  }

  /** An object of the backup listing. */
  datatype Listed = Listed(key: string, uploaded: int)

  predicate UploadedNoLater(a: Listed, b: Listed) {
    a.uploaded <= b.uploaded
  }

  /** The keys under the backup prefix, in key order. */
  function BackupKeys(bucket: map<string, StoredObject>): (r: seq<string>)
    ensures forall k :: k in r <==> k in bucket && StartsWith(k, BackupPrefix)
    ensures forall i, j :: 0 <= i < j < |r| ==> r[i] != r[j]
  {
    InKeyOrder(set k | k in bucket && StartsWith(k, BackupPrefix))
  }

  /** `env.FILES.list({ prefix: "backups/d1-" })`. */
  function Backups(bucket: map<string, StoredObject>): (r: seq<Listed>)
    ensures |r| == |BackupKeys(bucket)|
    ensures forall i :: 0 <= i < |r| ==> r[i] == Listed(BackupKeys(bucket)[i], bucket[BackupKeys(bucket)[i]].uploaded)
  {
    var keys := BackupKeys(bucket);
    assert forall i :: 0 <= i < |keys| ==> keys[i] in keys;
    seq(|keys|, i requires 0 <= i < |keys| => Listed(keys[i], bucket[keys[i]].uploaded))
  }

  /** The listing holds every backup once, with its upload time, and
      nothing else. */
  lemma BackupsListed(bucket: map<string, StoredObject>)
    ensures var r := Backups(bucket);
      && (forall i :: 0 <= i < |r| ==>
            r[i].key in bucket && StartsWith(r[i].key, BackupPrefix) && r[i].uploaded == bucket[r[i].key].uploaded)
      && (forall k :: k in bucket && StartsWith(k, BackupPrefix) ==> exists i :: 0 <= i < |r| && r[i].key == k)
      && (forall i, j :: 0 <= i < j < |r| ==> r[i].key != r[j].key)
  {
    var r := Backups(bucket);
    var keys := BackupKeys(bucket);
    assert forall i :: 0 <= i < |keys| ==> keys[i] in keys;
    forall k | k in bucket && StartsWith(k, BackupPrefix) ensures exists i :: 0 <= i < |r| && r[i].key == k {
      var i :| 0 <= i < |keys| && keys[i] == k;
      assert r[i].key == k;
    }
  }

  /** The oldest `count - 10` backups by upload time, when there are more
      than ten. */
  function Expired(listing: seq<Listed>): (r: seq<Listed>)
    ensures |listing| <= KeptBackups ==> r == []
    ensures |listing| > KeptBackups ==> |r| == |listing| - KeptBackups
  {
    if |listing| > KeptBackups then SortBy(listing, UploadedNoLater)[..|listing| - KeptBackups] else []
  }

  /** The newest ten, which stay. */
  function Kept(listing: seq<Listed>): (r: seq<Listed>)
    ensures |r| == if |listing| > KeptBackups then KeptBackups else |listing|
  {
    if |listing| > KeptBackups then SortBy(listing, UploadedNoLater)[|listing| - KeptBackups..] else listing
  }

  function ExpiredKeys(listing: seq<Listed>): set<string> {
    set x | x in Expired(listing) :: x.key
  }

  /** `env.FILES.delete(toDelete)`. */
  function PruneBackups(bucket: map<string, StoredObject>): (r: map<string, StoredObject>)
    ensures forall k :: k in r <==> k in bucket && k !in ExpiredKeys(Backups(bucket))
    ensures forall k :: k in r ==> r[k] == bucket[k]
  {
    var gone := ExpiredKeys(Backups(bucket));
    map k | k in bucket && k !in gone :: bucket[k]
  }

  lemma UploadedOrders()
    ensures Total(UploadedNoLater) && Transitive(UploadedNoLater)
  {
  }

  /** Every pruned backup was uploaded no later than every kept one. */
  lemma ExpiredAreOldest(listing: seq<Listed>, old_: Listed, new_: Listed)
    requires old_ in Expired(listing) && new_ in Kept(listing)
    ensures old_.uploaded <= new_.uploaded
  {
    UploadedOrders();
    SortBySorted(listing, UploadedNoLater);
    var s := SortBy(listing, UploadedNoLater);
    var n := |listing| - KeptBackups;
    var i :| 0 <= i < n && s[i] == old_;
    var j :| n <= j < |s| && s[j] == new_;
  }

  /** The sorted listing splits into the expired and the kept. */
  lemma ExpiredAndKept(listing: seq<Listed>)
    ensures multiset(Expired(listing)) + multiset(Kept(listing)) == multiset(listing)
  {
    if |listing| > KeptBackups {
      var s := SortBy(listing, UploadedNoLater);
      assert s == s[..|listing| - KeptBackups] + s[|listing| - KeptBackups..];
    }
  }

  /** Both halves come from the listing. */
  lemma ExpiredAndKeptListed(listing: seq<Listed>)
    ensures forall y :: y in Expired(listing) ==> y in listing
    ensures forall x :: x in Kept(listing) ==> x in listing
  {
    ExpiredAndKept(listing);
    forall y | y in Expired(listing) ensures y in listing {
      assert y in multiset(listing);
    }
    forall x | x in Kept(listing) ensures x in listing {
      assert x in multiset(listing);
    }
  }

  /** Listing keys are distinct, so a key names one listed object. */
  lemma SameKeySame(listing: seq<Listed>, x: Listed, y: Listed)
    requires forall i, j :: 0 <= i < j < |listing| ==> listing[i].key != listing[j].key
    requires x in listing && y in listing
    ensures x.key == y.key ==> x == y
  {
    var a :| 0 <= a < |listing| && listing[a] == x;
    var b :| 0 <= b < |listing| && listing[b] == y;
  }

  /** A kept backup is not among the expired ones. */
  lemma KeptNotExpired(listing: seq<Listed>, x: Listed)
    requires forall i, j :: 0 <= i < j < |listing| ==> listing[i].key != listing[j].key
    requires x in Kept(listing)
    ensures x.key !in ExpiredKeys(listing)
  {
    ExpiredAndKept(listing);
    ExpiredAndKeptListed(listing);
    var a :| 0 <= a < |listing| && listing[a] == x;
    NoRepeat(listing, a);
    assert multiset(Kept(listing))[x] >= 1;
    assert x !in Expired(listing);
    forall y | y in Expired(listing) ensures y.key != x.key {
      SameKeySame(listing, x, y);
    }
  }

  /** After pruning, the backups that remain are exactly the kept ones:
      at most ten, the newest. Other objects are untouched. */
  lemma PruneLeavesNewestTen(bucket: map<string, StoredObject>)
    ensures var listing := Backups(bucket);
      forall x :: x in Kept(listing) ==> x.key in PruneBackups(bucket)
    ensures forall k :: k in bucket && !StartsWith(k, BackupPrefix) ==> k in PruneBackups(bucket)
    ensures |Kept(Backups(bucket))| <= KeptBackups
  {
    var listing := Backups(bucket);
    BackupsListed(bucket);
    ExpiredAndKeptListed(listing);
    forall x | x in Kept(listing) ensures x.key !in ExpiredKeys(listing) && x.key in bucket {
      KeptNotExpired(listing, x);
    }
    assert forall y :: y in Expired(listing) ==> StartsWith(y.key, BackupPrefix);
  }

  lemma {:induction false} NoRepeat(listing: seq<Listed>, a: nat)
    requires a < |listing|
    requires forall i, j :: 0 <= i < j < |listing| ==> listing[i].key != listing[j].key
    ensures multiset(listing)[listing[a]] == 1
    decreases |listing|
  {
    var n := |listing|;
    var front := listing[..n - 1];
    assert listing == front + [listing[n - 1]];
    if a == n - 1 {
      assert listing[a] !in front;
    } else {
      NoRepeat(front, a);
      assert front[a] == listing[a];
    }
  }

  /** The `database_backup` job: write the document under a timestamped
      key, then prune to the newest ten backups. */
  function Backup(db: Db, svc: Services): (r: Db)
    ensures r == db.(fileBucket := r.fileBucket)
  {
    var written := PutText(db, BackupKey(svc.now.iso), svc.stringify(BackupDocument(db, svc)), "application/json", svc.now.ms);
    written.(fileBucket := PruneBackups(written.fileBucket))
  }

  // ------------------------------------------------------------ dispatch

  /** `processJob`: the store afterwards, or the error the job throws. */
  function Process(db: Db, job: QueueJob, svc: Services, id: string): (r: Result<Db>)
    ensures job.UnknownJob? ==> r == Ok(db)
    ensures job.GossipJob? ==> r == Ok(db.(gossip := db.gossip + [GossipRowOf(job, id)]))
  {
    match job
    case GossipJob(_, _, _, _) => Ok(db.(gossip := db.gossip + [GossipRowOf(job, id)]))
    case SummarizeConversation(cid) => svc.summarize(db, cid)
    case SummarizeBatch => Ok(Fanout(db, SummaryCandidates(db), (cid: string) => SummarizeConversation(cid)))
    case WaterCooler => svc.waterCooler(db)
    case ExportConversation(cid, format) =>
      (match ExportMarkdown.ExportConversation(db, cid, format, svc.now, svc.stringify, svc.formatTime, svc.showNumber)
       case Ok(done) => Ok(done.db)
       case Err(e) => Err(e))
    case WikiSnapshot(pageId, title, content, editedAt) => Ok(Snapshot(db, pageId, title, content, editedAt, id, svc.now.ms))
    case DatabaseBackup => Ok(Backup(db, svc))
    case ArchiveBatch => Ok(Fanout(db, ArchiveCandidates(db, svc.archiveCutoff), (cid: string) => ArchiveConversation(cid)))
    case ArchiveConversation(cid) => Archive.ArchiveConversation(db, cid, svc.now, svc.stringify)
    case UnknownJob(_) => Ok(db)
  }

  datatype Verdict = Ack | Retry

  /** The state of a batch run: the store and the verdicts so far. */
  datatype Run = Run(db: Db, verdicts: seq<Verdict>)

  /** `handleQueue`: the messages one after the other; a job that returns
      is acknowledged and its writes kept, a job that throws is retried. */
  function HandleQueue(db: Db, jobs: seq<QueueJob>, svc: Services): (r: Run)
    ensures |r.verdicts| == |jobs|
    decreases |jobs|
  {
    if |jobs| == 0 then Run(db, [])
    else
      var n := |jobs| - 1;
      var before := HandleQueue(db, jobs[..n], svc);
      match Process(before.db, jobs[n], svc, svc.freshId(n))
      case Ok(after) => Run(after, before.verdicts + [Ack])
      case Err(_) => Run(before.db, before.verdicts + [Retry])
  }

  /** The store as the `i`-th message finds it. */
  function Before(db: Db, jobs: seq<QueueJob>, svc: Services, i: nat): Db
    requires i <= |jobs|
  {
    HandleQueue(db, jobs[..i], svc).db
  }

  lemma {:induction false} VerdictsExtend(db: Db, jobs: seq<QueueJob>, svc: Services, i: nat)
    requires i <= |jobs|
    ensures HandleQueue(db, jobs, svc).verdicts[..i] == HandleQueue(db, jobs[..i], svc).verdicts
    decreases |jobs|
  {
    if i < |jobs| {
      var n := |jobs| - 1;
      assert jobs[..n][..i] == jobs[..i];
      VerdictsExtend(db, jobs[..n], svc, i);
      var before := HandleQueue(db, jobs[..n], svc);
      assert HandleQueue(db, jobs, svc).verdicts[..n] == before.verdicts;
    } else {
      assert jobs[..i] == jobs;
    }
  }

  /** Every message is settled exactly once: acknowledged exactly when its
      job returns on the store the earlier jobs left, retried exactly when
      it throws. */
  lemma VerdictOfEach(db: Db, jobs: seq<QueueJob>, svc: Services, i: nat)
    requires i < |jobs|
    ensures HandleQueue(db, jobs, svc).verdicts[i] == Ack <==> Process(Before(db, jobs, svc, i), jobs[i], svc, svc.freshId(i)).Ok?
  {
    VerdictsExtend(db, jobs, svc, i + 1);
    assert jobs[..i + 1][..i] == jobs[..i];
    assert HandleQueue(db, jobs, svc).verdicts[i] == HandleQueue(db, jobs[..i + 1], svc).verdicts[i];
  }

  /** A job that throws leaves the store as it found it for the next
      message, so the rest of the batch still runs. */
  lemma FailureDoesNotStopBatch(db: Db, jobs: seq<QueueJob>, svc: Services, i: nat)
    requires i < |jobs|
    requires Process(Before(db, jobs, svc, i), jobs[i], svc, svc.freshId(i)).Err?
    ensures Before(db, jobs, svc, i + 1) == Before(db, jobs, svc, i)
  {
    assert jobs[..i + 1][..i] == jobs[..i];
  }

  /** A message of a kind outside the union is acknowledged, never retried. */
  lemma UnknownJobAcked(db: Db, jobs: seq<QueueJob>, svc: Services, i: nat)
    requires i < |jobs| && jobs[i].UnknownJob?
    ensures HandleQueue(db, jobs, svc).verdicts[i] == Ack
  {
    VerdictOfEach(db, jobs, svc, i);
  }
}

=== FILE: relink.dfy ===
/** Where the restore batch's link statements leave each attachment row:
    a row of the conversation ends up linked to the last entry that lists
    its id, and every other row is untouched. */
module Relink {
  import opened Wrappers
  import opened Store
  import opened Restore
  import opened RestoreBatch

  /** The index of the last entry listing `id` among its image ids
      (`images`) or file ids, or -1. */
  function Owner(sms: seq<SnapMessage>, id: string, images: bool): (r: int)
    ensures -1 <= r < |sms|
    ensures r >= 0 ==> id in IdsOf(sms[r], images)
    ensures forall j :: r < j < |sms| ==> id !in IdsOf(sms[j], images)
    decreases |sms|
  {
    if |sms| == 0 then -1
    else if id in IdsOf(sms[|sms| - 1], images) then |sms| - 1
    else Owner(sms[..|sms| - 1], id, images)
  }

  /** One entry's link statements, row by row. */
  lemma {:induction false} LinkEachAt(rows: seq<Attachment>, ids: seq<string>, conversationId: string, messageId: string, k: nat)
    requires k < |rows|
    ensures LinkEach(rows, ids, conversationId, messageId)[k] ==
            if rows[k].conversationId == conversationId && rows[k].id in ids then rows[k].(messageId := Some(messageId))
            else rows[k]
    decreases |ids|
  {
    if |ids| > 0 {
      var next := LinkAttachment(rows, ids[0], conversationId, Some(messageId));
      LinkEachAt(next, ids[1..], conversationId, messageId, k);
      assert rows[k].id in ids <==> rows[k].id == ids[0] || rows[k].id in ids[1..];
    }
  }

  /** All the entries' link statements, row by row: the last entry listing
      the row's id wins. */
  lemma {:induction false} LinkAllAt(rows: seq<Attachment>, conversationId: string, sms: seq<SnapMessage>, images: bool, k: nat)
    requires k < |rows|
    ensures var o := Owner(sms, rows[k].id, images);
      LinkAll(rows, conversationId, sms, images)[k] ==
        if rows[k].conversationId == conversationId && o >= 0 then rows[k].(messageId := Some(sms[o].id)) else rows[k]
    decreases |sms|
  {
    if |sms| > 0 {
      var p, last := sms[..|sms| - 1], sms[|sms| - 1];
      LinkAllAt(rows, conversationId, p, images, k);
      LinkEachAt(LinkAll(rows, conversationId, p, images), IdsOf(last, images), conversationId, last.id, k);
    }
  }

  /** Detaching a conversation's rows and then running the link statements
      of entries that list, for each message, exactly the rows linked to
      it gives back the rows as they were, provided every link names one
      of the entries. */
  lemma RelinkRestores(rows: seq<Attachment>, conversationId: string, sms: seq<SnapMessage>, images: bool)
    requires forall a, i | a in rows && a.conversationId == conversationId && 0 <= i < |sms| ::
               a.id in IdsOf(sms[i], images) <==> a.messageId == Some(sms[i].id)
    requires forall a | a in rows && a.conversationId == conversationId && a.messageId.Some? ::
               exists i :: 0 <= i < |sms| && sms[i].id == a.messageId.value
    ensures LinkAll(DetachAll(rows, conversationId), conversationId, sms, images) == rows
  {
    var detached := DetachAll(rows, conversationId);
    var r := LinkAll(detached, conversationId, sms, images);
    forall k | 0 <= k < |rows| ensures r[k] == rows[k] {
      LinkAllAt(detached, conversationId, sms, images, k);
      var a := rows[k];
      if a.conversationId == conversationId {
        var o := Owner(sms, a.id, images);
        if a.messageId.Some? {
          var i :| 0 <= i < |sms| && sms[i].id == a.messageId.value;
          assert a.id in IdsOf(sms[i], images);
          assert o >= i;
        } else {
          assert forall i :: 0 <= i < |sms| ==> a.id !in IdsOf(sms[i], images);
        }
      }
    }
  }
}

=== FILE: restore.dfy ===
/** `restoreConversation` of `src/routes/archive.ts`: the guards, the
    reading of the snapshot the archive wrote, the statement batch that
    puts the rows back, and the clearing of the archive mark. `JSON.parse`
    of the stored text is the parameter `parse`; `generateId()` is
    `newId`, indexed by the message's position in the snapshot. */
module Restore {
  import opened Wrappers
  import opened Text
  import opened Json
  import opened Store
  import opened Jobs
  import opened Export

  /** One entry of the snapshot's `messages` as the restore loop reads it:
      `parent_message_id || null`, the `id` of each image and file entry,
      and the annotation with `label || null`. */
  datatype SnapMessage = SnapMessage(id: string, role: string, content: string, createdAt: string,
                                     parent: Option<string>, imageIds: seq<string>, fileIds: seq<string>,
                                     annotation: Option<AnnotationRef>)

  // ------------------------------------------------------------ decoding

  /** A value passed to `.bind(...)` for a TEXT column. A string is
      stored, and a missing field (`undefined`) makes D1 refuse the
      statement. D1 would also bind a number or a boolean; those are not
      represented here and fail like `undefined`. */
  function StrField(fields: seq<(string, Json)>, key: string): (r: Result<string>)
    ensures r.Ok? <==> Field(fields, key).Some? && Field(fields, key).value.JStr?
    ensures r.Ok? ==> r.value == Field(fields, key).value.s
  {
    match Field(fields, key)
    case Some(JStr(s)) => Ok(s)
    case _ => Err("D1_TYPE_ERROR")
  }

  /** `v || null` bound as a nullable TEXT column. A truthy number or
      boolean, which D1 would bind, fails here as in `StrField`. */
  function OrNull(v: Option<Json>): (r: Result<Option<string>>)
    ensures r == Ok(None) <==> !Truthy(v)
    ensures r.Ok? && r.value.Some? ==> v == Some(JStr(r.value.value)) && r.value.value != ""
  {
    if !Truthy(v) then Ok(None)
    else
      match v.value
      case JStr(s) => Ok(Some(s))
      case _ => Err("D1_TYPE_ERROR")
  }

  /** The `id` of each entry of an `images` or `files` array. */
  function EntryIds(items: seq<Json>): (r: Result<seq<string>>)
    ensures r.Ok? <==> forall i :: 0 <= i < |items| ==> items[i].JObj? && StrField(items[i].fields, "id").Ok?
    ensures r.Ok? ==> |r.value| == |items|
    ensures r.Ok? ==> forall i :: 0 <= i < |items| ==> r.value[i] == StrField(items[i].fields, "id").value
  {
    if |items| == 0 then Ok([])
    else
      match items[0]
      case JObj(fields) =>
        (match StrField(fields, "id")
         case Err(e) => Err(e)
         case Ok(id) =>
           match EntryIds(items[1..])
           case Err(e) => Err(e)
           case Ok(rest) => Ok([id] + rest))
      case JNull => Err("Cannot read properties of null (reading 'id')")
      case _ => Err("D1_TYPE_ERROR")
  }

  /** `if (msg.images && msg.images.length > 0) for (const img of msg.images)`:
      a falsy value, an empty array and a value without a positive `length`
      link nothing; a non-empty string is iterated character by character,
      and a character has no `id`. An object with a positive `length`
      field, which `for … of` refuses as not iterable, is not told apart
      here and links nothing. */
  function LinkIds(v: Option<Json>): (r: Result<seq<string>>)
    ensures !Truthy(v) ==> r == Ok([])
    ensures v.Some? && v.value.JArr? ==> r == EntryIds(v.value.items)
  {
    if !Truthy(v) then Ok([])
    else
      match v.value
      case JArr(items) => EntryIds(items)
      case JStr(_) => Err("D1_TYPE_ERROR")
      case _ => Ok([])
  }

  /** `if (msg.annotation)`: its `type`, and its `label || null`. */
  function AnnotationOf(v: Option<Json>): (r: Result<Option<AnnotationRef>>)
    ensures r == Ok(None) <==> !Truthy(v)
    ensures r.Ok? && r.value.Some? ==>
      v.value.JObj? && StrField(v.value.fields, "type") == Ok(r.value.value.kind) &&
      OrNull(Field(v.value.fields, "label")) == Ok(r.value.value.labelText)
  {
    if !Truthy(v) then Ok(None)
    else
      match v.value
      case JObj(fields) =>
        (match StrField(fields, "type")
         case Err(e) => Err(e)
         case Ok(kind) =>
           match OrNull(Field(fields, "label"))
           case Err(e) => Err(e)
           case Ok(labelText) => Ok(Some(AnnotationRef(kind, labelText))))
      case _ => Err("D1_TYPE_ERROR")
  }

  /** The columns of the message row, in the order they are bound. */
  function DecodeColumns(f: seq<(string, Json)>): (r: Result<(string, string, string, string, Option<string>)>)
    ensures r.Ok? ==> StrField(f, "id") == Ok(r.value.0) && StrField(f, "content") == Ok(r.value.2)
  {
    var id :- StrField(f, "id");
    var role :- StrField(f, "role");
    var content :- StrField(f, "content");
    var createdAt :- StrField(f, "created_at");
    var parent :- OrNull(Field(f, "parent_message_id"));
    Ok((id, role, content, createdAt, parent))
  }

  /** The image links, file links and annotation, in that order. */
  function DecodeLinks(f: seq<(string, Json)>): (r: Result<(seq<string>, seq<string>, Option<AnnotationRef>)>)
    ensures r.Ok? ==> LinkIds(Field(f, "images")) == Ok(r.value.0) && LinkIds(Field(f, "files")) == Ok(r.value.1)
  {
    var imageIds :- LinkIds(Field(f, "images"));
    var fileIds :- LinkIds(Field(f, "files"));
    var annotation :- AnnotationOf(Field(f, "annotation"));
    Ok((imageIds, fileIds, annotation))
  }

  /** One iteration of `for (const msg of archive.messages)`, as far as
      reading `msg` goes. */
  function DecodeMessage(item: Json): (r: Result<SnapMessage>)
    ensures r.Ok? ==> item.JObj?
    ensures r.Ok? ==> StrField(item.fields, "id") == Ok(r.value.id) && StrField(item.fields, "content") == Ok(r.value.content)
    ensures item.JNull? ==> r.Err?
  {
    match item
    case JNull => Err("Cannot read properties of null (reading 'id')")
    case JObj(f) =>
      var c :- DecodeColumns(f);
      var l :- DecodeLinks(f);
      Ok(SnapMessage(c.0, c.1, c.2, c.3, c.4, l.0, l.1, l.2))
    case _ => Err("D1_TYPE_ERROR")
  }

  function DecodeMessages(items: seq<Json>): (r: Result<seq<SnapMessage>>)
    ensures r.Ok? <==> forall i :: 0 <= i < |items| ==> DecodeMessage(items[i]).Ok?
    ensures r.Ok? ==> |r.value| == |items|
    ensures r.Ok? ==> forall i :: 0 <= i < |items| ==> r.value[i] == DecodeMessage(items[i]).value
  {
    if |items| == 0 then Ok([])
    else
      match DecodeMessage(items[0])
      case Err(e) => Err(e)
      case Ok(m) =>
        match DecodeMessages(items[1..])
        case Err(e) => Err(e)
        case Ok(rest) => Ok([m] + rest)
  }

  /** `archive.messages` iterated with `for … of`: an array entry by entry,
      the empty string as nothing; anything else throws. Also
      `archive.messages.length`, the count the gossip line reports. */
  function DecodeSnapshot(root: Json): (r: Result<seq<SnapMessage>>)
    ensures root.JObj? && Field(root.fields, "messages") == Some(JArr([])) ==> r == Ok([])
    ensures r.Ok? ==> root.JObj?
  {
    match root
    case JObj(fields) =>
      (match Field(fields, "messages")
       case Some(JArr(items)) => DecodeMessages(items)
       case Some(JStr(s)) => if s == "" then Ok([]) else Err("D1_TYPE_ERROR")
       case Some(JNull) => Err("archive.messages is not iterable")
       case _ => Err("archive.messages is not iterable"))
    case JNull => Err("Cannot read properties of null (reading 'messages')")
    case _ => Err("archive.messages is not iterable")
  }

  // ------------------------------------------------------------ the batch

  /** The statements the restore loop pushes. */
  datatype Stmt =
    | InsertMessage(m: Message)
    | InsertFts(f: FtsRow)
    | LinkImage(id: string, conversationId: string, messageId: string)
    | LinkFile(id: string, conversationId: string, messageId: string)
    | InsertAnnotation(a: Annotation)

  /** Some annotation row already has this primary key. */
  predicate AnnotationIdUsed(rows: seq<Annotation>, id: string) {
    exists i :: 0 <= i < |rows| && rows[i].id == id
  }

  /** One statement; the two `INSERT`s with a primary key fail on a
      duplicate key. */
  function ExecStmt(db: Db, s: Stmt): (r: Result<Db>)
    ensures r.Err? <==> (s.InsertMessage? && FindMessage(db.messages, s.m.id).Some?) ||
                        (s.InsertAnnotation? && AnnotationIdUsed(db.annotations, s.a.id))
  {
    match s
    case InsertMessage(m) =>
      if FindMessage(db.messages, m.id).Some? then Err("UNIQUE constraint failed: messages.id")
      else Ok(db.(messages := db.messages + [m]))
    case InsertFts(f) => Ok(db.(messagesFts := db.messagesFts + [f]))
    case LinkImage(id, c, mid) => Ok(db.(images := LinkAttachment(db.images, id, c, Some(mid))))
    case LinkFile(id, c, mid) => Ok(db.(files := LinkAttachment(db.files, id, c, Some(mid))))
    case InsertAnnotation(a) =>
      if AnnotationIdUsed(db.annotations, a.id) then Err("UNIQUE constraint failed: message_annotations.id")
      else Ok(db.(annotations := db.annotations + [a]))
  }

  /** The store apart from the five tables a restore batch writes. */
  predicate SameOutsideBatch(a: Db, b: Db) {
    a == b.(messages := a.messages, messagesFts := a.messagesFts, images := a.images, files := a.files,
            annotations := a.annotations)
  }

  /** `env.DB.batch(stmts)`: the statements in order inside one
      transaction, so the first failure leaves the store as it was. */
  function RunBatch(db: Db, stmts: seq<Stmt>): (r: Result<Db>)
    ensures r.Ok? ==> SameOutsideBatch(r.value, db)
    decreases |stmts|
  {
    if |stmts| == 0 then Ok(db)
    else
      match ExecStmt(db, stmts[0])
      case Err(e) => Err(e)
      case Ok(next) => RunBatch(next, stmts[1..])
  }

  function ImageLinkStmts(ids: seq<string>, conversationId: string, messageId: string): (r: seq<Stmt>)
    ensures |r| == |ids|
    ensures forall i :: 0 <= i < |ids| ==> r[i] == LinkImage(ids[i], conversationId, messageId)
  {
    if |ids| == 0 then [] else [LinkImage(ids[0], conversationId, messageId)] + ImageLinkStmts(ids[1..], conversationId, messageId)
  }

  function FileLinkStmts(ids: seq<string>, conversationId: string, messageId: string): (r: seq<Stmt>)
    ensures |r| == |ids|
    ensures forall i :: 0 <= i < |ids| ==> r[i] == LinkFile(ids[i], conversationId, messageId)
  {
    if |ids| == 0 then [] else [LinkFile(ids[0], conversationId, messageId)] + FileLinkStmts(ids[1..], conversationId, messageId)
  }

  /** The message row a snapshot entry becomes. */
  function Restored(conversationId: string, sm: SnapMessage): Message {
    Message(sm.id, conversationId, sm.role, sm.content, sm.parent, sm.createdAt)
  }

  /** The statements of one snapshot entry, in the loop's order: the
      message, its search row, its image links, its file links, its
      annotation. */
  function MessageStmts(conversationId: string, sm: SnapMessage, annotationId: string, at: string): (r: seq<Stmt>)
    ensures |r| >= 2 && r[0] == InsertMessage(Restored(conversationId, sm))
    ensures r[1] == InsertFts(FtsRow(sm.id, conversationId, sm.role, sm.content))
  {
    [InsertMessage(Restored(conversationId, sm)), InsertFts(FtsRow(sm.id, conversationId, sm.role, sm.content))]
    + ImageLinkStmts(sm.imageIds, conversationId, sm.id)
    + FileLinkStmts(sm.fileIds, conversationId, sm.id)
    + AnnotationStmts(conversationId, sm, annotationId, at)
  }

  /** `if (msg.annotation)`: the insert with a fresh id. */
  function AnnotationStmts(conversationId: string, sm: SnapMessage, annotationId: string, at: string): (r: seq<Stmt>)
    ensures |r| == (if sm.annotation.Some? then 1 else 0)
  {
    match sm.annotation
    case None => []
    case Some(a) => [InsertAnnotation(Annotation(annotationId, sm.id, conversationId, a.kind, a.labelText, at))]
  }

  /** All the statements, entry after entry. */
  function RestoreStmts(conversationId: string, sms: seq<SnapMessage>, newId: nat -> string, at: string): seq<Stmt>
    decreases |sms|
  {
    if |sms| == 0 then []
    else RestoreStmts(conversationId, sms[..|sms| - 1], newId, at)
         + MessageStmts(conversationId, sms[|sms| - 1], newId(|sms| - 1), at)
  }

  // ------------------------------------------------------------ restore

  /** The text of a stored object. The archive always stores text; a
      bytes body, which `obj.text()` would decode, is not read here. */
  function BodyText(b: Body): (r: Result<string>)
    ensures b.TextBody? <==> r.Ok?
  {
    match b
    case TextBody(t) => Ok(t)
    case BytesBody(_) => Err("Unexpected token in JSON")
  }

  function RestoreGossip(title: string, count: nat): string {
    "Restored \"" + title + "\" from the archives \U{2014} " + NatToString(count) + " messages back in active duty!"
  }

  /** The batch and the clearing of the mark, once the snapshot has been
      read. */
  function Reinstate(db: Db, conv: Conversation, sms: seq<SnapMessage>, now: Instant, newId: nat -> string): (r: Result<Db>)
  {
    var stmts := RestoreStmts(conv.id, sms, newId, now.sql);
    var restored :- if |stmts| > 0 then RunBatch(db, stmts) else Ok(db);
    Ok(restored.(conversations := UpdateConversation(restored.conversations, conv.id,
                                                     (c: Conversation) => c.(archivedAt := None, archiveKey := None)),
                 outbox := restored.outbox + [GossipJob(D1Worker, RestoreGossip(conv.title, |sms|), Some("restore"), Some(conv.id))]))
  }

  /** `restoreConversation(env, conversationId)`. */
  function RestoreConversation(db: Db, conversationId: string, now: Instant, parse: string -> Option<Json>,
                               newId: nat -> string): (r: Result<Db>)
    ensures FindConversation(db.conversations, conversationId).None? ==> r == Err("Conversation not found")
    ensures var c := FindConversation(db.conversations, conversationId);
      c.Some? && (!IsSet(c.value.archivedAt) || !IsSet(c.value.archiveKey)) ==> r == Err("Not archived")
    ensures var c := FindConversation(db.conversations, conversationId);
      c.Some? && IsSet(c.value.archivedAt) && IsSet(c.value.archiveKey) && c.value.archiveKey.value !in db.fileBucket
      ==> r == Err("Archive data missing from R2")
  {
    match FindConversation(db.conversations, conversationId)
    case None => Err("Conversation not found")
    case Some(conv) =>
      if !IsSet(conv.archivedAt) || !IsSet(conv.archiveKey) then Err("Not archived")
      else if conv.archiveKey.value !in db.fileBucket then Err("Archive data missing from R2")
      else
        var text :- BodyText(db.fileBucket[conv.archiveKey.value].body);
        var root :- match parse(text) case None => Err("Unexpected token in JSON") case Some(j) => Ok(j);
        var sms :- DecodeSnapshot(root);
        Reinstate(db, conv, sms, now, newId)
  }

  /** Past the guards, the restore reinstates what the snapshot under the
      conversation's key decodes to. */
  lemma RestoreReads(db: Db, conversationId: string, now: Instant, parse: string -> Option<Json>, newId: nat -> string,
                     conv: Conversation, root: Json)
    requires FindConversation(db.conversations, conversationId) == Some(conv)
    requires IsSet(conv.archivedAt) && IsSet(conv.archiveKey) && conv.archiveKey.value in db.fileBucket
    requires db.fileBucket[conv.archiveKey.value].body.TextBody?
    requires parse(db.fileBucket[conv.archiveKey.value].body.text) == Some(root)
    requires DecodeSnapshot(root).Ok?
    ensures RestoreConversation(db, conversationId, now, parse, newId) == Reinstate(db, conv, DecodeSnapshot(root).value, now, newId)
  {
  }
}

=== FILE: restore_batch.dfy ===
/** What the restore batch of `src/routes/archive.ts` does to the store when
    no primary key clashes: every snapshot entry adds its message row, its
    search row and its annotation row at the end of their tables and links
    the listed image and file rows; nothing else changes. */
module RestoreBatch {
  import opened Wrappers
  import opened Store
  import opened Export
  import opened Restore
  import opened Jobs

  /** The image ids (`images`) or the file ids of an entry. */
  function IdsOf(sm: SnapMessage, images: bool): seq<string> {
    if images then sm.imageIds else sm.fileIds
  }

  /** `UPDATE … SET message_id = ? WHERE id = ? AND conversation_id = ?`
      for each id in turn. */
  function LinkEach(rows: seq<Attachment>, ids: seq<string>, conversationId: string, messageId: string): (r: seq<Attachment>)
    ensures |r| == |rows|
    decreases |ids|
  {
    if |ids| == 0 then rows
    else LinkEach(LinkAttachment(rows, ids[0], conversationId, Some(messageId)), ids[1..], conversationId, messageId)
  }

  /** The links of every entry, entry after entry. */
  function LinkAll(rows: seq<Attachment>, conversationId: string, sms: seq<SnapMessage>, images: bool): (r: seq<Attachment>)
    ensures |r| == |rows|
    decreases |sms|
  {
    if |sms| == 0 then rows
    else
      var last := sms[|sms| - 1];
      LinkEach(LinkAll(rows, conversationId, sms[..|sms| - 1], images), IdsOf(last, images), conversationId, last.id)
  }

  function RestoredAll(conversationId: string, sms: seq<SnapMessage>): (r: seq<Message>)
    ensures |r| == |sms|
    ensures forall i :: 0 <= i < |sms| ==> r[i] == Restored(conversationId, sms[i])
    decreases |sms|
  {
    if |sms| == 0 then [] else RestoredAll(conversationId, sms[..|sms| - 1]) + [Restored(conversationId, sms[|sms| - 1])]
  }

  function FtsOf(conversationId: string, sms: seq<SnapMessage>): (r: seq<FtsRow>)
    ensures |r| == |sms|
    ensures forall i :: 0 <= i < |sms| ==> r[i] == FtsRow(sms[i].id, conversationId, sms[i].role, sms[i].content)
    decreases |sms|
  {
    if |sms| == 0 then []
    else
      var last := sms[|sms| - 1];
      FtsOf(conversationId, sms[..|sms| - 1]) + [FtsRow(last.id, conversationId, last.role, last.content)]
  }

  /** The annotation row of one entry, if it has one. */
  function AnnotationRows(conversationId: string, sm: SnapMessage, id: string, at: string): (r: seq<Annotation>)
    ensures |r| <= 1 && (|r| == 1 <==> sm.annotation.Some?)
  {
    match sm.annotation
    case None => []
    case Some(a) => [Annotation(id, sm.id, conversationId, a.kind, a.labelText, at)]
  }

  function AnnotationsAll(conversationId: string, sms: seq<SnapMessage>, newId: nat -> string, at: string): seq<Annotation>
    decreases |sms|
  {
    if |sms| == 0 then []
    else AnnotationsAll(conversationId, sms[..|sms| - 1], newId, at)
         + AnnotationRows(conversationId, sms[|sms| - 1], newId(|sms| - 1), at)
  }

  /** The store after the statements of one entry. */
  function AfterOne(db: Db, conversationId: string, sm: SnapMessage, annotationId: string, at: string): Db {
    db.(messages := db.messages + [Restored(conversationId, sm)],
        messagesFts := db.messagesFts + [FtsRow(sm.id, conversationId, sm.role, sm.content)],
        images := LinkEach(db.images, sm.imageIds, conversationId, sm.id),
        files := LinkEach(db.files, sm.fileIds, conversationId, sm.id),
        annotations := db.annotations + AnnotationRows(conversationId, sm, annotationId, at))
  }

  /** The store after the whole batch: the entries' statements in turn. */
  function AfterAll(db: Db, conversationId: string, sms: seq<SnapMessage>, newId: nat -> string, at: string): Db
    decreases |sms|
  {
    if |sms| == 0 then db
    else AfterOne(AfterAll(db, conversationId, sms[..|sms| - 1], newId, at), conversationId, sms[|sms| - 1], newId(|sms| - 1), at)
  }

  /** No inserted key clashes: the entries' ids are new and distinct, and
      so are the ids drawn for their annotations. */
  predicate Fresh(db: Db, sms: seq<SnapMessage>, newId: nat -> string) {
    && (forall i :: 0 <= i < |sms| ==> FindMessage(db.messages, sms[i].id).None?)
    && (forall i, j :: 0 <= i < j < |sms| ==> sms[i].id != sms[j].id)
    && (forall i :: 0 <= i < |sms| && sms[i].annotation.Some? ==> !AnnotationIdUsed(db.annotations, newId(i)))
    && (forall i, j :: 0 <= i < j < |sms| && sms[i].annotation.Some? && sms[j].annotation.Some? ==> newId(i) != newId(j))
  }

  // ------------------------------------------------------------ lemmas

  /** A batch split in two runs as its halves in turn. */
  lemma {:induction false} RunBatchAppend(db: Db, a: seq<Stmt>, b: seq<Stmt>)
    ensures RunBatch(db, a + b) == match RunBatch(db, a) case Err(e) => Err(e) case Ok(d) => RunBatch(d, b)
    decreases |a|
  {
    if |a| > 0 {
      assert (a + b)[0] == a[0];
      assert (a + b)[1..] == a[1..] + b;
      match ExecStmt(db, a[0])
      case Err(_) =>
      case Ok(next) => RunBatchAppend(next, a[1..], b);
    } else {
      assert a + b == b;
    }
  }

  lemma {:induction false} RunImageLinks(db: Db, ids: seq<string>, conversationId: string, messageId: string)
    ensures RunBatch(db, ImageLinkStmts(ids, conversationId, messageId)) ==
            Ok(db.(images := LinkEach(db.images, ids, conversationId, messageId)))
    decreases |ids|
  {
    if |ids| > 0 {
      var next := db.(images := LinkAttachment(db.images, ids[0], conversationId, Some(messageId)));
      RunImageLinks(next, ids[1..], conversationId, messageId);
      assert ImageLinkStmts(ids, conversationId, messageId)[1..] == ImageLinkStmts(ids[1..], conversationId, messageId);
    }
  }

  lemma {:induction false} RunFileLinks(db: Db, ids: seq<string>, conversationId: string, messageId: string)
    ensures RunBatch(db, FileLinkStmts(ids, conversationId, messageId)) ==
            Ok(db.(files := LinkEach(db.files, ids, conversationId, messageId)))
    decreases |ids|
  {
    if |ids| > 0 {
      var next := db.(files := LinkAttachment(db.files, ids[0], conversationId, Some(messageId)));
      RunFileLinks(next, ids[1..], conversationId, messageId);
      assert FileLinkStmts(ids, conversationId, messageId)[1..] == FileLinkStmts(ids[1..], conversationId, messageId);
    }
  }

  /** The message and its search row, when the message id is new. */
  lemma RunHead(db: Db, m: Message, f: FtsRow)
    requires FindMessage(db.messages, m.id).None?
    ensures RunBatch(db, [InsertMessage(m), InsertFts(f)]) ==
            Ok(db.(messages := db.messages + [m], messagesFts := db.messagesFts + [f]))
  {
    var d0 := db.(messages := db.messages + [m]);
    assert ExecStmt(db, InsertMessage(m)) == Ok(d0);
    assert [InsertMessage(m), InsertFts(f)][1..] == [InsertFts(f)];
    var d1 := d0.(messagesFts := d0.messagesFts + [f]);
    assert ExecStmt(d0, InsertFts(f)) == Ok(d1);
    assert [InsertFts(f)][1..] == [];
    assert RunBatch(d0, [InsertFts(f)]) == RunBatch(d1, []);
  }

  /** The annotation insert, when its id is new. */
  lemma RunAnnotation(db: Db, conversationId: string, sm: SnapMessage, annotationId: string, at: string)
    requires sm.annotation.Some? ==> !AnnotationIdUsed(db.annotations, annotationId)
    ensures RunBatch(db, AnnotationStmts(conversationId, sm, annotationId, at)) ==
            Ok(db.(annotations := db.annotations + AnnotationRows(conversationId, sm, annotationId, at)))
  {
    if sm.annotation.Some? {
      var stmts := AnnotationStmts(conversationId, sm, annotationId, at);
      assert stmts[1..] == [];
    } else {
      assert db.annotations + [] == db.annotations;
    }
  }

  /** The statements of one entry, when its keys are new. */
  lemma RunMessage(db: Db, conversationId: string, sm: SnapMessage, annotationId: string, at: string)
    requires FindMessage(db.messages, sm.id).None?
    requires sm.annotation.Some? ==> !AnnotationIdUsed(db.annotations, annotationId)
    ensures RunBatch(db, MessageStmts(conversationId, sm, annotationId, at)) == Ok(AfterOne(db, conversationId, sm, annotationId, at))
  {
    var head := [InsertMessage(Restored(conversationId, sm)), InsertFts(FtsRow(sm.id, conversationId, sm.role, sm.content))];
    var imgs := ImageLinkStmts(sm.imageIds, conversationId, sm.id);
    var fls := FileLinkStmts(sm.fileIds, conversationId, sm.id);
    var ann := AnnotationStmts(conversationId, sm, annotationId, at);
    assert MessageStmts(conversationId, sm, annotationId, at) == head + imgs + fls + ann;
    RunBatchAppend(db, head + imgs + fls, ann);
    RunBatchAppend(db, head + imgs, fls);
    RunBatchAppend(db, head, imgs);
    var d1 := db.(messages := db.messages + [Restored(conversationId, sm)],
                  messagesFts := db.messagesFts + [FtsRow(sm.id, conversationId, sm.role, sm.content)]);
    RunHead(db, Restored(conversationId, sm), FtsRow(sm.id, conversationId, sm.role, sm.content));
    RunImageLinks(d1, sm.imageIds, conversationId, sm.id);
    var d2 := d1.(images := LinkEach(d1.images, sm.imageIds, conversationId, sm.id));
    RunFileLinks(d2, sm.fileIds, conversationId, sm.id);
    var d3 := d2.(files := LinkEach(d2.files, sm.fileIds, conversationId, sm.id));
    RunAnnotation(d3, conversationId, sm, annotationId, at);
  }

  /** The annotation rows the batch inserts carry ids drawn for annotated
      entries. */
  lemma {:induction false} AnnotationsAllIds(conversationId: string, sms: seq<SnapMessage>, newId: nat -> string, at: string, x: Annotation)
    requires x in AnnotationsAll(conversationId, sms, newId, at)
    ensures exists i :: 0 <= i < |sms| && sms[i].annotation.Some? && x.id == newId(i)
    decreases |sms|
  {
    var n := |sms|;
    var p := sms[..n - 1];
    if x in AnnotationsAll(conversationId, p, newId, at) {
      AnnotationsAllIds(conversationId, p, newId, at, x);
      var i :| 0 <= i < |p| && p[i].annotation.Some? && x.id == newId(i);
      assert sms[i] == p[i];
    } else {
      assert x in AnnotationRows(conversationId, sms[n - 1], newId(n - 1), at);
    }
  }

  /** Freshness of an entry list holds for its prefix. */
  lemma FreshPrefix(db: Db, sms: seq<SnapMessage>, newId: nat -> string, k: nat)
    requires Fresh(db, sms, newId) && k <= |sms|
    ensures Fresh(db, sms[..k], newId)
  {
    var p := sms[..k];
    assert forall i :: 0 <= i < k ==> p[i] == sms[i];
  }

  /** One more entry appends its rows after those of the entries before
      it. */
  lemma AfterAllStep(db: Db, conversationId: string, sms: seq<SnapMessage>, newId: nat -> string, at: string)
    requires |sms| > 0
    requires var p := sms[..|sms| - 1];
      AfterAll(db, conversationId, p, newId, at) ==
      db.(messages := db.messages + RestoredAll(conversationId, p),
          messagesFts := db.messagesFts + FtsOf(conversationId, p),
          images := LinkAll(db.images, conversationId, p, true),
          files := LinkAll(db.files, conversationId, p, false),
          annotations := db.annotations + AnnotationsAll(conversationId, p, newId, at))
    ensures AfterAll(db, conversationId, sms, newId, at) ==
      db.(messages := db.messages + RestoredAll(conversationId, sms),
          messagesFts := db.messagesFts + FtsOf(conversationId, sms),
          images := LinkAll(db.images, conversationId, sms, true),
          files := LinkAll(db.files, conversationId, sms, false),
          annotations := db.annotations + AnnotationsAll(conversationId, sms, newId, at))
  {
    var n := |sms|;
    var p, last := sms[..n - 1], sms[n - 1];
    AppendAssoc(db.messages, RestoredAll(conversationId, p), [Restored(conversationId, last)]);
    AppendAssoc(db.messagesFts, FtsOf(conversationId, p), [FtsRow(last.id, conversationId, last.role, last.content)]);
    AppendAssoc(db.annotations, AnnotationsAll(conversationId, p, newId, at), AnnotationRows(conversationId, last, newId(n - 1), at));
  }

  lemma AppendAssoc<T>(a: seq<T>, b: seq<T>, c: seq<T>)
    ensures a + b + c == a + (b + c)
  {
  }

  /** The batch appends the entries' message, search and annotation rows
      and links their attachments, entry after entry. */
  lemma {:induction false} AfterAllTables(db: Db, conversationId: string, sms: seq<SnapMessage>, newId: nat -> string, at: string)
    ensures AfterAll(db, conversationId, sms, newId, at) ==
      db.(messages := db.messages + RestoredAll(conversationId, sms),
          messagesFts := db.messagesFts + FtsOf(conversationId, sms),
          images := LinkAll(db.images, conversationId, sms, true),
          files := LinkAll(db.files, conversationId, sms, false),
          annotations := db.annotations + AnnotationsAll(conversationId, sms, newId, at))
    decreases |sms|
  {
    if |sms| == 0 {
      assert db.messages + [] == db.messages && db.messagesFts + [] == db.messagesFts && db.annotations + [] == db.annotations;
    } else {
      AfterAllTables(db, conversationId, sms[..|sms| - 1], newId, at);
      AfterAllStep(db, conversationId, sms, newId, at);
    }
  }

  /** The last entry's message id is new after the entries before it. */
  lemma FreshLastMessage(db: Db, conversationId: string, sms: seq<SnapMessage>, newId: nat -> string, at: string)
    requires Fresh(db, sms, newId) && |sms| > 0
    ensures FindMessage(AfterAll(db, conversationId, sms[..|sms| - 1], newId, at).messages, sms[|sms| - 1].id).None?
  {
    var n := |sms|;
    var p := sms[..n - 1];
    AfterAllTables(db, conversationId, p, newId, at);
    var ms := db.messages + RestoredAll(conversationId, p);
    forall k | 0 <= k < |ms| ensures ms[k].id != sms[n - 1].id {
      if k >= |db.messages| {
        assert p[k - |db.messages|] == sms[k - |db.messages|];
      }
    }
  }

  /** The last entry's annotation id is new after the entries before it. */
  lemma FreshLastAnnotation(db: Db, conversationId: string, sms: seq<SnapMessage>, newId: nat -> string, at: string)
    requires Fresh(db, sms, newId) && |sms| > 0 && sms[|sms| - 1].annotation.Some?
    ensures !AnnotationIdUsed(AfterAll(db, conversationId, sms[..|sms| - 1], newId, at).annotations, newId(|sms| - 1))
  {
    var n := |sms|;
    var p := sms[..n - 1];
    AfterAllTables(db, conversationId, p, newId, at);
    var rows := db.annotations + AnnotationsAll(conversationId, p, newId, at);
    forall k | 0 <= k < |rows| ensures rows[k].id != newId(n - 1) {
      if k >= |db.annotations| {
        var x := rows[k];
        assert x in AnnotationsAll(conversationId, p, newId, at);
        AnnotationsAllIds(conversationId, p, newId, at, x);
        var i :| 0 <= i < |p| && p[i].annotation.Some? && x.id == newId(i);
        assert sms[i] == p[i];
      }
    }
  }

  /** One more entry: its statements run after those of the entries
      before it. */
  lemma RunStep(db: Db, conversationId: string, sms: seq<SnapMessage>, newId: nat -> string, at: string)
    requires Fresh(db, sms, newId) && |sms| > 0
    requires RunBatch(db, RestoreStmts(conversationId, sms[..|sms| - 1], newId, at)) ==
             Ok(AfterAll(db, conversationId, sms[..|sms| - 1], newId, at))
    ensures RunBatch(db, RestoreStmts(conversationId, sms, newId, at)) == Ok(AfterAll(db, conversationId, sms, newId, at))
  {
    var n := |sms|;
    var p := sms[..n - 1];
    RunBatchAppend(db, RestoreStmts(conversationId, p, newId, at), MessageStmts(conversationId, sms[n - 1], newId(n - 1), at));
    FreshLastMessage(db, conversationId, sms, newId, at);
    if sms[n - 1].annotation.Some? {
      FreshLastAnnotation(db, conversationId, sms, newId, at);
    }
    RunMessage(AfterAll(db, conversationId, p, newId, at), conversationId, sms[n - 1], newId(n - 1), at);
  }

  /** With no clashing key the batch succeeds and leaves `AfterAll`. */
  lemma {:induction false} RunAll(db: Db, conversationId: string, sms: seq<SnapMessage>, newId: nat -> string, at: string)
    requires Fresh(db, sms, newId)
    ensures RunBatch(db, RestoreStmts(conversationId, sms, newId, at)) == Ok(AfterAll(db, conversationId, sms, newId, at))
    decreases |sms|
  {
    if |sms| > 0 {
      FreshPrefix(db, sms, newId, |sms| - 1);
      RunAll(db, conversationId, sms[..|sms| - 1], newId, at);
      RunStep(db, conversationId, sms, newId, at);
    }
  }

  /** An entry contributes at least its message insert, so a non-empty
      snapshot gives a non-empty batch. */
  lemma RestoreStmtsNonEmpty(conversationId: string, sms: seq<SnapMessage>, newId: nat -> string, at: string)
    requires |sms| > 0
    ensures |RestoreStmts(conversationId, sms, newId, at)| > 0
  {
  }

  /** With no clashing key the restore succeeds: the batch's rows are in
      place, the archive mark is cleared and the gossip job is sent. */
  lemma ReinstateOk(db: Db, conv: Conversation, sms: seq<SnapMessage>, now: Instant, newId: nat -> string)
    requires Fresh(db, sms, newId)
    ensures Reinstate(db, conv, sms, now, newId) ==
      Ok(AfterAll(db, conv.id, sms, newId, now.sql).(
           conversations := UpdateConversation(db.conversations, conv.id,
                                               (c: Conversation) => c.(archivedAt := None, archiveKey := None)),
           outbox := db.outbox + [GossipJob(D1Worker, RestoreGossip(conv.title, |sms|), Some("restore"), Some(conv.id))]))
  {
    AfterAllTables(db, conv.id, sms, newId, now.sql);
    RunAll(db, conv.id, sms, newId, now.sql);
    if |sms| > 0 {
      RestoreStmtsNonEmpty(conv.id, sms, newId, now.sql);
    }
  }

  /** The annotation rows the batch inserts belong to the conversation and
      to one of the entries. */
  lemma {:induction false} AnnotationsAllAbout(conversationId: string, sms: seq<SnapMessage>, newId: nat -> string, at: string,
                                               x: Annotation)
    requires x in AnnotationsAll(conversationId, sms, newId, at)
    ensures x.conversationId == conversationId
    ensures exists i :: 0 <= i < |sms| && x.messageId == sms[i].id
    decreases |sms|
  {
    var n := |sms|;
    var p := sms[..n - 1];
    if x in AnnotationsAll(conversationId, p, newId, at) {
      AnnotationsAllAbout(conversationId, p, newId, at, x);
      var i :| 0 <= i < |p| && x.messageId == p[i].id;
      assert sms[i] == p[i];
    } else {
      assert x in AnnotationRows(conversationId, sms[n - 1], newId(n - 1), at);
    }
  }

  /** Rows about other messages do not change which row about `id` is
      the last. */
  lemma {:induction false} LastAnnotationSkip(a: seq<Annotation>, b: seq<Annotation>, id: string)
    requires forall j :: 0 <= j < |b| ==> b[j].messageId != id
    ensures LastAnnotation(a + b, id) == LastAnnotation(a, id)
    decreases |b|
  {
    if |b| == 0 {
      assert a + b == a;
    } else {
      var init := b[..|b| - 1];
      assert (a + b)[..|a + b| - 1] == a + init;
      LastAnnotationSkip(a, init, id);
    }
  }

  /** The property `LastOfAll` states, for one entry. */
  predicate ReadsBack(rows: seq<Annotation>, sm: SnapMessage) {
    var k := LastAnnotation(rows, sm.id);
    && (k >= 0 <==> sm.annotation.Some?)
    && (k >= 0 ==> sm.annotation == Some(AnnotationRef(rows[k].kind, rows[k].labelText)))
  }

  /** The last entry's own annotation row is the last row about it. */
  lemma LastEntryReadsBack(conversationId: string, sms: seq<SnapMessage>, newId: nat -> string, at: string)
    requires |sms| > 0
    requires forall x, y :: 0 <= x < y < |sms| ==> sms[x].id != sms[y].id
    ensures ReadsBack(AnnotationsAll(conversationId, sms, newId, at), sms[|sms| - 1])
  {
    var n := |sms|;
    var p := sms[..n - 1];
    var before := AnnotationsAll(conversationId, p, newId, at);
    var mine := AnnotationRows(conversationId, sms[n - 1], newId(n - 1), at);
    if mine == [] {
      forall j | 0 <= j < |before| ensures before[j].messageId != sms[n - 1].id {
        AnnotationsAllAbout(conversationId, p, newId, at, before[j]);
        var q :| 0 <= q < |p| && before[j].messageId == p[q].id;
        assert p[q] == sms[q];
      }
      assert before + mine == before;
    }
  }

  /** An earlier entry's last row is not disturbed by the rows of the
      entries after it. */
  lemma EarlierEntryReadsBack(conversationId: string, sms: seq<SnapMessage>, newId: nat -> string, at: string, i: nat)
    requires i < |sms| - 1
    requires forall x, y :: 0 <= x < y < |sms| ==> sms[x].id != sms[y].id
    requires ReadsBack(AnnotationsAll(conversationId, sms[..|sms| - 1], newId, at), sms[i])
    ensures ReadsBack(AnnotationsAll(conversationId, sms, newId, at), sms[i])
  {
    var n := |sms|;
    var before := AnnotationsAll(conversationId, sms[..n - 1], newId, at);
    var mine := AnnotationRows(conversationId, sms[n - 1], newId(n - 1), at);
    assert sms[i].id != sms[n - 1].id;
    LastAnnotationSkip(before, mine, sms[i].id);
  }

  /** With distinct entry ids, the last inserted annotation row about an
      entry is the one built from that entry's annotation, and there is
      one exactly when the entry has an annotation. */
  lemma {:induction false} LastOfAll(conversationId: string, sms: seq<SnapMessage>, newId: nat -> string, at: string, i: nat)
    requires i < |sms|
    requires forall x, y :: 0 <= x < y < |sms| ==> sms[x].id != sms[y].id
    ensures ReadsBack(AnnotationsAll(conversationId, sms, newId, at), sms[i])
    decreases |sms|
  {
    if i == |sms| - 1 {
      LastEntryReadsBack(conversationId, sms, newId, at);
    } else {
      var p := sms[..|sms| - 1];
      assert forall x, y :: 0 <= x < y < |p| ==> p[x].id != p[y].id;
      LastOfAll(conversationId, p, newId, at, i);
      assert sms[i] == p[i];
      EarlierEntryReadsBack(conversationId, sms, newId, at, i);
    }
  }

  /** With no clashing key the restore appends the entries' rows, links
      their attachments, clears the mark and sends the gossip job. */
  lemma ReinstateTables(db: Db, conv: Conversation, sms: seq<SnapMessage>, now: Instant, newId: nat -> string)
    requires Fresh(db, sms, newId)
    ensures Reinstate(db, conv, sms, now, newId) ==
      Ok(db.(messages := db.messages + RestoredAll(conv.id, sms),
             messagesFts := db.messagesFts + FtsOf(conv.id, sms),
             images := LinkAll(db.images, conv.id, sms, true),
             files := LinkAll(db.files, conv.id, sms, false),
             annotations := db.annotations + AnnotationsAll(conv.id, sms, newId, now.sql),
             conversations := UpdateConversation(db.conversations, conv.id,
                                                 (c: Conversation) => c.(archivedAt := None, archiveKey := None)),
             outbox := db.outbox + [GossipJob(D1Worker, RestoreGossip(conv.title, |sms|), Some("restore"), Some(conv.id))]))
  {
    ReinstateOk(db, conv, sms, now, newId);
    AfterAllTables(db, conv.id, sms, newId, now.sql);
  }
}

=== FILE: search.dfy ===
/** `GET /api/search` (`src/routes/search.ts`): a query of at least two
    characters, quoted for FTS5 when it holds special characters, looked up
    in conversation titles (at most five), message text (at most twenty,
    optionally within one conversation) and wiki pages (at most ten; a
    failing wiki query yields no pages rather than an error). The ranking
    of `MATCH`, the `LIKE` pattern test and the snippets are oracles. */
module Search {
  import opened Wrappers
  import opened Text
  import opened Store
  import opened Sorting
  import opened FtsQuery

  const MinQueryLength: nat := 2
  const TitleLimit: nat := 5
  const MessageLimit: nat := 20
  const WikiLimit: nat := 10
  const Untitled: string := "Untitled"

  /** What the database decides on its own: `title LIKE '%q%'`, the
      ranked rows of `messages_fts MATCH q`, and the ranked rows of
      `wiki_fts MATCH q` or the error that query throws. */
  datatype Engine = Engine(
    like: (string, string) -> bool,
    matchMessages: (seq<FtsRow>, string) -> seq<FtsRow>,
    matchWiki: (seq<WikiFtsRow>, string) -> Result<seq<WikiFtsRow>>)

  /** A message hit with the title of its conversation. */
  datatype MessageHit = MessageHit(row: FtsRow, conversationTitle: string)

  datatype Found = Found(conversations: seq<Conversation>, messages: seq<MessageHit>, wikiPages: seq<WikiPage>)

  /** Most recently updated first. */
  predicate UpdatedLater(a: Conversation, b: Conversation) {
    StrLe(b.updatedAt, a.updatedAt)
  }

  lemma UpdatedLaterOrders()
    ensures Total(UpdatedLater) && Transitive(UpdatedLater)
  {
    forall a: Conversation, b: Conversation ensures UpdatedLater(a, b) || UpdatedLater(b, a) {
      StrLeTotal(a.updatedAt, b.updatedAt);
    }
    forall a: Conversation, b: Conversation, c: Conversation | UpdatedLater(a, b) && UpdatedLater(b, c)
      ensures UpdatedLater(a, c)
    {
      StrLeTransitive(c.updatedAt, b.updatedAt, a.updatedAt);
    }
  }

  /** `… WHERE title LIKE ? ORDER BY updated_at DESC LIMIT 5`. */
  function TitleMatches(cs: seq<Conversation>, q: string, like: (string, string) -> bool): (r: seq<Conversation>)
    ensures |r| <= TitleLimit
    ensures forall c :: c in r ==> c in cs && like(c.title, q)
    ensures SortedBy(r, UpdatedLater)
  {
    var hits := Filter(cs, (c: Conversation) => like(c.title, q));
    var sorted := SortBy(hits, UpdatedLater);
    UpdatedLaterOrders();
    SortBySorted(hits, UpdatedLater);
    SortByMembers(hits, UpdatedLater);
    var r := Take(sorted, TitleLimit);
    SortedPrefix(sorted, |r|, UpdatedLater);
    r
  }

  /** `[...new Set(ids)]`: each id once, in order of first appearance. */
  function Distinct(ids: seq<string>): (r: seq<string>)
    ensures forall x :: x in r <==> x in ids
    ensures forall i, j :: 0 <= i < j < |r| ==> r[i] != r[j]
    decreases |ids|
  {
    if |ids| == 0 then []
    else
      var front := Distinct(ids[..|ids| - 1]);
      var last := ids[|ids| - 1];
      assert forall x :: x in ids <==> x in ids[..|ids| - 1] || x == last by {
        assert ids == ids[..|ids| - 1] + [last];
      }
      if last in front then front else front + [last]
  }

  /** `titleMap`: filled from `SELECT id, title FROM conversations WHERE
      id IN (…)`, a later row overwriting an earlier one. */
  function TitleMap(cs: seq<Conversation>, ids: seq<string>): (m: map<string, string>)
    ensures forall id :: id in m <==> id in ids && exists c :: c in cs && c.id == id
    ensures forall id :: id in m ==> exists c :: c in cs && c.id == id && c.title == m[id]
    decreases |cs|
  {
    if |cs| == 0 then map[]
    else
      var n := |cs| - 1;
      var m := TitleMap(cs[..n], ids);
      assert forall c :: c in cs <==> c in cs[..n] || c == cs[n] by {
        assert cs == cs[..n] + [cs[n]];
      }
      if cs[n].id in ids then m[cs[n].id := cs[n].title] else m
  }

  /** `titleMap.get(id) || "Untitled"`. */
  function Titled(m: map<string, string>, id: string): (t: string)
    ensures t != ""
  {
    if id in m && m[id] != "" then m[id] else Untitled
  }

  /** `c` is the one row of `cs` with this id. */
  predicate OnlyRowOf(cs: seq<Conversation>, c: Conversation, id: string) {
    c in cs && c.id == id && forall d :: d in cs && d.id == id ==> d == c
  }

  /** A hit whose conversation is gone, or has an empty title, shows as
      "Untitled"; one whose conversation has a unique id shows its title. */
  lemma TitleOfHit(cs: seq<Conversation>, ids: seq<string>, id: string)
    requires id in ids
    ensures (forall c :: c in cs ==> c.id != id) ==> Titled(TitleMap(cs, ids), id) == Untitled
    ensures forall c :: OnlyRowOf(cs, c, id) && c.title != "" ==> Titled(TitleMap(cs, ids), id) == c.title
  {
  }

  /** The ids the title query binds: every conversation of a hit, once. */
  function TitleLookups(rows: seq<FtsRow>): (r: seq<string>)
    ensures forall i, j :: 0 <= i < j < |r| ==> r[i] != r[j]
    ensures forall row :: row in rows ==> row.conversationId in r
    ensures forall id :: id in r ==> exists row :: row in rows && row.conversationId == id
  {
    var ids := seq(|rows|, i requires 0 <= i < |rows| => rows[i].conversationId);
    assert forall row :: row in rows ==> row.conversationId in ids by {
      forall row | row in rows ensures row.conversationId in ids {
        var i :| 0 <= i < |rows| && rows[i] == row;
        assert ids[i] == row.conversationId;
      }
    }
    assert forall id :: id in ids ==> exists row :: row in rows && row.conversationId == id by {
      forall id | id in ids ensures exists row :: row in rows && row.conversationId == id {
        var i :| 0 <= i < |ids| && ids[i] == id;
        assert rows[i] in rows;
      }
    }
    Distinct(ids)
  }

  /** `… MATCH ? [AND f.conversation_id = ?] ORDER BY rank LIMIT 20`. */
  function MessageHits(db: Db, query: string, conversationId: Option<string>, engine: Engine): (r: seq<FtsRow>)
    ensures |r| <= MessageLimit
    ensures IsSet(conversationId) ==> forall row :: row in r ==> row.conversationId == conversationId.value
  {
    var ranked := engine.matchMessages(db.messagesFts, query);
    var scoped := if IsSet(conversationId) then Filter(ranked, (row: FtsRow) => row.conversationId == conversationId.value) else ranked;
    Take(scoped, MessageLimit)
  }

  /** `… FROM wiki_fts f JOIN wiki_pages wp ON f.page_id = wp.id … LIMIT 10`,
      and `[]` when the query throws. */
  function WikiHits(db: Db, query: string, engine: Engine): (r: seq<WikiPage>)
    ensures |r| <= WikiLimit
    ensures forall p :: p in r ==> p in db.wikiPages
    ensures engine.matchWiki(db.wikiFts, query).Err? ==> r == []
  {
    match engine.matchWiki(db.wikiFts, query)
    case Err(_) => []
    case Ok(rows) => Take(JoinPages(rows, db.wikiPages), WikiLimit)
  }

  /** The inner join, in rank order. */
  function JoinPages(rows: seq<WikiFtsRow>, pages: seq<WikiPage>): (r: seq<WikiPage>)
    ensures forall p :: p in r ==> p in pages
    ensures |r| <= |rows|
  {
    if |rows| == 0 then []
    else
      match FindPage(pages, rows[0].pageId)
      case Some(p) => [p] + JoinPages(rows[1..], pages)
      case None => JoinPages(rows[1..], pages)
  }

  /** `GET /api/search?q=…[&conversation_id=…]`. */
  function Search(db: Db, q: Option<string>, conversationId: Option<string>, engine: Engine): (r: Reply<Found>)
    ensures r.Fail? <==> q.None? || |Trim(q.value)| < MinQueryLength
    ensures r.Fail? ==> r == Fail(400, "Query must be at least 2 characters")
  {
    if q.None? || |Trim(q.value)| < MinQueryLength then Fail(400, "Query must be at least 2 characters")
    else
      var text := Trim(q.value);
      var query := FtsQuery.FtsQuery(text);
      var hits := MessageHits(db, query, conversationId, engine);
      var titles := TitleMap(db.conversations, TitleLookups(hits));
      var titled := seq(|hits|, i requires 0 <= i < |hits| => MessageHit(hits[i], Titled(titles, hits[i].conversationId)));
      Reply(Found(TitleMatches(db.conversations, text, engine.like), titled, WikiHits(db, query, engine)))
  }

  /** A successful search respects every limit, the conversation filter,
      and names every hit's conversation (or "Untitled"); the full-text
      engine sees the trimmed query, or its quoted form that reads back as
      it. */
  lemma SearchLimits(db: Db, q: Option<string>, conversationId: Option<string>, engine: Engine)
    requires Search(db, q, conversationId, engine).Reply?
    ensures var found := Search(db, q, conversationId, engine).value;
      && |found.conversations| <= TitleLimit && |found.messages| <= MessageLimit && |found.wikiPages| <= WikiLimit
      && (forall c :: c in found.conversations ==> engine.like(c.title, Trim(q.value)))
      && (IsSet(conversationId) ==> forall h :: h in found.messages ==> h.row.conversationId == conversationId.value)
      && (forall h :: h in found.messages ==>
            && h.row.conversationId in TitleLookups(MessageHits(db, FtsQuery.FtsQuery(Trim(q.value)), conversationId, engine))
            && h.conversationTitle == Titled(TitleMap(db.conversations, TitleLookups(MessageHits(db, FtsQuery.FtsQuery(Trim(q.value)), conversationId, engine))), h.row.conversationId))
      && (engine.matchWiki(db.wikiFts, FtsQuery.FtsQuery(Trim(q.value))).Err? ==> found.wikiPages == [])
  {
    var text := Trim(q.value);
    var hits := MessageHits(db, FtsQuery.FtsQuery(text), conversationId, engine);
    var found := Search(db, q, conversationId, engine).value;
    forall h | h in found.messages
      ensures h.row.conversationId in TitleLookups(hits)
      ensures h.conversationTitle == Titled(TitleMap(db.conversations, TitleLookups(hits)), h.row.conversationId)
      ensures IsSet(conversationId) ==> h.row.conversationId == conversationId.value
    {
      var i :| 0 <= i < |found.messages| && found.messages[i] == h;
      assert h.row == hits[i] && hits[i] in hits;
    }
  }
}

=== FILE: snapshot_codec.dfy ===
/** The archive snapshot read back: what the restore loop of
    `src/routes/archive.ts` makes of the document `generateJSON` of
    `src/export.ts` wrote. Every exported message comes back with its id,
    role, content, time and parent, the ids of its images and files and its
    annotation; only the empty-string parent and label turn into `null`
    (the loop reads them with `|| null`). */
module SnapshotCodec {
  import opened Wrappers
  import opened Json
  import opened Store
  import opened Export
  import opened Restore

  /** `s || null` on a nullable string. */
  function NonEmpty(v: Option<string>): (r: Option<string>)
    ensures r.None? <==> !IsSet(v)
    ensures r.Some? ==> r == v
  {
    if v == Some("") then None else v
  }

  function ImageIds(images: seq<ImageRef>): (r: seq<string>)
    ensures |r| == |images|
    ensures forall i :: 0 <= i < |images| ==> r[i] == images[i].id
  {
    if |images| == 0 then [] else [images[0].id] + ImageIds(images[1..])
  }

  function FileIds(files: seq<FileRef>): (r: seq<string>)
    ensures |r| == |files|
    ensures forall i :: 0 <= i < |files| ==> r[i] == files[i].id
  {
    if |files| == 0 then [] else [files[0].id] + FileIds(files[1..])
  }

  /** What the restore loop reads from one exported message. */
  function Reading(m: ExportMessage): SnapMessage {
    SnapMessage(m.id, m.role, m.content, m.createdAt, NonEmpty(m.parent), ImageIds(m.images), FileIds(m.files),
                match m.annotation
                case None => None
                case Some(a) => Some(AnnotationRef(a.kind, NonEmpty(a.labelText))))
  }

  function Readings(ms: seq<ExportMessage>): (r: seq<SnapMessage>)
    ensures |r| == |ms|
    ensures forall i :: 0 <= i < |ms| ==> r[i] == Reading(ms[i])
  {
    if |ms| == 0 then [] else [Reading(ms[0])] + Readings(ms[1..])
  }

  // ------------------------------------------------------------ lemmas

  /** A key bound at `i` and never again is read from `i`. */
  lemma {:induction false} FieldAt(fields: seq<(string, Json)>, i: nat, key: string)
    requires i < |fields| && fields[i].0 == key
    requires forall j :: i < j < |fields| ==> fields[j].0 != key
    ensures Field(fields, key) == Some(fields[i].1)
    decreases |fields|
  {
    if i < |fields| - 1 {
      FieldAt(fields[..|fields| - 1], i, key);
    }
  }

  /** `StrOrNull(v) || null` gives `v` back, save for the empty string. */
  lemma OrNullOfStrOrNull(v: Option<string>)
    ensures OrNull(Some(StrOrNull(v))) == Ok(NonEmpty(v))
  {
  }

  lemma ImageEntryId(x: ImageRef)
    ensures ImageJson(x).JObj? && StrField(ImageJson(x).fields, "id") == Ok(x.id)
  {
    FieldAt(ImageJson(x).fields, 0, "id");
  }

  lemma FileEntryId(x: FileRef)
    ensures FileJson(x).JObj? && StrField(FileJson(x).fields, "id") == Ok(x.id)
  {
    FieldAt(FileJson(x).fields, 0, "id");
  }

  /** The ids of the exported image entries come back in order. */
  lemma ImageIdsBack(images: seq<ImageRef>)
    ensures LinkIds(Some(JArr(ImagesJson(images)))) == Ok(ImageIds(images))
  {
    var items := ImagesJson(images);
    forall i | 0 <= i < |items| ensures items[i].JObj? && StrField(items[i].fields, "id") == Ok(images[i].id) {
      ImageEntryId(images[i]);
    }
  }

  lemma FileIdsBack(files: seq<FileRef>)
    ensures LinkIds(Some(JArr(FilesJson(files)))) == Ok(FileIds(files))
  {
    var items := FilesJson(files);
    forall i | 0 <= i < |items| ensures items[i].JObj? && StrField(items[i].fields, "id") == Ok(files[i].id) {
      FileEntryId(files[i]);
    }
  }

  /** The annotation entry comes back, its empty label as `null`. */
  lemma AnnotationBack(a: Option<AnnotationRef>)
    ensures AnnotationOf(Some(AnnotationJson(a))) ==
            Ok(match a case None => None case Some(x) => Some(AnnotationRef(x.kind, NonEmpty(x.labelText))))
  {
    if a.Some? {
      var fields := AnnotationJson(a).fields;
      FieldAt(fields, 0, "type");
      FieldAt(fields, 1, "label");
      OrNullOfStrOrNull(a.value.labelText);
    }
  }

  /** Reading a key from eight bindings: the last one that binds it. */
  lemma Field8(p0: (string, Json), p1: (string, Json), p2: (string, Json), p3: (string, Json),
               p4: (string, Json), p5: (string, Json), p6: (string, Json), p7: (string, Json), key: string)
    ensures Field([p0] + [p1] + [p2] + [p3] + [p4] + [p5] + [p6] + [p7], key) ==
      if p7.0 == key then Some(p7.1) else if p6.0 == key then Some(p6.1) else if p5.0 == key then Some(p5.1)
      else if p4.0 == key then Some(p4.1) else if p3.0 == key then Some(p3.1) else if p2.0 == key then Some(p2.1)
      else if p1.0 == key then Some(p1.1) else if p0.0 == key then Some(p0.1) else None
  {
    var f1 := [p0];
    var f2 := f1 + [p1];
    var f3 := f2 + [p2];
    var f4 := f3 + [p3];
    var f5 := f4 + [p4];
    var f6 := f5 + [p5];
    var f7 := f6 + [p6];
    FieldSnoc(f7, p7.0, p7.1, key);
    FieldSnoc(f6, p6.0, p6.1, key);
    FieldSnoc(f5, p5.0, p5.1, key);
    FieldSnoc(f4, p4.0, p4.1, key);
    FieldSnoc(f3, p3.0, p3.1, key);
    FieldSnoc(f2, p2.0, p2.1, key);
    FieldSnoc(f1, p1.0, p1.1, key);
    FieldSnoc([], p0.0, p0.1, key);
  }

  /** A message entry as the eight bindings it is made of. */
  lemma MessageEntry(m: ExportMessage)
    ensures MessageJson(m).fields ==
      [("id", JStr(m.id))] + [("role", JStr(m.role))] + [("content", JStr(m.content))] +
      [("created_at", JStr(m.createdAt))] + [("parent_message_id", StrOrNull(m.parent))] +
      [("images", JArr(ImagesJson(m.images)))] + [("files", JArr(FilesJson(m.files)))] +
      [("annotation", AnnotationJson(m.annotation))]
  {
  }

  /** The members the restore loop reads from a message entry, each bound
      once. */
  lemma MessageFields(m: ExportMessage)
    ensures var f := MessageJson(m).fields;
      && Field(f, "id") == Some(JStr(m.id)) && Field(f, "role") == Some(JStr(m.role))
      && Field(f, "content") == Some(JStr(m.content)) && Field(f, "created_at") == Some(JStr(m.createdAt))
      && Field(f, "parent_message_id") == Some(StrOrNull(m.parent))
      && Field(f, "images") == Some(JArr(ImagesJson(m.images)))
      && Field(f, "files") == Some(JArr(FilesJson(m.files)))
      && Field(f, "annotation") == Some(AnnotationJson(m.annotation))
  {
    MessageEntry(m);
    var p0, p1, p2, p3 := ("id", JStr(m.id)), ("role", JStr(m.role)), ("content", JStr(m.content)), ("created_at", JStr(m.createdAt));
    var p4, p5 := ("parent_message_id", StrOrNull(m.parent)), ("images", JArr(ImagesJson(m.images)));
    var p6, p7 := ("files", JArr(FilesJson(m.files))), ("annotation", AnnotationJson(m.annotation));
    Field8(p0, p1, p2, p3, p4, p5, p6, p7, "id");
    Field8(p0, p1, p2, p3, p4, p5, p6, p7, "role");
    Field8(p0, p1, p2, p3, p4, p5, p6, p7, "content");
    Field8(p0, p1, p2, p3, p4, p5, p6, p7, "created_at");
    Field8(p0, p1, p2, p3, p4, p5, p6, p7, "parent_message_id");
    Field8(p0, p1, p2, p3, p4, p5, p6, p7, "images");
    Field8(p0, p1, p2, p3, p4, p5, p6, p7, "files");
    Field8(p0, p1, p2, p3, p4, p5, p6, p7, "annotation");
  }

  /** An entry with these columns reads them back, the empty parent as
      `null`. */
  lemma ColumnsBack(f: seq<(string, Json)>, m: ExportMessage)
    requires Field(f, "id") == Some(JStr(m.id)) && Field(f, "role") == Some(JStr(m.role))
    requires Field(f, "content") == Some(JStr(m.content)) && Field(f, "created_at") == Some(JStr(m.createdAt))
    requires Field(f, "parent_message_id") == Some(StrOrNull(m.parent))
    ensures DecodeColumns(f) == Ok((m.id, m.role, m.content, m.createdAt, NonEmpty(m.parent)))
  {
    OrNullOfStrOrNull(m.parent);
  }

  /** An entry with these arrays and annotation reads back their ids and
      the annotation. */
  lemma LinksBack(f: seq<(string, Json)>, m: ExportMessage)
    requires Field(f, "images") == Some(JArr(ImagesJson(m.images)))
    requires Field(f, "files") == Some(JArr(FilesJson(m.files)))
    requires Field(f, "annotation") == Some(AnnotationJson(m.annotation))
    ensures DecodeLinks(f) == Ok((ImageIds(m.images), FileIds(m.files), Reading(m).annotation))
  {
    ImageIdsBack(m.images);
    FileIdsBack(m.files);
    AnnotationBack(m.annotation);
  }

  /** An entry with these members reads back as `Reading(m)`. */
  lemma DecodeFromFields(f: seq<(string, Json)>, m: ExportMessage)
    requires Field(f, "id") == Some(JStr(m.id)) && Field(f, "role") == Some(JStr(m.role))
    requires Field(f, "content") == Some(JStr(m.content)) && Field(f, "created_at") == Some(JStr(m.createdAt))
    requires Field(f, "parent_message_id") == Some(StrOrNull(m.parent))
    requires Field(f, "images") == Some(JArr(ImagesJson(m.images)))
    requires Field(f, "files") == Some(JArr(FilesJson(m.files)))
    requires Field(f, "annotation") == Some(AnnotationJson(m.annotation))
    ensures DecodeMessage(JObj(f)) == Ok(Reading(m))
  {
    ColumnsBack(f, m);
    LinksBack(f, m);
  }

  /** One exported message read back. */
  lemma MessageBack(m: ExportMessage)
    ensures DecodeMessage(MessageJson(m)) == Ok(Reading(m))
  {
    MessageFields(m);
    DecodeFromFields(MessageJson(m).fields, m);
  }

  /** The whole `messages` array read back, entry by entry. */
  lemma MessagesBack(ms: seq<ExportMessage>)
    ensures DecodeMessages(MessagesJson(ms)) == Ok(Readings(ms))
  {
    var items := MessagesJson(ms);
    forall i | 0 <= i < |items| ensures DecodeMessage(items[i]) == Ok(Reading(ms[i])) {
      MessageBack(ms[i]);
    }
  }

  /** The document as its four bindings. */
  lemma Document(data: ExportData, exportedAt: string)
    requires GenerateJson(data, exportedAt).Ok?
    ensures var c := ConversationJson(data.conversation, data.tags);
      && c.Ok?
      && GenerateJson(data, exportedAt).value ==
         JObj([("version", JNum(1.0))] + [("conversation", c.value)] + [("messages", JArr(MessagesJson(data.messages)))]
              + [("exported_at", JStr(exportedAt))])
  {
  }

  /** The document's `messages` member is the exported array. */
  lemma DocumentMessages(data: ExportData, exportedAt: string)
    requires GenerateJson(data, exportedAt).Ok?
    ensures GenerateJson(data, exportedAt).value.JObj?
    ensures Field(GenerateJson(data, exportedAt).value.fields, "messages") == Some(JArr(MessagesJson(data.messages)))
  {
    Document(data, exportedAt);
    var c := ConversationJson(data.conversation, data.tags).value;
    var f2 := [("version", JNum(1.0))] + [("conversation", c)];
    var f3 := f2 + [("messages", JArr(MessagesJson(data.messages)))];
    FieldSnoc(f3, "exported_at", JStr(exportedAt), "messages");
    FieldSnoc(f2, "messages", JArr(MessagesJson(data.messages)), "messages");
  }

  /** A document whose `messages` member is an array is read entry by
      entry. */
  lemma SnapshotOfArray(root: Json, items: seq<Json>)
    requires root.JObj? && Field(root.fields, "messages") == Some(JArr(items))
    ensures DecodeSnapshot(root) == DecodeMessages(items)
  {
  }

  /** The restore loop reads back exactly the messages the export wrote. */
  lemma SnapshotBack(data: ExportData, exportedAt: string)
    requires GenerateJson(data, exportedAt).Ok?
    ensures DecodeSnapshot(GenerateJson(data, exportedAt).value) == Ok(Readings(data.messages))
  {
    DocumentMessages(data, exportedAt);
    SnapshotOfArray(GenerateJson(data, exportedAt).value, MessagesJson(data.messages));
    MessagesBack(data.messages);
  }
}

=== FILE: sorting.dfy ===
/** `ORDER BY` and `Array.prototype.sort` as a stable insertion sort over a
    caller-supplied "comes no later than" relation, plus the lexicographic
    order SQLite uses to compare TEXT columns (timestamps are ISO-like
    strings, so this is also their chronological order). */
module Sorting {

  ghost predicate Total<T(!new)>(le: (T, T) -> bool) {
    forall a, b :: le(a, b) || le(b, a)
  }

  ghost predicate Transitive<T(!new)>(le: (T, T) -> bool) {
    forall a, b, c :: le(a, b) && le(b, c) ==> le(a, c)
  }

  predicate SortedBy<T>(s: seq<T>, le: (T, T) -> bool) {
    forall i, j :: 0 <= i < j < |s| ==> le(s[i], s[j])
  }

  /** Inserts `x` before the first element it may precede. */
  function Insert<T>(x: T, s: seq<T>, le: (T, T) -> bool): (r: seq<T>)
    ensures |r| == |s| + 1
    ensures multiset(r) == multiset(s) + multiset{x}
  {
    if |s| == 0 then [x]
    else if le(x, s[0]) then [x] + s
    else
      assert s == [s[0]] + s[1..];
      [s[0]] + Insert(x, s[1..], le)
  }

  function SortBy<T>(s: seq<T>, le: (T, T) -> bool): (r: seq<T>)
    ensures |r| == |s|
    ensures multiset(r) == multiset(s)
  {
    if |s| == 0 then []
    else
      assert s == [s[0]] + s[1..];
      Insert(s[0], SortBy(s[1..], le), le)
  }

  lemma {:induction false} InsertSorted<T(!new)>(x: T, s: seq<T>, le: (T, T) -> bool)
    requires Total(le) && Transitive(le)
    requires SortedBy(s, le)
    ensures SortedBy(Insert(x, s, le), le)
  {
    if |s| > 0 && !le(x, s[0]) {
      InsertSorted(x, s[1..], le);
      var r := Insert(x, s[1..], le);
      assert le(s[0], x);
      forall k | 0 <= k < |r|
        ensures le(s[0], r[k])
      {
        assert r[k] in multiset(r);
        assert r[k] in multiset(s[1..]) + multiset{x};
        if r[k] != x {
          assert r[k] in multiset(s[1..]);
          assert r[k] in s[1..];
        }
      }
    }
  }

  /** With a total preorder, `SortBy` returns its input in order. */
  lemma {:induction false} SortBySorted<T(!new)>(s: seq<T>, le: (T, T) -> bool)
    requires Total(le) && Transitive(le)
    ensures SortedBy(SortBy(s, le), le)
  {
    if |s| > 0 {
      SortBySorted(s[1..], le);
      InsertSorted(s[0], SortBy(s[1..], le), le);
    }
  }

  /** Sorting a sequence already in order leaves it as it is. */
  /** Sorting keeps exactly the elements it was given. */
  lemma SortByMembers<T>(s: seq<T>, le: (T, T) -> bool)
    ensures forall x :: x in SortBy(s, le) <==> x in s
  {
    var r := SortBy(s, le);
    forall x ensures x in r <==> x in s {
      assert x in r <==> x in multiset(r);
      assert x in s <==> x in multiset(s);
    }
  }

  /** A prefix of a sorted sequence is sorted and holds only its elements. */
  lemma SortedPrefix<T>(s: seq<T>, k: nat, le: (T, T) -> bool)
    requires k <= |s| && SortedBy(s, le)
    ensures SortedBy(s[..k], le)
    ensures forall x :: x in s[..k] ==> x in s
  {
    forall x | x in s[..k] ensures x in s {
      var i :| 0 <= i < k && s[..k][i] == x;
      assert s[i] == x;
    }
  }

  lemma {:induction false} SortBySortedIsSame<T>(s: seq<T>, le: (T, T) -> bool)
    requires SortedBy(s, le)
    ensures SortBy(s, le) == s
    decreases |s|
  {
    if |s| > 0 {
      assert SortedBy(s[1..], le);
      SortBySortedIsSame(s[1..], le);
      assert s == [s[0]] + s[1..];
    }
  }

  /** Lexicographic comparison of strings by code point, a shorter prefix first. */
  predicate StrLe(a: string, b: string)
    decreases |a|
  {
    |a| == 0 || (|b| > 0 && (a[0] < b[0] || (a[0] == b[0] && StrLe(a[1..], b[1..]))))
  }

  lemma {:induction false} StrLeTotal(a: string, b: string)
    ensures StrLe(a, b) || StrLe(b, a)
    decreases |a|
  {
    if |a| > 0 && |b| > 0 && a[0] == b[0] {
      StrLeTotal(a[1..], b[1..]);
    }
  }

  lemma {:induction false} StrLeTransitive(a: string, b: string, c: string)
    requires StrLe(a, b) && StrLe(b, c)
    ensures StrLe(a, c)
    decreases |a|
  {
    if |a| > 0 && a[0] == b[0] && b[0] == c[0] {
      StrLeTransitive(a[1..], b[1..], c[1..]);
    }
  }

  lemma {:induction false} StrLeAntisymmetric(a: string, b: string)
    requires StrLe(a, b) && StrLe(b, a)
    ensures a == b
    decreases |a|
  {
    if |a| > 0 {
      StrLeAntisymmetric(a[1..], b[1..]);
    }
  }

  lemma {:induction false} StrLeReflexive(a: string)
    ensures StrLe(a, a)
    decreases |a|
  {
    if |a| > 0 {
      StrLeReflexive(a[1..]);
    }
  }
}

=== FILE: store.dfy ===
/** The worker's storage as one immutable value: the D1 tables as sequences
    of rows (in rowid order), the two R2 buckets as maps from key to object,
    and the job queue as the list of jobs sent so far. Column names follow
    the SQL; `NULL` is `None`. */
module Store {
  import opened Wrappers
  import opened Json
  import opened Jobs

  type Byte = x: int | 0 <= x < 256

  /** The `vibes` column holds JSON text written by the summariser; the
      model keeps what `JSON.parse` makes of it. `NoVibes` is NULL or "".
      Only an array of strings is represented: text that parses to
      anything else (an object, or an array of numbers such as `[1]`),
      which the export passes through as parsed, has no value here. */
  datatype Vibes = NoVibes | VibeList(items: seq<string>) | MalformedVibes

  datatype Conversation = Conversation(
    id: string, title: string, model: string, temperature: real, systemPrompt: string,
    summary: Option<string>, vibes: Vibes, handoffNotes: Option<string>,
    createdAt: string, updatedAt: string,
    archivedAt: Option<string>, archiveKey: Option<string>,
    pinned: bool, lastSummarizedAt: Option<string>)

  datatype Message = Message(id: string, conversationId: string, role: string, content: string,
                             parent: Option<string>, createdAt: string)

  /** A row of the `messages_fts` index. */
  datatype FtsRow = FtsRow(messageId: string, conversationId: string, role: string, content: string)

  /** A row of `message_images` or `message_files` (the two tables have the
      same columns). */
  datatype Attachment = Attachment(id: string, messageId: Option<string>, conversationId: string, r2Key: string,
                                   mediaType: string, originalFilename: Option<string>, sizeBytes: nat)

  /** `label` is a Dafny keyword, hence `labelText`. */
  datatype Annotation = Annotation(id: string, messageId: string, conversationId: string, kind: string,
                                   labelText: Option<string>, createdAt: string)

  datatype Tag = Tag(id: string, name: string, color: Option<string>)
  datatype ConversationTag = ConversationTag(conversationId: string, tagId: string)

  datatype WikiPage = WikiPage(id: string, categoryId: Option<string>, title: string, slug: string, content: string,
                               summary: Option<string>, sourceUrl: Option<string>, updatedAt: string)
  datatype WikiFtsRow = WikiFtsRow(pageId: string, title: string, content: string)
  datatype PageTag = PageTag(pageId: string, tagId: string)
  datatype WikiPin = WikiPin(conversationId: string, pageId: string, createdAt: string)
  datatype WikiVersion = WikiVersion(id: string, pageId: string, versionNumber: nat, title: string, r2Key: string, sizeBytes: nat)
  datatype WikiCategory = WikiCategory(id: string, name: string)
  datatype WikiGeneration = WikiGeneration(id: string, conversationId: string, pageId: string)
  datatype GossipRow = GossipRow(id: string, workerName: string, workerEmoji: string, message: string,
                                 eventType: Option<string>, conversationId: Option<string>)

  /** An R2 object: its body, content type and upload time. */
  datatype Body = TextBody(text: string) | BytesBody(bytes: seq<Byte>)
  datatype StoredObject = StoredObject(body: Body, contentType: Option<string>, uploaded: int)

  datatype Db = Db(
    conversations: seq<Conversation>,
    messages: seq<Message>,
    messagesFts: seq<FtsRow>,
    images: seq<Attachment>,
    files: seq<Attachment>,
    annotations: seq<Annotation>,
    tags: seq<Tag>,
    conversationTags: seq<ConversationTag>,
    wikiPages: seq<WikiPage>,
    wikiFts: seq<WikiFtsRow>,
    wikiPageTags: seq<PageTag>,
    wikiPins: seq<WikiPin>,
    wikiVersions: seq<WikiVersion>,
    wikiCategories: seq<WikiCategory>,
    wikiGenerations: seq<WikiGeneration>,
    gossip: seq<GossipRow>,
    imageBucket: map<string, StoredObject>,
    fileBucket: map<string, StoredObject>,
    outbox: seq<QueueJob>)

  /** The clock as the handlers see it: SQLite's `datetime('now')`, the
      ISO string of `new Date()`, and R2's upload time. */
  datatype Instant = Instant(sql: string, iso: string, ms: int)

  /** JavaScript truthiness of a nullable TEXT column. */
  predicate IsSet(v: Option<string>) {
    v.Some? && v.value != ""
  }

  /** `value || null`: an empty string is stored as `NULL`. */
  function NullIfEmpty(v: Option<string>): (r: Option<string>)
    ensures r.Some? <==> IsSet(v)
    ensures r.Some? ==> r == v
  {
    if IsSet(v) then v else None
  }

  // ------------------------------------------------------------ filtering

  /** The rows satisfying `p`, in order (a `WHERE` clause). */
  function Filter<T(!new)>(s: seq<T>, p: T -> bool): (r: seq<T>)
    ensures |r| <= |s|
    ensures forall x :: x in r <==> x in s && p(x)
  {
    if |s| == 0 then []
    else if p(s[0]) then [s[0]] + Filter(s[1..], p)
    else Filter(s[1..], p)
  }

  /** `WHERE p` and `WHERE NOT p` partition a table. */
  lemma {:induction false} FilterSplit<T(!new)>(s: seq<T>, p: T -> bool)
    ensures multiset(Filter(s, p)) + multiset(Filter(s, x => !p(x))) == multiset(s)
  {
    if |s| > 0 {
      FilterSplit(s[1..], p);
      assert s == [s[0]] + s[1..];
    }
  }

  /** A `WHERE` over two runs of rows is the two `WHERE`s, one after the
      other. */
  lemma {:induction false} FilterAppend<T(!new)>(a: seq<T>, b: seq<T>, p: T -> bool)
    ensures Filter(a + b, p) == Filter(a, p) + Filter(b, p)
    decreases |a|
  {
    if |a| == 0 {
      assert a + b == b;
    } else {
      assert (a + b)[1..] == a[1..] + b;
      FilterAppend(a[1..], b, p);
    }
  }

  /** A condition no row meets selects nothing. */
  lemma {:induction false} FilterNone<T(!new)>(s: seq<T>, p: T -> bool)
    requires forall i :: 0 <= i < |s| ==> !p(s[i])
    ensures Filter(s, p) == []
    decreases |s|
  {
    if |s| > 0 {
      FilterNone(s[1..], p);
    }
  }

  /** `.first()` of `SELECT … FROM conversations WHERE id = ?`. */
  function FindConversation(cs: seq<Conversation>, id: string): (r: Option<Conversation>)
    ensures r.None? <==> forall i :: 0 <= i < |cs| ==> cs[i].id != id
    ensures r.Some? ==> r.value in cs && r.value.id == id
  {
    if |cs| == 0 then None
    else if cs[0].id == id then Some(cs[0])
    else FindConversation(cs[1..], id)
  }

  /** `UPDATE conversations SET … WHERE id = ?`: `f` applied to the rows
      with that id. */
  function UpdateConversation(cs: seq<Conversation>, id: string, f: Conversation -> Conversation): (r: seq<Conversation>)
    ensures |r| == |cs|
    ensures forall i :: 0 <= i < |cs| ==> r[i] == if cs[i].id == id then f(cs[i]) else cs[i]
  {
    if |cs| == 0 then []
    else [if cs[0].id == id then f(cs[0]) else cs[0]] + UpdateConversation(cs[1..], id, f)
  }

  /** Reading a row back after updating it gives the updated row, as long
      as the update keeps the id. */
  lemma {:induction false} FindUpdated(cs: seq<Conversation>, id: string, f: Conversation -> Conversation)
    requires FindConversation(cs, id).Some?
    requires f(FindConversation(cs, id).value).id == id
    ensures FindConversation(UpdateConversation(cs, id, f), id) == Some(f(FindConversation(cs, id).value))
  {
    if cs[0].id != id {
      FindUpdated(cs[1..], id, f);
    }
  }

  /** `.first()` of `SELECT … FROM messages WHERE id = ?`. */
  function FindMessage(ms: seq<Message>, id: string): (r: Option<Message>)
    ensures r.None? <==> forall i :: 0 <= i < |ms| ==> ms[i].id != id
    ensures r.Some? ==> r.value in ms && r.value.id == id
  {
    if |ms| == 0 then None
    else if ms[0].id == id then Some(ms[0])
    else FindMessage(ms[1..], id)
  }

  /** `.first()` of `SELECT … FROM wiki_pages WHERE id = ?`. */
  function FindPage(pages: seq<WikiPage>, id: string): (r: Option<WikiPage>)
    ensures r.None? <==> forall i :: 0 <= i < |pages| ==> pages[i].id != id
    ensures r.Some? ==> r.value in pages && r.value.id == id
  {
    if |pages| == 0 then None
    else if pages[0].id == id then Some(pages[0])
    else FindPage(pages[1..], id)
  }

  /** `.first()` of `SELECT … FROM message_files WHERE id = ?` (or
      `message_images`). */
  function FindAttachment(rows: seq<Attachment>, id: string): (r: Option<Attachment>)
    ensures r.None? <==> forall i :: 0 <= i < |rows| ==> rows[i].id != id
    ensures r.Some? ==> r.value in rows && r.value.id == id
  {
    if |rows| == 0 then None
    else if rows[0].id == id then Some(rows[0])
    else FindAttachment(rows[1..], id)
  }

  /** The first row with an id stays the first when rows are appended. */
  lemma {:induction false} FindAttachmentSnoc(rows: seq<Attachment>, a: Attachment)
    ensures FindAttachment(rows, a.id).None? ==> FindAttachment(rows + [a], a.id) == Some(a)
    decreases |rows|
  {
    if |rows| > 0 {
      assert (rows + [a])[1..] == rows[1..] + [a];
      FindAttachmentSnoc(rows[1..], a);
    }
  }

  /** The messages of a conversation, in table order. */
  function MessagesOf(ms: seq<Message>, conversationId: string): (r: seq<Message>)
    ensures forall m :: m in r <==> m in ms && m.conversationId == conversationId
  {
    Filter(ms, (m: Message) => m.conversationId == conversationId)
  }

  /** `UPDATE message_images SET message_id = ? WHERE id = ? AND conversation_id = ?`
      (and the same for `message_files`). */
  function LinkAttachment(rows: seq<Attachment>, id: string, conversationId: string, messageId: Option<string>): (r: seq<Attachment>)
    ensures |r| == |rows|
    ensures forall i :: 0 <= i < |rows| ==>
      r[i] == if rows[i].id == id && rows[i].conversationId == conversationId then rows[i].(messageId := messageId) else rows[i]
  {
    if |rows| == 0 then []
    else
      [if rows[0].id == id && rows[0].conversationId == conversationId then rows[0].(messageId := messageId) else rows[0]]
      + LinkAttachment(rows[1..], id, conversationId, messageId)
  }

  /** `UPDATE … SET message_id = NULL WHERE conversation_id = ?`. */
  function DetachAll(rows: seq<Attachment>, conversationId: string): (r: seq<Attachment>)
    ensures |r| == |rows|
    ensures forall i :: 0 <= i < |rows| ==>
      r[i] == if rows[i].conversationId == conversationId then rows[i].(messageId := None) else rows[i]
  {
    if |rows| == 0 then []
    else
      [if rows[0].conversationId == conversationId then rows[0].(messageId := None) else rows[0]]
      + DetachAll(rows[1..], conversationId)
  }

  /** The messages' ids. */
  function MessageIds(ms: seq<Message>): (r: set<string>)
    ensures forall id :: id in r <==> exists m :: m in ms && m.id == id
  {
    set m | m in ms :: m.id
  }

  // ------------------------------------------------------------ buckets

  /** `env.FILES.put(key, text, { httpMetadata: { contentType } })`: that
      one object is written and nothing else changes. */
  function PutText(db: Db, key: string, text: string, contentType: string, uploaded: int): (r: Db)
    ensures key in r.fileBucket && r.fileBucket[key] == StoredObject(TextBody(text), Some(contentType), uploaded)
    ensures r == db.(fileBucket := r.fileBucket)
    ensures forall k :: k != key ==> (k in r.fileBucket <==> k in db.fileBucket)
    ensures forall k :: k != key && k in db.fileBucket ==> r.fileBucket[k] == db.fileBucket[k]
  {
    db.(fileBucket := db.fileBucket[key := StoredObject(TextBody(text), Some(contentType), uploaded)])
  }
}

=== FILE: stream.dfy ===
/** The read loop of `streamClaudeResponse`: decoded chunks are appended
    to a buffer, the buffer is split on blank lines ("\n\n"), every piece
    but the last is handled as one event block and the last is kept for the
    next chunk. A block's last `event: ` line names its type and its last
    `data: ` line carries its JSON; text deltas are accumulated and
    re-emitted in order. JSON parsing is the parameter `parse` (`None` when
    the text is not JSON). */
module StreamRelay {
  import opened Wrappers
  import opened Text
  import opened Json
  import opened ModelDetector

  const BlankLine: string := "\n\n"

  // ------------------------------------------------------------ framing

  /** A blank line starts at `i`. */
  predicate SepAt(s: string, i: int) {
    0 <= i && i + 1 < |s| && s[i] == '\n' && s[i + 1] == '\n'
  }

  predicate HasSep(s: string) {
    exists i :: 0 <= i < |s| && SepAt(s, i)
  }

  /** The first blank line. */
  function FindSep(s: string): (r: Option<nat>)
    ensures r.None? ==> !HasSep(s)
    ensures r.Some? ==> SepAt(s, r.value) && forall j :: 0 <= j < r.value ==> !SepAt(s, j)
    decreases |s|
  {
    if |s| < 2 then None
    else if s[0] == '\n' && s[1] == '\n' then Some(0)
    else
      var rest := FindSep(s[1..]);
      assert forall j :: 1 <= j ==> (SepAt(s, j) <==> SepAt(s[1..], j - 1));
      match rest
      case None => None
      case Some(i) => Some(i + 1)
  }

  /** A piece that can sit in front of a blank line without changing where
      the split falls: no blank line inside and no trailing newline. */
  predicate Clean(e: string) {
    !HasSep(e) && (|e| == 0 || e[|e| - 1] != '\n')
  }

  predicate AllClean(q: seq<string>) {
    forall k :: 0 <= k < |q| ==> Clean(q[k])
  }

  /** `s.split("\n\n")`. */
  function Blocks(s: string): (r: seq<string>)
    ensures |r| > 0
    ensures !HasSep(r[|r| - 1])
    ensures forall k :: 0 <= k < |r| - 1 ==> Clean(r[k])
    decreases |s|
  {
    match FindSep(s)
    case None => [s]
    case Some(i) =>
      var head := s[..i];
      assert forall j :: SepAt(head, j) ==> SepAt(s, j);
      assert i > 0 ==> !SepAt(s, i - 1);
      [head] + Blocks(s[i + 2..])
  }

  /** Joining the pieces with blank lines gives back the text. */
  lemma {:induction false} JoinBlocks(s: string)
    ensures Join(Blocks(s), BlankLine) == s
    decreases |s|
  {
    match FindSep(s)
    case None =>
    case Some(i) =>
      JoinBlocks(s[i + 2..]);
      JoinCons(s[..i], Blocks(s[i + 2..]), BlankLine);
      assert s == s[..i] + BlankLine + s[i + 2..];
  }

  /** A clean piece followed by a blank line is split off as it is. */
  lemma SplitAfterClean(e: string, rest: string)
    requires Clean(e)
    ensures Blocks(e + BlankLine + rest) == [e] + Blocks(rest)
  {
    var s := e + BlankLine + rest;
    assert SepAt(s, |e|);
    forall j | 0 <= j < |e| ensures !SepAt(s, j) {
      if j + 1 < |e| {
        assert !SepAt(e, j);
      }
    }
    assert FindSep(s) == Some(|e|) by {
      var f := FindSep(s);
      assert f.Some?;
      assert !(f.value < |e|) && !(|e| < f.value);
    }
    assert s[..|e|] == e;
    assert s[|e| + 2..] == rest;
  }

  /** A clean piece joined in front is split off again. */
  lemma SplitJoinedFront(head: string, rest: seq<string>, more: string)
    requires |rest| > 0 && Clean(head)
    ensures Blocks(Join([head] + rest, BlankLine) + more) == [head] + Blocks(Join(rest, BlankLine) + more)
  {
    JoinCons(head, rest, BlankLine);
    var tail := Join(rest, BlankLine) + more;
    assert Join([head] + rest, BlankLine) + more == head + BlankLine + tail;
    SplitAfterClean(head, tail);
  }

  lemma CleanHeadTail(done: seq<string>)
    requires |done| > 0 && AllClean(done)
    ensures Clean(done[0]) && AllClean(done[1..])
  {
    forall k | 0 <= k < |done| - 1 ensures Clean(done[1..][k]) {
      assert done[1..][k] == done[k + 1];
    }
  }

  lemma ConsAfter<T>(s: seq<T>, t: seq<T>)
    requires |s| > 0
    ensures s + t == [s[0]] + (s[1..] + t)
  {
  }

  /** Re-splitting clean pieces and a kept remainder followed by more text
      gives back the pieces, then the split of the remainder and the text. */
  lemma {:induction false} SplitAfterJoin(done: seq<string>, buffer: string, more: string)
    requires AllClean(done)
    ensures Blocks(Join(done + [buffer], BlankLine) + more) == done + Blocks(buffer + more)
    decreases |done|
  {
    if |done| == 0 {
      assert done + [buffer] == [buffer];
    } else {
      var rest := done[1..] + [buffer];
      ConsAfter(done, [buffer]);
      CleanHeadTail(done);
      SplitJoinedFront(done[0], rest, more);
      SplitAfterJoin(done[1..], buffer, more);
      ConsAfter(done, Blocks(buffer + more));
    }
  }

  /** The split blocks handed on so far and the kept remainder. */
  datatype Framing = Framing(blocks: seq<string>, buffer: string)

  /** One chunk: `buffer += chunk; events = buffer.split("\n\n");
      buffer = events.pop()`. */
  function Feed(f: Framing, chunk: string): (r: Framing)
    ensures !HasSep(r.buffer)
  {
    var pieces := Blocks(f.buffer + chunk);
    Framing(f.blocks + pieces[..|pieces| - 1], pieces[|pieces| - 1])
  }

  /** The chunks read so far, from an empty buffer. */
  function FeedAll(chunks: seq<string>): (r: Framing)
    ensures !HasSep(r.buffer)
  {
    if |chunks| == 0 then Framing([], "")
    else Feed(FeedAll(chunks[..|chunks| - 1]), chunks[|chunks| - 1])
  }

  function Concat(chunks: seq<string>): string {
    if |chunks| == 0 then "" else Concat(chunks[..|chunks| - 1]) + chunks[|chunks| - 1]
  }

  lemma SnocSplit(a: seq<string>, p: seq<string>)
    requires |p| > 0
    ensures a + p == (a + p[..|p| - 1]) + [p[|p| - 1]]
  {
    assert p == p[..|p| - 1] + [p[|p| - 1]];
  }

  lemma CleanFront(a: seq<string>, p: seq<string>)
    requires |p| > 0
    requires forall k :: 0 <= k < |a| ==> Clean(a[k])
    requires forall k :: 0 <= k < |p| - 1 ==> Clean(p[k])
    ensures AllClean(a + p[..|p| - 1])
  {
    var q := a + p[..|p| - 1];
    forall k | 0 <= k < |q| ensures Clean(q[k]) {
      if k >= |a| {
        assert q[k] == p[k - |a|];
      }
    }
  }

  /** One more chunk keeps the blocks and the buffer equal to the split
      of the text read so far. */
  lemma FeedKeepsSplit(f: Framing, text: string, chunk: string)
    requires Blocks(text) == f.blocks + [f.buffer]
    requires AllClean(f.blocks)
    ensures Blocks(text + chunk) == Feed(f, chunk).blocks + [Feed(f, chunk).buffer]
    ensures AllClean(Feed(f, chunk).blocks)
  {
    JoinBlocks(text);
    SplitAfterJoin(f.blocks, f.buffer, chunk);
    var pieces := Blocks(f.buffer + chunk);
    SnocSplit(f.blocks, pieces);
    CleanFront(f.blocks, pieces);
  }

  /** However the stream is cut into chunks, the blocks handed on and the
      kept remainder are the split of the whole stream text: every piece
      but the last is a block, and the last stays in the buffer. */
  lemma {:induction false} FramingIsSplit(chunks: seq<string>)
    ensures Blocks(Concat(chunks)) == FeedAll(chunks).blocks + [FeedAll(chunks).buffer]
    ensures AllClean(FeedAll(chunks).blocks)
    decreases |chunks|
  {
    if |chunks| == 0 {
      assert FindSep("") == None;
    } else {
      var init := chunks[..|chunks| - 1];
      FramingIsSplit(init);
      FeedKeepsSplit(FeedAll(init), Concat(init), chunks[|chunks| - 1]);
    }
  }

  /** Chunk boundaries do not matter: two chunkings of the same text hand
      on the same blocks and keep the same remainder. */
  lemma ChunkingIrrelevant(a: seq<string>, b: seq<string>)
    requires Concat(a) == Concat(b)
    ensures FeedAll(a) == FeedAll(b)
  {
    FramingIsSplit(a);
    FramingIsSplit(b);
    var pa, pb := FeedAll(a).blocks + [FeedAll(a).buffer], FeedAll(b).blocks + [FeedAll(b).buffer];
    assert FeedAll(a).blocks == pa[..|pa| - 1];
    assert FeedAll(b).blocks == pb[..|pb| - 1];
  }

  /** Text that completes no blank line only grows the buffer: whatever
      it holds, it is not handed on as a block. */
  lemma TrailingTextKept(chunks: seq<string>, tail: string)
    requires !HasSep(FeedAll(chunks).buffer + tail)
    ensures FeedAll(chunks + [tail]).blocks == FeedAll(chunks).blocks
    ensures FeedAll(chunks + [tail]).buffer == FeedAll(chunks).buffer + tail
  {
    assert (chunks + [tail])[..|chunks|] == chunks;
    var f := FindSep(FeedAll(chunks).buffer + tail);
    assert f.None?;
  }

  // ------------------------------------------------------------ one block

  /** The type and data of a block from a front-to-back pass over its
      lines: an `event: ` line sets the type (trimmed), a `data: ` line sets
      the data; later lines overwrite earlier ones. */
  function ScanLines(lines: seq<string>, eventType: string, data: string): (r: (string, string))
    decreases |lines|
  {
    if |lines| == 0 then (eventType, data)
    else if StartsWith(lines[0], "event: ") then ScanLines(lines[1..], Trim(lines[0][7..]), data)
    else if StartsWith(lines[0], "data: ") then ScanLines(lines[1..], eventType, lines[0][6..])
    else ScanLines(lines[1..], eventType, data)
  }

  /** The data of the last `data: ` line, found from the back. */
  function LastData(lines: seq<string>): (r: Option<string>)
    ensures r.None? <==> forall k :: 0 <= k < |lines| ==> !StartsWith(lines[k], "data: ")
    decreases |lines|
  {
    if |lines| == 0 then None
    else
      var last := lines[|lines| - 1];
      if StartsWith(last, "data: ") then Some(last[6..])
      else
        var r := LastData(lines[..|lines| - 1]);
        assert forall k :: 0 <= k < |lines| - 1 ==> lines[..|lines| - 1][k] == lines[k];
        r
  }

  /** The type of the last `event: ` line, found from the back. */
  function LastEvent(lines: seq<string>): (r: Option<string>)
    decreases |lines|
  {
    if |lines| == 0 then None
    else
      var last := lines[|lines| - 1];
      if StartsWith(last, "event: ") then Some(Trim(last[7..]))
      else LastEvent(lines[..|lines| - 1])
  }

  /** No line starts both ways. */
  lemma NotBoth(line: string)
    ensures !(StartsWith(line, "event: ") && StartsWith(line, "data: "))
  {
    if StartsWith(line, "event: ") {
      assert line[0] == 'e';
    }
  }

  lemma {:induction false} ScanSnocData(lines: seq<string>, line: string, eventType: string, data: string)
    ensures ScanLines(lines + [line], eventType, data).1
         == if StartsWith(line, "data: ") then line[6..] else ScanLines(lines, eventType, data).1
    decreases |lines|
  {
    if |lines| > 0 {
      assert (lines + [line])[1..] == lines[1..] + [line];
      if StartsWith(lines[0], "event: ") {
        ScanSnocData(lines[1..], line, Trim(lines[0][7..]), data);
      } else if StartsWith(lines[0], "data: ") {
        ScanSnocData(lines[1..], line, eventType, lines[0][6..]);
      } else {
        ScanSnocData(lines[1..], line, eventType, data);
      }
    } else {
      assert lines + [line] == [line];
      NotBoth(line);
    }
  }

  lemma {:induction false} ScanSnocEvent(lines: seq<string>, line: string, eventType: string, data: string)
    ensures ScanLines(lines + [line], eventType, data).0
         == if StartsWith(line, "event: ") then Trim(line[7..]) else ScanLines(lines, eventType, data).0
    decreases |lines|
  {
    if |lines| > 0 {
      assert (lines + [line])[1..] == lines[1..] + [line];
      if StartsWith(lines[0], "event: ") {
        ScanSnocEvent(lines[1..], line, Trim(lines[0][7..]), data);
      } else if StartsWith(lines[0], "data: ") {
        ScanSnocEvent(lines[1..], line, eventType, lines[0][6..]);
      } else {
        ScanSnocEvent(lines[1..], line, eventType, data);
      }
    } else {
      assert lines + [line] == [line];
    }
  }

  /** The front-to-back pass keeps the last `data: ` line, as a search from
      the back finds it. */
  lemma {:induction false} LastDataWins(lines: seq<string>)
    ensures ScanLines(lines, "", "").1 == LastData(lines).GetOr("")
    decreases |lines|
  {
    if |lines| > 0 {
      var init := lines[..|lines| - 1];
      LastDataWins(init);
      ScanSnocData(init, lines[|lines| - 1], "", "");
      assert init + [lines[|lines| - 1]] == lines;
    }
  }

  /** Likewise for the last `event: ` line. */
  lemma {:induction false} LastEventWins(lines: seq<string>)
    ensures ScanLines(lines, "", "").0 == LastEvent(lines).GetOr("")
    decreases |lines|
  {
    if |lines| > 0 {
      var init := lines[..|lines| - 1];
      LastEventWins(init);
      ScanSnocEvent(init, lines[|lines| - 1], "", "");
      assert init + [lines[|lines| - 1]] == lines;
    }
  }

  /** The type and data of a block. */
  function Fields(block: string): (string, string) {
    ScanLines(Split(block, '\n'), "", "")
  }

  // ------------------------------------------------------------ relaying

  /** What the loop has gathered: the accumulated text, the texts sent on
      as `delta` events, and the model named by the first `message_start`
      that names one. */
  datatype Relay = Relay(text: string, deltas: seq<string>, model: Json)

  const Unknown: Json := JStr("unknown")

  /** `parsed.delta?.text` when it is a non-empty string. A truthy text of
      another JSON type is not modelled. */
  function DeltaText(parsed: Json): (r: Option<string>)
    ensures r.Some? ==> r.value != ""
  {
    if !parsed.JObj? then None
    else
      match Field(parsed.fields, "delta")
      case Some(JObj(fields)) =>
        (match Field(fields, "text")
         case Some(JStr(t)) => if t != "" then Some(t) else None
         case _ => None)
      case _ => None
  }

  /** Whether a block is skipped before parsing: blank, without data, or
      the `[DONE]` marker. */
  predicate Skipped(block: string) {
    Trim(block) == "" || Fields(block).1 == "" || Fields(block).1 == "[DONE]"
  }

  /** A parsed block of the given type and data. */
  function Interpret(r: Relay, eventType: string, data: string, parse: string -> Option<Json>): (r': Relay)
    ensures r.model != Unknown ==> r'.model == r.model
    ensures (r'.deltas == r.deltas && r'.text == r.text)
            || (|r'.deltas| == |r.deltas| + 1 && r'.deltas[..|r.deltas|] == r.deltas
                && r'.text == r.text + r'.deltas[|r.deltas|])
  {
    match parse(data)
    case None => r
    case Some(parsed) =>
      var model := if eventType == "message_start" && r.model == Unknown then ExtractModelFromSse(Some(parsed)) else r.model;
      var delta := if eventType == "content_block_delta" then DeltaText(parsed) else None;
      if delta.Some? then Relay(r.text + delta.value, r.deltas + [delta.value], model)
      else Relay(r.text, r.deltas, model)
  }

  /** One block of the loop. */
  function Step(r: Relay, block: string, parse: string -> Option<Json>): (r': Relay)
    ensures Skipped(block) ==> r' == r
    ensures r.model != Unknown ==> r'.model == r.model
    ensures (r'.deltas == r.deltas && r'.text == r.text)
            || (|r'.deltas| == |r.deltas| + 1 && r'.deltas[..|r.deltas|] == r.deltas
                && r'.text == r.text + r'.deltas[|r.deltas|])
  {
    if Skipped(block) then r else Interpret(r, Fields(block).0, Fields(block).1, parse)
  }

  /** The blocks in order. */
  function RelayAll(r: Relay, blocks: seq<string>, parse: string -> Option<Json>): Relay
    decreases |blocks|
  {
    if |blocks| == 0 then r
    else RelayAll(Step(r, blocks[0], parse), blocks[1..], parse)
  }

  /** The accumulated text is the re-emitted deltas, in order. */
  lemma {:induction false} TextIsDeltas(r: Relay, blocks: seq<string>, parse: string -> Option<Json>)
    requires r.text == Concat(r.deltas)
    ensures RelayAll(r, blocks, parse).text == Concat(RelayAll(r, blocks, parse).deltas)
    decreases |blocks|
  {
    if |blocks| > 0 {
      var next := Step(r, blocks[0], parse);
      if next.deltas != r.deltas {
        assert next.deltas == r.deltas + [next.deltas[|r.deltas|]];
      }
      TextIsDeltas(next, blocks[1..], parse);
    }
  }

  /** Once a model is detected it is kept. */
  lemma {:induction false} ModelSticks(r: Relay, blocks: seq<string>, parse: string -> Option<Json>)
    requires r.model != Unknown
    ensures RelayAll(r, blocks, parse).model == r.model
    decreases |blocks|
  {
    if |blocks| > 0 {
      ModelSticks(Step(r, blocks[0], parse), blocks[1..], parse);
    }
  }

  /** Skipped blocks can be dropped without changing anything. */
  lemma {:induction false} SkippedBlocksIgnored(r: Relay, blocks: seq<string>, parse: string -> Option<Json>)
    requires forall k :: 0 <= k < |blocks| ==> Skipped(blocks[k])
    ensures RelayAll(r, blocks, parse) == r
    decreases |blocks|
  {
    if |blocks| > 0 {
      SkippedBlocksIgnored(r, blocks[1..], parse);
    }
  }

  const Start: Relay := Relay("", [], Unknown)

  /** The loop over a whole stream of chunks. */
  function RelayStream(chunks: seq<string>, parse: string -> Option<Json>): (r: Relay)
    ensures r.text == Concat(r.deltas)
  {
    TextIsDeltas(Start, FeedAll(chunks).blocks, parse);
    RelayAll(Start, FeedAll(chunks).blocks, parse)
  }

  /** The relay depends on the stream text only: every block but the text
      after the last blank line is relayed, whatever the chunking. */
  lemma RelayIsOfText(chunks: seq<string>, parse: string -> Option<Json>)
    ensures var pieces := Blocks(Concat(chunks));
            RelayStream(chunks, parse) == RelayAll(Start, pieces[..|pieces| - 1], parse)
  {
    FramingIsSplit(chunks);
    var pieces := Blocks(Concat(chunks));
    assert FeedAll(chunks).blocks == pieces[..|pieces| - 1];
  }
}

=== FILE: tags.dfy ===
/** Tags, their assignment to conversations, and message annotations
    (`src/routes/tags.ts`). Tag names are stored trimmed and lower-cased;
    assigning a tag is insert-or-ignore; a message carries at most one
    annotation, which a new one replaces. */
module Tags {
  import opened Wrappers
  import opened Text
  import opened Store
  import opened Sorting

  // ------------------------------------------------------------ tag names

  /** `name.trim().toLowerCase()`. */
  function NormalName(name: string): (r: string)
    ensures |r| <= |name|
    ensures r == [] <==> AllWhite(name)
    ensures r == [] || (!IsWhite(r[0]) && !IsWhite(r[|r| - 1]))
    ensures forall i :: 0 <= i < |r| ==> !IsUpper(r[i])
  {
    var t := Trim(name);
    var r := Lower(t);
    assert r == [] || (!IsWhite(r[0]) && !IsWhite(r[|r| - 1])) by {
      if r != [] {
        LowerCharWhite(t[0]);
        LowerCharWhite(t[|t| - 1]);
      }
    }
    r
  }

  /** Case folding turns no character into a space and no space into
      anything else. */
  lemma LowerCharWhite(c: char)
    ensures IsWhite(LowerChar(c)) == IsWhite(c)
  {
  }

  /** Normalising a stored name changes nothing. */
  lemma NormalNameIdempotent(name: string)
    ensures NormalName(NormalName(name)) == NormalName(name)
  {
    var t := Trim(name);
    LowerOfTrimmed(t);
    LowerIdempotent(t);
  }

  /** Names that differ only in case and surrounding spaces are the same
      tag. */
  lemma NormalNameIgnoresCase(name: string)
    ensures NormalName(Lower(name)) == NormalName(name)
    ensures NormalName(" " + name) == NormalName(name)
  {
    var padded := " " + name;
    assert padded[1..] == name;
    assert TrimStart(padded) == TrimStart(name);
    LowerCommutesTrim(name);
    LowerIdempotent(Trim(name));
  }

  lemma LowerCommutesTrim(s: string)
    ensures Trim(Lower(s)) == Lower(Trim(s))
  {
    LowerTrimStart(s);
    LowerTrimEnd(TrimStart(s));
  }

  lemma {:induction false} LowerTrimStart(s: string)
    ensures TrimStart(Lower(s)) == Lower(TrimStart(s))
  {
    if |s| > 0 {
      LowerCharWhite(s[0]);
    }
    if |s| > 0 && IsWhite(s[0]) {
      assert Lower(s)[1..] == Lower(s[1..]);
      LowerTrimStart(s[1..]);
    }
  }

  lemma {:induction false} LowerTrimEnd(s: string)
    ensures TrimEnd(Lower(s)) == Lower(TrimEnd(s))
  {
    if |s| > 0 {
      LowerCharWhite(s[|s| - 1]);
    }
    if |s| > 0 && IsWhite(s[|s| - 1]) {
      assert Lower(s)[..|s| - 1] == Lower(s[..|s| - 1]);
      LowerTrimEnd(s[..|s| - 1]);
    }
  }

  // ------------------------------------------------------------ tags

  /** `.first()` of `SELECT id FROM tags WHERE name = ?`. */
  function FindByName(tags: seq<Tag>, name: string): (r: Option<Tag>)
    ensures r.None? <==> forall i :: 0 <= i < |tags| ==> tags[i].name != name
    ensures r.Some? ==> r.value in tags && r.value.name == name
  {
    if |tags| == 0 then None
    else if tags[0].name == name then Some(tags[0])
    else FindByName(tags[1..], name)
  }

  /** `FindByName` picks the first row with the name. */
  lemma {:induction false} FindByNameFirst(tags: seq<Tag>, k: nat)
    requires k < |tags|
    requires forall j :: 0 <= j < k ==> tags[j].name != tags[k].name
    ensures FindByName(tags, tags[k].name) == Some(tags[k])
  {
    if k > 0 {
      FindByNameFirst(tags[1..], k - 1);
    }
  }

  /** The row `FindByName` returns is the first with the name. */
  lemma {:induction false} FindByNameIndex(tags: seq<Tag>, name: string) returns (k: nat)
    requires FindByName(tags, name).Some?
    ensures k < |tags| && tags[k] == FindByName(tags, name).value
    ensures forall j :: 0 <= j < k ==> tags[j].name != name
  {
    if tags[0].name == name {
      k := 0;
    } else {
      var i := FindByNameIndex(tags[1..], name);
      k := i + 1;
    }
  }

  /** `.first()` of `SELECT * FROM tags WHERE id = ?`. */
  function FindTag(tags: seq<Tag>, id: string): (r: Option<Tag>)
    ensures r.None? <==> forall i :: 0 <= i < |tags| ==> tags[i].id != id
    ensures r.Some? ==> r.value in tags && r.value.id == id
  {
    if |tags| == 0 then None
    else if tags[0].id == id then Some(tags[0])
    else FindTag(tags[1..], id)
  }

  /** The invariant the duplicate check keeps: no two tags share a name. */
  predicate UniqueNames(tags: seq<Tag>) {
    forall i, j :: 0 <= i < j < |tags| ==> tags[i].name != tags[j].name
  }

  /** A reply together with the store it leaves behind. */
  datatype Handled<T> = Handled(db: Db, reply: Reply<T>)

  /** `POST /api/tags`. */
  function CreateTag(db: Db, name: Option<string>, color: Option<string>, id: string): (r: Handled<Tag>)
    ensures r.reply == Fail(400, "Tag name is required") <==> name.None? || AllWhite(name.value)
    ensures r.reply == Fail(409, "Tag already exists") <==>
      name.Some? && !AllWhite(name.value) && FindByName(db.tags, NormalName(name.value)).Some?
    ensures r.reply.Fail? ==> r.db == db
    ensures r.reply.Reply? ==>
      && r.reply.value == Tag(id, NormalName(name.value), NullIfEmpty(color))
      && r.db == db.(tags := db.tags + [r.reply.value])
  {
    if name.None? || Trim(name.value) == "" then Handled(db, Fail(400, "Tag name is required"))
    else
      var normal := NormalName(name.value);
      if FindByName(db.tags, normal).Some? then Handled(db, Fail(409, "Tag already exists"))
      else
        var tag := Tag(id, normal, NullIfEmpty(color));
        Handled(db.(tags := db.tags + [tag]), Reply(tag))
  }

  /** Creating a tag never introduces a second tag of the same name, and
      every created name is non-empty and normalised. */
  lemma CreateKeepsNamesUnique(db: Db, name: Option<string>, color: Option<string>, id: string)
    requires UniqueNames(db.tags)
    ensures UniqueNames(CreateTag(db, name, color, id).db.tags)
    ensures var r := CreateTag(db, name, color, id);
      r.reply.Reply? ==> r.reply.value.name != "" && NormalName(r.reply.value.name) == r.reply.value.name
  {
    var r := CreateTag(db, name, color, id);
    if r.reply.Reply? {
      NormalNameIdempotent(name.value);
      AppendNewName(db.tags, r.reply.value);
    }
  }

  /** A tag whose name no row has keeps names unique. */
  lemma AppendNewName(tags: seq<Tag>, t: Tag)
    requires UniqueNames(tags) && FindByName(tags, t.name).None?
    ensures UniqueNames(tags + [t])
  {
    var all := tags + [t];
    forall i, j | 0 <= i < j < |all| ensures all[i].name != all[j].name {
      if j == |tags| {
        assert all[i] == tags[i];
      }
    }
  }

  /** `DELETE /api/tags/:id`. */
  function DeleteTag(db: Db, id: string): (r: Db)
    ensures r == db.(tags := r.tags)
    ensures forall t :: t in r.tags <==> t in db.tags && t.id != id
  {
    db.(tags := Filter(db.tags, (t: Tag) => t.id != id))
  }

  // ------------------------------------------------------------ conversation tags

  /** Which tag a `POST /api/conversations/:id/tags` body names: the given
      `tag_id`, else the tag of that (normalised) name, created when
      missing; `None` when neither is given. */
  function ResolveTag(db: Db, tagId: Option<string>, name: Option<string>, color: Option<string>, freshId: string): (r: (Db, Option<string>))
    ensures IsSet(tagId) ==> r == (db, tagId)
    ensures !IsSet(tagId) && !IsSet(name) ==> r == (db, tagId)
    ensures !IsSet(tagId) && IsSet(name) ==>
      var found := FindByName(db.tags, NormalName(name.value));
      && (found.Some? ==> r == (db, Some(found.value.id)))
      && (found.None? ==> r == (db.(tags := db.tags + [Tag(freshId, NormalName(name.value), NullIfEmpty(color))]), Some(freshId)))
  {
    if !IsSet(tagId) && IsSet(name) then
      var normal := NormalName(name.value);
      match FindByName(db.tags, normal)
      case Some(existing) => (db, Some(existing.id))
      case None => (db.(tags := db.tags + [Tag(freshId, normal, NullIfEmpty(color))]), Some(freshId))
    else (db, tagId)
  }

  /** `INSERT OR IGNORE INTO conversation_tags`. */
  function Link(links: seq<ConversationTag>, conversationId: string, tagId: string): (r: seq<ConversationTag>)
    ensures ConversationTag(conversationId, tagId) in r
    ensures forall l :: l in links ==> l in r
    ensures forall l :: l in r ==> l in links || l == ConversationTag(conversationId, tagId)
    ensures ConversationTag(conversationId, tagId) in links ==> r == links
  {
    var link := ConversationTag(conversationId, tagId);
    if link in links then links else links + [link]
  }

  /** `POST /api/conversations/:id/tags`: the assigned tag, or `None` when
      no tag has that id. */
  function AssignTag(db: Db, conversationId: string, tagId: Option<string>, name: Option<string>,
                     color: Option<string>, freshId: string): (r: Handled<Option<Tag>>)
    ensures !IsSet(tagId) && !IsSet(name) ==> r.reply.Fail?
    ensures (forall t :: t in db.tags ==> t.id != "") && freshId != "" ==>
      (r.reply.Fail? <==> !IsSet(tagId) && !IsSet(name))
    ensures r.reply.Fail? ==> r.db == db && r.reply == Fail(400, "Either tag_id or name is required")
  {
    var (resolved, id) := ResolveTag(db, tagId, name, color, freshId);
    if !IsSet(id) then Handled(db, Fail(400, "Either tag_id or name is required"))
    else
      var linked := resolved.(conversationTags := Link(resolved.conversationTags, conversationId, id.value));
      Handled(linked, Reply(FindTag(linked.tags, id.value)))
  }

  /** After an assignment the conversation carries the tag, and the tags
      it carried before stay. */
  lemma AssignLinks(db: Db, conversationId: string, tagId: Option<string>, name: Option<string>,
                    color: Option<string>, freshId: string)
    requires IsSet(tagId) || IsSet(name)
    requires freshId != "" && forall t :: t in db.tags ==> t.id != ""
    ensures var r := AssignTag(db, conversationId, tagId, name, color, freshId);
      && (exists t :: ConversationTag(conversationId, t) in r.db.conversationTags
                       && (IsSet(tagId) ==> t == tagId.value))
      && (forall l :: l in db.conversationTags ==> l in r.db.conversationTags)
      && (forall t :: t in db.tags ==> t in r.db.tags)
  {
    var (resolved, id) := ResolveTag(db, tagId, name, color, freshId);
    assert IsSet(id);
    assert ConversationTag(conversationId, id.value) in Link(resolved.conversationTags, conversationId, id.value);
  }

  /** Assigning the same tag twice is the same as assigning it once. */
  lemma AssignIdempotent(db: Db, conversationId: string, tagId: Option<string>, name: Option<string>,
                         color: Option<string>, freshId: string, freshId2: string)
    requires freshId != ""
    ensures var once := AssignTag(db, conversationId, tagId, name, color, freshId);
      AssignTag(once.db, conversationId, tagId, name, color, freshId2) == once
  {
    var once := AssignTag(db, conversationId, tagId, name, color, freshId);
    if !IsSet(tagId) && IsSet(name) {
      var normal := NormalName(name.value);
      var found := FindByName(db.tags, normal);
      if found.None? {
        var t := Tag(freshId, normal, NullIfEmpty(color));
        FindByNameSnoc(db.tags, t);
        if freshId != "" {
          assert once.db.tags == db.tags + [t];
          assert FindByName(once.db.tags, normal) == Some(t);
          assert ResolveTag(once.db, tagId, name, color, freshId2) == (once.db, Some(freshId));
        }
      }
    }
  }

  /** The first tag of a name is still the first after a row is appended. */
  lemma FindByNameSnoc(tags: seq<Tag>, t: Tag)
    ensures FindByName(tags, t.name).None? ==> FindByName(tags + [t], t.name) == Some(t)
    ensures FindByName(tags, t.name).Some? ==> FindByName(tags + [t], t.name) == FindByName(tags, t.name)
  {
    var both := tags + [t];
    assert both[|tags|] == t;
    assert forall j :: 0 <= j < |tags| ==> both[j] == tags[j];
    if FindByName(tags, t.name).None? {
      FindByNameFirst(both, |tags|);
    } else {
      var i := FindByNameIndex(tags, t.name);
      FindByNameFirst(both, i);
    }
  }

  lemma FindTagSnoc(tags: seq<Tag>, t: Tag)
    ensures FindTag(tags, t.id).None? ==> FindTag(tags + [t], t.id) == Some(t)
  {
    if FindTag(tags, t.id).None? {
      var both := tags + [t];
      assert both[|tags|] == t;
      FindTagFirst(both, |tags|);
    }
  }

  /** `FindTag` picks the first row with the id. */
  lemma {:induction false} FindTagFirst(tags: seq<Tag>, k: nat)
    requires k < |tags|
    requires forall j :: 0 <= j < k ==> tags[j].id != tags[k].id
    ensures FindTag(tags, tags[k].id) == Some(tags[k])
  {
    if k > 0 {
      FindTagFirst(tags[1..], k - 1);
    }
  }

  /** `DELETE FROM conversation_tags WHERE conversation_id = ? AND tag_id = ?`. */
  function RemoveTag(db: Db, conversationId: string, tagId: string): (r: Db)
    ensures r == db.(conversationTags := r.conversationTags)
    ensures forall l :: l in r.conversationTags <==> l in db.conversationTags && l != ConversationTag(conversationId, tagId)
  {
    db.(conversationTags := Filter(db.conversationTags, (l: ConversationTag) => l != ConversationTag(conversationId, tagId)))
  }

  /** Removing a tag after assigning it by id leaves the conversation
      without it. */
  lemma AssignThenRemove(db: Db, conversationId: string, tagId: string, freshId: string)
    requires tagId != ""
    ensures var tagged := AssignTag(db, conversationId, Some(tagId), None, None, freshId).db;
      ConversationTag(conversationId, tagId) !in RemoveTag(tagged, conversationId, tagId).conversationTags
  {
  }

  // ------------------------------------------------------------ tag list

  /** A row of `GET /api/tags`: the tag and how many conversations carry it. */
  datatype TagCount = TagCount(tag: Tag, conversationCount: nat)

  function CountLinks(links: seq<ConversationTag>, tagId: string): (n: nat)
    ensures n <= |links|
    ensures n == 0 <==> forall i :: 0 <= i < |links| ==> links[i].tagId != tagId
  {
    if |links| == 0 then 0
    else CountLinks(links[1..], tagId) + (if links[0].tagId == tagId then 1 else 0)
  }

  predicate NameOrder(a: TagCount, b: TagCount) {
    StrLe(a.tag.name, b.tag.name)
  }

  lemma NameOrderIsTotal()
    ensures Total(NameOrder) && Transitive(NameOrder)
  {
    forall a: TagCount, b: TagCount ensures NameOrder(a, b) || NameOrder(b, a) {
      StrLeTotal(a.tag.name, b.tag.name);
    }
    forall a: TagCount, b: TagCount, c: TagCount | NameOrder(a, b) && NameOrder(b, c) ensures NameOrder(a, c) {
      StrLeTransitive(a.tag.name, b.tag.name, c.tag.name);
    }
  }

  /** `SELECT t.*, COUNT(ct.conversation_id) … GROUP BY t.id ORDER BY t.name`. */
  function ListTags(db: Db): (r: seq<TagCount>)
    ensures |r| == |db.tags|
    ensures multiset(r) == multiset(seq(|db.tags|, i requires 0 <= i < |db.tags| => TagCount(db.tags[i], CountLinks(db.conversationTags, db.tags[i].id))))
  {
    SortBy(seq(|db.tags|, i requires 0 <= i < |db.tags| => TagCount(db.tags[i], CountLinks(db.conversationTags, db.tags[i].id))), NameOrder)
  }

  /** The list is in name order, and every tag appears with the number of
      conversations that carry it. */
  lemma ListTagsOrdered(db: Db)
    ensures SortedBy(ListTags(db), NameOrder)
    ensures forall t :: t in db.tags ==> TagCount(t, CountLinks(db.conversationTags, t.id)) in ListTags(db)
  {
    var rows := seq(|db.tags|, i requires 0 <= i < |db.tags| => TagCount(db.tags[i], CountLinks(db.conversationTags, db.tags[i].id)));
    NameOrderIsTotal();
    SortBySorted(rows, NameOrder);
    forall t | t in db.tags ensures TagCount(t, CountLinks(db.conversationTags, t.id)) in ListTags(db) {
      var i :| 0 <= i < |db.tags| && db.tags[i] == t;
      assert rows[i] in multiset(rows);
    }
  }

  // ------------------------------------------------------------ annotations

  /** The annotation kinds a client may create or filter by. */
  predicate ValidKind(kind: string) {
    kind == "pin" || kind == "bookmark" || kind == "highlight"
  }

  /** The invariant the replace rule keeps: one annotation per message. */
  predicate OnePerMessage(rows: seq<Annotation>) {
    forall i, j :: 0 <= i < j < |rows| ==> rows[i].messageId != rows[j].messageId
  }

  /** `SELECT id FROM messages WHERE id = ? AND conversation_id = ?`. */
  predicate InConversation(ms: seq<Message>, messageId: string, conversationId: string) {
    exists i :: 0 <= i < |ms| && ms[i].id == messageId && ms[i].conversationId == conversationId
  }

  /** `POST /api/conversations/:id/annotations`: replaces the message's
      annotation, if any, by a new one. */
  function Annotate(db: Db, conversationId: string, messageId: Option<string>, kind: Option<string>,
                    labelText: Option<string>, id: string, now: Instant): (r: Handled<Annotation>)
    ensures r.reply == Fail(400, "message_id and type are required") <==> !IsSet(messageId) || !IsSet(kind)
    ensures r.reply == Fail(400, "type must be pin, bookmark, or highlight") <==>
      IsSet(messageId) && IsSet(kind) && !ValidKind(kind.value)
    ensures r.reply == Fail(404, "Message not found in this conversation") <==>
      IsSet(messageId) && IsSet(kind) && ValidKind(kind.value) && !InConversation(db.messages, messageId.value, conversationId)
    ensures r.reply.Fail? ==> r.db == db
    ensures r.reply.Reply? ==>
      && r.reply.value == Annotation(id, messageId.value, conversationId, kind.value, NullIfEmpty(labelText), now.sql)
      && r.db == db.(annotations := r.db.annotations)
  {
    if !IsSet(messageId) || !IsSet(kind) then Handled(db, Fail(400, "message_id and type are required"))
    else if !ValidKind(kind.value) then Handled(db, Fail(400, "type must be pin, bookmark, or highlight"))
    else if !InConversation(db.messages, messageId.value, conversationId) then
      Handled(db, Fail(404, "Message not found in this conversation"))
    else
      var note := Annotation(id, messageId.value, conversationId, kind.value, NullIfEmpty(labelText), now.sql);
      var kept := Filter(db.annotations, (a: Annotation) => a.messageId != messageId.value);
      Handled(db.(annotations := kept + [note]), Reply(note))
  }

  /** After an annotation is created the message has exactly that one;
      annotations of other messages are untouched; and the one-per-message
      invariant holds afterwards whatever held before. */
  lemma AnnotateReplaces(db: Db, conversationId: string, messageId: Option<string>, kind: Option<string>,
                         labelText: Option<string>, id: string, now: Instant)
    ensures var r := Annotate(db, conversationId, messageId, kind, labelText, id, now);
      r.reply.Reply? ==>
        && (forall a :: a in r.db.annotations && a.messageId == messageId.value ==> a == r.reply.value)
        && r.reply.value in r.db.annotations
        && (forall a :: a in db.annotations && a.messageId != messageId.value ==> a in r.db.annotations)
        && (forall a :: a in r.db.annotations && a != r.reply.value ==> a in db.annotations)
    ensures OnePerMessage(db.annotations) ==> OnePerMessage(Annotate(db, conversationId, messageId, kind, labelText, id, now).db.annotations)
  {
    var r := Annotate(db, conversationId, messageId, kind, labelText, id, now);
    if r.reply.Reply? {
      var kept := Filter(db.annotations, (a: Annotation) => a.messageId != messageId.value);
      assert r.db.annotations == kept + [r.reply.value];
      if OnePerMessage(db.annotations) {
        KeptOnePerMessage(db.annotations, messageId.value);
        forall i, j | 0 <= i < j < |r.db.annotations| ensures r.db.annotations[i].messageId != r.db.annotations[j].messageId {
          if j == |kept| {
            assert r.db.annotations[i] == kept[i] && kept[i] in kept;
          }
        }
      }
    }
  }

  /** Dropping rows keeps the one-per-message invariant. */
  lemma {:induction false} KeptOnePerMessage(rows: seq<Annotation>, messageId: string)
    requires OnePerMessage(rows)
    ensures OnePerMessage(Filter(rows, (a: Annotation) => a.messageId != messageId))
    decreases |rows|
  {
    if |rows| > 0 {
      var rest := Filter(rows[1..], (a: Annotation) => a.messageId != messageId);
      KeptOnePerMessage(rows[1..], messageId);
      if rows[0].messageId != messageId {
        forall a | a in rest ensures a.messageId != rows[0].messageId {
          assert a in rows[1..];
        }
        assert Filter(rows, (a: Annotation) => a.messageId != messageId) == [rows[0]] + rest;
      }
    }
  }

  /** A row of the annotation list: the annotation with the first 200
      characters of its message and the message's role. */
  datatype AnnotationView = AnnotationView(annotation: Annotation, preview: string, role: string)

  /** Newest first by `created_at`. */
  predicate NewerFirst(a: AnnotationView, b: AnnotationView) {
    StrLe(b.annotation.createdAt, a.annotation.createdAt)
  }

  lemma NewerFirstIsTotal()
    ensures Total(NewerFirst) && Transitive(NewerFirst)
  {
    forall a: AnnotationView, b: AnnotationView ensures NewerFirst(a, b) || NewerFirst(b, a) {
      StrLeTotal(a.annotation.createdAt, b.annotation.createdAt);
    }
    forall a: AnnotationView, b: AnnotationView, c: AnnotationView | NewerFirst(a, b) && NewerFirst(b, c)
      ensures NewerFirst(a, c)
    {
      StrLeTransitive(c.annotation.createdAt, b.annotation.createdAt, a.annotation.createdAt);
    }
  }

  /** Whether a row passes the `?type=` filter: only a valid kind filters. */
  predicate PassesFilter(a: Annotation, conversationId: string, kindFilter: Option<string>) {
    a.conversationId == conversationId && (IsSet(kindFilter) && ValidKind(kindFilter.value) ==> a.kind == kindFilter.value)
  }

  /** An annotation of the conversation that passes the filter and whose
      message exists (the inner join). */
  predicate Shown(db: Db, conversationId: string, kindFilter: Option<string>, a: Annotation) {
    a in db.annotations && PassesFilter(a, conversationId, kindFilter) && FindMessage(db.messages, a.messageId).Some?
  }

  /** The joined rows: annotations of the conversation whose message
      exists, in table order. */
  function Joined(db: Db, conversationId: string, kindFilter: Option<string>): (r: seq<AnnotationView>)
    ensures forall v :: v in r ==> Shown(db, conversationId, kindFilter, v.annotation) && v == View(db.messages, v.annotation)
    ensures forall v :: v in r ==> |v.preview| <= 200
    ensures forall a :: Shown(db, conversationId, kindFilter, a) ==> View(db.messages, a) in r
  {
    var rows := Filter(db.annotations, (a: Annotation) => Shown(db, conversationId, kindFilter, a));
    Views(db.messages, rows)
  }

  /** The joined row of each annotation, in order. */
  function Views(ms: seq<Message>, rows: seq<Annotation>): (r: seq<AnnotationView>)
    ensures |r| == |rows|
    ensures forall v :: v in r ==> v.annotation in rows && v == View(ms, v.annotation) && |v.preview| <= 200
    ensures forall a :: a in rows ==> View(ms, a) in r
  {
    var r := seq(|rows|, i requires 0 <= i < |rows| => View(ms, rows[i]));
    assert forall i :: 0 <= i < |rows| ==> r[i].annotation == rows[i] && rows[i] in rows;
    assert forall a :: a in rows ==> View(ms, a) in r by {
      forall a | a in rows ensures View(ms, a) in r {
        var i :| 0 <= i < |rows| && rows[i] == a;
        assert r[i] == View(ms, a);
      }
    }
    r
  }

  /** The joined row of an annotation: the first 200 characters and the
      role of its message. */
  function View(ms: seq<Message>, a: Annotation): (v: AnnotationView)
    ensures v.annotation == a && |v.preview| <= 200
    ensures FindMessage(ms, a.messageId).Some? ==>
      v.preview == Take(FindMessage(ms, a.messageId).value.content, 200) && v.role == FindMessage(ms, a.messageId).value.role
  {
    match FindMessage(ms, a.messageId)
    case Some(m) => AnnotationView(a, Take(m.content, 200), m.role)
    case None => AnnotationView(a, "", "")
  }

  /** `GET /api/conversations/:id/annotations[?type=…]`. */
  function ListAnnotations(db: Db, conversationId: string, kindFilter: Option<string>): (r: seq<AnnotationView>)
    ensures |r| == |Joined(db, conversationId, kindFilter)|
    ensures multiset(r) == multiset(Joined(db, conversationId, kindFilter))
  {
    SortBy(Joined(db, conversationId, kindFilter), NewerFirst)
  }

  /** The list holds exactly the conversation's annotations that pass the
      filter (an unknown kind filters nothing) and whose message exists,
      newest first, each with at most 200 characters of its message and
      the message's role. */
  lemma ListAnnotationsFilters(db: Db, conversationId: string, kindFilter: Option<string>)
    ensures var r := ListAnnotations(db, conversationId, kindFilter);
      && SortedBy(r, NewerFirst)
      && (forall v :: v in r ==> v.annotation in db.annotations && v.annotation.conversationId == conversationId && |v.preview| <= 200)
      && (forall v :: v in r ==> Shown(db, conversationId, kindFilter, v.annotation) && v == View(db.messages, v.annotation))
      && (IsSet(kindFilter) && ValidKind(kindFilter.value) ==> forall v :: v in r ==> v.annotation.kind == kindFilter.value)
      && (forall a :: Shown(db, conversationId, kindFilter, a) ==> View(db.messages, a) in r)
  {
    var joined := Joined(db, conversationId, kindFilter);
    var r := ListAnnotations(db, conversationId, kindFilter);
    NewerFirstIsTotal();
    SortBySorted(joined, NewerFirst);
    forall v | v in r ensures v in joined {
      assert v in multiset(r);
    }
    forall v | v in joined ensures v in r {
      assert v in multiset(joined);
    }
  }

  /** `PUT /api/annotations/:id`: the label, or `NULL` when empty. */
  function Relabel(db: Db, id: string, labelText: Option<string>): (r: Db)
    ensures r == db.(annotations := r.annotations)
    ensures |r.annotations| == |db.annotations|
    ensures forall i :: 0 <= i < |r.annotations| ==>
      r.annotations[i] == if db.annotations[i].id == id then db.annotations[i].(labelText := NullIfEmpty(labelText)) else db.annotations[i]
  {
    db.(annotations := seq(|db.annotations|, i requires 0 <= i < |db.annotations| =>
      if db.annotations[i].id == id then db.annotations[i].(labelText := NullIfEmpty(labelText)) else db.annotations[i]))
  }

  /** An empty label clears the label; relabelling keeps the
      one-per-message invariant. */
  lemma RelabelKeepsOnePerMessage(db: Db, id: string, labelText: Option<string>)
    ensures OnePerMessage(db.annotations) ==> OnePerMessage(Relabel(db, id, labelText).annotations)
    ensures labelText == Some("") ==> forall a :: a in Relabel(db, id, labelText).annotations && a.id == id ==> a.labelText.None?
  {
  }

  /** `DELETE /api/annotations/:id`. */
  function DeleteAnnotation(db: Db, id: string): (r: Db)
    ensures r == db.(annotations := r.annotations)
    ensures forall a :: a in r.annotations <==> a in db.annotations && a.id != id
  {
    db.(annotations := Filter(db.annotations, (a: Annotation) => a.id != id))
  }
}

=== FILE: text.dfy ===
/** String helpers with the semantics of the JavaScript built-ins the backend
    uses: `trim`, `toLowerCase` (ASCII part), `split` on one character,
    `startsWith`/`endsWith`, `slice`, and the regular-expression classes
    `\s` and `\w`. Strings are sequences of Unicode scalar values. */
module Text {
  import opened Wrappers

  /** ECMAScript LineTerminator: what `.` refuses and what `^`/`$` see as a
      line break in multiline mode. */
  predicate IsLineTerminator(c: char) {
    c == '\n' || c == '\r' || c == '\U{2028}' || c == '\U{2029}'
  }

  /** ECMAScript WhiteSpace plus LineTerminator: the class `\s`, and the set
      of characters `String.prototype.trim` removes. */
  predicate IsWhite(c: char) {
    || IsLineTerminator(c)
    || c == '\t' || c == '\U{000B}' || c == '\U{000C}' || c == ' '
    || c == '\U{00A0}' || c == '\U{1680}' || ('\U{2000}' <= c <= '\U{200A}')
    || c == '\U{202F}' || c == '\U{205F}' || c == '\U{3000}' || c == '\U{FEFF}'
  }

  predicate IsDigit(c: char) {
    '0' <= c <= '9'
  }

  predicate IsUpper(c: char) {
    'A' <= c <= 'Z'
  }

  predicate IsLowerLetter(c: char) {
    'a' <= c <= 'z'
  }

  /** The class `\w`: ASCII letters, digits and underscore. */
  predicate IsWord(c: char) {
    IsUpper(c) || IsLowerLetter(c) || IsDigit(c) || c == '_'
  }

  /** ASCII case folding (the part of `toLowerCase` this model covers). */
  function LowerChar(c: char): (r: char)
    ensures !IsUpper(r)
    ensures IsUpper(c) ==> IsLowerLetter(r) && r as int == c as int + 32
    ensures !IsUpper(c) ==> r == c
  {
    if IsUpper(c) then (c as int + 32) as char else c
  }

  function Lower(s: string): (r: string)
    ensures |r| == |s|
    ensures forall i :: 0 <= i < |s| ==> r[i] == LowerChar(s[i])
  {
    seq(|s|, i requires 0 <= i < |s| => LowerChar(s[i]))
  }

  lemma LowerIdempotent(s: string)
    ensures Lower(Lower(s)) == Lower(s)
  {
  }

  predicate AllWhite(s: string) {
    forall i :: 0 <= i < |s| ==> IsWhite(s[i])
  }

  /** `trimStart`: drops the leading run of whitespace. */
  function TrimStart(s: string): (r: string)
    ensures |r| <= |s| && r == s[|s| - |r|..]
    ensures r == [] || !IsWhite(r[0])
    ensures AllWhite(s[..|s| - |r|])
  {
    if |s| > 0 && IsWhite(s[0]) then TrimStart(s[1..]) else s
  }

  /** `trimEnd`: drops the trailing run of whitespace. */
  function TrimEnd(s: string): (r: string)
    ensures |r| <= |s| && r == s[..|r|]
    ensures r == [] || !IsWhite(r[|r| - 1])
    ensures AllWhite(s[|r|..])
  {
    if |s| > 0 && IsWhite(s[|s| - 1]) then TrimEnd(s[..|s| - 1]) else s
  }

  /** `trim`. */
  function Trim(s: string): (r: string)
    ensures |r| <= |s|
    ensures r == [] || (!IsWhite(r[0]) && !IsWhite(r[|r| - 1]))
    ensures r == [] <==> AllWhite(s)
  {
    var t := TrimStart(s);
    assert AllWhite(s) ==> t == [];
    assert t == [] ==> AllWhite(s) by {
      if t == [] {
        assert s[..|s| - |t|] == s;
      }
    }
    var r := TrimEnd(t);
    assert r == [] ==> AllWhite(t) by {
      if r == [] {
        assert t[|r|..] == t;
      }
    }
    r
  }

  /** A string that starts and ends with a non-space is its own `trim`. */
  lemma TrimOfTrimmed(s: string)
    requires s == [] || (!IsWhite(s[0]) && !IsWhite(s[|s| - 1]))
    ensures Trim(s) == s
  {
  }

  /** Case folding leaves the spaces where they are, so it commutes with
      `trim` on a string that is already trimmed. */
  lemma LowerOfTrimmed(s: string)
    requires s == [] || (!IsWhite(s[0]) && !IsWhite(s[|s| - 1]))
    ensures Trim(Lower(s)) == Lower(s)
  {
    TrimOfTrimmed(Lower(s));
  }

  predicate StartsWith(s: string, prefix: string) {
    |prefix| <= |s| && s[..|prefix|] == prefix
  }

  predicate EndsWith(s: string, suffix: string) {
    |suffix| <= |s| && s[|s| - |suffix|..] == suffix
  }

  /** `sub` occurs in `s` starting at index `i`. */
  predicate OccursAt(s: string, sub: string, i: int) {
    0 <= i <= |s| - |sub| && s[i..i + |sub|] == sub
  }

  /** `s.includes(sub)`. */
  predicate Contains(s: string, sub: string) {
    exists i | 0 <= i <= |s| - |sub| :: OccursAt(s, sub, i)
  }

  /** A string containing `sub` contains each character of it. */
  lemma ContainsHasChar(s: string, sub: string, k: nat)
    requires Contains(s, sub) && k < |sub|
    ensures sub[k] in s
  {
    var i :| 0 <= i <= |s| - |sub| && OccursAt(s, sub, i);
    assert s[i + k] == sub[k];
  }

  /** Lower-casing leaves a string without upper-case letters unchanged. */
  lemma LowerNoUpper(s: string)
    requires forall i :: 0 <= i < |s| ==> !IsUpper(s[i])
    ensures Lower(s) == s
  {
  }

  /** `slice(0, n)` on a sequence. */
  function Take<T>(s: seq<T>, n: nat): (r: seq<T>)
    ensures |r| == if n < |s| then n else |s|
    ensures r == s[..|r|]
  {
    if n < |s| then s[..n] else s
  }

  /** Position of the first occurrence of `c` in `s`. */
  function IndexOf(s: string, c: char): (r: Option<nat>)
    ensures r.None? <==> c !in s
    ensures r.Some? ==> r.value < |s| && s[r.value] == c && c !in s[..r.value]
  {
    if |s| == 0 then None
    else if s[0] == c then Some(0)
    else match IndexOf(s[1..], c)
      case None => None
      case Some(i) => assert s[1..][..i] == s[1..i + 1]; Some(i + 1)
  }

  /** `parts.join(sep)`. */
  function Join(parts: seq<string>, sep: string): string {
    if |parts| == 0 then ""
    else if |parts| == 1 then parts[0]
    else parts[0] + sep + Join(parts[1..], sep)
  }

  /** `s.split(sep)` for a one-character separator: the pieces between
      occurrences of `sep`, so never fewer than one piece. */
  function Split(s: string, sep: char): (parts: seq<string>)
    ensures |parts| >= 1
    ensures |parts| == 1 <==> sep !in s
    decreases |s|
  {
    match IndexOf(s, sep)
    case None => [s]
    case Some(i) => [s[..i]] + Split(s[i + 1..], sep)
  }

  lemma JoinCons(head: string, rest: seq<string>, sep: string)
    requires |rest| >= 1
    ensures Join([head] + rest, sep) == head + sep + Join(rest, sep)
  {
    assert ([head] + rest)[1..] == rest;
  }

  /** Joining the pieces with the separator gives back the string. */
  lemma {:induction false} SplitJoin(s: string, sep: char)
    ensures Join(Split(s, sep), [sep]) == s
    decreases |s|
  {
    match IndexOf(s, sep)
    case None =>
    case Some(i) =>
      var rest := Split(s[i + 1..], sep);
      JoinCons(s[..i], rest, [sep]);
      SplitJoin(s[i + 1..], sep);
      AroundIndex(s, i);
  }

  lemma AroundIndex<T>(s: seq<T>, i: nat)
    requires i < |s|
    ensures s[..i] + [s[i]] + s[i + 1..] == s
  {
  }

  lemma IndexOfAfter(a: string, sep: char, rest: string)
    requires sep !in a
    ensures IndexOf(a + [sep] + rest, sep) == Some(|a|)
  {
    var s := a + [sep] + rest;
    assert s[|a|] == sep;
    assert s[..|a|] == a;
  }

  /** Splitting at a first separator peels off the text before it. */
  lemma SplitCons(a: string, sep: char, rest: string)
    requires sep !in a
    ensures Split(a + [sep] + rest, sep) == [a] + Split(rest, sep)
  {
    var s := a + [sep] + rest;
    IndexOfAfter(a, sep, rest);
    assert s[..|a|] == a;
    assert s[|a| + 1..] == rest;
  }

  lemma SplitThree(a: string, b: string, c: string, sep: char)
    requires sep !in a && sep !in b && sep !in c
    ensures Split(a + [sep] + b + [sep] + c, sep) == [a, b, c]
  {
    assert a + [sep] + b + [sep] + c == a + [sep] + (b + [sep] + c);
    SplitCons(a, sep, b + [sep] + c);
    SplitCons(b, sep, c);
  }

  /** No piece contains the separator. */
  lemma {:induction false} SplitPiecesLackSep(s: string, sep: char)
    ensures forall i :: 0 <= i < |Split(s, sep)| ==> sep !in Split(s, sep)[i]
    decreases |s|
  {
    match IndexOf(s, sep)
    case None =>
    case Some(i) =>
      SplitPiecesLackSep(s[i + 1..], sep);
      var rest := Split(s[i + 1..], sep);
      assert forall k :: 1 <= k < |rest| + 1 ==> ([s[..i]] + rest)[k] == rest[k - 1];
  }

  /** The last piece of `s.split(sep)` (what `.pop()` returns). */
  function LastPiece(s: string, sep: char): (r: string)
    ensures sep !in r
    ensures sep !in s ==> r == s
  {
    var parts := Split(s, sep);
    SplitPiecesLackSep(s, sep);
    parts[|parts| - 1]
  }

  /** Past the first separator, the last piece is that of the rest. */
  lemma LastPieceAfterFirst(s: string, sep: char, i: nat)
    requires IndexOf(s, sep) == Some(i)
    ensures LastPiece(s, sep) == LastPiece(s[i + 1..], sep)
  {
    var rest := Split(s[i + 1..], sep);
    assert Split(s, sep) == [s[..i]] + rest;
    assert ([s[..i]] + rest)[|rest|] == rest[|rest| - 1];
  }

  /** A suffix of the text after a separator, ending at the same place. */
  lemma SuffixPastSeparator(s: string, i: nat, last: string, sep: char)
    requires i < |s| && s[i] == sep
    requires EndsWith(s[i + 1..], last)
    requires var t := s[i + 1..]; sep in t ==> |last| < |t| && t[|t| - |last| - 1] == sep
    requires sep !in s[i + 1..] ==> last == s[i + 1..]
    ensures EndsWith(s, last) && |last| < |s| && s[|s| - |last| - 1] == sep
  {
    var t := s[i + 1..];
    assert s[|s| - |last|..] == t[|t| - |last|..];
    if sep in t {
      assert t[|t| - |last| - 1] == s[|s| - |last| - 1];
    }
  }

  /** The last piece is the suffix after the last separator. */
  lemma {:induction false} LastPieceIsSuffix(s: string, sep: char)
    ensures EndsWith(s, LastPiece(s, sep))
    ensures sep in s ==> |LastPiece(s, sep)| < |s| && s[|s| - |LastPiece(s, sep)| - 1] == sep
    decreases |s|
  {
    match IndexOf(s, sep)
    case None =>
    case Some(i) =>
      var t := s[i + 1..];
      LastPieceAfterFirst(s, sep, i);
      LastPieceIsSuffix(t, sep);
      SuffixPastSeparator(s, i, LastPiece(t, sep), sep);
  }

  /** `s.replace(/c/g, rep)`: every occurrence of `c` replaced by `rep`. */
  function ReplaceAll(s: string, c: char, rep: string): (r: string)
    ensures c !in rep ==> c !in r
    ensures forall x :: x in r ==> x in s || x in rep
    ensures |r| >= |s| - (if |rep| == 0 then |s| else 0)
  {
    if |s| == 0 then ""
    else (if s[0] == c then rep else [s[0]]) + ReplaceAll(s[1..], c, rep)
  }

  lemma ReplaceAllAppend(a: string, b: string, c: char, rep: string)
    ensures ReplaceAll(a + b, c, rep) == ReplaceAll(a, c, rep) + ReplaceAll(b, c, rep)
  {
    if |a| > 0 {
      assert (a + b)[1..] == a[1..] + b;
      ReplaceAllAppend(a[1..], b, c, rep);
    } else {
      assert a + b == b;
    }
  }

  lemma ReplaceAllAbsent(s: string, c: char, rep: string)
    requires c !in s
    ensures ReplaceAll(s, c, rep) == s
  {
  }

  function DigitChar(d: nat): (c: char)
    requires d < 10
    ensures IsDigit(c)
  {
    ('0' as int + d) as char
  }

  /** Decimal rendering of a natural number, as template literals print it. */
  function NatToString(n: nat): (r: string)
    ensures |r| >= 1
    ensures forall i :: 0 <= i < |r| ==> IsDigit(r[i])
    ensures n < 10 <==> |r| == 1
  {
    if n < 10 then [DigitChar(n)] else NatToString(n / 10) + [DigitChar(n % 10)]
  }

  lemma {:induction false} NatToStringInjective(a: nat, b: nat)
    requires NatToString(a) == NatToString(b)
    ensures a == b
  {
    if a >= 10 && b >= 10 {
      var ra, rb := NatToString(a), NatToString(b);
      assert ra[|ra| - 1] == rb[|rb| - 1];
      assert a % 10 == b % 10;
      assert NatToString(a / 10) == ra[..|ra| - 1] == rb[..|rb| - 1] == NatToString(b / 10);
      NatToStringInjective(a / 10, b / 10);
    }
  }
}

=== FILE: utils.dfy ===
/** The pure helpers of `src/utils.ts`: attachment type resolution, file
    extensions, slugs for wiki pages and the route matcher. */
module Utils {
  import opened Wrappers
  import opened Text

  // ---------------------------------------------------------------- images

  /** `ALLOWED_IMAGE_TYPES`. */
  predicate IsAllowedImageType(t: string) {
    t == "image/png" || t == "image/jpeg" || t == "image/gif" || t == "image/webp"
  }

  const MaxImageSize: nat := 5 * 1024 * 1024

  /** `extFromMediaType`: the extension of an allowed image type, else "bin". */
  function ExtFromMediaType(t: string): (r: string)
    ensures r != "bin" <==> IsAllowedImageType(t)
    ensures IsAllowedImageType(t) ==> MediaTypeOfExt(r) == Some(t)
  {
    if t == "image/png" then "png"
    else if t == "image/jpeg" then "jpg"
    else if t == "image/gif" then "gif"
    else if t == "image/webp" then "webp"
    else "bin"
  }

  /** The inverse direction of the image table, used to state that the
      extension determines the type it came from. */
  function MediaTypeOfExt(ext: string): (r: Option<string>)
    ensures r.Some? ==> IsAllowedImageType(r.value)
  {
    if ext == "png" then Some("image/png")
    else if ext == "jpg" then Some("image/jpeg")
    else if ext == "gif" then Some("image/gif")
    else if ext == "webp" then Some("image/webp")
    else None
  }

  lemma ExtFromMediaTypeInjective(a: string, b: string)
    requires IsAllowedImageType(a) && IsAllowedImageType(b)
    requires ExtFromMediaType(a) == ExtFromMediaType(b)
    ensures a == b
  {
    assert MediaTypeOfExt(ExtFromMediaType(a)) == Some(a);
  }

  // ------------------------------------------------------------ file types

  /** `ClaudeFileSupport`. */
  datatype FileSupport = Native | TextSupport | NoSupport

  /** `FileTypeConfig`. */
  datatype FileConfig = FileConfig(maxSize: nat, support: FileSupport)

  const KiB: nat := 1024
  const MiB: nat := 1024 * 1024

  /** `MAX_FILE_SIZE`, the absolute cap on any upload. */
  const MaxFileSize: nat := 10 * MiB

  /** `FILE_TYPE_MAP`. */
  function MimeConfig(mediaType: string): (r: Option<FileConfig>)
    ensures r.Some? ==> r.value.maxSize <= MaxFileSize && r.value.support != NoSupport
  {
    if mediaType == "application/pdf" then Some(FileConfig(10 * MiB, Native))
    else if mediaType in {"text/plain", "text/markdown", "text/html", "application/json",
                          "application/xml", "text/xml"} then Some(FileConfig(1 * MiB, TextSupport))
    else if mediaType == "text/csv" then Some(FileConfig(2 * MiB, TextSupport))
    else if mediaType in {"text/javascript", "application/javascript", "text/typescript",
                          "text/x-python", "application/x-python"} then Some(FileConfig(512 * KiB, TextSupport))
    else None
  }

  /** The text entries of `EXT_SUPPORT_MAP`, including its upper-case "R" key. */
  const TextExtensions: set<string> := {
    "txt", "md", "markdown", "csv", "tsv",
    "json", "xml", "yaml", "yml", "toml",
    "html", "htm", "css",
    "js", "jsx", "ts", "tsx", "mjs",
    "py", "rb", "rs", "go", "java",
    "c", "cpp", "h", "hpp",
    "sh", "bash", "zsh",
    "sql", "graphql", "gql",
    "env", "conf", "ini", "cfg",
    "log", "diff", "patch",
    "svelte", "vue", "astro",
    "swift", "kt", "scala",
    "r", "R", "lua", "zig"
  }

  /** `EXT_SUPPORT_MAP`. */
  function ExtSupport(ext: string): (r: Option<FileSupport>)
    ensures r.Some? ==> r.value != NoSupport
    ensures r == Some(Native) <==> ext == "pdf"
    ensures ext != "pdf" ==> (r == Some(TextSupport) <==> ext in TextExtensions)
  {
    if ext == "pdf" then Some(Native)
    else if ext in TextExtensions then Some(TextSupport)
    else None
  }

  /** The extension the fallback of `getFileConfig` looks up: the lower-cased
      text after the last dot, or the whole lower-cased name without a dot.
      Being lower-cased, it is never the map's upper-case "R" key. */
  function FallbackExt(filename: string): (ext: string)
    ensures '.' !in ext
    ensures ext != "R"
    ensures '.' !in filename ==> ext == Lower(filename)
  {
    var ext := Lower(LastPiece(filename, '.'));
    assert ext != "R" by {
      if |ext| == 1 {
        assert !IsUpper(ext[0]);
      }
    }
    ext
  }

  /** `getFileConfig(mediaType, filename)`; an absent or empty filename is
      `None`/"" (both falsy in JavaScript). */
  function GetFileConfig(mediaType: string, filename: Option<string>): (r: FileConfig)
    ensures r.maxSize <= MaxFileSize
    ensures r.support == NoSupport ==> r.maxSize == MaxFileSize
    ensures MimeConfig(mediaType).Some? ==> r == MimeConfig(mediaType).value
    ensures MimeConfig(mediaType).None? && StartsWith(mediaType, "text/") ==>
      r == FileConfig(1 * MiB, TextSupport)
    ensures r.support == NoSupport <==>
      && MimeConfig(mediaType).None?
      && !StartsWith(mediaType, "text/")
      && (filename.None? || FallbackExt(filename.value) == ""
          || ExtSupport(FallbackExt(filename.value)).None?)
  {
    match MimeConfig(mediaType)
    case Some(c) => c
    case None =>
      if StartsWith(mediaType, "text/") then FileConfig(1 * MiB, TextSupport)
      else if filename.Some? && filename.value != "" && FallbackExt(filename.value) != "" then
        match ExtSupport(FallbackExt(filename.value))
        case Some(support) =>
          FileConfig(if support == Native then 10 * MiB else 1 * MiB, support)
        case None => FileConfig(MaxFileSize, NoSupport)
      else FileConfig(MaxFileSize, NoSupport)
  }

  /** The extension fallback in terms of the name: a native extension gives
      10 MB, a text one 1 MB, when neither MIME rule applies. */
  lemma GetFileConfigByExtension(mediaType: string, filename: string, support: FileSupport)
    requires MimeConfig(mediaType).None? && !StartsWith(mediaType, "text/")
    requires FallbackExt(filename) != ""
    requires ExtSupport(FallbackExt(filename)) == Some(support)
    ensures GetFileConfig(mediaType, Some(filename)) ==
      FileConfig(if support == Native then 10 * MiB else 1 * MiB, support)
  {
  }

  /** `extFromFilename`: the lower-cased last dot-segment when the name
      contains a dot, else "bin". */
  function ExtFromFilename(filename: string): (r: string)
    ensures '.' !in r
    ensures '.' !in filename ==> r == "bin"
    ensures '.' in filename ==> exists k | 0 <= k < |filename| ::
      filename[k] == '.' && '.' !in filename[k + 1..] && r == Lower(filename[k + 1..])
  {
    var parts := Split(filename, '.');
    if |parts| > 1 then
      var last := LastPiece(filename, '.');
      LastPieceIsSuffix(filename, '.');
      assert filename[|filename| - |last|..] == last;
      Lower(last)
    else "bin"
  }

  // ------------------------------------------------------------------ slugs

  /** The characters `[^\w\s-]` does not remove. */
  predicate KeptBySlug(c: char) {
    IsWord(c) || IsWhite(c) || c == '-'
  }

  /** The characters a slug consists of. */
  predicate IsSlugChar(c: char) {
    IsLowerLetter(c) || IsDigit(c) || c == '_' || c == '-'
  }

  predicate NoDoubleDash(s: string) {
    forall i :: 0 <= i < |s| - 1 ==> !(s[i] == '-' && s[i + 1] == '-')
  }

  /** What `slugify` promises about its output. */
  predicate IsSlug(s: string) {
    && |s| <= 100
    && (forall i :: 0 <= i < |s| ==> IsSlugChar(s[i]))
    && NoDoubleDash(s)
  }

  /** `.replace(/[^\w\s-]/g, '')`. */
  function KeepSlugChars(s: string): (r: string)
    ensures |r| <= |s|
    ensures forall i :: 0 <= i < |r| ==> KeptBySlug(r[i]) && r[i] in s
    ensures (forall i :: 0 <= i < |s| ==> KeptBySlug(s[i])) ==> r == s
  {
    if |s| == 0 then ""
    else if KeptBySlug(s[0]) then [s[0]] + KeepSlugChars(s[1..])
    else KeepSlugChars(s[1..])
  }

  /** The two character classes `slugify` collapses: `\s+` and `-+`. */
  datatype RunClass = WhiteRun | DashRun

  predicate InRun(k: RunClass, c: char) {
    match k
    case WhiteRun => IsWhite(c)
    case DashRun => c == '-'
  }

  /** Drops the leading run of class members. */
  function DropRun(s: string, k: RunClass): (r: string)
    ensures |r| <= |s| && r == s[|s| - |r|..]
    ensures |r| > 0 ==> !InRun(k, r[0])
    decreases |s|
  {
    if |s| > 0 && InRun(k, s[0]) then DropRun(s[1..], k) else s
  }

  /** `.replace(/\s+/g, '-')` or `.replace(/-+/g, '-')`: every maximal run
      of class members becomes one dash. */
  function CollapseRuns(s: string, k: RunClass): (r: string)
    ensures forall i :: 0 <= i < |r| ==> r[i] == '-' || (r[i] in s && !InRun(k, r[i]))
    ensures |r| <= |s|
    ensures |s| > 0 ==> |r| > 0 && (r[0] == '-' <==> s[0] == '-' || InRun(k, s[0]))
    decreases |s|
  {
    if |s| == 0 then ""
    else if InRun(k, s[0]) then "-" + CollapseRuns(DropRun(s, k), k)
    else [s[0]] + CollapseRuns(s[1..], k)
  }

  /** `slugify(title)`. */
  function Slugify(title: string): (r: string)
    ensures IsSlug(r)
  {
    var c := Collapse(SlugChars(title));
    TakeKeepsSlug(c);
    Take(c, 100)
  }

  /** The first three steps: lower-case, trim, drop the characters outside
      `[\w\s-]`. */
  function SlugChars(title: string): (a: string)
    ensures forall i :: 0 <= i < |a| ==> KeptBySlug(a[i]) && !IsUpper(a[i])
  {
    SlugInput(title);
    KeepSlugChars(Trim(Lower(title)))
  }

  /** The two collapsing passes: white runs, then dash runs, become one dash. */
  function Collapse(a: string): (c: string)
    requires forall i :: 0 <= i < |a| ==> KeptBySlug(a[i]) && !IsUpper(a[i])
    ensures (forall i :: 0 <= i < |c| ==> IsSlugChar(c[i])) && NoDoubleDash(c)
  {
    SlugSteps(a);
    CollapseRuns(CollapseRuns(a, WhiteRun), DashRun)
  }

  predicate NoUpper(s: string) {
    forall i :: 0 <= i < |s| ==> !IsUpper(s[i])
  }

  /** What reaches the collapsing passes: kept characters, none upper-case. */
  lemma SlugInput(title: string)
    ensures var a := KeepSlugChars(Trim(Lower(title)));
      forall i :: 0 <= i < |a| ==> KeptBySlug(a[i]) && !IsUpper(a[i])
  {
    var s := Lower(title);
    assert NoUpper(s);
    TrimKeepsNoUpper(s);
    KeepKeepsNoUpper(Trim(s));
  }

  lemma TrimKeepsNoUpper(s: string)
    requires NoUpper(s)
    ensures NoUpper(Trim(s))
  {
    var t := TrimStart(s);
    assert NoUpper(t) by {
      assert forall i :: 0 <= i < |t| ==> t[i] == s[|s| - |t| + i];
    }
    var u := TrimEnd(t);
    assert forall i :: 0 <= i < |u| ==> u[i] == t[i];
  }

  lemma {:induction false} KeepKeepsNoUpper(s: string)
    requires NoUpper(s)
    ensures NoUpper(KeepSlugChars(s))
  {
    if |s| > 0 {
      KeepKeepsNoUpper(s[1..]);
    }
  }

  lemma TakeKeepsSlug(c: string)
    requires forall i :: 0 <= i < |c| ==> IsSlugChar(c[i])
    requires NoDoubleDash(c)
    ensures IsSlug(Take(c, 100))
  {
    var r := Take(c, 100);
    assert forall i :: 0 <= i < |r| ==> r[i] == c[i];
  }

  /** The two collapsing passes leave only slug characters and no "--". */
  lemma SlugSteps(a: string)
    requires forall i :: 0 <= i < |a| ==> KeptBySlug(a[i]) && !IsUpper(a[i])
    ensures var c := CollapseRuns(CollapseRuns(a, WhiteRun), DashRun);
      (forall i :: 0 <= i < |c| ==> IsSlugChar(c[i])) && NoDoubleDash(c)
  {
    var b := CollapseRuns(a, WhiteRun);
    var c := CollapseRuns(b, DashRun);
    forall i | 0 <= i < |b|
      ensures IsSlugChar(b[i])
    {
      if b[i] != '-' {
        assert b[i] in a;
      }
    }
    forall i | 0 <= i < |c|
      ensures IsSlugChar(c[i])
    {
      if c[i] != '-' {
        assert c[i] in b;
      }
    }
    DashRunsCollapsed(b);
  }

  lemma {:induction false} DashRunsCollapsed(s: string)
    ensures NoDoubleDash(CollapseRuns(s, DashRun))
    decreases |s|
  {
    if |s| > 0 {
      if s[0] == '-' {
        var t := DropRun(s, DashRun);
        DashRunsCollapsed(t);
      } else {
        DashRunsCollapsed(s[1..]);
      }
    }
  }

  lemma {:induction false} CollapseRunsNoop(s: string, k: RunClass)
    requires forall i :: 0 <= i < |s| ==> !InRun(k, s[i])
    ensures CollapseRuns(s, k) == s
    decreases |s|
  {
    if |s| > 0 {
      CollapseRunsNoop(s[1..], k);
    }
  }

  /** A lone leading dash is the whole leading run. */
  lemma DropLoneDash(s: string)
    requires |s| > 0 && s[0] == '-' && (|s| == 1 || s[1] != '-')
    ensures DropRun(s, DashRun) == s[1..]
  {
    assert DropRun(s, DashRun) == DropRun(s[1..], DashRun);
  }

  lemma {:induction false} CollapseDashNoop(s: string)
    requires NoDoubleDash(s)
    ensures CollapseRuns(s, DashRun) == s
    decreases |s|
  {
    if |s| > 0 {
      var t := s[1..];
      assert NoDoubleDash(t) by {
        forall i | 0 <= i < |t| - 1
          ensures !(t[i] == '-' && t[i + 1] == '-')
        {
          assert t[i] == s[i + 1] && t[i + 1] == s[i + 2];
        }
      }
      CollapseDashNoop(t);
      if s[0] == '-' {
        DropLoneDash(s);
        assert CollapseRuns(s, DashRun) == "-" + t;
      } else {
        assert CollapseRuns(s, DashRun) == [s[0]] + t;
      }
      assert s == [s[0]] + t;
    }
  }

  lemma SlugCharNotWhite(c: char)
    requires IsSlugChar(c)
    ensures !IsWhite(c)
  {
  }

  /** The first three steps of `slugify` leave a slug unchanged. */
  lemma SlugPrefixStepsNoop(s: string)
    requires IsSlug(s)
    ensures KeepSlugChars(Trim(Lower(s))) == s
  {
    assert Lower(s) == s;
    assert TrimStart(s) == s by {
      if |s| > 0 {
        assert !IsWhite(s[0]);
      }
    }
    assert TrimEnd(s) == s by {
      if |s| > 0 {
        assert !IsWhite(s[|s| - 1]);
      }
    }
  }

  /** A slug is its own slug. */
  lemma SlugifyFixesSlugs(s: string)
    requires IsSlug(s)
    ensures Slugify(s) == s
  {
    SlugPrefixStepsNoop(s);
    forall i | 0 <= i < |s|
      ensures !InRun(WhiteRun, s[i])
    {
      SlugCharNotWhite(s[i]);
    }
    CollapseRunsNoop(s, WhiteRun);
    CollapseDashNoop(s);
    assert SlugChars(s) == s;
    assert Collapse(s) == s;
    assert Take(s, 100) == s;
  }

  /** `slugify` is idempotent. */
  lemma SlugifyIdempotent(title: string)
    ensures Slugify(Slugify(title)) == Slugify(title)
  {
    SlugifyFixesSlugs(Slugify(title));
  }

  // ------------------------------------------------------------------ routes

  predicate IsParam(segment: string) {
    StartsWith(segment, ":")
  }

  function ParamName(segment: string): string
    requires IsParam(segment)
  {
    segment[1..]
  }

  predicate SegmentMatches(patternSegment: string, pathSegment: string) {
    IsParam(patternSegment) || patternSegment == pathSegment
  }

  /** No parameter after position `i` has the same name as the one at `i`. */
  predicate LastBinding(pattern: seq<string>, i: int)
    requires 0 <= i < |pattern| && IsParam(pattern[i])
  {
    forall j :: i < j < |pattern| && IsParam(pattern[j]) ==> ParamName(pattern[j]) != ParamName(pattern[i])
  }

  /** The names bound after reading the first `i` segments. */
  ghost predicate BoundNames(pat: seq<string>, i: int, params: map<string, string>)
    requires 0 <= i <= |pat|
  {
    forall k :: k in params <==> exists j :: 0 <= j < i && IsParam(pat[j]) && ParamName(pat[j]) == k
  }

  /** Each name read so far holds the value of its latest binding. */
  ghost predicate LatestValues(pat: seq<string>, parts: seq<string>, i: int, params: map<string, string>)
    requires 0 <= i <= |pat| <= |parts|
    requires BoundNames(pat, i, params)
  {
    forall j :: 0 <= j < i && IsParam(pat[j]) ==>
      (forall m :: j < m < i && IsParam(pat[m]) ==> ParamName(pat[m]) != ParamName(pat[j])) ==>
      params[ParamName(pat[j])] == parts[j]
  }

  /** Binding the parameter at `i` keeps both loop facts. */
  lemma BindStep(pat: seq<string>, parts: seq<string>, i: int, params: map<string, string>)
    requires 0 <= i < |pat| <= |parts| && IsParam(pat[i])
    requires BoundNames(pat, i, params) && LatestValues(pat, parts, i, params)
    ensures BoundNames(pat, i + 1, params[ParamName(pat[i]) := parts[i]])
    ensures LatestValues(pat, parts, i + 1, params[ParamName(pat[i]) := parts[i]])
  {
    var next := params[ParamName(pat[i]) := parts[i]];
    forall k
      ensures k in next <==> exists j :: 0 <= j < i + 1 && IsParam(pat[j]) && ParamName(pat[j]) == k
    {
      if k == ParamName(pat[i]) {
        assert IsParam(pat[i]) && ParamName(pat[i]) == k;
      }
    }
  }

  /** A literal segment binds nothing. */
  lemma LiteralStep(pat: seq<string>, parts: seq<string>, i: int, params: map<string, string>)
    requires 0 <= i < |pat| <= |parts| && !IsParam(pat[i])
    requires BoundNames(pat, i, params) && LatestValues(pat, parts, i, params)
    ensures BoundNames(pat, i + 1, params) && LatestValues(pat, parts, i + 1, params)
  {
    forall k
      ensures k in params <==> exists j :: 0 <= j < i + 1 && IsParam(pat[j]) && ParamName(pat[j]) == k
    {
      if exists j :: 0 <= j < i + 1 && IsParam(pat[j]) && ParamName(pat[j]) == k {
        var j :| 0 <= j < i + 1 && IsParam(pat[j]) && ParamName(pat[j]) == k;
        assert j < i;
      }
    }
  }

  /** After the last segment, the loop facts are the promised bindings. */
  lemma AllBound(pat: seq<string>, parts: seq<string>, params: map<string, string>)
    requires |pat| <= |parts|
    requires BoundNames(pat, |pat|, params) && LatestValues(pat, parts, |pat|, params)
    ensures forall k :: k in params <==> exists i :: 0 <= i < |pat| && IsParam(pat[i]) && ParamName(pat[i]) == k
    ensures forall i :: 0 <= i < |pat| && IsParam(pat[i]) && LastBinding(pat, i) ==> params[ParamName(pat[i])] == parts[i]
  {
  }

  /** The segment-by-segment part of `matchRoute`, for a pattern and a
      path with the same number of segments. */
  method BindSegments(pat: seq<string>, parts: seq<string>) returns (r: Option<map<string, string>>)
    requires |pat| == |parts|
    ensures r.Some? <==> forall i :: 0 <= i < |pat| ==> SegmentMatches(pat[i], parts[i])
    ensures r.Some? ==>
      && (forall k :: k in r.value <==> exists i :: 0 <= i < |pat| && IsParam(pat[i]) && ParamName(pat[i]) == k)
      && (forall i :: 0 <= i < |pat| && IsParam(pat[i]) && LastBinding(pat, i) ==> r.value[ParamName(pat[i])] == parts[i])
  {
    var params: map<string, string> := map[];
    var i := 0;
    while i < |pat|
      invariant 0 <= i <= |pat|
      invariant forall j :: 0 <= j < i ==> SegmentMatches(pat[j], parts[j])
      invariant BoundNames(pat, i, params) && LatestValues(pat, parts, i, params)
    {
      if IsParam(pat[i]) {
        BindStep(pat, parts, i, params);
        params := params[ParamName(pat[i]) := parts[i]];
      } else if pat[i] != parts[i] {
        return None;
      } else {
        LiteralStep(pat, parts, i, params);
      }
      i := i + 1;
    }
    AllBound(pat, parts, params);
    return Some(params);
  }

  /** `matchRoute`: the parameters bound by `pattern` against `path`, or
      `None` for a different method, a different number of segments or a
      literal segment that differs. A repeated name keeps its last binding. */
  method MatchRoute(httpMethod: string, path: string, routeMethod: string, pattern: string)
    returns (r: Option<map<string, string>>)
    ensures var pat, parts := Split(pattern, '/'), Split(path, '/');
      r.Some? <==>
        && httpMethod == routeMethod && |pat| == |parts|
        && forall i :: 0 <= i < |pat| ==> SegmentMatches(pat[i], parts[i])
    ensures var pat, parts := Split(pattern, '/'), Split(path, '/');
      r.Some? ==>
        && (forall k :: k in r.value <==> exists i :: 0 <= i < |pat| && IsParam(pat[i]) && ParamName(pat[i]) == k)
        && (forall i :: 0 <= i < |pat| && IsParam(pat[i]) && LastBinding(pat, i) ==> r.value[ParamName(pat[i])] == parts[i])
  {
    if httpMethod != routeMethod {
      return None;
    }
    var pat := Split(pattern, '/');
    var parts := Split(path, '/');
    if |pat| != |parts| {
      return None;
    }
    r := BindSegments(pat, parts);
  }
}

=== FILE: wiki.dfy ===
/** The wiki page routes of `src/routes/wiki.ts` that write: uploading a
    markdown file, creating, updating and deleting a page, and creating
    pages in a batch. Every route that inserts a page allocates a slug no
    other page holds and inserts the page's full-text row with it; tag
    names are normalised and an existing tag is reused. Ids come from
    `ids`: the n-th id generated is `ids(n)`. */
module Wiki {
  import opened Wrappers
  import opened Text
  import opened Store
  import opened Jobs
  import opened WikiSlug
  import Utils
  import WikiMarkdown
  import Tags

  /** A reply together with the store it leaves behind. */
  type Handled<T> = Tags.Handled<T>

  /** The row a page insert adds to `wiki_fts`. */
  function FtsOf(p: WikiPage): WikiFtsRow {
    WikiFtsRow(p.id, p.title, p.content)
  }

  /** `INSERT INTO wiki_pages …` followed by `INSERT INTO wiki_fts …`. */
  function InsertPage(db: Db, p: WikiPage): (r: Db)
    ensures r.wikiPages == db.wikiPages + [p]
    ensures r.wikiFts == db.wikiFts + [FtsOf(p)]
    ensures r == db.(wikiPages := r.wikiPages, wikiFts := r.wikiFts)
  {
    db.(wikiPages := db.wikiPages + [p], wikiFts := db.wikiFts + [FtsOf(p)])
  }

  /** The slug a new page titled `title` receives. */
  function NewSlug(pages: seq<WikiPage>, title: string): (slug: string)
    ensures !Taken(pages, slug, None)
  {
    AllocateSlug(pages, Utils.Slugify(title), None)
  }

  /** Inserting a page whose slug was allocated against the table keeps
      every slug unique. */
  lemma InsertKeepsUnique(db: Db, p: WikiPage)
    requires UniqueSlugs(db.wikiPages)
    requires !Taken(db.wikiPages, p.slug, None)
    ensures UniqueSlugs(InsertPage(db, p).wikiPages)
  {
    var all := db.wikiPages + [p];
    forall i, j | 0 <= i < j < |all|
      ensures all[i].slug != all[j].slug
    {
      if j == |db.wikiPages| {
        assert all[i] == db.wikiPages[i];
      }
    }
  }

  // --------------------------------------------------------------- tags

  /** The two tables the tag loop writes: `tags` and `wiki_page_tags`. */
  datatype TagTables = TagTables(tags: seq<Tag>, links: seq<PageTag>)

  /** `INSERT OR IGNORE INTO wiki_page_tags`. */
  function LinkPage(links: seq<PageTag>, pageId: string, tagId: string): (r: seq<PageTag>)
    ensures PageTag(pageId, tagId) in r
    ensures forall l :: l in links ==> l in r
    ensures forall l :: l in r ==> l in links || l == PageTag(pageId, tagId)
  {
    var link := PageTag(pageId, tagId);
    if link in links then links else links + [link]
  }

  /** The page carries a tag of this name. */
  predicate Tagged(t: TagTables, pageId: string, name: string) {
    exists tag :: tag in t.tags && tag.name == name && PageTag(pageId, tag.id) in t.links
  }

  /** What the tag loop only ever adds to: earlier tags stay in place and
      earlier links stay. */
  predicate Grows(t: TagTables, t': TagTables) {
    |t.tags| <= |t'.tags| && t'.tags[..|t.tags|] == t.tags && forall l :: l in t.links ==> l in t'.links
  }

  lemma GrowsTransitive(a: TagTables, b: TagTables, c: TagTables)
    requires Grows(a, b) && Grows(b, c)
    ensures Grows(a, c)
  {
    assert c.tags[..|a.tags|] == c.tags[..|b.tags|][..|a.tags|];
  }

  lemma TaggedKept(t: TagTables, t': TagTables, pageId: string, name: string)
    requires Tagged(t, pageId, name) && Grows(t, t')
    ensures Tagged(t', pageId, name)
  {
    var tag :| tag in t.tags && tag.name == name && PageTag(pageId, tag.id) in t.links;
    var i :| 0 <= i < |t.tags| && t.tags[i] == tag;
    assert t'.tags[i] == tag;
  }

  /** One name of the loop, already normalised: the tag of that name is
      reused, or inserted with id `ids(next)`; then the page is linked. */
  function TagStep(t: TagTables, pageId: string, name: string, ids: nat -> string, next: nat): (r: (TagTables, nat))
    ensures Grows(t, r.0) && next <= r.1
    ensures Tagged(r.0, pageId, name)
    ensures forall i :: |t.tags| <= i < |r.0.tags| ==> r.0.tags[i].name == name
    ensures Tags.UniqueNames(t.tags) ==> Tags.UniqueNames(r.0.tags)
  {
    match Tags.FindByName(t.tags, name)
    case Some(tag) => (TagTables(t.tags, LinkPage(t.links, pageId, tag.id)), next)
    case None =>
      var tag := Tag(ids(next), name, None);
      var r := TagTables(t.tags + [tag], LinkPage(t.links, pageId, tag.id));
      assert r.tags[..|t.tags|] == t.tags;
      assert r.tags[|t.tags|] == tag;
      (r, next + 1)
  }

  /** The tag loop of a page create: each name is trimmed and lower-cased
      and handled by `TagStep`. The batch route skips names that normalise
      to the empty string (`skipEmpty`); the single-page route does not.
      Returns the tables and the next unused id number. */
  function AddTags(t: TagTables, pageId: string, names: seq<string>, skipEmpty: bool,
                   ids: nat -> string, next: nat): (r: (TagTables, nat))
    ensures Grows(t, r.0) && next <= r.1
    decreases |names|
  {
    if |names| == 0 then (t, next)
    else
      var name := Tags.NormalName(names[0]);
      if skipEmpty && name == "" then AddTags(t, pageId, names[1..], skipEmpty, ids, next)
      else
        var (t1, n1) := TagStep(t, pageId, name, ids, next);
        var r := AddTags(t1, pageId, names[1..], skipEmpty, ids, n1);
        GrowsTransitive(t, t1, r.0);
        r
  }

  /** The page carries a tag named after every name given to it (every
      non-empty one, in the batch route). */
  predicate LinksAll(r: TagTables, pageId: string, names: seq<string>, skipEmpty: bool) {
    forall k :: 0 <= k < |names| && !(skipEmpty && Tags.NormalName(names[k]) == "") ==>
      Tagged(r, pageId, Tags.NormalName(names[k]))
  }

  lemma LinksAllCons(r: TagTables, pageId: string, names: seq<string>, skipEmpty: bool)
    requires |names| > 0 && LinksAll(r, pageId, names[1..], skipEmpty)
    requires !(skipEmpty && Tags.NormalName(names[0]) == "") ==> Tagged(r, pageId, Tags.NormalName(names[0]))
    ensures LinksAll(r, pageId, names, skipEmpty)
  {
    forall k | 0 < k < |names| ensures names[k] == names[1..][k - 1] { }
  }

  lemma {:induction false} AddTagsLinksEveryName(t: TagTables, pageId: string, names: seq<string>, skipEmpty: bool,
                                                ids: nat -> string, next: nat)
    ensures LinksAll(AddTags(t, pageId, names, skipEmpty, ids, next).0, pageId, names, skipEmpty)
    decreases |names|
  {
    if |names| > 0 {
      var name := Tags.NormalName(names[0]);
      var r := AddTags(t, pageId, names, skipEmpty, ids, next).0;
      if skipEmpty && name == "" {
        AddTagsLinksEveryName(t, pageId, names[1..], skipEmpty, ids, next);
        assert r == AddTags(t, pageId, names[1..], skipEmpty, ids, next).0;
      } else {
        var (t1, n1) := TagStep(t, pageId, name, ids, next);
        assert r == AddTags(t1, pageId, names[1..], skipEmpty, ids, n1).0;
        TaggedKept(t1, r, pageId, name);
        AddTagsLinksEveryName(t1, pageId, names[1..], skipEmpty, ids, n1);
      }
      LinksAllCons(r, pageId, names, skipEmpty);
    }
  }

  /** The tag loop never gives two tags the same name. */
  lemma {:induction false} AddTagsKeepsNamesUnique(t: TagTables, pageId: string, names: seq<string>, skipEmpty: bool,
                                                   ids: nat -> string, next: nat)
    requires Tags.UniqueNames(t.tags)
    ensures Tags.UniqueNames(AddTags(t, pageId, names, skipEmpty, ids, next).0.tags)
    decreases |names|
  {
    if |names| > 0 {
      var name := Tags.NormalName(names[0]);
      if skipEmpty && name == "" {
        AddTagsKeepsNamesUnique(t, pageId, names[1..], skipEmpty, ids, next);
      } else {
        var (t1, n1) := TagStep(t, pageId, name, ids, next);
        AddTagsKeepsNamesUnique(t1, pageId, names[1..], skipEmpty, ids, n1);
      }
    }
  }

  /** Every tag `t'` holds beyond `t`'s has a non-empty name. */
  predicate NamedAfter(t: TagTables, t': TagTables) {
    forall i :: |t.tags| <= i < |t'.tags| ==> t'.tags[i].name != ""
  }

  /** In the batch route the loop creates no tag with an empty name. */
  lemma {:induction false} AddTagsSkipsEmpty(t: TagTables, pageId: string, names: seq<string>,
                                             ids: nat -> string, next: nat)
    ensures NamedAfter(t, AddTags(t, pageId, names, true, ids, next).0)
    decreases |names|
  {
    if |names| > 0 {
      var name := Tags.NormalName(names[0]);
      if name == "" {
        AddTagsSkipsEmpty(t, pageId, names[1..], ids, next);
      } else {
        var (t1, n1) := TagStep(t, pageId, name, ids, next);
        var r := AddTags(t1, pageId, names[1..], true, ids, n1).0;
        assert r == AddTags(t, pageId, names, true, ids, next).0;
        AddTagsSkipsEmpty(t1, pageId, names[1..], ids, n1);
        assert NamedAfter(t, t1);
        NamedAfterTransitive(t, t1, r);
      }
    }
  }

  lemma NamedAfterTransitive(a: TagTables, b: TagTables, c: TagTables)
    requires NamedAfter(a, b) && NamedAfter(b, c) && Grows(b, c)
    ensures NamedAfter(a, c)
  {
    forall i | |a.tags| <= i < |c.tags|
      ensures c.tags[i].name != ""
    {
      if i < |b.tags| {
        assert c.tags[i] == c.tags[..|b.tags|][i];
      }
    }
  }

  /** Writes the tag tables back into the store. */
  function WithTags(db: Db, t: TagTables): (r: Db)
    ensures r.tags == t.tags && r.wikiPageTags == t.links
    ensures r == db.(tags := r.tags, wikiPageTags := r.wikiPageTags)
  {
    db.(tags := t.tags, wikiPageTags := t.links)
  }

  function TablesOf(db: Db): (t: TagTables)
    ensures WithTags(db, t) == db
  {
    TagTables(db.tags, db.wikiPageTags)
  }

  // ------------------------------------------------------------- upload

  /** The `file` part of the upload form. */
  datatype MarkdownFile = MarkdownFile(name: string, mediaType: string, text: string)

  /** `file.name || "untitled.md"`. */
  function FileName(file: MarkdownFile): (name: string)
    ensures name != ""
    ensures file.name != "" ==> name == file.name
  {
    if file.name != "" then file.name else "untitled.md"
  }

  /** The upload's gate: a `.md` name or the markdown media type. */
  predicate Accepted(file: MarkdownFile) {
    EndsWith(FileName(file), ".md") || file.mediaType == "text/markdown"
  }

  /** The row an upload inserts. */
  function UploadedRow(pages: seq<WikiPage>, file: MarkdownFile, categoryId: Option<string>, id: string, now: Instant): (p: WikiPage)
    ensures p.title == WikiMarkdown.Title(file.text, FileName(file))
    ensures p.summary == Some(WikiMarkdown.Summary(file.text))
    ensures p.content == file.text && p.id == id && p.sourceUrl.None?
    ensures p.categoryId == NullIfEmpty(categoryId)
    ensures !Taken(pages, p.slug, None)
  {
    var title := WikiMarkdown.Title(file.text, FileName(file));
    WikiPage(id, NullIfEmpty(categoryId), title, NewSlug(pages, title), file.text,
             Some(WikiMarkdown.Summary(file.text)), None, now.sql)
  }

  /** `POST /api/wiki/pages/upload`; the reply is the page read back. */
  function Upload(db: Db, file: Option<MarkdownFile>, categoryId: Option<string>, id: string, now: Instant): (r: Handled<Option<WikiPage>>)
    ensures r.reply == Fail(400, "No file provided") <==> file.None?
    ensures r.reply == Fail(400, "Only .md files are accepted") <==> file.Some? && !Accepted(file.value)
    ensures r.reply.Fail? ==> r.db == db
    ensures r.reply.Reply? ==> r.db == InsertPage(db, UploadedRow(db.wikiPages, file.value, categoryId, id, now))
  {
    match file
    case None => Tags.Handled(db, Fail(400, "No file provided"))
    case Some(f) =>
      if !Accepted(f) then Tags.Handled(db, Fail(400, "Only .md files are accepted"))
      else
        var db' := InsertPage(db, UploadedRow(db.wikiPages, f, categoryId, id, now));
        Tags.Handled(db', Reply(FindPage(db'.wikiPages, id)))
  }

  lemma {:induction false} FindPageAppend(pages: seq<WikiPage>, p: WikiPage)
    requires FindPage(pages, p.id).None?
    ensures FindPage(pages + [p], p.id) == Some(p)
    decreases |pages|
  {
    if |pages| > 0 {
      assert (pages + [p])[1..] == pages[1..] + [p];
      FindPageAppend(pages[1..], p);
    }
  }

  /** A nameless file without headings is accepted and titled "untitled",
      and with an unused id the reply is the stored row. */
  lemma UploadUntitled(db: Db, text: string, mediaType: string, categoryId: Option<string>, id: string, now: Instant)
    requires '#' !in text
    requires FindPage(db.wikiPages, id).None?
    ensures var r := Upload(db, Some(MarkdownFile("", mediaType, text)), categoryId, id, now);
      && r.reply.Reply? && r.reply.value.Some?
      && r.reply.value.value.title == "untitled"
      && r.reply.value.value in r.db.wikiPages
  {
    var f := MarkdownFile("", mediaType, text);
    assert FileName(f) == "untitled" + ".md";
    assert EndsWith(FileName(f), ".md");
    WikiMarkdown.NoHeadingTitle(text, FileName(f));
    WikiMarkdown.StripMdOfMd("untitled");
    FindPageAppend(db.wikiPages, UploadedRow(db.wikiPages, f, categoryId, id, now));
  }

  lemma UploadKeepsSlugsUnique(db: Db, file: Option<MarkdownFile>, categoryId: Option<string>, id: string, now: Instant)
    requires UniqueSlugs(db.wikiPages)
    ensures UniqueSlugs(Upload(db, file, categoryId, id, now).db.wikiPages)
  {
    if Upload(db, file, categoryId, id, now).reply.Reply? {
      InsertKeepsUnique(db, UploadedRow(db.wikiPages, file.value, categoryId, id, now));
    }
  }

  // ------------------------------------------------------------- create

  /** The body of `POST /api/wiki/pages`; absent fields are `None`. */
  datatype NewPage = NewPage(title: Option<string>, content: Option<string>, summary: Option<string>,
                             categoryId: Option<string>, sourceUrl: Option<string>, tags: Option<seq<string>>)

  /** `!body.title?.trim()`. */
  predicate Blank(title: Option<string>) {
    title.None? || AllWhite(title.value)
  }

  function CreatedRow(pages: seq<WikiPage>, body: NewPage, id: string, now: Instant): (p: WikiPage)
    requires !Blank(body.title)
    ensures p.title == Trim(body.title.value) && p.title != ""
    ensures p.content == body.content.GetOr("") && p.summary == Some(body.summary.GetOr(""))
    ensures p.categoryId == NullIfEmpty(body.categoryId) && p.sourceUrl == NullIfEmpty(body.sourceUrl)
    ensures p.id == id && !Taken(pages, p.slug, None)
  {
    var title := Trim(body.title.value);
    WikiPage(id, NullIfEmpty(body.categoryId), title, NewSlug(pages, title), body.content.GetOr(""),
             Some(body.summary.GetOr("")), NullIfEmpty(body.sourceUrl), now.sql)
  }

  /** `POST /api/wiki/pages`: the page takes id `ids(next)` and its new
      tags the ids after it. */
  function CreatePage(db: Db, body: NewPage, ids: nat -> string, next: nat, now: Instant): (r: Handled<Option<WikiPage>>)
    ensures r.reply == Fail(400, "Title is required") <==> Blank(body.title)
    ensures r.reply.Fail? ==> r.db == db
    ensures r.reply.Reply? ==>
      var p := CreatedRow(db.wikiPages, body, ids(next), now);
      r.db == WithTags(InsertPage(db, p), AddTags(TablesOf(db), p.id, body.tags.GetOr([]), false, ids, next + 1).0)
  {
    if Blank(body.title) then Tags.Handled(db, Fail(400, "Title is required"))
    else
      var p := CreatedRow(db.wikiPages, body, ids(next), now);
      var (t, _) := AddTags(TablesOf(db), p.id, body.tags.GetOr([]), false, ids, next + 1);
      var db' := WithTags(InsertPage(db, p), t);
      Tags.Handled(db', Reply(FindPage(db'.wikiPages, p.id)))
  }

  /** A created page is stored with its full-text row, carries every tag
      it was given, and leaves slugs and tag names unique. */
  lemma CreatePageStores(db: Db, body: NewPage, ids: nat -> string, next: nat, now: Instant)
    requires !Blank(body.title)
    requires FindPage(db.wikiPages, ids(next)).None?
    requires UniqueSlugs(db.wikiPages) && Tags.UniqueNames(db.tags)
    ensures var r := CreatePage(db, body, ids, next, now);
      var p := CreatedRow(db.wikiPages, body, ids(next), now);
      && r.reply == Reply(Some(p))
      && r.db.wikiPages == db.wikiPages + [p]
      && r.db.wikiFts == db.wikiFts + [FtsOf(p)]
      && UniqueSlugs(r.db.wikiPages) && Tags.UniqueNames(r.db.tags)
      && forall name :: name in body.tags.GetOr([]) ==> Tagged(TablesOf(r.db), p.id, Tags.NormalName(name))
  {
    var p := CreatedRow(db.wikiPages, body, ids(next), now);
    var names := body.tags.GetOr([]);
    var t := AddTags(TablesOf(db), p.id, names, false, ids, next + 1).0;
    FindPageAppend(db.wikiPages, p);
    InsertKeepsUnique(db, p);
    AddTagsLinksEveryName(TablesOf(db), p.id, names, false, ids, next + 1);
    AddTagsKeepsNamesUnique(TablesOf(db), p.id, names, false, ids, next + 1);
    assert TablesOf(CreatePage(db, body, ids, next, now).db) == t;
  }

  // ------------------------------------------------------------- update

  /** The body of `PUT /api/wiki/pages/:id`; absent fields are `None`. */
  datatype PageChanges = PageChanges(title: Option<string>, content: Option<string>, summary: Option<string>,
                                     categoryId: Option<string>, sourceUrl: Option<string>)

  /** Whether `updates` holds more than `updated_at`. */
  predicate HasChanges(ch: PageChanges) {
    ch.title.Some? || ch.content.Some? || ch.summary.Some? || ch.categoryId.Some? || ch.sourceUrl.Some?
  }

  /** The slug a retitled page receives: the first candidate no other page
      holds. */
  function RenamedSlug(pages: seq<WikiPage>, id: string, title: string): (slug: string)
    ensures !Taken(pages, slug, Some(id))
  {
    AllocateSlug(pages, Utils.Slugify(Trim(title)), Some(id))
  }

  /** The row after the `UPDATE … SET` the body builds. */
  function ApplyPage(p: WikiPage, ch: PageChanges, slug: string, now: Instant): (q: WikiPage)
    ensures q.id == p.id
    ensures q.title == (if ch.title.Some? then Trim(ch.title.value) else p.title)
    ensures q.slug == (if ch.title.Some? then slug else p.slug)
    ensures q.content == ch.content.GetOr(p.content)
    ensures q.summary == (if ch.summary.Some? then ch.summary else p.summary)
    ensures q.categoryId == (if ch.categoryId.Some? then NullIfEmpty(ch.categoryId) else p.categoryId)
    ensures q.sourceUrl == (if ch.sourceUrl.Some? then NullIfEmpty(ch.sourceUrl) else p.sourceUrl)
    ensures q.updatedAt == now.sql
  {
    WikiPage(p.id,
             if ch.categoryId.Some? then NullIfEmpty(ch.categoryId) else p.categoryId,
             if ch.title.Some? then Trim(ch.title.value) else p.title,
             if ch.title.Some? then slug else p.slug,
             ch.content.GetOr(p.content),
             if ch.summary.Some? then ch.summary else p.summary,
             if ch.sourceUrl.Some? then NullIfEmpty(ch.sourceUrl) else p.sourceUrl,
             now.sql)
  }

  /** `UPDATE wiki_pages SET … WHERE id = ?`. */
  function ApplyWhere(pages: seq<WikiPage>, id: string, ch: PageChanges, slug: string, now: Instant): (r: seq<WikiPage>)
    ensures |r| == |pages|
    ensures forall i :: 0 <= i < |pages| ==> r[i] == (if pages[i].id == id then ApplyPage(pages[i], ch, slug, now) else pages[i])
  {
    seq(|pages|, i requires 0 <= i < |pages| => if pages[i].id == id then ApplyPage(pages[i], ch, slug, now) else pages[i])
  }

  /** The rows of every page but `id`. */
  function OtherPage(id: string): WikiFtsRow -> bool {
    (f: WikiFtsRow) => f.pageId != id
  }

  /** The version snapshot an update sends: only when new content is given
      and differs from the stored content. */
  function SnapshotJobs(pages: seq<WikiPage>, id: string, ch: PageChanges, now: Instant): (jobs: seq<QueueJob>)
    ensures |jobs| <= 1
    ensures jobs != [] <==> ch.content.Some? && FindPage(pages, id).Some? && ch.content.value != FindPage(pages, id).value.content
    ensures jobs != [] ==> var cur := FindPage(pages, id).value;
      jobs == [WikiSnapshot(id, cur.title, cur.content, now.iso)]
  {
    if ch.content.None? then []
    else match FindPage(pages, id)
      case None => []
      case Some(cur) => if ch.content.value != cur.content then [WikiSnapshot(id, cur.title, cur.content, now.iso)] else []
  }

  /** `PUT /api/wiki/pages/:id`: the reply is always `{ ok: true }`. */
  function UpdatePage(db: Db, id: string, ch: PageChanges, now: Instant): (r: Db)
    ensures r == db.(wikiPages := r.wikiPages, wikiFts := r.wikiFts, outbox := r.outbox)
    ensures r.outbox == db.outbox + SnapshotJobs(db.wikiPages, id, ch, now)
    ensures !HasChanges(ch) ==> r.wikiPages == db.wikiPages
    ensures HasChanges(ch) ==> r.wikiPages == ApplyWhere(db.wikiPages, id, ch, RenamedSlug(db.wikiPages, id, ch.title.GetOr("")), now)
    ensures FindPage(r.wikiPages, id).None? ==> r.wikiFts == db.wikiFts
    ensures FindPage(r.wikiPages, id).Some? ==>
      r.wikiFts == Filter(db.wikiFts, OtherPage(id)) + [FtsOf(FindPage(r.wikiPages, id).value)]
  {
    var pages := if HasChanges(ch) then ApplyWhere(db.wikiPages, id, ch, RenamedSlug(db.wikiPages, id, ch.title.GetOr("")), now)
                 else db.wikiPages;
    var fts := match FindPage(pages, id)
      case None => db.wikiFts
      case Some(p) => Filter(db.wikiFts, OtherPage(id)) + [FtsOf(p)];
    db.(wikiPages := pages, wikiFts := fts, outbox := db.outbox + SnapshotJobs(db.wikiPages, id, ch, now))
  }

  /** Updating a page leaves exactly one full-text row for it, holding its
      current title and content. */
  lemma UpdateSyncsFts(db: Db, id: string, ch: PageChanges, now: Instant)
    requires FindPage(db.wikiPages, id).Some?
    ensures var r := UpdatePage(db, id, ch, now);
      var p := FindPage(r.wikiPages, id);
      && p.Some?
      && Filter(r.wikiFts, (f: WikiFtsRow) => f.pageId == id) == [FtsOf(p.value)]
  {
    var r := UpdatePage(db, id, ch, now);
    var k :| 0 <= k < |db.wikiPages| && db.wikiPages[k].id == id;
    assert r.wikiPages[k].id == id;
    var p := FindPage(r.wikiPages, id).value;
    var mine := (f: WikiFtsRow) => f.pageId == id;
    var rest := Filter(db.wikiFts, OtherPage(id));
    FilterAppend(rest, [FtsOf(p)], mine);
    forall i | 0 <= i < |rest| ensures !mine(rest[i]) {
      assert rest[i] in rest;
    }
    FilterNone(rest, mine);
  }

  /** An update that renames a page to a slug no other page holds keeps
      slugs unique, when ids and slugs were. */
  lemma ApplyWhereKeepsUnique(pages: seq<WikiPage>, id: string, ch: PageChanges, slug: string, now: Instant)
    requires UniqueSlugs(pages) && UniqueIds(pages)
    requires ch.title.Some? ==> !Taken(pages, slug, Some(id))
    ensures UniqueSlugs(ApplyWhere(pages, id, ch, slug, now))
  {
    var r := ApplyWhere(pages, id, ch, slug, now);
    forall i, j | 0 <= i < j < |r|
      ensures r[i].slug != r[j].slug
    {
      if pages[i].id == id {
        assert pages[j].id != id;
      } else if pages[j].id == id {
        assert r[i] == pages[i];
      }
    }
  }

  lemma UpdateKeepsSlugsUnique(db: Db, id: string, ch: PageChanges, now: Instant)
    requires UniqueSlugs(db.wikiPages) && UniqueIds(db.wikiPages)
    ensures UniqueSlugs(UpdatePage(db, id, ch, now).wikiPages)
  {
    if HasChanges(ch) {
      ApplyWhereKeepsUnique(db.wikiPages, id, ch, RenamedSlug(db.wikiPages, id, ch.title.GetOr("")), now);
    }
  }

  /** The row an update leaves under `id` is an updated row. */
  lemma AppliedFound(pages: seq<WikiPage>, id: string, ch: PageChanges, slug: string, now: Instant)
    requires FindPage(ApplyWhere(pages, id, ch, slug, now), id).Some?
    ensures exists k :: (0 <= k < |pages| && pages[k].id == id
      && FindPage(ApplyWhere(pages, id, ch, slug, now), id).value == ApplyPage(pages[k], ch, slug, now))
  {
    var r := ApplyWhere(pages, id, ch, slug, now);
    var q := FindPage(r, id).value;
    var k :| 0 <= k < |r| && r[k] == q;
    assert pages[k].id == id;
  }

  /** Sending the same content again sends no second snapshot. */
  lemma UpdateSnapshotsOnce(db: Db, id: string, ch: PageChanges, now: Instant, later: Instant)
    ensures var once := UpdatePage(db, id, ch, now);
      UpdatePage(once, id, ch, later).outbox == once.outbox
  {
    var once := UpdatePage(db, id, ch, now);
    if ch.content.Some? && FindPage(once.wikiPages, id).Some? {
      AppliedFound(db.wikiPages, id, ch, RenamedSlug(db.wikiPages, id, ch.title.GetOr("")), now);
    }
  }

  // ------------------------------------------------------------- delete

  /** The object keys of a page's stored versions. */
  function VersionKeys(versions: seq<WikiVersion>, pageId: string): (keys: set<string>)
    ensures forall k :: k in keys <==> exists v :: v in versions && v.pageId == pageId && v.r2Key == k
  {
    set v | v in versions && v.pageId == pageId :: v.r2Key
  }

  /** `DELETE /api/wiki/pages/:id`: the page, its full-text rows, its
      version rows (removed by the foreign key's cascade) and the stored
      version objects go. */
  function DeletePage(db: Db, id: string): (r: Db)
    ensures r == db.(wikiPages := r.wikiPages, wikiFts := r.wikiFts, wikiVersions := r.wikiVersions, fileBucket := r.fileBucket)
    ensures forall p :: p in r.wikiPages <==> p in db.wikiPages && p.id != id
    ensures forall f :: f in r.wikiFts <==> f in db.wikiFts && f.pageId != id
    ensures forall v :: v in r.wikiVersions <==> v in db.wikiVersions && v.pageId != id
    ensures forall k :: k in r.fileBucket <==> k in db.fileBucket && k !in VersionKeys(db.wikiVersions, id)
  {
    db.(wikiPages := Filter(db.wikiPages, (p: WikiPage) => p.id != id),
        wikiFts := Filter(db.wikiFts, OtherPage(id)),
        wikiVersions := Filter(db.wikiVersions, (v: WikiVersion) => v.pageId != id),
        fileBucket := db.fileBucket - VersionKeys(db.wikiVersions, id))
  }

  /** After a delete the page is gone and no snapshot of it remains. */
  lemma DeleteLeavesNothing(db: Db, id: string, v: WikiVersion)
    requires v in db.wikiVersions && v.pageId == id
    ensures var r := DeletePage(db, id);
      FindPage(r.wikiPages, id).None? && v.r2Key !in r.fileBucket
  {
  }

  // -------------------------------------------------------------- batch

  /** One entry of the batch body. */
  datatype BatchPage = BatchPage(title: Option<string>, content: Option<string>, summary: Option<string>,
                                 categoryName: Option<string>, tags: Option<seq<string>>)

  /** One entry of the batch reply. */
  datatype CreatedRef = CreatedRef(id: string, title: string, slug: string)

  /** `.first()` of `SELECT id FROM wiki_categories WHERE name = ?`. */
  function FindCategory(categories: seq<WikiCategory>, name: string): (r: Option<WikiCategory>)
    ensures r.None? <==> forall i :: 0 <= i < |categories| ==> categories[i].name != name
    ensures r.Some? ==> r.value in categories && r.value.name == name
  {
    if |categories| == 0 then None
    else if categories[0].name == name then Some(categories[0])
    else FindCategory(categories[1..], name)
  }

  /** The category a batch entry names, or `NULL`. */
  function CategoryOf(categories: seq<WikiCategory>, name: Option<string>): (r: Option<string>)
    ensures r.Some? ==> IsSet(name) && r.value != "" && exists c :: c in categories && c.name == name.value && c.id == r.value
  {
    if !IsSet(name) then None
    else match FindCategory(categories, name.value)
      case None => None
      case Some(c) => NullIfEmpty(Some(c.id))
  }

  /** The tables a batch writes. */
  datatype BatchTables = BatchTables(pages: seq<WikiPage>, fts: seq<WikiFtsRow>, tagTables: TagTables,
                                     generations: seq<WikiGeneration>)

  function BatchTablesOf(db: Db): BatchTables {
    BatchTables(db.wikiPages, db.wikiFts, TablesOf(db), db.wikiGenerations)
  }

  /** Writes the batch tables back into the store. */
  function WithBatch(db: Db, b: BatchTables): (r: Db)
    ensures r.wikiPages == b.pages && r.wikiFts == b.fts && r.wikiGenerations == b.generations
    ensures r.tags == b.tagTables.tags && r.wikiPageTags == b.tagTables.links
    ensures r == db.(wikiPages := r.wikiPages, wikiFts := r.wikiFts, tags := r.tags,
                     wikiPageTags := r.wikiPageTags, wikiGenerations := r.wikiGenerations)
  {
    db.(wikiPages := b.pages, wikiFts := b.fts, tags := b.tagTables.tags, wikiPageTags := b.tagTables.links,
        wikiGenerations := b.generations)
  }

  function BatchRow(pages: seq<WikiPage>, categories: seq<WikiCategory>, page: BatchPage, id: string, now: Instant): (p: WikiPage)
    requires !Blank(page.title)
    ensures p.id == id && p.title == Trim(page.title.value) && p.title != ""
    ensures p.content == page.content.GetOr("") && p.summary == Some(page.summary.GetOr(""))
    ensures p.categoryId == CategoryOf(categories, page.categoryName) && p.sourceUrl.None?
    ensures !Taken(pages, p.slug, None)
  {
    var title := Trim(page.title.value);
    WikiPage(id, CategoryOf(categories, page.categoryName), title, NewSlug(pages, title),
             page.content.GetOr(""), Some(page.summary.GetOr("")), None, now.sql)
  }

  /** `INSERT INTO conversation_wiki_generations` with id `ids(next)`
      when a conversation is named. Returns the next unused id number. */
  function RecordGeneration(generations: seq<WikiGeneration>, pageId: string, conversationId: Option<string>,
                            ids: nat -> string, next: nat): (r: (seq<WikiGeneration>, nat))
    ensures IsSet(conversationId) ==>
      r == (generations + [WikiGeneration(ids(next), conversationId.value, pageId)], next + 1)
    ensures !IsSet(conversationId) ==> r == (generations, next)
  {
    if IsSet(conversationId) then (generations + [WikiGeneration(ids(next), conversationId.value, pageId)], next + 1)
    else (generations, next)
  }

  /** One titled entry, given its row `p`: the page, its full-text row,
      its non-empty tags, and the generation row when a conversation is
      named. Returns the next unused id number too. */
  function BatchOne(b: BatchTables, p: WikiPage, tags: seq<string>, conversationId: Option<string>,
                    ids: nat -> string, next: nat): (r: (BatchTables, nat))
    ensures next <= r.1
    ensures r.0.pages == b.pages + [p] && r.0.fts == b.fts + [FtsOf(p)]
    ensures r.0.tagTables == AddTags(b.tagTables, p.id, tags, true, ids, next).0
    ensures (r.0.generations, r.1) ==
      RecordGeneration(b.generations, p.id, conversationId, ids, AddTags(b.tagTables, p.id, tags, true, ids, next).1)
  {
    var tagged := AddTags(b.tagTables, p.id, tags, true, ids, next);
    var recorded := RecordGeneration(b.generations, p.id, conversationId, ids, tagged.1);
    (BatchTables(b.pages + [p], b.fts + [FtsOf(p)], tagged.0, recorded.0), recorded.1)
  }

  /** Entries with a title; the others are skipped. */
  function Titled(pages: seq<BatchPage>): (r: seq<BatchPage>)
    ensures forall i :: 0 <= i < |r| ==> !Blank(r[i].title)
    ensures |r| <= |pages|
  {
    if |pages| == 0 then []
    else if Blank(pages[0].title) then Titled(pages[1..])
    else [pages[0]] + Titled(pages[1..])
  }

  /** One titled entry: its row, inserted with its tags and generation
      row. Returns the row and the next unused id number too. */
  function BatchStep(b: BatchTables, categories: seq<WikiCategory>, page: BatchPage, conversationId: Option<string>,
                     ids: nat -> string, next: nat, now: Instant): (r: (BatchTables, WikiPage, nat))
    requires !Blank(page.title)
    ensures r.1 == BatchRow(b.pages, categories, page, ids(next), now)
    ensures r.0.pages == b.pages + [r.1]
  {
    var p := BatchRow(b.pages, categories, page, ids(next), now);
    var one := BatchOne(b, p, page.tags.GetOr([]), conversationId, ids, next + 1);
    (one.0, p, one.1)
  }

  /** A step links the entry's non-empty tags to its page and adds one
      generation row exactly when a conversation is named. */
  lemma BatchStepTables(b: BatchTables, categories: seq<WikiCategory>, page: BatchPage, conversationId: Option<string>,
                        ids: nat -> string, next: nat, now: Instant)
    requires !Blank(page.title)
    ensures var r := BatchStep(b, categories, page, conversationId, ids, next, now);
      && r.0.tagTables == AddTags(b.tagTables, ids(next), page.tags.GetOr([]), true, ids, next + 1).0
      && |r.0.generations| == |b.generations| + (if IsSet(conversationId) then 1 else 0)
  {
    var p := BatchRow(b.pages, categories, page, ids(next), now);
    assert p.id == ids(next);
  }

  /** The loop over the entries: each titled entry is created, the others
      skipped. Returns the tables and the created rows, in order; the
      tables gain exactly those rows. */
  function BatchLoop(b: BatchTables, categories: seq<WikiCategory>, pages: seq<BatchPage>, conversationId: Option<string>,
                     ids: nat -> string, next: nat, now: Instant): (r: (BatchTables, seq<WikiPage>))
    ensures r.0.pages == b.pages + r.1
    decreases |pages|
  {
    if |pages| == 0 then (b, [])
    else if Blank(pages[0].title) then BatchLoop(b, categories, pages[1..], conversationId, ids, next, now)
    else
      var step := BatchStep(b, categories, pages[0], conversationId, ids, next, now);
      var rest := BatchLoop(step.0, categories, pages[1..], conversationId, ids, step.2, now);
      AppendThen(b.pages, step.1, rest.1);
      (rest.0, [step.1] + rest.1)
  }

  lemma AppendThen(pages: seq<WikiPage>, p: WikiPage, later: seq<WikiPage>)
    ensures (pages + [p]) + later == pages + ([p] + later)
  {
  }

  /** The reply entry of a stored page. */
  function RefOf(p: WikiPage): CreatedRef {
    CreatedRef(p.id, p.title, p.slug)
  }

  /** The reply entries of stored pages, in order. */
  function Refs(ps: seq<WikiPage>): (r: seq<CreatedRef>)
    ensures |r| == |ps|
    ensures forall i :: 0 <= i < |ps| ==> r[i] == RefOf(ps[i])
  {
    if |ps| == 0 then [] else [RefOf(ps[0])] + Refs(ps[1..])
  }

  /** A row made from an entry: its trimmed title and its content. */
  predicate RowOf(p: WikiPage, e: BatchPage) {
    e.title.Some? && p.title == Trim(e.title.value) && p.content == e.content.GetOr("")
  }

  /** Row `i` was made from entry `i`, one row per entry. */
  predicate RowsOf(rows: seq<WikiPage>, entries: seq<BatchPage>) {
    |rows| == |entries| && forall i :: 0 <= i < |rows| ==> RowOf(rows[i], entries[i])
  }

  lemma RowsOfCons(p: WikiPage, e: BatchPage, rows: seq<WikiPage>, entries: seq<BatchPage>)
    requires RowOf(p, e) && RowsOf(rows, entries)
    ensures RowsOf([p] + rows, [e] + entries)
  {
    var rs, es := [p] + rows, [e] + entries;
    assert |rs| == |es|;
    forall i | 0 <= i < |rs|
      ensures RowOf(rs[i], es[i])
    {
      if i > 0 {
        RowOfShifted(p, e, rows, entries, i);
      }
    }
  }

  lemma RowOfShifted(p: WikiPage, e: BatchPage, rows: seq<WikiPage>, entries: seq<BatchPage>, i: nat)
    requires 0 < i <= |rows| && |rows| == |entries| && RowOf(rows[i - 1], entries[i - 1])
    ensures RowOf(([p] + rows)[i], ([e] + entries)[i])
  {
    assert ([p] + rows)[i] == rows[i - 1];
    assert ([e] + entries)[i] == entries[i - 1];
  }

  /** The loop creates one row per titled entry, in order, from that
      entry's title and content. */
  lemma {:induction false} BatchLoopRows(b: BatchTables, categories: seq<WikiCategory>, pages: seq<BatchPage>,
                                         conversationId: Option<string>, ids: nat -> string, next: nat, now: Instant)
    ensures RowsOf(BatchLoop(b, categories, pages, conversationId, ids, next, now).1, Titled(pages))
    decreases |pages|
  {
    if |pages| > 0 {
      if Blank(pages[0].title) {
        assert Titled(pages) == Titled(pages[1..]);
        BatchLoopRows(b, categories, pages[1..], conversationId, ids, next, now);
      } else {
        var one := BatchStep(b, categories, pages[0], conversationId, ids, next, now);
        var rest := BatchLoop(one.0, categories, pages[1..], conversationId, ids, one.2, now);
        assert BatchLoop(b, categories, pages, conversationId, ids, next, now).1 == [one.1] + rest.1;
        assert Titled(pages) == [pages[0]] + Titled(pages[1..]);
        BatchLoopRows(one.0, categories, pages[1..], conversationId, ids, one.2, now);
        RowsOfCons(one.1, pages[0], rest.1, Titled(pages[1..]));
      }
    }
  }

  /** Every page the loop inserts takes a slug no earlier page holds. */
  lemma {:induction false} BatchLoopKeepsSlugsUnique(b: BatchTables, categories: seq<WikiCategory>, pages: seq<BatchPage>,
                                                     conversationId: Option<string>, ids: nat -> string, next: nat, now: Instant)
    requires UniqueSlugs(b.pages)
    ensures UniqueSlugs(BatchLoop(b, categories, pages, conversationId, ids, next, now).0.pages)
    decreases |pages|
  {
    if |pages| > 0 {
      if Blank(pages[0].title) {
        BatchLoopKeepsSlugsUnique(b, categories, pages[1..], conversationId, ids, next, now);
      } else {
        var one := BatchStep(b, categories, pages[0], conversationId, ids, next, now);
        SlugsUniqueAfterInsert(b.pages, one.1);
        BatchLoopKeepsSlugsUnique(one.0, categories, pages[1..], conversationId, ids, one.2, now);
      }
    }
  }

  lemma SlugsUniqueAfterInsert(pages: seq<WikiPage>, p: WikiPage)
    requires UniqueSlugs(pages) && !Taken(pages, p.slug, None)
    ensures UniqueSlugs(pages + [p])
  {
    var all := pages + [p];
    forall i, j | 0 <= i < j < |all|
      ensures all[i].slug != all[j].slug
    {
      if j == |pages| {
        assert all[i] == pages[i];
      }
    }
  }

  /** The loop never gives two tags the same name. */
  lemma {:induction false} BatchLoopKeepsNamesUnique(b: BatchTables, categories: seq<WikiCategory>, pages: seq<BatchPage>,
                                                     conversationId: Option<string>, ids: nat -> string, next: nat, now: Instant)
    requires Tags.UniqueNames(b.tagTables.tags)
    ensures Tags.UniqueNames(BatchLoop(b, categories, pages, conversationId, ids, next, now).0.tagTables.tags)
    decreases |pages|
  {
    if |pages| > 0 {
      if Blank(pages[0].title) {
        BatchLoopKeepsNamesUnique(b, categories, pages[1..], conversationId, ids, next, now);
      } else {
        var one := BatchStep(b, categories, pages[0], conversationId, ids, next, now);
        BatchStepTables(b, categories, pages[0], conversationId, ids, next, now);
        AddTagsKeepsNamesUnique(b.tagTables, ids(next), pages[0].tags.GetOr([]), true, ids, next + 1);
        BatchLoopKeepsNamesUnique(one.0, categories, pages[1..], conversationId, ids, one.2, now);
      }
    }
  }

  /** One generation row per created page when a conversation is named,
      none otherwise. */
  lemma {:induction false} BatchLoopGenerations(b: BatchTables, categories: seq<WikiCategory>, pages: seq<BatchPage>,
                                                conversationId: Option<string>, ids: nat -> string, next: nat, now: Instant)
    ensures var r := BatchLoop(b, categories, pages, conversationId, ids, next, now);
      |r.0.generations| == |b.generations| + (if IsSet(conversationId) then |r.1| else 0)
    decreases |pages|
  {
    if |pages| > 0 {
      if Blank(pages[0].title) {
        BatchLoopGenerations(b, categories, pages[1..], conversationId, ids, next, now);
      } else {
        var one := BatchStep(b, categories, pages[0], conversationId, ids, next, now);
        BatchStepTables(b, categories, pages[0], conversationId, ids, next, now);
        BatchLoopGenerations(one.0, categories, pages[1..], conversationId, ids, one.2, now);
      }
    }
  }

  /** `POST /api/wiki/pages/batch`. */
  function BatchCreate(db: Db, pages: Option<seq<BatchPage>>, conversationId: Option<string>, ids: nat -> string,
                       next: nat, now: Instant): (r: Handled<seq<CreatedRef>>)
    ensures r.reply == Fail(400, "At least one page is required") <==> pages.None? || pages.value == []
    ensures r.reply.Fail? ==> r.db == db
    ensures r.reply.Reply? ==>
      var loop := BatchLoop(BatchTablesOf(db), db.wikiCategories, pages.value, conversationId, ids, next, now);
      r.db == WithBatch(db, loop.0) && r.reply.value == Refs(loop.1)
  {
    if pages.None? || pages.value == [] then Tags.Handled(db, Fail(400, "At least one page is required"))
    else
      var loop := BatchLoop(BatchTablesOf(db), db.wikiCategories, pages.value, conversationId, ids, next, now);
      Tags.Handled(WithBatch(db, loop.0), Reply(Refs(loop.1)))
  }

  /** A batch with entries replies with one entry per titled page, each
      naming a stored page with that entry's title; it records one
      generation per page when a conversation is named, and keeps slugs
      and tag names unique. */
  lemma BatchCreateStores(db: Db, pages: seq<BatchPage>, conversationId: Option<string>, ids: nat -> string,
                          next: nat, now: Instant)
    requires pages != []
    requires UniqueSlugs(db.wikiPages) && Tags.UniqueNames(db.tags)
    ensures var r := BatchCreate(db, Some(pages), conversationId, ids, next, now);
      && r.reply.Reply?
      && |r.reply.value| == |Titled(pages)|
      && (forall i :: 0 <= i < |r.reply.value| ==>
            r.reply.value[i].title == Trim(Titled(pages)[i].title.value)
            && exists p :: p in r.db.wikiPages && r.reply.value[i] == RefOf(p))
      && |r.db.wikiGenerations| == |db.wikiGenerations| + (if IsSet(conversationId) then |Titled(pages)| else 0)
      && UniqueSlugs(r.db.wikiPages) && Tags.UniqueNames(r.db.tags)
  {
    var b := BatchTablesOf(db);
    var loop := BatchLoop(b, db.wikiCategories, pages, conversationId, ids, next, now);
    BatchLoopRows(b, db.wikiCategories, pages, conversationId, ids, next, now);
    BatchLoopGenerations(b, db.wikiCategories, pages, conversationId, ids, next, now);
    BatchLoopKeepsSlugsUnique(b, db.wikiCategories, pages, conversationId, ids, next, now);
    BatchLoopKeepsNamesUnique(b, db.wikiCategories, pages, conversationId, ids, next, now);
    forall i | 0 <= i < |loop.1|
      ensures loop.1[i] in loop.0.pages
    {
      assert loop.0.pages[|b.pages| + i] == loop.1[i];
    }
  }
}

=== FILE: wiki_markdown.dfy ===
/** What the wiki upload derives from a markdown file: the title from the
    first `#` heading (`/^#\s+(.+)$/m`) or from the file name, and the
    summary from the text with heading lines (`/^#+\s+.*$/gm`) and the
    characters ``*_`~[]()>`` removed. Both regular expressions are
    modelled with JavaScript's semantics: `^`/`$` at line breaks, `.`
    refusing line terminators, and `\s` (which includes line breaks)
    matched greedily with backtracking. */
module WikiMarkdown {
  import opened Wrappers
  import opened Text

  /** `^` in multiline mode. */
  predicate LineStart(s: string, i: nat)
    requires i <= |s|
  {
    i == 0 || IsLineTerminator(s[i - 1])
  }

  /** Where the line holding position `p` ends: the next terminator, or
      the end of the text. */
  function LineEnd(s: string, p: nat): (e: nat)
    requires p <= |s|
    ensures p <= e <= |s|
    ensures e < |s| ==> IsLineTerminator(s[e])
    ensures forall q :: p <= q < e ==> !IsLineTerminator(s[q])
    decreases |s| - p
  {
    if p == |s| || IsLineTerminator(s[p]) then p else LineEnd(s, p + 1)
  }

  /** The end of the greedy `\s+`/`\s*` run starting at `p`. */
  function WhiteEnd(s: string, p: nat): (e: nat)
    requires p <= |s|
    ensures p <= e <= |s|
    ensures e < |s| ==> !IsWhite(s[e])
    ensures forall q :: p <= q < e ==> IsWhite(s[q])
    decreases |s| - p
  {
    if p == |s| || !IsWhite(s[p]) then p else WhiteEnd(s, p + 1)
  }

  /** The end of the greedy `#+` run starting at `p`. */
  function HashEnd(s: string, p: nat): (e: nat)
    requires p <= |s|
    ensures p <= e <= |s|
    ensures e < |s| ==> s[e] != '#'
    ensures forall q :: p <= q < e ==> s[q] == '#'
    decreases |s| - p
  {
    if p == |s| || s[p] != '#' then p else HashEnd(s, p + 1)
  }

  /** The last position in `[lo, hi)` not holding a line terminator: where
      `.+` can start once `\s+` has given back characters. */
  function LastNonTerminator(s: string, lo: nat, hi: nat): (r: Option<nat>)
    requires hi <= |s|
    ensures r.Some? ==> lo <= r.value < hi && !IsLineTerminator(s[r.value])
    ensures r.Some? ==> forall q :: r.value < q < hi ==> IsLineTerminator(s[q])
    ensures r.None? ==> forall q :: lo <= q < hi ==> IsLineTerminator(s[q])
    decreases hi
  {
    if hi <= lo then None
    else if !IsLineTerminator(s[hi - 1]) then Some(hi - 1)
    else LastNonTerminator(s, lo, hi - 1)
  }

  // ------------------------------------------------------------- title

  /** The capture of `/^#\s+(.+)$/m` for a match starting at `i`. */
  function HeadingAt(s: string, i: nat): (r: Option<string>)
    requires i < |s|
    ensures r.Some? ==> LineStart(s, i) && s[i] == '#'
    ensures r.Some? ==> r.value != "" && forall k :: 0 <= k < |r.value| ==> !IsLineTerminator(r.value[k])
  {
    if !(LineStart(s, i) && s[i] == '#') then None
    else
      var e := WhiteEnd(s, i + 1);
      if e == i + 1 then None
      else if e < |s| then Some(s[e..LineEnd(s, e)])
      else match LastNonTerminator(s, i + 2, e)
        case None => None
        case Some(p) => Some(s[p..LineEnd(s, p)])
  }

  /** `content.match(/^#\s+(.+)$/m)`: the capture of the leftmost match. */
  function FirstHeading(s: string, i: nat): (r: Option<string>)
    requires i <= |s|
    decreases |s| - i
  {
    if i == |s| then None
    else match HeadingAt(s, i)
      case Some(g) => Some(g)
      case None => FirstHeading(s, i + 1)
  }

  /** The search finds nothing exactly when no position from `i` on holds
      a heading. */
  lemma {:induction false} FirstHeadingNone(s: string, i: nat)
    requires i <= |s|
    ensures FirstHeading(s, i).None? <==> forall k :: i <= k < |s| ==> HeadingAt(s, k).None?
    decreases |s| - i
  {
    if i < |s| {
      FirstHeadingNone(s, i + 1);
    }
  }

  /** `name.replace(/\.md$/i, "")`. */
  function StripMd(name: string): (r: string)
    ensures |name| >= 3 && name[|name| - 3] == '.' && name[|name| - 2] in "mM" && name[|name| - 1] in "dD" ==>
      r + name[|name| - 3..] == name
    ensures !(|name| >= 3 && name[|name| - 3] == '.' && name[|name| - 2] in "mM" && name[|name| - 1] in "dD") ==>
      r == name
  {
    if |name| >= 3 && name[|name| - 3] == '.' && name[|name| - 2] in "mM" && name[|name| - 1] in "dD"
    then name[..|name| - 3] else name
  }

  lemma StripMdOfMd(base: string)
    ensures StripMd(base + ".md") == base
  {
    var name := base + ".md";
    assert name[|name| - 3..] == ".md";
    assert name[..|name| - 3] == base;
  }

  /** A match of `/^#\s+(.+)$/m` at `i` capturing `s[p..q]`: a `#` at the
      start of a line, whitespace up to `p`, then a non-empty run without
      line terminators that reaches the end of its line. */
  ghost predicate HeadingMatch(s: string, i: nat, p: nat, q: nat) {
    && i + 1 < p < q <= |s|
    && LineStart(s, i) && s[i] == '#'
    && (forall k :: i + 1 <= k < p ==> IsWhite(s[k]))
    && (forall k :: p <= k < q ==> !IsLineTerminator(s[k]))
    && (q == |s| || IsLineTerminator(s[q]))
  }

  /** `.+` followed by `$` always ends at the end of its line. */
  lemma HeadingMatchEnd(s: string, i: nat, p: nat, q: nat)
    requires HeadingMatch(s, i, p, q)
    ensures q == LineEnd(s, p)
  {
    var e := LineEnd(s, p);
    assert e < |s| ==> IsLineTerminator(s[e]);
    assert q < |s| ==> IsLineTerminator(s[q]);
  }

  /** When `HeadingAt` finds a heading, it is a match, and its `\s+` is the
      longest of all matches at `i`, as backtracking from a greedy `\s+`
      finds. */
  lemma HeadingAtSome(s: string, i: nat) returns (p: nat)
    requires i < |s| && HeadingAt(s, i).Some?
    ensures p < |s| && HeadingMatch(s, i, p, LineEnd(s, p)) && HeadingAt(s, i).value == s[p..LineEnd(s, p)]
    ensures forall p': nat, q': nat :: HeadingMatch(s, i, p', q') ==> p' <= p
  {
    var e := WhiteEnd(s, i + 1);
    if e < |s| {
      p := e;
      assert !IsLineTerminator(s[e]);
      forall p': nat, q': nat | HeadingMatch(s, i, p', q') ensures p' <= p {
        assert !IsWhite(s[e]);
      }
    } else {
      p := LastNonTerminator(s, i + 2, e).value;
      forall p': nat, q': nat | HeadingMatch(s, i, p', q') ensures p' <= p {
        assert forall k :: p < k < |s| ==> IsLineTerminator(s[k]);
        assert p' < |s| && !IsLineTerminator(s[p']);
      }
    }
  }

  /** When `HeadingAt` finds nothing, there is no match at `i`. */
  lemma HeadingAtNone(s: string, i: nat)
    requires i < |s| && HeadingAt(s, i).None?
    ensures forall p: nat, q: nat :: !HeadingMatch(s, i, p, q)
  {
    if LineStart(s, i) && s[i] == '#' {
      var e := WhiteEnd(s, i + 1);
      if e == i + 1 {
        forall p: nat, q: nat ensures !HeadingMatch(s, i, p, q) {
          assert i + 1 < p <= |s| ==> !IsWhite(s[i + 1]);
        }
      } else {
        forall p: nat, q: nat ensures !HeadingMatch(s, i, p, q) {
          assert i + 2 <= p < |s| ==> IsLineTerminator(s[p]);
        }
      }
    }
  }

  /** Positions without a heading are skipped. */
  lemma {:induction false} FirstHeadingSkip(s: string, j: nat, i: nat)
    requires j <= i <= |s|
    requires forall k :: j <= k < i ==> HeadingAt(s, k).None?
    ensures FirstHeading(s, j) == FirstHeading(s, i)
    decreases i - j
  {
    if j < i {
      FirstHeadingStep(s, j);
      FirstHeadingSkip(s, j + 1, i);
    }
  }

  /** One position without a heading is skipped. */
  lemma FirstHeadingStep(s: string, j: nat)
    requires j < |s| && HeadingAt(s, j).None?
    ensures FirstHeading(s, j) == FirstHeading(s, j + 1)
  {
  }

  /** The title is the trimmed capture of the match the regular
      expression selects: the leftmost one, and at that position the one
      with the longest `\s+`. */
  lemma TitleFromLeftmostHeading(content: string, name: string, i: nat, p: nat, q: nat)
    requires HeadingMatch(content, i, p, q)
    requires forall j: nat, p': nat, q': nat :: HeadingMatch(content, j, p', q') ==> i <= j && (j == i ==> p' <= p)
    ensures Title(content, name) == Trim(content[p..q])
  {
    forall k | 0 <= k < i ensures HeadingAt(content, k).None? {
      if HeadingAt(content, k).Some? {
        var pk := HeadingAtSome(content, k);
      }
    }
    FirstHeadingSkip(content, 0, i);
    if HeadingAt(content, i).None? {
      HeadingAtNone(content, i);
      assert false;
    }
    var p0 := HeadingAtSome(content, i);
    assert p0 == p;
    HeadingMatchEnd(content, i, p, q);
  }

  /** Without any match, the title comes from the file name. */
  lemma TitleWithoutHeading(content: string, name: string)
    requires forall i: nat, p: nat, q: nat :: !HeadingMatch(content, i, p, q)
    ensures Title(content, name) == StripMd(name)
  {
    forall k | 0 <= k < |content| ensures HeadingAt(content, k).None? {
      if HeadingAt(content, k).Some? {
        var pk := HeadingAtSome(content, k);
      }
    }
    FirstHeadingNone(content, 0);
  }

  /** The upload's title. */
  function Title(content: string, name: string): (r: string)
    ensures FirstHeading(content, 0).Some? ==> r == Trim(FirstHeading(content, 0).value)
    ensures FirstHeading(content, 0).None? ==> r == StripMd(name)
  {
    match FirstHeading(content, 0)
    case Some(g) => Trim(g)
    case None => StripMd(name)
  }

  /** A file opening with `# {t}` takes `t` as its title. */
  lemma OpeningHeadingIsTitle(t: string, rest: string, name: string)
    requires t != "" && !IsWhite(t[0])
    requires forall k :: 0 <= k < |t| ==> !IsLineTerminator(t[k])
    requires rest == [] || IsLineTerminator(rest[0])
    ensures Title("# " + t + rest, name) == Trim(t)
  {
    var s := "# " + t + rest;
    assert s[1] == ' ' && s[2] == t[0];
    assert WhiteEnd(s, 2) == 2;
    assert WhiteEnd(s, 1) == 2;
    var e := LineEnd(s, 2);
    assert forall q :: 2 <= q < 2 + |t| ==> s[q] == t[q - 2];
    assert e == 2 + |t| by {
      if |rest| > 0 {
        assert s[2 + |t|] == rest[0];
      }
    }
    assert s[2..e] == t;
  }

  /** Without any `#`, the title comes from the file name. */
  lemma NoHeadingTitle(content: string, name: string)
    requires '#' !in content
    ensures Title(content, name) == StripMd(name)
  {
    forall k | 0 <= k < |content|
      ensures HeadingAt(content, k).None?
    {
      assert content[k] != '#';
    }
    FirstHeadingNone(content, 0);
  }

  // ----------------------------------------------------------- summary

  /** The end of a `/^#+\s+.*$/m` match starting at `i`. */
  function HeadingLineAt(s: string, i: nat): (r: Option<nat>)
    requires i < |s|
    ensures r.Some? ==> i < r.value <= |s| && s[i] == '#'
  {
    if !(LineStart(s, i) && s[i] == '#') then None
    else
      var h := HashEnd(s, i);
      var e := WhiteEnd(s, h);
      if e == h then None else Some(LineEnd(s, e))
  }

  /** `replace(/^#+\s+.*$/gm, "")` from position `i` on. */
  function StripHeadings(s: string, i: nat): (r: string)
    requires i <= |s|
    ensures |r| <= |s| - i
    decreases |s| - i
  {
    if i == |s| then ""
    else match HeadingLineAt(s, i)
      case Some(m) => StripHeadings(s, m)
      case None => [s[i]] + StripHeadings(s, i + 1)
  }

  /** Text in which no line starts with `#` has no heading lines to
      remove. */
  lemma {:induction false} StripHeadingsPlain(s: string, i: nat)
    requires i <= |s|
    requires forall k :: i <= k < |s| && LineStart(s, k) ==> s[k] != '#'
    ensures StripHeadings(s, i) == s[i..]
    decreases |s| - i
  {
    if i < |s| {
      assert HeadingLineAt(s, i).None?;
      StripHeadingsPlain(s, i + 1);
      assert s[i..] == [s[i]] + s[i + 1..];
    }
  }

  /** The characters the summary drops. */
  predicate Markup(c: char) {
    c == '*' || c == '_' || c == '`' || c == '~' || c == '[' || c == ']' || c == '(' || c == ')' || c == '>'
  }

  /** `replace(/[*_`~\[\]()>]/g, "")`. */
  function StripMarkup(s: string): (r: string)
    ensures forall k :: 0 <= k < |r| ==> !Markup(r[k])
    ensures (forall k :: 0 <= k < |s| ==> !Markup(s[k])) ==> r == s
  {
    if |s| == 0 then ""
    else (if Markup(s[0]) then "" else [s[0]]) + StripMarkup(s[1..])
  }

  /** Removing the markup keeps every other character, as many times as
      it occurs, and in order. */
  lemma {:induction false} StripMarkupCounts(s: string)
    ensures forall c :: multiset(StripMarkup(s))[c] == if Markup(c) then 0 else multiset(s)[c]
    decreases |s|
  {
    if |s| > 0 {
      StripMarkupCounts(s[1..]);
      assert s == [s[0]] + s[1..];
    }
  }

  /** Markup removal works piece by piece. */
  lemma {:induction false} StripMarkupAppend(a: string, b: string)
    ensures StripMarkup(a + b) == StripMarkup(a) + StripMarkup(b)
    decreases |a|
  {
    if |a| > 0 {
      StripMarkupAppend(a[1..], b);
      assert (a + b)[1..] == a[1..] + b;
    } else {
      assert a + b == b;
    }
  }

  const SummaryLimit: nat := 200

  /** The summary text before capping. */
  function PlainText(content: string): (r: string)
    ensures forall k :: 0 <= k < |r| ==> !Markup(r[k])
  {
    Trim(StripMarkup(StripHeadings(content, 0)))
  }

  /** More than 200 characters become the first 200 and "...". */
  function Summary(content: string): (r: string)
    ensures var plain := PlainText(content);
      && (|plain| <= SummaryLimit ==> r == plain)
      && (|plain| > SummaryLimit ==> |r| == SummaryLimit + 3 && r == plain[..SummaryLimit] + "...")
    ensures |r| <= SummaryLimit + 3
  {
    var plain := PlainText(content);
    if |plain| > SummaryLimit then plain[..SummaryLimit] + "..." else plain
  }

  /** Short text without heading lines or markup is its own summary,
      trimmed. */
  lemma PlainSummary(content: string)
    requires forall k :: 0 <= k < |content| && LineStart(content, k) ==> content[k] != '#'
    requires forall k :: 0 <= k < |content| ==> !Markup(content[k])
    requires |Trim(content)| <= SummaryLimit
    ensures Summary(content) == Trim(content)
  {
    StripHeadingsPlain(content, 0);
    assert content[0..] == content;
  }
}

=== FILE: wiki_slug.dfy ===
/** The unique-slug loop of the wiki routes: the first of `s`, `s-1`,
    `s-2`, … that no page (other than the one being renamed) uses. */
module WikiSlug {
  import opened Wrappers
  import opened Text
  import opened Store

  /** The slug tried at `suffix`: the base itself, then `base-{suffix}`. */
  function Candidate(base: string, suffix: nat): string {
    if suffix == 0 then base else base + "-" + NatToString(suffix)
  }

  /** Different suffixes give different candidates. */
  lemma CandidatesDiffer(base: string, a: nat, b: nat)
    requires a != b
    ensures Candidate(base, a) != Candidate(base, b)
  {
    var ca, cb := Candidate(base, a), Candidate(base, b);
    if a != 0 && b != 0 && ca == cb {
      assert ca[|base| + 1..] == NatToString(a);
      assert cb[|base| + 1..] == NatToString(b);
      NatToStringInjective(a, b);
    }
  }

  /** `SELECT id FROM wiki_pages WHERE slug = ?`, with `AND id != ?` when
      a page is being renamed. */
  predicate Taken(pages: seq<WikiPage>, slug: string, except: Option<string>) {
    exists i :: 0 <= i < |pages| && pages[i].slug == slug && Some(pages[i].id) != except
  }

  ghost predicate FromSuffix(slug: string, base: string, k: nat) {
    exists j: nat :: j >= k && slug == Candidate(base, j)
  }

  /** How many pages hold a candidate the loop has not yet tried: the
      measure that makes the `while (true)` loop stop. */
  ghost function Pending(pages: seq<WikiPage>, base: string, k: nat): nat {
    if |pages| == 0 then 0
    else (if FromSuffix(pages[0].slug, base, k) then 1 else 0) + Pending(pages[1..], base, k)
  }

  lemma NotFromLater(base: string, k: nat)
    ensures !FromSuffix(Candidate(base, k), base, k + 1)
  {
    forall j: nat | j >= k + 1
      ensures Candidate(base, j) != Candidate(base, k)
    {
      CandidatesDiffer(base, j, k);
    }
  }

  /** Trying a taken candidate strictly lowers the measure. */
  lemma {:induction false} PendingShrinks(pages: seq<WikiPage>, base: string, k: nat)
    ensures Pending(pages, base, k + 1) <= Pending(pages, base, k)
    ensures (exists i :: 0 <= i < |pages| && pages[i].slug == Candidate(base, k)) ==>
      Pending(pages, base, k + 1) < Pending(pages, base, k)
    decreases |pages|
  {
    if |pages| > 0 {
      PendingShrinks(pages[1..], base, k);
      var s := pages[0].slug;
      if FromSuffix(s, base, k + 1) {
        var j: nat :| j >= k + 1 && s == Candidate(base, j);
        assert FromSuffix(s, base, k);
      }
      if s == Candidate(base, k) {
        NotFromLater(base, k);
        assert FromSuffix(s, base, k);
      }
      if exists i :: 0 <= i < |pages| && pages[i].slug == Candidate(base, k) {
        var i :| 0 <= i < |pages| && pages[i].slug == Candidate(base, k);
        if i > 0 {
          assert pages[1..][i - 1].slug == Candidate(base, k);
        }
      }
    }
  }

  /** The loop from `suffix = k` on: the first free candidate. */
  function FreeSuffix(pages: seq<WikiPage>, base: string, except: Option<string>, k: nat): (r: nat)
    requires forall j :: 0 <= j < k ==> Taken(pages, Candidate(base, j), except)
    ensures k <= r
    ensures !Taken(pages, Candidate(base, r), except)
    ensures forall j :: 0 <= j < r ==> Taken(pages, Candidate(base, j), except)
    decreases Pending(pages, base, k)
  {
    if !Taken(pages, Candidate(base, k), except) then k
    else
      PendingShrinks(pages, base, k);
      FreeSuffix(pages, base, except, k + 1)
  }

  /** The slug the loop settles on: free, and the first free candidate. */
  function AllocateSlug(pages: seq<WikiPage>, base: string, except: Option<string>): (slug: string)
    ensures !Taken(pages, slug, except)
    ensures exists k: nat :: slug == Candidate(base, k) && forall j :: 0 <= j < k ==> Taken(pages, Candidate(base, j), except)
  {
    var k := FreeSuffix(pages, base, except, 0);
    Candidate(base, k)
  }

  /** A free base is used as it is. */
  lemma FreeBaseKept(pages: seq<WikiPage>, base: string, except: Option<string>)
    requires !Taken(pages, base, except)
    ensures AllocateSlug(pages, base, except) == base
  {
  }

  predicate UniqueSlugs(pages: seq<WikiPage>) {
    forall i, j :: 0 <= i < j < |pages| ==> pages[i].slug != pages[j].slug
  }

  /** A page inserted with an allocated slug keeps slugs unique. */
  lemma InsertKeepsSlugsUnique(pages: seq<WikiPage>, p: WikiPage, base: string)
    requires UniqueSlugs(pages)
    requires p.slug == AllocateSlug(pages, base, None)
    ensures UniqueSlugs(pages + [p])
  {
    var all := pages + [p];
    forall i, j | 0 <= i < j < |all|
      ensures all[i].slug != all[j].slug
    {
      if j == |pages| {
        assert pages[i].slug != p.slug;
      }
    }
  }

  predicate UniqueIds(pages: seq<WikiPage>) {
    forall i, j :: 0 <= i < j < |pages| ==> pages[i].id != pages[j].id
  }

  /** Renaming a page to a slug allocated without its own keeps slugs
      unique, when page ids are unique. */
  lemma RenameKeepsSlugsUnique(pages: seq<WikiPage>, k: nat, base: string)
    requires k < |pages|
    requires UniqueSlugs(pages) && UniqueIds(pages)
    ensures var slug := AllocateSlug(pages, base, Some(pages[k].id));
      UniqueSlugs(pages[k := pages[k].(slug := slug)])
  {
    var slug := AllocateSlug(pages, base, Some(pages[k].id));
    var all := pages[k := pages[k].(slug := slug)];
    forall i, j | 0 <= i < j < |all|
      ensures all[i].slug != all[j].slug
    {
      if i == k {
        assert pages[j].id != pages[k].id;
      } else if j == k {
        assert pages[i].id != pages[k].id;
      }
    }
  }
}

=== FILE: wrappers.dfy ===
/** Option and Result types shared by every module of the model.
    `Result` stands for the JavaScript convention of either returning a value
    or throwing an `Error` whose message the route handlers pass on. */
module Wrappers {

  datatype Option<+T> = None | Some(value: T) {
    /** The value, or `default` when absent (JavaScript's `x ?? default`). */
    function GetOr(default: T): T {
      match this
      case Some(v) => v
      case None => default
    }
  }

  datatype Result<+T> = Ok(value: T) | Err(message: string) {
    predicate IsFailure() {
      Err?
    }

    function PropagateFailure<U>(): Result<U>
      requires Err?
    {
      Err(message)
    }

    function Extract(): T
      requires Ok?
    {
      value
    }
  }

  /** An HTTP reply of a route handler: a body of type `T`, or the status
      and message of the `error(message, status)` helper. */
  datatype Reply<+T> = Reply(value: T) | Fail(status: nat, message: string)
}
